=== FILE: README.md ===
# Dealer's Choice poker core, modelled in Dafny

This project models the poker logic of the Dealer's Choice website, a
browser poker game with a Colyseus room server and a Phaser client. That
logic is written in TypeScript and lives in several partly duplicated
copies. Each copy is modelled here as pure functions over immutable
datatypes, and the properties the code promises are proved about them.

- **Cards and decks.** This covers the server's `Card`/`Deck` (`game/server/lib/poker.ts`):
  - parsing a two-character name;
  - generating the 52-card deck;
  - the Fisher–Yates shuffle, with its random picks given as a parameter;
  - drawing.

  The client's `Card`/`Deck` (`game/client/lib/classes.ts`) add the word and
  value conversions, `dealHand` and the constant tables of
  `game/client/lib/constants.ts`. Modules: `Cards`, `ServerPoker`,
  `Constants`, `ClientCards`.
- **Three hand evaluators.**
  - The server's `Hand.evaluate`.
  - The client's `Hand.rankCards`.
  - The client's `evaluateHand` in `game/client/lib/utils.ts`.

  Each builds a histogram of ranks, tests flush, wheel and straight, and
  scores `category + a/100 + b/1000`. A score is kept exactly as the integer
  `category*1000 + 10a + b`. Each evaluator is its own function; module
  `EvaluatorComparison` proves where they agree and where they differ, and
  module `HandExamples` evaluates the test hands of
  `game/client/scenes/Debug.ts`. Modules: `HandRanking`, `ServerPoker`,
  `ClientHand`, `ClientUtils`.
- **The client's round bookkeeping.** `Round.getMaxBet`,
  `checkForEndOfRound`, the layered payout of `checkForWinner`,
  `checkForBankrupt`, the `Table` constructor and `addPlayer`, and the street
  transitions of `progress`. Modules: `ClientRound`, `ClientProgress`.

  Much of this code cannot run as written:
  - a `Table` has no `game` and no `gameLosers`;
  - the client `Deck` has no `pop`.

  Each such operation is modelled twice. The as-written member says what the
  code does (`ClientProgress.ProgressAsWritten`,
  `ClientRound.CheckForBankruptAsWritten`). The intended member takes
  `table.game` to be a `Round` whose deck is a list of cards, so that the
  rules the code evidently aims at can be stated and proved.
- **The authoritative room** (`game/server/rooms/PokerRoom.ts`). Every handler
  is a transition on a `Room` record. A stream of client events is replayed
  through them. Over any such stream that is dealt full decks, for the
  handlers as written and for the corrected "ready" handler alike:
  - the room never throws and never reaches the showdown phase;
  - nothing is burnt, and no card name is held twice between the hands, the
    board and the deck (`PokerRoom.ReplayAsWrittenNoCardTwice`,
    `PokerRoom.ReplayNoCardTwice`).

  Clients are counted as Colyseus counts them. At most six are connected
  at once, and a seventh is refused before `onJoin` runs. A departed
  client's seat stays at the table, so after a departure a new client is
  seated and the table can hold more than six seats
  (`PokerRoom.LeaveMakesRoom`). No departed seat is ever both active and
  ready, so a round is never dealt to more than six seats
  (`PokerRoom.StartingTableBound`).

  With the corrected "ready" and no new clients, the chips are also
  conserved (`PokerRoom.ReplayKeepsChips`). As written, a "ready" in the
  middle of a hand loses the pot (`PokerRoom.ReadyMidHandLosesPot`).

  Modules: `PokerRoom`, and `DeckDraws` for several draws in a row from the
  deck.
- **The two client scenes.** Each one's legality rule for actions
  (`getValidActions`), the turn test, the blind tokens, the relative seat
  and the mapping from buttons to room messages. Modules: `ClientScene`,
  `OriginalScene`.
- **The sign-up handler** (`app/api/auth/signup.ts`). Its ordered chain of
  input checks and the status each outcome gets. Module: `Signup`.

Shared helpers live in `Wrappers` (`Option`, `Result`), `Sequences` and
`Text`.

## Where the code departs from standard hold'em

The code departs from the usual rules of Texas hold'em, or from what its
own names promise, at these points:

- **Tie-breakers.** The straight, flush and straight flush tie-breakers of
  `evaluateHand` use the lowest card of the hand, not the highest. The other
  two evaluators use the highest.
  - The server and `rankCards` score the wheel with the ace (5.14), so it
    ties the ace-high straight.
  - `rankCards` and `evaluateHand` index the suit counters by
    `suitValue()`, which is 1..4, in a 4-slot array. A spade therefore
    lands in a fifth slot, which is `NaN`, so an all-spades hand is never
    a flush.
  - With seven cards the server wants all seven cards in one suit for a
    flush, while the client wants exactly five.
- **Kickers and two-bar bands.** All three evaluators score a hand by at
  most two card values, so kickers never count.
  - Four of a kind, three of a kind and one pair keep only the value of
    the group, and flush and high card only one card value. So AA-K-Q-J
    ties AA-4-3-2 (`HandExamples.KickersIgnored`).
  - Full house and two pair add the second bar's value over 1000 to the
    first bar's value over 100. With values up to 14, that addition reaches
    0.014, more than one step of the first bar. So 222AA (7.034) beats
    33322 (7.032) (`HandExamples.FullHouseBandInverts`) and ties 33344
    (`HandExamples.FullHouseBandTies`). AA22 ties KKQQ at 3.142
    (`HandExamples.TwoPairBandTies`).
- **Blinds.** They are taken without any cap on the stack, so a stack can
  go negative.
  - The bet to match becomes `smallBlind + bigBlind`, not the big blind.
  - The first turn is `dealerIndex + 1`, not reduced modulo the number of
    seats.
  - `dealerIndex` never rotates.
- **The burn pile.** It is not cleared when a round starts.
- **Streets.** The room never advances a street:
  - nothing calls `dealCommunityCards`;
  - its case labels (`"Flop"`, `"Turn"`, `"River"`) never match the round
    names the room sets.

  No handler sets the phase to `"showdown"`, so the showdown comparison is
  dead code. `PokerRoom.ReplayAsWrittenSteady` proves this for the handlers
  as written, and `PokerRoom.ReplaySteady` for the corrected "ready".
- **The showdown comparison, were it reached.** It pays the earliest seat
  with a strictly best rank and does not split ties.
- **Uncontested pots.** They are paid by `handleWinner`, which makes every
  seat active again, including seats whose players have left. It keeps the
  cards on the table.
- **The client's `progress`.** It only acts on `table.game`, which no
  `Table` has. Given one, the first street change throws, because the
  client `Deck` has no `pop`. So a round never gets past the deal
  (`ClientProgress.ProgressAsWrittenStaysInDeal`).
- **Bets.** A bet is accepted from any seat in the betting phase, with no
  test that it is that seat's turn.
- **Unhandled messages.** The room has no handler for "check" or "call",
  so those buttons send messages that go nowhere
  (`ClientScene.CheckAndCallGoNowhere`).
- **The newer scene's action buttons.** The newer scene shows them only to
  a seat whose `canAct` is true. The room never sends `canAct`, so against
  this server no action is ever offered
  (`ClientScene.ServerStateOffersNothing`).

## Model

| member | source | states |
|---|---|---|
| Cards.RankToValue | game/server/lib/poker.ts:54-72 | every standard rank is worth 2..14 and only `wild` is worth 100 |
| Cards.RankToValueInjective | game/client/lib/classes.ts:242-260 | two ranks with the same value are the same rank |
| Cards.NameInjective | game/client/lib/classes.ts:152-193 | two cards with the same two-character name are the same card |
| HandRanking.ScaledCategory | game/server/lib/poker.ts:150-172 | the integer part of a score is its category and the fraction holds the two tie-breakers (`a/100 + b/1000`) exactly |
| HandRanking.CategoryDominates | game/server/lib/poker.ts:150-172 | a hand of a higher category outscores one of a lower category whatever the tie-breakers |
| HandRanking.SortedValues | game/server/lib/poker.ts:126 | the sorted values are ascending and a permutation of the card values |
| HandRanking.SortedValuesRange | game/server/lib/poker.ts:126 | standard cards give sorted values within 2..14 |
| HandRanking.SortedValuesOfPermutation | game/server/lib/poker.ts:126 | reordering the cards leaves the sorted values unchanged |
| HandRanking.SortedValuesAre | game/server/lib/poker.ts:126 | any ascending sequence with the values' multiset is the sorted values |
| HandRanking.TopGroup | game/server/lib/poker.ts:139-148 | `sortedGroups[0]` is a value of the hand with its count, and comes first under (count descending, value descending) |
| HandRanking.SecondGroup | game/server/lib/poker.ts:139-148 | `sortedGroups[1]` is absent exactly when the hand holds one value; otherwise it is first among the other values under the same order |
| HandRanking.TopGroupIs | game/server/lib/poker.ts:145-148 | the value that precedes every other value is the top bar |
| HandRanking.SecondGroupIs | game/server/lib/poker.ts:145-148 | the value that precedes every other value except the top one is the second bar |
| HandRanking.TopCountOfFive | game/server/lib/poker.ts:156-165 | in five cards, some value occurring k >= 3 times iff the top bar has k cards |
| HandRanking.TwoPairsOfFive | game/server/lib/poker.ts:166-167 | in five cards, two different pairs iff the top two bars hold two cards each |
| HandRanking.FullHouseOfFive | game/server/lib/poker.ts:158-159 | in five cards, a triple and a pair iff the top bar holds three and the second two |
| HandRanking.OnePairOfFive | game/server/lib/poker.ts:168-169 | in five cards, one pair and no more iff the top bar holds two and the second does not |
| HandRanking.NoGroupsOfFive | game/server/lib/poker.ts:170-171 | in five cards, no value repeated two to four times iff the top bar holds one card (or all five) |
| HandRanking.StraightOfFiveIsSingles | game/server/lib/poker.ts:131-136 | the five values of a straight are all different |
| HandRanking.SecondGroupPresentWhenRead | game/server/lib/poker.ts:158-167 | whenever the chain reads `sortedGroups[1]` on five or more cards, that bar exists |
| ServerPoker.CharAt | game/server/lib/poker.ts:16-17 | `charAt` yields the character at the index, or the empty string past the end |
| ServerPoker.RankFromInitial | game/server/lib/poker.ts:25-42 | a rank is found exactly for one character whose upper case is a rank initial, and it carries that initial; otherwise the error names the input |
| ServerPoker.SuitFromInitial | game/server/lib/poker.ts:44-52 | a suit is found exactly for one character whose upper case is a suit initial; otherwise the error names the input |
| ServerPoker.NewCard | game/server/lib/poker.ts:9-23 | a card is built exactly when the first two characters are a rank and a suit initial in either case; it is standard, valued 2..14, and its canonical name is the upper-cased input; a bad rank is reported first |
| ServerPoker.NewCardOfName | game/server/lib/poker.ts:9-13 | every standard card is rebuilt from its own name |
| ServerPoker.NewCardLowerCase | game/server/lib/poker.ts:26 | a lower-case name builds the same card as the upper-case one |
| ServerPoker.RankRow | game/server/lib/poker.ts:91-93 | one suit's row names each rank followed by the suit, in rank order |
| ServerPoker.GenerateDeckIsAllCardNames | game/server/lib/poker.ts:85-97 | the server deck lists exactly the client's `ALL_CARD_NAMES`, in the same order |
| ServerPoker.GenerateDeckProperties | game/server/lib/poker.ts:85-97 | a fresh deck has 52 pairwise-distinct names, contains every standard card's name, and every name builds a card |
| ServerPoker.ShuffleDown | game/server/lib/poker.ts:99-104 | the swap loop keeps the length and leaves the positions above its start alone |
| ServerPoker.ShuffleDownMultiset | game/server/lib/poker.ts:99-104 | the swap loop only rearranges the deck: the multiset of names is unchanged |
| ServerPoker.Shuffle | game/server/lib/poker.ts:99-104 | a shuffle is a permutation of the deck |
| ServerPoker.ShuffleKeepsDistinct | game/server/lib/poker.ts:99-104 | a deck without repeated names keeps none after shuffling |
| ServerPoker.ShuffleDownIdentity | game/server/lib/poker.ts:99-104 | when every pick is the position itself the deck is unchanged |
| ServerPoker.Draw | game/server/lib/poker.ts:106-112 | an empty deck throws "No cards left in deck"; otherwise the last name is popped and the draw succeeds exactly when that name builds a card |
| ServerPoker.DrawMultiset | game/server/lib/poker.ts:106-112 | a draw removes exactly one name from the deck |
| ServerPoker.DrawFromCardNames | game/server/lib/poker.ts:106-112 | a non-empty deck of valid names never fails to draw |
| ServerPoker.Classify | game/server/lib/poker.ts:150-172 | the chain gives a finite score on five or more values, a well-formed score on card values, and throws exactly on the short hands that read a missing histogram bar; each band carries its own tie-breakers: none for a royal flush, `values[4]` for the straight flush, flush, straight and high card, the tallest bar's value for four and three of a kind and a pair, and the two tallest bars' values for the full house and two pair |
| ServerPoker.Evaluate | game/server/lib/poker.ts:124-176 | `evaluate` gives a finite score on five or more cards, and throws exactly on the empty hand, three of one value, or an offsuit pair; a score's tie-breakers are those of its band, read from the sorted card values and their histogram |
| ServerPoker.AllSameSuitIff | game/server/lib/poker.ts:129 | "every card has the first card's suit" iff all cards share one suit |
| ServerPoker.EvaluateOfPermutation | game/server/lib/poker.ts:124-176 | the score depends only on the multiset of cards, not on their order |
| ServerPoker.FiveCardCategories | game/server/lib/poker.ts:150-172 | on five cards each category 1..10 holds exactly when the cards form that poker hand, stated through value counts, the straight test and the suit test; and the tie-breakers are the highest card (straight flush, flush, straight, high card), the value held four, three or two times, the three's value then the pair's (full house), the higher pair then the lower (two pair), and nothing for a royal flush |
| Constants.AllCardNamesRows | game/client/lib/constants.ts:245-250 | `ALL_CARD_NAMES` is the hearts, diamonds, clubs and spades rows in turn |
| Constants.AllCardNamesSuitMajor | game/client/lib/constants.ts:245-250 | entry k is rank character k mod 13 followed by suit character k div 13 |
| Constants.SuitMajorNameInjective | game/client/lib/constants.ts:4-5 | different positions of the suit-major listing name different cards |
| Constants.AllCardNamesDistinct | game/client/lib/constants.ts:245-250 | `ALL_CARD_NAMES` has 52 pairwise-distinct entries |
| Constants.RankValuesTable | game/client/lib/constants.ts:7-22 | `RANK_VALUES` agrees with `rankToValue`, maps the standard ranks one-to-one into 2..14 and wild to 100 |
| Constants.SuitValuesTable | game/client/lib/constants.ts:24-29 | `SUIT_VALUES` gives the four suits the distinct values 1..4, clubs 1 and hearts 3 |
| Constants.AllCardNamesAreCardNames | game/client/lib/constants.ts:245-250 | `ALL_CARD_NAMES` is exactly the set of names of the 52 standard cards |
| Constants.RankCharIndex | game/client/lib/constants.ts:4 | every standard rank's initial appears in `RANK_CHARS` |
| Constants.SuitIndex | game/client/lib/constants.ts:5 | every suit's initial appears in `SUIT_CHARS` |
| ClientCards.RankOfWord | game/client/lib/classes.ts:242-260 | a word names at most one rank, and is found exactly when some rank has that word |
| ClientCards.SuitOfWord | game/client/lib/classes.ts:180-188 | a word names at most one suit, and is found exactly when some suit has that word |
| ClientCards.WordsDisjoint | game/client/lib/utils.ts:60-65 | no word is both a rank word and a suit word |
| ClientCards.RankToValueOf | game/client/lib/classes.ts:242-260 | `rankToValue` succeeds exactly on a rank word, with that rank's value; anything else throws "Invalid rank value: …" |
| ClientCards.RankFromValue | game/client/lib/classes.ts:277-295 | `rankFromValue` succeeds exactly on 2..14 and 100, returning the rank with that value; any other number throws |
| ClientCards.RankValueRoundTrips | game/client/lib/classes.ts:242-295 | `rankFromValue` and `rankToValue` are inverse on all fourteen ranks and on every value `rankFromValue` accepts |
| ClientCards.RankToInitial | game/client/lib/classes.ts:163-173 | `rankToInitial` succeeds exactly on a rank word (wild gives `W`); anything else throws "Invalid rank: …" |
| ClientCards.SuitToInitial | game/client/lib/classes.ts:180-188 | `suitToInitial` succeeds exactly on a suit word; anything else throws "Invalid suit: …" |
| ClientCards.NameFromRankAndSuit | game/client/lib/classes.ts:152-156 | a name is built exactly from a rank word and a suit word; the rank is checked first, so a bad rank is the reported error |
| ClientCards.RankFromName | game/client/lib/classes.ts:210-227 | `rankFromName` accepts exactly one upper-case rank initial and returns the rank with that initial |
| ClientCards.SuitFromName | game/client/lib/classes.ts:195-203 | `suitFromName` accepts exactly one suit initial and returns the suit with that initial |
| ClientCards.RankAndSuitFromName | game/client/lib/classes.ts:113-145 | a name is read exactly when its first two characters are a rank and a suit initial, and gives the standard card whose name they are |
| ClientCards.NameRoundTrip | game/client/lib/classes.ts:113-156 | reading any of the 52 names and writing the card back gives the same name |
| ClientCards.CardRoundTrip | game/client/lib/classes.ts:113-156 | writing a standard card's name and reading it back gives the card |
| ClientCards.IsCardNameIff | game/client/lib/utils.ts:45-53 | `isCardName` holds exactly for a string that is a rank initial followed by a suit initial |
| ClientCards.Finish | game/client/lib/classes.ts:82-101 | the word-pair branch of `assignRankAndSuit` builds a card exactly when it holds a rank word and a suit word, and throws otherwise |
| ClientCards.AssignRankAndSuit | game/client/lib/classes.ts:82-101 | for two rank-or-suit arguments the constructor always either builds a card or throws; it never leaves the card blank |
| ClientCards.NewCard | game/client/lib/classes.ts:39-52 | a built card is standard with value 2..14; a card name always builds the card of that name; the card is left blank exactly when the arguments are neither a card name nor two rank-or-suit values |
| ClientCards.NewCardFromWords | game/client/lib/classes.ts:82-101 | a standard card is built from its rank and suit words, or its value and suit word, in either order |
| ClientCards.NewCardSameKind | game/client/lib/classes.ts:82-91 | two suit words throw on the rank and two rank words throw on the suit |
| ClientCards.NewCardWithoutSuit | game/client/lib/classes.ts:92-101 | a number beside a rank word matches no branch and throws on the undefined rank |
| ClientCards.GenerateDeck | game/client/lib/classes.ts:346-360 | the client deck has 52 cards, suit by suit, two up to ace within each suit |
| ClientCards.GenerateDeckEntries | game/client/lib/classes.ts:352-357 | each deck entry is what `new Card(suit, rank)` builds for its suit and rank |
| ClientCards.DeckIndex | game/client/lib/classes.ts:346-360 | every standard card has a position in the deck |
| ClientCards.DeckIndexOfDeckCard | game/client/lib/classes.ts:346-360 | the position of the card at position i is i |
| ClientCards.GenerateDeckProperties | game/client/lib/classes.ts:346-360 | a fresh client deck holds each of the 52 standard cards exactly once, under pairwise-distinct names |
| ClientCards.ShuffleDeck | game/client/lib/classes.ts:369-376 | a shuffle is a permutation of the deck |
| ClientCards.NewDeck | game/client/lib/classes.ts:317-328 | a new deck is a permutation of the fresh deck, equal to it when not shuffled, and without repeats |
| ClientCards.Draw | game/client/lib/classes.ts:386-390 | drawing from an empty deck throws "Not enough cards to draw."; otherwise the last card is popped |
| ClientCards.DealHand | game/client/lib/classes.ts:378-384 | fewer than five cards throw; otherwise the first five cards leave the deck as a hand ranked by `rankCards` |
| ClientHand.SuitValue | game/client/lib/classes.ts:262-270 | `suitValue` is 1..4 and is 4 exactly for spades |
| ClientHand.SuitValueInjective | game/client/lib/classes.ts:262-270 | different suits have different suit values |
| ClientHand.SuitCountIsMultiplicity | game/client/lib/classes.ts:433-436 | counting a suit card by card gives its multiplicity among the cards' suits |
| ClientHand.SuitCounts | game/client/lib/classes.ts:433-436 | the `[0,0,0,0]` tally keeps slot 0 at 0 and counts hearts, diamonds and clubs in slots 1..3; a spade writes a fifth slot that is `NaN` |
| ClientHand.ClientFlushIff | game/client/lib/classes.ts:445 | the client's flush test holds exactly when hearts, diamonds or clubs number exactly five: spades, and six of a suit, are never a flush |
| ClientHand.ClientChain | game/client/lib/classes.ts:455-468 | the ternary chain throws exactly on the short hands that read a missing bar; on five or more values it gives a finite, well-formed score; a full house or two pair always has a second bar of two |
| ClientHand.RankCards | game/client/lib/classes.ts:409-468 | `rankCards` gives a finite score on five or more cards, well-formed on standard cards |
| ClientHand.EvaluateHandRank | game/client/lib/utils.ts:131-214 | `evaluateHand` gives a finite score on five or more cards, well-formed on standard cards |
| ClientHand.NewHand | game/client/lib/classes.ts:402-406 | a hand is built exactly when its cards can be ranked, and then keeps the cards and their rank |
| ClientHand.NewPlayerHandThrows | game/client/lib/classes.ts:561-571 | the empty hand every new `Player` is given (`new Hand([])`, which ranks at once) cannot be built: ranking no cards reads a missing histogram bar and throws |
| ClientUtils.GetCardName | game/client/lib/utils.ts:11-38 | a standard card's name is its rank initial then its suit initial; `wild` has no case, so its name starts with "undefined" |
| ClientUtils.GetCardNameIsCardName | game/client/lib/utils.ts:11-53 | `getCardName` gives a valid card name exactly for the non-wild ranks |
| ClientUtils.ValueToRank | game/client/lib/utils.ts:104-122 | `valueToRank` succeeds exactly on 2..14 and 100 with the word of the rank of that value, capitalised on request; otherwise it throws "Invalid rank value: …" |
| ClientUtils.ValueToRankOfRank | game/client/lib/utils.ts:104-122 | `valueToRank` inverts `rankToValue`, and its capitalised word differs from the plain one only in an upper-case first letter |
| ClientUtils.Threshold | game/client/lib/utils.ts:241-251 | the message chain picks the largest k from 10 down to 2 the value reaches, else 1 |
| ClientUtils.ThresholdIsCategory | game/client/lib/utils.ts:241-251 | the threshold a well-formed score reaches is its category, and `NaN` reaches none |
| ClientUtils.BestHandMessage | game/client/lib/utils.ts:241-252 | the message exists exactly when the category names no rank (royal flush, straight flush, flush, straight) or the top bar's rank word exists and, for a full house or two pair, the second bar's too |
| ClientUtils.BestHandMessagePrefix | game/client/lib/utils.ts:241-252 | a message, when it is produced, opens with the name of the category the value reaches |
| ClientUtils.BestHandMessageNamesCategory | game/client/lib/utils.ts:241-252 | a message opens with the name of the score's category; a `NaN` score is named a high card |
| ClientUtils.BestHandMessageOk | game/client/lib/utils.ts:241-252 | the message is always produced when the values it names are rank values and the second bar exists for a full house or two pair |
| ClientUtils.EvaluateHand | game/client/lib/utils.ts:131-214 | the result's rank is the rank of the evaluation chain, and a failing chain fails the call |
| ClientUtils.EvaluateHandNamesCategory | game/client/lib/utils.ts:131-214 | on standard cards the message names the rank's category |
| ClientUtils.EvaluateHandHasMessage | game/client/lib/utils.ts:131-214 | on standard cards `evaluateHand` returns exactly when its rank does |
| ClientUtils.KickerWeightOfRank | game/client/lib/utils.ts:277-290 | a two weighs nothing and any higher rank of value x weighs 2^(x-3) ten-thousandths |
| ClientUtils.KickerWeightDefined | game/client/lib/utils.ts:277-290 | a weight is pushed for exactly the rank characters |
| ClientUtils.KickerWeights | game/client/lib/utils.ts:276-291 | at most one weight per character, each between 0 and 2048 ten-thousandths |
| ClientUtils.KickerWeightsMultiset | game/client/lib/utils.ts:276-291 | the pushed weights depend only on which characters occur and how often |
| ClientUtils.RankKickers | game/client/lib/utils.ts:270-301 | the kicker rank is `NaN` exactly when more cards are asked for than weights were pushed, and 0 when none are asked for |
| ClientUtils.RankKickersTopWeights | game/client/lib/utils.ts:260-299 | after the descending sort, the kicker rank is the largest sum that any `noOfCards` of the pushed weights make: some such choice sums to it and none sums to more |
| Sequences.TopSumIsLargest | game/client/lib/utils.ts:293-299 | in an ascending list the last `k` entries make the largest sum that any `k` of its entries make |
| ClientUtils.RankKickersAll | game/client/lib/utils.ts:293-299 | asking for every pushed weight sums them all |
| ClientUtils.RankKickersOfPermutation | game/client/lib/utils.ts:270-301 | reordering the rank characters does not change the kicker rank |
| ClientUtils.RankKickersMonotone | game/client/lib/utils.ts:293-299 | counting one more card never lowers the kicker rank |
| ClientUtils.RemainingCounts | game/client/lib/utils.ts:403-404 | the filter keeps every occurrence of what is not extracted and drops every occurrence of what is |
| ClientUtils.GetRemainingElements | game/client/lib/utils.ts:398-405 | the call throws "Both arguments must be arrays." exactly when either argument is not an array |
| ClientUtils.RemainingAppend | game/client/lib/utils.ts:404 | the filter keeps survivors in their original order: filtering a concatenation filters each part |
| ClientUtils.RemainingIdempotent | game/client/lib/utils.ts:398-405 | extracting nothing keeps everything, and extracting twice is extracting once |
| EvaluatorComparison.SuitCountAll | game/client/lib/classes.ts:433-436 | a suit's count is at most the hand size, and equals it exactly when every card has that suit |
| EvaluatorComparison.ClientFlushNeedsFive | game/client/lib/classes.ts:445 | the client's flush test needs at least five cards |
| EvaluatorComparison.FlushTestsOnFive | game/server/lib/poker.ts:129 | on five cards the client's flush is the server's flush minus the spade flush |
| EvaluatorComparison.ChainsAgreeOnFive | game/client/lib/classes.ts:455-468 | on five sorted values the server chain and the `rankCards` chain give the same score for the same flush verdict |
| EvaluatorComparison.ServerAgreesWithRankCardsOnFive | game/server/lib/poker.ts:124-176 | on five cards the server's `evaluate` and the client's `rankCards` agree on every hand except a spade flush |
| EvaluatorComparison.TiePositionOnlyMatters | game/client/lib/utils.ts:194-203 | the tie-break position changes only the straight flush, flush and straight scores; the category and the failures never change |
| EvaluatorComparison.RankCardsVersusEvaluateHand | game/client/lib/utils.ts:194-203 | `rankCards` and `evaluateHand` fail on the same hands and agree on the category; on a straight flush, flush or straight one breaks ties by the highest card and the other by the lowest |
| ClientRound.GetMaxBet | game/client/lib/classes.ts:620-629 | the result bounds every bet, is at least 0, and is one of the bets unless it is 0 |
| ClientRound.GetMaxBetIsLeastBound | game/client/lib/classes.ts:620-629 | the maximum is no larger than any non-negative bound of the bets |
| ClientRound.GetMaxBetOfPermutation | game/client/lib/classes.ts:620-629 | the maximum does not depend on the order of the bets |
| ClientRound.LastToAct | game/client/lib/classes.ts:635-644 | the scan settles on the last player still to act, or on none when nobody is |
| ClientRound.CheckForEndOfRound | game/client/lib/classes.ts:631-647 | the round is over exactly when every player who has neither folded nor gone all in has spoken and matched the largest bet; otherwise the current player becomes the last one still to act |
| ClientRound.ScanWinners | game/client/lib/classes.ts:667-677 | the winner scan keeps the best contending rank (at least 0) and, in increasing order, exactly the contenders holding it |
| ClientRound.ScanWinnersAttained | game/client/lib/classes.ts:667-677 | the best rank the scan keeps is 0 or the rank of some contender it has passed |
| ClientRound.WinnersExist | game/client/lib/classes.ts:667-677 | there is a winner exactly when some contender's rank is at least 0 |
| ClientRound.AfterLayer | game/client/lib/classes.ts:690-698 | each contribution loses at most the part and never goes below 0 |
| ClientRound.LayerPrizeIsTaken | game/client/lib/classes.ts:690-698 | the prize is exactly what left the contributions |
| ClientRound.SettleFolds | game/client/lib/classes.ts:700-713 | paying out folds exactly the winners whose contribution is used up, and nobody else |
| ClientRound.SettleKeepsRanks | game/client/lib/classes.ts:700-713 | paying out leaves every hand rank as it was |
| ClientRound.LayerFoldsFirstWinner | game/client/lib/classes.ts:660-727 | a layer that leaves something to share folds a player, so the recursion of `checkForWinner` ends |
| ClientRound.CheckForWinner | game/client/lib/classes.ts:660-727 | `checkForWinner` ends with every contribution used up and the player list the same length |
| ClientRound.SettlePays | game/client/lib/classes.ts:700-704 | paying out adds the share once per winner to the chips on the table |
| ClientRound.SplitEvenly | game/client/lib/classes.ts:701 | n equal shares of the prize add up to the prize |
| ClientRound.LayerConserves | game/client/lib/classes.ts:690-713 | a layer with a winner moves its prize from the contributions to the winners' stacks, to the last chip |
| ClientRound.LayerKeepsCovered | game/client/lib/classes.ts:660-727 | when the largest contribution belongs to a player who can win, each layer keeps that so or uses every contribution up |
| ClientRound.AfterLayerKeepsLargest | game/client/lib/classes.ts:690-698 | taking at most the part from every contribution keeps the largest contribution the largest, or empties them all |
| ClientRound.CheckForWinnerConserves | game/client/lib/classes.ts:660-727 | when the largest contribution belongs to a player who can win, every contributed chip ends up with a winner |
| ClientRound.AllZeroLayer | game/client/lib/classes.ts:690-713 | with nothing contributed, a layer pays nothing and leaves nothing |
| ClientRound.NobodyToPay | game/client/lib/classes.ts:667-698 | with no player left who can win, nobody is paid and the contributions are lost |
| ClientRound.CheckForBankruptAsWritten | game/client/lib/classes.ts:730-739 | on a `Table`, which has no `gameLosers`, the check throws exactly when some player has no chips, that is exactly when the intended rule would remove somebody; otherwise every player stays |
| ClientRound.BankruptThrowsOnTable | game/client/lib/classes.ts:733-734 | on a `Table` a single broke player makes the check throw |
| ClientRound.CheckForBankruptWithLosers | game/client/lib/classes.ts:730-739 | on an object that does carry a `gameLosers` list, the loop splits the players between those left and the losers, none lost |
| ClientRound.BankruptSkipsNeighbour | game/client/lib/classes.ts:730-739 | on such an object, with two broke players in a row, the splice makes the loop skip the second, who stays at the table |
| ClientRound.BankruptNobody | game/client/lib/classes.ts:730-739 | as intended, when every player has chips everyone stays, in order |
| ClientRound.CheckForBankrupt | game/client/lib/classes.ts:730-739 | as intended: exactly the players without chips leave, exactly the others stay, and nobody is lost or duplicated |
| ClientRound.BankruptClearsBoth | game/client/lib/classes.ts:730-739 | the intended rule clears both broke players of the failing example |
| ClientRound.NewTable | game/client/lib/classes.ts:807-844 | a table is built exactly when 2 <= minPlayers <= maxPlayers <= 10; the three errors are raised in source order; a new table is empty with the dealer at 0 |
| ClientRound.DefaultTable | game/client/lib/classes.ts:807-815 | the default parameters build a table |
| ClientRound.AddPlayer | game/client/lib/classes.ts:847-852 | a player object already seated (the same object, not one with equal fields) throws with its name; otherwise the player is appended and nothing else changes |
| ClientRound.AddPlayerKeepsDistinct | game/client/lib/classes.ts:847-852 | adding players never seats the same object twice |
| ClientRound.AddPlayerSeatsLookalikes | game/client/lib/classes.ts:848 | two player objects with the same name and stack are both seated |
| ClientProgress.SweepAsWritten | game/client/lib/utils.ts:331-334 | the sweep as written yields one entry per seat, `NaN` wherever the contribution was missing |
| ClientProgress.FirstSweepIsNaN | game/client/lib/utils.ts:333 | a round starts with no contributions, so its first sweep leaves every contribution `NaN` |
| ClientProgress.Sweep | game/client/lib/utils.ts:331-334 | as intended, each seat's contribution grows by its bet, a missing contribution counting as 0 |
| ClientProgress.SweepAgrees | game/client/lib/utils.ts:331-334 | the intended sweep agrees with the written one wherever that one is a number |
| ClientProgress.SweepSum | game/client/lib/utils.ts:331-334 | every swept chip lands in the contributions |
| ClientProgress.Pop | game/client/lib/utils.ts:350-351 | as intended, `pop` yields the last card and shortens the deck, or `undefined` from an empty deck |
| ClientProgress.Turn | game/client/lib/utils.ts:373-375 | as intended, turning k cards takes the top k of the deck, the first popped first, and leaves the rest |
| ClientProgress.BurnAndTurn | game/client/lib/utils.ts:349-351 | as intended, after one burn the next k cards from the top go to the board, and the deck keeps the rest |
| ClientProgress.BurnAndTurnKeepsCards | game/client/lib/utils.ts:349-351 | as intended, burning and turning loses no card and invents none |
| ClientProgress.Revealed | game/client/lib/utils.ts:351 | as intended, a board without `undefined`s shows its cards in order |
| ClientProgress.NextPlayer | game/client/lib/utils.ts:329 | the current player wraps from the last seat back to the first |
| ClientProgress.Street | game/client/lib/utils.ts:359-370 | as intended, a new street names the next round, burns one, turns k onto the end of the board, zeroes every bet and lets everyone speak again; pot and contributions stay |
| ClientProgress.Showdown | game/client/lib/utils.ts:335-346 | as intended, after the river the round is the showdown, the bets are cleared, and every contribution is used up; deck, board and pot stay |
| ClientProgress.Progress | game/client/lib/utils.ts:323-389 | as intended, while the betting round is still open, `progress` only records whose turn it is |
| ClientProgress.ProgressAtEndOfRound | game/client/lib/utils.ts:328-389 | as intended, after a betting round the bets go to the pot and the contributions, the next seat is current, and the street advances: three cards after the deal, one after the flop and the turn, a settlement after the river |
| ClientProgress.ProgressAsWritten | game/client/lib/utils.ts:323-389 | as written, a table without a `game`, as every `Table` is, is left alone; an open betting round only records whose turn it is; a closed one after the deal, the flop or the turn throws because the client `Deck` has no `pop` |
| ClientProgress.ProgressAsWrittenStaysInDeal | game/client/lib/utils.ts:323-389 | a round starts at the deal, and as written any number of `progress` calls either throws or leaves it at the deal with the same deck, board, bets, pot and players |
| ClientProgress.ProgressAsWrittenNeverDeals | game/client/lib/utils.ts:371-377 | where the betting after the deal closes, the intended progress turns three cards and the code as written throws |
| ClientProgress.StreetMovesCards | game/client/lib/utils.ts:349-351 | as intended, a new street moves cards from the deck to the burn and the board, none lost |
| ClientProgress.BankruptKeepsChips | game/client/lib/classes.ts:730-739 | removing bankrupt players removes no chips, and every loser has none |
| ClientProgress.ProgressConservesChips | game/client/lib/utils.ts:328-346 | as intended, a whole street keeps every chip at the table when the largest contribution belongs to a player who can win |
| HandExamples.RoyalFlushScores | game/client/scenes/Debug.ts:126 | AH KH QH JH TH scores exactly 10 in all three evaluators |
| HandExamples.StraightFlushScores | game/client/scenes/Debug.ts:127 | 7D 4D 6D 8D 5D scores 9.08 on the server and in `rankCards`, 9.04 in `evaluateHand` |
| HandExamples.FourOfAKindScores | game/client/scenes/Debug.ts:128 | 3S TD 3D 3H 3C scores 8.03 everywhere |
| HandExamples.FullHouseScores | game/client/scenes/Debug.ts:129 | QC 9S QD 9C QS scores 7.129 everywhere |
| HandExamples.StraightScores | game/client/scenes/Debug.ts:130 | 8C 4D 5H 7C 6S scores 5.08 on the server and in `rankCards`, 5.04 in `evaluateHand` |
| HandExamples.WheelScores | game/client/scenes/Debug.ts:131 | the wheel 4C 2D AH 5D 3C scores 5.14 on the server and in `rankCards`, 5.02 in `evaluateHand` |
| HandExamples.FlushScores | game/client/scenes/Debug.ts:132 | QH 3H 8H TH 4H scores 6.12 on the server and in `rankCards`, 6.03 in `evaluateHand` |
| HandExamples.ThreeOfAKindScores | game/client/scenes/Debug.ts:133 | 6C 2C 6D 9S 6H scores 4.06 everywhere |
| HandExamples.TwoPairScores | game/client/scenes/Debug.ts:134 | AS 4H 7C 7S 4D scores 3.074 everywhere |
| HandExamples.OnePairScores | game/client/scenes/Debug.ts:135 | AH AD KD 3C 5S scores 2.14 everywhere |
| HandExamples.HighCardScores | game/client/scenes/Debug.ts:136 | QS 6C 7D JH 5D scores 1.12 everywhere |
| HandExamples.WheelTiesBroadway | game/server/lib/poker.ts:130-136 | the wheel ties the ace-high straight on the server and beats the eight-high one; in `evaluateHand` it loses to both |
| HandExamples.DeucesFullOfAcesScores | game/server/lib/poker.ts:158-159 | 2C 2D 2H AS AC scores 7.034 everywhere: the aces count only a thousandth each |
| HandExamples.ThreesFullOfDeucesScores | game/server/lib/poker.ts:158-159 | 2S 2C 3C 3D 3H scores 7.032 everywhere |
| HandExamples.ThreesFullOfFoursScores | game/server/lib/poker.ts:158-159 | 3C 3D 3H 4S 4C scores 7.034 everywhere, the same as deuces full of aces |
| HandExamples.AcesUpDeucesScores | game/server/lib/poker.ts:166-167 | 2D 2H 5C AS AC scores 3.142 everywhere |
| HandExamples.KingsUpQueensScores | game/server/lib/poker.ts:166-167 | 5C QD QH KS KC scores 3.142 everywhere, the same as aces and deuces |
| HandExamples.AcesWithKingQueenJackScores | game/server/lib/poker.ts:168-169 | JH QS KC AH AD scores 2.14 everywhere: the kickers are not in the score |
| HandExamples.AcesWithFourThreeDeuceScores | game/server/lib/poker.ts:168-169 | 2C 3H 4D AC AS scores 2.14 everywhere |
| HandExamples.KickersIgnored | game/server/lib/poker.ts:156-171 | a pair of aces with king, queen, jack and one with four, three, deuce get the same score from all three evaluators |
| HandExamples.FullHouseBandInverts | game/server/lib/poker.ts:159 | deuces full of aces outrank threes full of deuces, on the server and in `rankCards` |
| HandExamples.FullHouseBandTies | game/server/lib/poker.ts:159 | deuces full of aces and threes full of fours tie on the server: neither is `Greater` |
| HandExamples.TwoPairBandTies | game/server/lib/poker.ts:167 | aces and deuces tie kings and queens, on the server and in `rankCards` |
| HandExamples.BroadwayScores | game/server/lib/poker.ts:163 | AC KD QH JS TC scores 5.14 on the server and in `rankCards`, 5.10 in `evaluateHand` |
| HandExamples.SpadeRoyalScores | game/client/lib/classes.ts:433-445 | a spade royal flush is a royal flush on the server, but only an ace-high straight in `rankCards` and a ten-high one in `evaluateHand` |
| HandExamples.SevenCardFlushScores | game/server/lib/poker.ts:129 | with seven cards, five of one suit, the server sees a high card and both client evaluators a flush |
| HandExamples.TwoTripsScores | game/client/lib/classes.ts:462 | two sets of three are three of a kind on the server but a high card in the client, whose three-of-a-kind branch wants a lone card in the second bar |
| HandRanking.Without | game/server/lib/poker.ts:139-148 | the values other than `v`, and as many as the hand holds that are not `v` |
| HandRanking.Best | game/server/lib/poker.ts:145-148 | the pick is one of the candidates and comes first among them in histogram order |
| Text.Capitalize | game/client/lib/utils.ts:104-122 | the first character is upper-cased and the rest kept |
| Text.Decimal | game/server/rooms/PokerRoom.ts:69 | `${n}` is the decimal digits of `n`, with a minus sign for a negative `n` |
| Text.DigitsRoundTrip | game/server/rooms/PokerRoom.ts:69 | reading a seat number's digits back gives the number |
| ClientProgress.Quiet | game/client/lib/utils.ts:356-358 | every player is marked not to have talked, and nothing else changes |
| ClientProgress.QuietKeepsChips | game/client/lib/utils.ts:356-358 | marking the players keeps every stack |
| ClientRound.SettleStep | game/client/lib/classes.ts:700-704 | paying one winner adds exactly the share to the chips at the table |
| ClientRound.NotFoldedDrops | game/client/lib/classes.ts:700-713 | folding a player who was still in strictly lowers the count of players still in |
| PokerRoom.SumSeatsUpdate | game/server/rooms/PokerRoom.ts:16 | replacing one seat changes the chips at the table by exactly the difference of that seat's stacks |
| PokerRoom.Find | game/server/rooms/PokerRoom.ts:82-84 | the seat found is the first with the client's session id, and nothing is found exactly when no seat has it |
| PokerRoom.FindUnique | game/server/rooms/PokerRoom.ts:82-84 | when session ids are unique every seat is found by its own id |
| PokerRoom.Join | game/server/rooms/PokerRoom.ts:66-72 | a join appends one seat and keeps the others; the new seat is active, not ready, without cards or bet, named `Player <n+1>` and given 1000 chips unless the options give a non-empty name or non-zero chips; the room gains exactly that seat's chips |
| PokerRoom.ActiveSeats | game/server/rooms/PokerRoom.ts:217 | the active seats, each once and in seat order |
| PokerRoom.ReadySeats | game/server/rooms/PokerRoom.ts:87 | the seats that are both ready and active, and all of them |
| PokerRoom.FirstActive | game/server/rooms/PokerRoom.ts:217-219 | `activePlayers[0]` is the active seat closest to the start of the table |
| PokerRoom.ReadyCount | game/server/rooms/PokerRoom.ts:86-91 | the ready count never exceeds the active count and equals it exactly when every active seat is ready |
| PokerRoom.CheckGameStart | game/server/rooms/PokerRoom.ts:86-91 | a round starts when two or more seats are ready and active and they are all the active seats; otherwise the room is unchanged |
| PokerRoom.Ready | game/server/rooms/PokerRoom.ts:49-55 | an unknown sender changes nothing; a known one is marked ready and the start check runs |
| PokerRoom.Wrap | game/server/rooms/PokerRoom.ts:110 | `a % n` is a seat index, is `a` when already one, and is 0 one past the end |
| PokerRoom.SeatAtOffset | game/server/rooms/PokerRoom.ts:137-147 | counting steps round the table from a seat and stepping that many times from it undo each other |
| PokerRoom.SourceStep | game/server/rooms/PokerRoom.ts:147 | the source's `(position + 1) % n` is one more step round the table |
| PokerRoom.DealOrderLap | game/server/rooms/PokerRoom.ts:137-149 | one lap of the deal, from the seat left of the dealer, visits every seat exactly once |
| PokerRoom.DealOrderTakers | game/server/rooms/PokerRoom.ts:140-145 | one lap meets each active seat once |
| PokerRoom.HoleCardsDeal | game/server/rooms/PokerRoom.ts:143-144 | pushing one card to a seat adds exactly that card to the cards held at the table |
| PokerRoom.DealPassDraws | game/server/rooms/PokerRoom.ts:140-149 | a pass fails exactly when the deck holds fewer cards than the active seats it meets, and otherwise leaves the deck minus that many cards from its end |
| PokerRoom.DealPassSeats | game/server/rooms/PokerRoom.ts:140-149 | a pass gives every active seat one card per visit on top of its hand and changes nothing else about any seat |
| PokerRoom.DealPassCards | game/server/rooms/PokerRoom.ts:140-149 | a pass loses no card and makes none: hands plus deck hold the same cards before and after |
| PokerRoom.ShuffledDeckIsFull | game/server/lib/poker.ts:78-104 | `new Deck(true)` holds the 52 distinct good card names, whatever the random picks |
| PokerRoom.DealToPlayersSeats | game/server/rooms/PokerRoom.ts:132-151 | dealing gives every active seat two cards on top of its hand and every other seat none, changes nothing else, and moves cards from the deck without loss |
| PokerRoom.DealToPlayersDraws | game/server/rooms/PokerRoom.ts:132-151 | dealing throws exactly when the deck holds fewer than two cards per active seat, and otherwise takes them from the end of the deck |
| PokerRoom.ClearHands | game/server/rooms/PokerRoom.ts:101-104 | each seat keeps everything but its cards, which are emptied, and its bet, which is zeroed |
| PokerRoom.TakeBlindsSeats | game/server/rooms/PokerRoom.ts:113-120 | different blind seats each pay and bet their own blind; one seat holding both pays both and is left betting the big blind; no other seat changes |
| PokerRoom.TakeBlindsSum | game/server/rooms/PokerRoom.ts:117-118 | the stacks lose exactly the two blinds |
| PokerRoom.PostBlinds | game/server/rooms/PokerRoom.ts:110-123 | at a non-empty table the stacks lose exactly the two blinds; an empty table is left as it is; no hand changes |
| PokerRoom.PostBlindsBets | game/server/rooms/PokerRoom.ts:116-123 | with non-negative blinds and no bet standing, no seat bets more than the two blinds together |
| PokerRoom.StartNewRound | game/server/rooms/PokerRoom.ts:93-130 | a started round is in the betting phase with round name `dealing`, an empty board, the blinds as the bet to match (none at an empty table), and the turn at `dealerIndex + 1` unreduced |
| PokerRoom.StartNewRoundStarts | game/server/rooms/PokerRoom.ts:93-151 | a round starts exactly when the deck holds two cards per active seat, and the deck then shrinks by exactly that many |
| PokerRoom.StartNewRoundHands | game/server/rooms/PokerRoom.ts:100-107 | after a new round every active seat holds two cards and every other seat none, and hands plus deck are exactly the deck dealt from |
| PokerRoom.StartNewRoundDistinct | game/server/rooms/PokerRoom.ts:132-151 | dealt from a full deck, no card is in two hands or both in a hand and in the deck |
| PokerRoom.StartNewRoundChips | game/server/rooms/PokerRoom.ts:96 | a new round loses whatever was in the pot: the room afterwards holds the chips of the stacks before |
| DeckDraws.DrawNamesOk | game/server/lib/poker.ts:106-112 | `k` draws succeed exactly when the deck's top `k` are good card names |
| DeckDraws.DrawNamesTop | game/server/lib/poker.ts:106-112 | `k` draws yield the top `k` names, the last first, and leave the rest of the deck in order |
| DeckDraws.DrawNamesKeepsNames | game/server/lib/poker.ts:106-112 | drawing loses no name: the deck is what is left plus what was drawn |
| PokerRoom.DealCommunityCards | game/server/rooms/PokerRoom.ts:153-172 | a round name other than `Flop`, `Turn` or `River` changes nothing; otherwise the deal throws exactly when the top of the deck lacks enough good names |
| PokerRoom.DealCommunityCardsBoard | game/server/rooms/PokerRoom.ts:153-172 | the top card is burnt and the next ones go to the board in the order drawn; seats, pot, phase and round name stay |
| PokerRoom.DealCommunityCardsKeepsCards | game/server/rooms/PokerRoom.ts:153-172 | deck, board and burn pile hold the same names between them before and after |
| PokerRoom.ScanActive | game/server/rooms/PokerRoom.ts:202-210 | the scan finds the first active seat from a given step round the table, or reports that none remains |
| PokerRoom.MoveToNextPlayer | game/server/rooms/PokerRoom.ts:197-214 | with no active seat the game state check runs; the move never changes the chips in the room |
| PokerRoom.MoveToNextPlayerTurn | game/server/rooms/PokerRoom.ts:197-210 | with an active seat the turn goes to the first active seat after the current one round the table, and nothing else changes |
| PokerRoom.NextActiveFinds | game/server/rooms/PokerRoom.ts:198-210 | with an active seat the scan from the seat after the current one finds an active seat, and no active seat lies between |
| PokerRoom.NextActiveSkips | game/server/rooms/PokerRoom.ts:198-210 | when another seat is active the turn leaves the current seat |
| PokerRoom.MoveToNextPlayerSkipsCurrent | game/server/rooms/PokerRoom.ts:198-210 | the turn stays on the current seat only when no other seat is active |
| PokerRoom.NextHand | game/server/rooms/PokerRoom.ts:253-258 | every seat is made not ready, active and without a bet, and optionally without cards; nothing else changes |
| PokerRoom.NextHandChips | game/server/rooms/PokerRoom.ts:253-258 | resetting the seats keeps every stack |
| PokerRoom.Pay | game/server/rooms/PokerRoom.ts:263-274 | the winner's stack grows by the pot and no other stack changes; the pot is emptied, the room waits, every seat is active, not ready and without a bet; no chip is lost |
| PokerRoom.BestHand | game/server/rooms/PokerRoom.ts:239-244 | the pick is a hand no later one strictly beats; with finite scores it is a best score and strictly beats every earlier one |
| PokerRoom.BuildCards | game/server/rooms/PokerRoom.ts:225-227 | building succeeds exactly when every name is a card's name, and yields those cards in order |
| PokerRoom.Collect | game/server/rooms/PokerRoom.ts:224-235 | a `map` whose callback may throw succeeds exactly when every call does, and then lists each call's value in order |
| PokerRoom.RanksOk | game/server/rooms/PokerRoom.ts:224-235 | the showdown's evaluations fail exactly when some active hand with the board fails to evaluate |
| PokerRoom.RanksAreEvaluations | game/server/rooms/PokerRoom.ts:224-235 | each rank is the evaluation of that seat's cards followed by the board |
| PokerRoom.Award | game/server/rooms/PokerRoom.ts:246-259 | paying the showdown's winner keeps the chips in the room |
| PokerRoom.AwardPaysBest | game/server/rooms/PokerRoom.ts:239-259 | with unique ids, the whole pot goes to the active seat with the best hand, no other stack changes, the room waits and every seat is active with an empty hand |
| PokerRoom.Showdown | game/server/rooms/PokerRoom.ts:223-259 | a showdown that does not throw keeps the chips in the room |
| PokerRoom.CheckGameState | game/server/rooms/PokerRoom.ts:216-261 | a single active seat is paid the pot; outside the showdown with any other count nothing changes; no chip is lost |
| PokerRoom.LastPlayerWins | game/server/rooms/PokerRoom.ts:217-220 | the last active seat's stack grows by the pot and the pot empties |
| PokerRoom.Bet | game/server/rooms/PokerRoom.ts:179-182 | the amount leaves the bettor's stack for the pot and becomes both their bet and the bet to match; nothing else changes and no chip is lost |
| PokerRoom.HandleBet | game/server/rooms/PokerRoom.ts:174-186 | an unknown sender, a phase other than betting, an amount above the stack or below the bet to match changes nothing; otherwise the bet is taken and the turn moves on; no chip is lost |
| PokerRoom.Deactivate | game/server/rooms/PokerRoom.ts:192 | only that seat goes inactive; it keeps its place and chips |
| PokerRoom.HandleFold | game/server/rooms/PokerRoom.ts:188-195 | an unknown sender or a phase other than betting changes nothing; no chip is lost |
| PokerRoom.Leave | game/server/rooms/PokerRoom.ts:74-80 | an unknown client changes nothing; a known one's seat goes inactive, stays at the table, and the game state check runs |
| PokerRoom.ReadyWhenWaiting | game/server/rooms/PokerRoom.ts:49-55 | outside the waiting phase a "ready" keeps the pot and the phase |
| PokerRoom.ActiveSeatsBound | game/server/rooms/PokerRoom.ts:217 | there are no more active seats than seats |
| PokerRoom.CheckGameStateSteady | game/server/rooms/PokerRoom.ts:216-261 | in a steady room the game state check never throws and keeps the room steady |
| PokerRoom.MoveToNextPlayerSteady | game/server/rooms/PokerRoom.ts:197-214 | in a steady room moving the turn never throws and keeps the room steady |
| PokerRoom.HandleBetSteady | game/server/rooms/PokerRoom.ts:174-186 | in a steady room a bet never throws and keeps the room steady |
| PokerRoom.HandleFoldSteady | game/server/rooms/PokerRoom.ts:188-195 | in a steady room a fold never throws and keeps the room steady |
| PokerRoom.LeaveSteady | game/server/rooms/PokerRoom.ts:74-80 | in a steady room a departure never throws and keeps the room steady |
| PokerRoom.StartNewRoundSteady | game/server/rooms/PokerRoom.ts:93-151 | from a full deck holding two cards for every active seat a round always starts and leaves the room steady |
| PokerRoom.Receive | game/server/rooms/PokerRoom.ts:41-80 | a join is seated exactly when fewer than six clients are connected, and otherwise changes nothing; nothing a departed client's session sends changes the room |
| PokerRoom.ConnectedCountMono | game/server/rooms/PokerRoom.ts:41 | seats no more connected than before count no more clients |
| PokerRoom.ActiveWithinConnected | game/server/rooms/PokerRoom.ts:41-91 | when every active seat has its client there are no more active seats than connected clients |
| PokerRoom.StartingTableBound | game/server/rooms/PokerRoom.ts:41-91 | a table that can start has at most six active seats, since each is ready and so still has its client |
| PokerRoom.StartFromFullDeck | game/server/rooms/PokerRoom.ts:86-151 | a table that can start is dealt from a full deck without running out, and the round leaves the room steady with its clients counted as before |
| PokerRoom.ReadyWhenWaitingSteady | game/server/rooms/PokerRoom.ts:49-55 | the corrected "ready" from a connected client, dealt a full deck, never throws and keeps the room steady and its clients within the limit |
| PokerRoom.JoinKeeps | game/server/rooms/PokerRoom.ts:41-72 | a client seated below the limit keeps the room steady and keeps the clients within the limit |
| PokerRoom.LeaveKeeps | game/server/rooms/PokerRoom.ts:74-80 | a connected client's departure keeps the room steady, and its seat is left neither active and ready |
| PokerRoom.ConnectedCountDrop | game/server/rooms/PokerRoom.ts:41-80 | a seat losing its client counts one client fewer |
| PokerRoom.DepartureFreesClient | game/server/rooms/PokerRoom.ts:74-80 | a connected client's departure keeps every seat and counts one client fewer |
| PokerRoom.LeaveMakesRoom | game/server/rooms/PokerRoom.ts:41-80 | with six clients connected, one leaving lets the next join be seated, so the table grows to seven seats |
| PokerRoom.ReceiveSteady | game/server/rooms/PokerRoom.ts:41-80 | with the corrected "ready", every event a steady room receives, with clients counted as Colyseus counts them, is handled without an error and keeps it steady and its clients within the limit, however many seats the table has |
| PokerRoom.NewRoomSteady | game/server/rooms/PokerRoom.ts:24-38 | a new room with the default state is steady |
| PokerRoom.ReplaySteady | game/server/rooms/PokerRoom.ts:216-261 | with the corrected "ready", whatever the clients send, joins after departures included, a steady room dealt full decks never throws and never reaches the showdown phase |
| PokerRoom.ReceiveChips | game/server/rooms/PokerRoom.ts:41-80 | with the corrected "ready", every event changes the chips in the room by exactly what a seated joining client brings; a refused join and anything from a departed session bring nothing |
| PokerRoom.ReplayKeepsChips | game/server/rooms/PokerRoom.ts:41-80 | with the corrected "ready" and no joins, the chips in the room never change however many hands are played or clients leave |
| PokerRoom.ReceiveAsWritten | game/server/rooms/PokerRoom.ts:41-80 | with "ready" as written, a "ready" from an unknown client or a departed session changes nothing, and every other event is handled as by the corrected room, which counts clients as Colyseus does |
| PokerRoom.ReadySteady | game/server/rooms/PokerRoom.ts:49-55 | the "ready" handler as written, dealt a full deck, never throws and keeps a steady room steady |
| PokerRoom.ReceiveAsWrittenSteady | game/server/rooms/PokerRoom.ts:41-80 | with "ready" as written, every event a steady room receives, with clients counted as Colyseus counts them, is handled without an error and keeps it steady and its clients within the limit |
| PokerRoom.ReplayAsWrittenSteady | game/server/rooms/PokerRoom.ts:41-80 | with "ready" as written, whatever the clients send, joins after departures included, a steady room dealt full decks never throws and never reaches the showdown phase |
| PokerRoom.SameCardsNoCardTwice | game/server/rooms/PokerRoom.ts:100-107 | rooms with the same hands, board, deck and burn pile agree on whether a card is held twice |
| PokerRoom.CheckGameStateCards | game/server/rooms/PokerRoom.ts:216-220 | in a steady room the game state check moves no card: a last seat's win leaves the hands where they are |
| PokerRoom.MoveToNextPlayerCards | game/server/rooms/PokerRoom.ts:197-214 | in a steady room moving the turn moves no card |
| PokerRoom.BetSteady | game/server/rooms/PokerRoom.ts:174-186 | a bet the room takes keeps it steady |
| PokerRoom.HandleBetCards | game/server/rooms/PokerRoom.ts:174-186 | in a steady room a bet moves no card |
| PokerRoom.HandleFoldCards | game/server/rooms/PokerRoom.ts:188-195 | in a steady room a fold moves no card |
| PokerRoom.LeaveCards | game/server/rooms/PokerRoom.ts:74-80 | in a steady room a departure moves no card |
| PokerRoom.StartNewRoundNoCardTwice | game/server/rooms/PokerRoom.ts:93-151 | a round started from a full deck with nothing burnt holds no card name twice between the hands, the board and the deck |
| PokerRoom.ReadyWhenWaitingNoCardTwice | game/server/rooms/PokerRoom.ts:49-55 | the corrected "ready" never leaves a card name held twice |
| PokerRoom.ReadyNoCardTwice | game/server/rooms/PokerRoom.ts:49-55 | the "ready" handler as written, dealt a full deck, never leaves a card name held twice |
| PokerRoom.JoinNoCardTwice | game/server/rooms/PokerRoom.ts:66-72 | a client joins with an empty hand, so no card name becomes held twice |
| PokerRoom.ReceiveNoCardTwice | game/server/rooms/PokerRoom.ts:41-80 | with the corrected "ready", no event a steady room receives, with clients counted as Colyseus counts them, leaves a card name held twice |
| PokerRoom.NewRoomNoCardTwice | game/server/rooms/PokerRoom.ts:24-38 | a new room holds no card |
| PokerRoom.ReplayNoCardTwice | game/server/rooms/PokerRoom.ts:41-80 | with the corrected "ready", whatever the clients send, joins after departures included, a steady room dealt full decks never burns a card and never holds a card name twice between the hands, the board and the deck |
| PokerRoom.ReplayAsWrittenNoCardTwice | game/server/rooms/PokerRoom.ts:41-80 | the same with "ready" as written |
| PokerRoom.ReadyWhenWaitingKeepsChips | game/server/rooms/PokerRoom.ts:49-55 | the corrected "ready" never loses chips in a steady room |
| PokerRoom.ReadyMidHandLosesPot | game/server/rooms/PokerRoom.ts:86-96 | as written, a "ready" in the middle of a hand restarts it and the room loses the whole pot |
| ClientScene.ActionNamesDistinct | game/client/scenes/PokerGame.ts:169 | the five buttons carry five different action names |
| ClientScene.LocalIndex | game/client/scenes/PokerGame.ts:491-493 | the index is the first seat with the session id, and -1 exactly when there is no room or no such seat |
| ClientScene.ValidActions | game/client/scenes/PokerGame.ts:755-807 | nothing is offered outside a betting phase, to a spectator or to a seat that may not act; otherwise an action is offered exactly when its own test holds, in button order |
| ClientScene.FoldOrCheck | game/client/scenes/PokerGame.ts:781-798 | with a bet to match that is not negative exactly one of fold and check is offered, and never both call and bet |
| ClientScene.MyTurnOffersActions | game/client/scenes/PokerGame.ts:476-482 | on the local player's turn in a betting phase some action is offered, fold or check among them |
| ClientScene.ViewOf | game/server/rooms/PokerRoom.ts:13-21 | the scene's view of the room keeps every seat in place and none of them carries `canAct` |
| ClientScene.ServerStateOffersNothing | game/client/scenes/PokerGame.ts:476-479 | against the room as written it is never the local player's turn and no action is ever offered |
| ClientScene.JsRem | game/client/scenes/PokerGame.ts:1041-1042 | JavaScript's `%` agrees with the mathematical remainder on non-negative operands and leaves a seat index unchanged |
| ClientScene.BlindTokensMatchRoom | game/client/scenes/PokerGame.ts:1040-1042 | the blind tokens mark exactly the seats the room takes the small and the big blind from |
| ClientScene.TokenSeats | game/client/scenes/PokerGame.ts:1040-1058 | on three seats or more the three tokens are on three different seats; on two the dealer also holds the big blind; on one a single seat holds all three |
| ClientScene.RelativeClosed | game/client/scenes/PokerGame.ts:552 | the relative seat counts up from the local seat and wraps past the end for seats before it |
| ClientScene.RelativeSeats | game/client/scenes/PokerGame.ts:547-552 | relative seats are seats of the table, the local seat is at 0, and no two seats share a place |
| ClientScene.SendAction | game/client/scenes/PokerGame.ts:809-827 | nothing is sent without a room; bet and raise both send a bet with the amount; fold, check and call send their own name; any other action sends nothing |
| ClientScene.Dispatch | game/server/rooms/PokerRoom.ts:49-63 | the room handles exactly "ready", "fold" and a "bet" with an amount |
| ClientScene.CheckAndCallGoNowhere | game/client/scenes/PokerGame.ts:816-825 | the check and call buttons send messages the room has no handler for, and raise reaches the room as the same bet as bet |
| OriginalScene.FindSeat | game/client_original/scenes/PokerGame.ts:293 | the seat found has the session id, and none is found exactly when there is no room or no seat has it |
| OriginalScene.SeatIndex | game/client_original/scenes/PokerGame.ts:218-220 | the index is -1 exactly when no seat is found, and otherwise points at the seat `find` returns |
| OriginalScene.ValidActions | game/client_original/scenes/PokerGame.ts:290-308 | nothing without a state or a seat; otherwise fold first, and an action is offered exactly when the older rule allows it, in button order |
| OriginalScene.OldRuleExclusions | game/client_original/scenes/PokerGame.ts:296-305 | the older rule never offers both check and call, nor both bet and raise |
| OriginalScene.RulesDiffer | game/client_original/scenes/PokerGame.ts:290-308 | the older and newer rules give different actions for the same seat, both with nothing to match and with a matched bet |
| OriginalScene.VisibleButtons | game/client_original/scenes/PokerGame.ts:279-288 | without a state the buttons stay; otherwise a button is shown exactly on the local turn when its action is valid |
| OriginalScene.FoldShownOnMyTurn | game/client_original/scenes/PokerGame.ts:210-212 | on the local player's turn the fold button is always shown |
| Signup.Lead | app/api/auth/signup.ts:13 | the count is the length of the white space the string starts with |
| Signup.Trail | app/api/auth/signup.ts:13 | the count is the length of the white space the string ends with |
| Signup.Trim | app/api/auth/signup.ts:13 | the trim is a piece of the string, everything outside it is white space, and it neither starts nor ends with white space |
| Signup.TrimOfTrimmed | app/api/auth/signup.ts:13 | a string without white space at either end is its own trim |
| Signup.TrimIdempotent | app/api/auth/signup.ts:13 | trimming twice is trimming once |
| Signup.Utf16Length | app/api/auth/signup.ts:13 | a string's `length` counts UTF-16 code units: at least one and at most two per character, and exactly one per character when none lies beyond the Basic Multilingual Plane |
| Signup.HandleAsWritten | app/api/auth/signup.ts:5-63 | each response comes exactly when the checks before it pass and its own fails (lengths in UTF-16 code units; the 405 body's key is `error`, the others' `message`); a missing username throws; the short-username refusal is never given |
| Signup.AstralPasswordOk | app/api/auth/signup.ts:13 | four emoji are four characters but pass the 8-character password check |
| Signup.ShortUsernameAccepted | app/api/auth/signup.ts:29-35 | as written a two-letter username creates an account |
| Signup.AstralPasswordAccepted | app/api/auth/signup.ts:13-19 | a password of four emoji, four characters but eight code units, passes the 8-character check and creates an account |
| Signup.Handle | app/api/auth/signup.ts:5-63 | an account is created exactly when the request meets every rule; a short trimmed username is refused exactly when the earlier checks pass; the status is 201, 405 or 422, and 405 exactly for a method other than POST |
| Signup.CorrectionOnlyRefusesUsernames | app/api/auth/signup.ts:29-35 | the corrected handler differs only by refusing short usernames that were created or refused for a mismatch |
| Signup.ServiceOutcomeIgnored | app/api/auth/signup.ts:45-63 | the account service's outcome never changes the response |

## Left out

- Rendering, layout and scene plumbing are left out because they hold no rule beyond the ones modelled. This covers sprites, tweens, text and the Phaser lifecycle in both `PokerGame.ts` scenes, the seat coordinates of `getPlayerPosition` (floating-point geometry; only its relative-seat index is modelled) and the token positions of `displayPlayerTokens` (only which seats get the tokens is modelled).
- Colyseus transport, `Schema` decorators and message registration are left out. Each handler is a pure transition, the messages are the `PokerRoom.Event` values, and `ClientScene.Dispatch` stands for the registration table.
- Randomness is a parameter, because `Math.random` cannot be modelled. The shuffle's picks are a sequence `js`, and `dealToPlayers`' `new Deck(true)` is the deck given to `PokerRoom.StartNewRound`. `PokerRoom.ShuffledDeckIsFull` ties the two together. `generateRandomSuit`, `generateRandomRank` and `generateRandomHand` are not modelled.
- Floating point is left out. Hand scores and kicker weights are exact scaled integers, and their formulas are finite decimals. The room's chips are integers. The client's payout shares are exact reals. The client `Hand`'s `valueOf`/`toString` and `bestHandValueToString`'s number formatting are not modelled.
- The account service call in `signup.ts` is a boolean parameter, because it is I/O. The model proves that the call never changes the response. The `dob` field is not read, because only the call uses it.
- Signup.Handle and Signup.HandleAsWritten take every present body field as a string. A non-string field (a number, say), where `.trim()` or `.includes` would behave differently, is not modelled.
- PokerRoom.HandleWinner carries no contract of its own, because it is `PokerRoom.Pay` with the cards kept, and `Pay` states what it does.
- PokerRoom.Showdown states only chip conservation. Which seat is paid is stated by `PokerRoom.AwardPaysBest`, and `PokerRoom.ReplaySteady` shows that the room never enters this branch.
- The turn and the dealer index are natural numbers: the room only ever stores non-negative integers there, so JavaScript's remainder on negative or fractional numbers is not needed.
- `checkForAllInPlayer`, `Sidepot`, `User`, `Player.getChips`, `iterateBoard` and `rankHand` are not modelled: they are field bookkeeping or unused helpers with no rule to state. `sortNumber` is modelled only as the descending order in which `ClientUtils.RankKickers` sums the weights.
- ClientProgress.Progress models `progress` as evidently intended, and so does every member it is built from. It takes `table.game` to be the round, with a list deck that `pop` takes the last card from. It sweeps the bets with `ClientProgress.Sweep` rather than the `NaN`-producing `ClientProgress.SweepAsWritten`, and it settles the river with the corrected `ClientRound.CheckForBankrupt`. As written, a `Table` has no `game`, the client `Deck` has no `pop`, and the first sweep is `NaN`. `ClientProgress.ProgressAsWritten` states that behaviour.
- ClientProgress.Pop, ClientProgress.Turn, ClientProgress.BurnAndTurn, ClientProgress.BurnAndTurnKeepsCards and ClientProgress.Revealed model `deck.pop()` on a list of cards. The client `Deck` has no `pop`, so as written the first call throws.
- ClientProgress.Street and ClientProgress.StreetMovesCards model a street change as intended. As written it throws at its first `pop`.
- ClientProgress.Showdown uses the intended sweep and the corrected `checkForBankrupt`. As written, the contributions are `NaN` after the first sweep, and the bankrupt check throws on a `Table`.
- ClientProgress.ProgressAtEndOfRound and ClientProgress.ProgressConservesChips are about the intended `ClientProgress.Progress`, not the code as written.
- ClientProgress.ProgressAsWritten settles a closed river, or a round of any other name, as the intended `Progress` does. It does not model the `NaN` contributions there. `ClientProgress.ProgressAsWrittenStaysInDeal` shows that no round as written reaches those names. When the code throws, the changes it made before the throw are dropped: the pot, the contributions, the current player and the round name.
- ClientRound.CheckForEndOfRound and ClientRound.CheckForWinner read `table.currentRound.bets` and `table.currentRound.roundBets` as the round's own `bets` and `roundBets`. `Table` declares `currentRound`, but nothing assigns it. As written, then, those reads fail on any table the code builds.
- ClientRound.BankruptSkipsNeighbour is about an object that carries a `gameLosers` list, which no `Table` does. On a `Table`, `ClientRound.CheckForBankruptAsWritten` throws at the first broke player instead.
- ClientCards.RankToInitial fails on every string that is not a rank word. The code's `rank in rankMap` is also true for names the object inherits, such as `"toString"`, and then returns that inherited member instead of throwing. The parameter is typed `Rank`, so only untyped callers could pass such a name.
- The player records of `ClientRound` and `ClientProgress` are taken as given. As written, the `Player` constructor gives every player `new Hand([])`, and ranking that empty hand throws (`ClientHand.NewPlayerHandThrows`), so no `Player` can be created.
- Hole-card confidentiality in the room's state snapshots is not modelled: the room sends its whole state and the transport is not modelled.

## Findings

| source | as written | input that shows it | evidently intended | confidence | as-written member | corrected member |
|---|---|---|---|---|---|---|
| game/client/lib/classes.ts:734 | `checkForBankrupt` pushes onto `table.gameLosers`, which a `Table` does not have | players with chips 100, 0: the check throws at the broke player | every player without chips leaves the table | not executed | ClientRound.BankruptThrowsOnTable | ClientRound.BankruptClearsBoth |
| game/client/lib/classes.ts:730-739 | `checkForBankrupt` splices a broke player out while its index keeps counting up | on an object with a `gameLosers` list, players with chips 0, 0, 100: the second broke player is skipped and stays at the table | every player without chips leaves the table | not executed | ClientRound.BankruptSkipsNeighbour | ClientRound.BankruptClearsBoth |
| game/client/lib/utils.ts:350 | `progress` calls `table.game.deck.pop()`, but the client `Deck` has only `draw` | a round at the deal whose betting closes: the call throws and no card is dealt | each street burns one card and turns its cards | not executed | ClientProgress.ProgressAsWrittenNeverDeals | ClientProgress.ProgressAtEndOfRound |
| game/client/lib/utils.ts:333 | `roundBets[i] += bets[i]` on the `roundBets = []` a round starts with | the first sweep of any round, bets 10 and 20: every contribution becomes `NaN` | a missing contribution counts as 0 | not executed | ClientProgress.FirstSweepIsNaN | ClientProgress.SweepSum |
| game/server/rooms/PokerRoom.ts:49-55 | the "ready" handler runs `checkGameStart` in any phase, and every active seat is still ready during a hand | a "ready" from a seated player while the room is betting with a pot of 15: the round restarts and the pot is zeroed | a round starts only from the waiting phase | not executed | PokerRoom.ReadyMidHandLosesPot | PokerRoom.ReadyWhenWaitingKeepsChips |
| app/api/auth/signup.ts:29 | `username.trim().lengh < 4` reads a property that does not exist, so the test is `undefined < 4`, which is false | username "ab" with an otherwise valid request: the account is created | a trimmed username shorter than 4 characters is refused with 422 | not executed | Signup.ShortUsernameAccepted | Signup.CorrectionOnlyRefusesUsernames |

=== FILE: cards.dfy ===
/** The card vocabulary shared by the server and the client: ranks (with the
    client's extra `wild` rank), suits, cards, the rank-to-value table and the
    two-character card name. */
module Cards {

  datatype Rank = Two | Three | Four | Five | Six | Seven | Eight | Nine | Ten
                | Jack | Queen | King | Ace | Wild

  datatype Suit = Hearts | Diamonds | Clubs | Spades

  datatype Card = Card(rank: Rank, suit: Suit)

  /** The thirteen ranks a deck is built from, lowest first (the client deck's order). */
  const StandardRanks: seq<Rank> :=
    [Two, Three, Four, Five, Six, Seven, Eight, Nine, Ten, Jack, Queen, King, Ace]

  /** The suits in the order both decks are built: hearts, diamonds, clubs, spades. */
  const DeckSuits: seq<Suit> := [Hearts, Diamonds, Clubs, Spades]

  /** The `rankToValue` table: ace high, wild = 100. */
  function RankToValue(r: Rank): (v: int)
    ensures r == Wild <==> v == 100
    ensures r != Wild ==> 2 <= v <= 14
  {
    match r
    case Two => 2
    case Three => 3
    case Four => 4
    case Five => 5
    case Six => 6
    case Seven => 7
    case Eight => 8
    case Nine => 9
    case Ten => 10
    case Jack => 11
    case Queen => 12
    case King => 13
    case Ace => 14
    case Wild => 100
  }

  /** Distinct ranks have distinct values. */
  lemma RankToValueInjective(r1: Rank, r2: Rank)
    requires RankToValue(r1) == RankToValue(r2)
    ensures r1 == r2
  {
  }

  /** A card every constructor can produce: none of them yields a wild card. */
  predicate IsStandard(c: Card) {
    c.rank != Wild
  }

  function Value(c: Card): int {
    RankToValue(c.rank)
  }

  /** `rankToInitial`: the rank character of a card name (wild is `W`). */
  function RankInitial(r: Rank): char {
    match r
    case Two => '2'
    case Three => '3'
    case Four => '4'
    case Five => '5'
    case Six => '6'
    case Seven => '7'
    case Eight => '8'
    case Nine => '9'
    case Ten => 'T'
    case Jack => 'J'
    case Queen => 'Q'
    case King => 'K'
    case Ace => 'A'
    case Wild => 'W'
  }

  /** `suitToInitial`: the suit character of a card name. */
  function SuitInitial(s: Suit): char {
    match s
    case Hearts => 'H'
    case Diamonds => 'D'
    case Clubs => 'C'
    case Spades => 'S'
  }

  /** The canonical two-character name, rank character first. */
  function Name(c: Card): string {
    [RankInitial(c.rank), SuitInitial(c.suit)]
  }

  /** Different cards have different names. */
  lemma NameInjective(c1: Card, c2: Card)
    requires Name(c1) == Name(c2)
    ensures c1 == c2
  {
    assert Name(c1)[0] == Name(c2)[0] && Name(c1)[1] == Name(c2)[1];
  }
}

=== FILE: client_cards.dfy ===
/** The client's `Card` and `Deck` classes (game/client/lib/classes.ts) and the
    card-name helpers of game/client/lib/utils.ts they lean on.

    A client card is named by words (`'ace'`, `'hearts'`) as well as by its
    two-character name, and its constructor accepts either a card name or a
    rank and a suit, given as words or as a rank value, in either order. */
module ClientCards {
  import opened Wrappers
  import opened Cards
  import opened Sequences
  import opened Text
  import Constants
  import ServerPoker
  import ClientHand

  // ---------------------------------------------------------------- words

  /** The `Rank` type's words. */
  function RankWord(r: Rank): string {
    match r
    case Two => "two"
    case Three => "three"
    case Four => "four"
    case Five => "five"
    case Six => "six"
    case Seven => "seven"
    case Eight => "eight"
    case Nine => "nine"
    case Ten => "ten"
    case Jack => "jack"
    case Queen => "queen"
    case King => "king"
    case Ace => "ace"
    case Wild => "wild"
  }

  /** The `Suit` type's words. */
  function SuitWord(s: Suit): string {
    match s
    case Hearts => "hearts"
    case Diamonds => "diamonds"
    case Clubs => "clubs"
    case Spades => "spades"
  }

  /** The rank a word names, if any. */
  function RankOfWord(w: string): (r: Option<Rank>)
    ensures r.Some? ==> RankWord(r.value) == w
    ensures forall k :: RankWord(k) == w ==> r == Some(k)
  {
    if w == "two" then Some(Two)
    else if w == "three" then Some(Three)
    else if w == "four" then Some(Four)
    else if w == "five" then Some(Five)
    else if w == "six" then Some(Six)
    else if w == "seven" then Some(Seven)
    else if w == "eight" then Some(Eight)
    else if w == "nine" then Some(Nine)
    else if w == "ten" then Some(Ten)
    else if w == "jack" then Some(Jack)
    else if w == "queen" then Some(Queen)
    else if w == "king" then Some(King)
    else if w == "ace" then Some(Ace)
    else if w == "wild" then Some(Wild)
    else None
  }

  /** The suit a word names, if any. */
  function SuitOfWord(w: string): (r: Option<Suit>)
    ensures r.Some? ==> SuitWord(r.value) == w
    ensures forall k :: SuitWord(k) == w ==> r == Some(k)
  {
    if w == "hearts" then Some(Hearts)
    else if w == "diamonds" then Some(Diamonds)
    else if w == "clubs" then Some(Clubs)
    else if w == "spades" then Some(Spades)
    else None
  }

  /** No word names both a rank and a suit. */
  lemma WordsDisjoint(r: Rank, s: Suit)
    ensures RankWord(r) != SuitWord(s)
    ensures SuitOfWord(RankWord(r)) == None && RankOfWord(SuitWord(s)) == None
  {
  }

  // ---------------------------------------------------------------- conversions

  /** The messages the client's conversions throw, before the bad input. */
  const InvalidRankValue := "Invalid rank value: "
  const InvalidRank := "Invalid rank: "
  const InvalidRankName := "Invalid rank name: "
  const InvalidSuit := "Invalid suit: "
  const InvalidSuitName := "Invalid suit name: "

  /** `rankToValue`: the value of a rank word; anything else, `undefined`
      included (printed `"undefined"`), throws. */
  function RankToValueOf(rank: string): (r: Result<int>)
    ensures r.Ok? <==> RankOfWord(rank).Some?
    ensures r.Ok? ==> r.value == RankToValue(RankOfWord(rank).value)
    ensures r.Err? ==> r.msg == InvalidRankValue + rank
  {
    match RankOfWord(rank)
    case Some(k) => Ok(RankToValue(k))
    case None => Err(InvalidRankValue + rank)
  }

  /** `rankFromValue`: the rank of a value in 2..14 or 100; any other number throws. */
  function RankFromValue(value: int): (r: Result<Rank>)
    ensures r.Ok? <==> 2 <= value <= 14 || value == 100
    ensures r.Ok? ==> RankToValue(r.value) == value
    ensures r.Err? ==> r.msg == InvalidRankValue + Decimal(value)
  {
    if value == 2 then Ok(Two)
    else if value == 3 then Ok(Three)
    else if value == 4 then Ok(Four)
    else if value == 5 then Ok(Five)
    else if value == 6 then Ok(Six)
    else if value == 7 then Ok(Seven)
    else if value == 8 then Ok(Eight)
    else if value == 9 then Ok(Nine)
    else if value == 10 then Ok(Ten)
    else if value == 11 then Ok(Jack)
    else if value == 12 then Ok(Queen)
    else if value == 13 then Ok(King)
    else if value == 14 then Ok(Ace)
    else if value == 100 then Ok(Wild)
    else Err(InvalidRankValue + Decimal(value))
  }

  /** `rankFromValue(rankToValue(r)) = r` for all fourteen ranks, and
      `rankToValue(rankFromValue(v)) = v` wherever `rankFromValue` succeeds. */
  lemma RankValueRoundTrips(k: Rank, v: int)
    ensures RankFromValue(RankToValue(k)) == Ok(k)
    ensures RankToValueOf(RankWord(k)) == Ok(RankToValue(k))
    ensures RankFromValue(v).Ok? ==> RankToValueOf(RankWord(RankFromValue(v).value)) == Ok(v)
  {
    var r := RankFromValue(RankToValue(k));
    RankToValueInjective(r.value, k);
  }

  /** `rankToInitial`: the rank character of a rank word, `W` for wild; any
      other string throws. */
  function RankToInitial(rank: string): (r: Result<char>)
    ensures r.Ok? <==> RankOfWord(rank).Some?
    ensures r.Ok? ==> r.value == RankInitial(RankOfWord(rank).value)
    ensures r.Err? ==> r.msg == InvalidRank + rank
  {
    match RankOfWord(rank)
    case Some(k) => Ok(RankInitial(k))
    case None => Err(InvalidRank + rank)
  }

  /** `suitToInitial`: the suit character of a suit word; any other string throws. */
  function SuitToInitial(suit: string): (r: Result<char>)
    ensures r.Ok? <==> SuitOfWord(suit).Some?
    ensures r.Ok? ==> r.value == SuitInitial(SuitOfWord(suit).value)
    ensures r.Err? ==> r.msg == InvalidSuit + suit
  {
    match SuitOfWord(suit)
    case Some(k) => Ok(SuitInitial(k))
    case None => Err(InvalidSuit + suit)
  }

  /** `getNameFromRankAndSuit`: the rank is converted first, so a bad rank
      word is reported even when the suit word is bad too. */
  function NameFromRankAndSuit(rank: string, suit: string): (r: Result<string>)
    ensures r.Ok? <==> RankOfWord(rank).Some? && SuitOfWord(suit).Some?
    ensures r.Ok? ==> r.value == Name(Card(RankOfWord(rank).value, SuitOfWord(suit).value))
    ensures RankOfWord(rank).None? ==> r == Err(InvalidRank + rank)
    ensures RankOfWord(rank).Some? && SuitOfWord(suit).None? ==> r == Err(InvalidSuit + suit)
  {
    match RankToInitial(rank)
    case Err(m) => Err(m)
    case Ok(rc) =>
      match SuitToInitial(suit)
      case Err(m) => Err(m)
      case Ok(sc) => Ok([rc, sc])
  }

  /** `rankFromName`: the rank a rank character names, case-sensitively. */
  function RankFromName(name: string): (r: Result<Rank>)
    ensures r.Ok? <==> |name| == 1 && name[0] in Constants.RankChars
    ensures r.Ok? ==> r.value != Wild && [RankInitial(r.value)] == name
    ensures r.Err? ==> r.msg == InvalidRankName + name
  {
    if name == "A" then Ok(Ace)
    else if name == "2" then Ok(Two)
    else if name == "3" then Ok(Three)
    else if name == "4" then Ok(Four)
    else if name == "5" then Ok(Five)
    else if name == "6" then Ok(Six)
    else if name == "7" then Ok(Seven)
    else if name == "8" then Ok(Eight)
    else if name == "9" then Ok(Nine)
    else if name == "T" then Ok(Ten)
    else if name == "J" then Ok(Jack)
    else if name == "Q" then Ok(Queen)
    else if name == "K" then Ok(King)
    else Err(InvalidRankName + name)
  }

  /** `suitFromName`: the suit a suit character names, case-sensitively. */
  function SuitFromName(name: string): (r: Result<Suit>)
    ensures r.Ok? <==> |name| == 1 && name[0] in Constants.SuitChars
    ensures r.Ok? ==> [SuitInitial(r.value)] == name
    ensures r.Err? ==> r.msg == InvalidSuitName + name
  {
    if name == "H" then Ok(Hearts)
    else if name == "D" then Ok(Diamonds)
    else if name == "C" then Ok(Clubs)
    else if name == "S" then Ok(Spades)
    else Err(InvalidSuitName + name)
  }

  /** `getRankAndSuitFromName`: the rank from the first character, then the
      suit from the second, each by the tables above. */
  function RankAndSuitFromName(name: string): (r: Result<Card>)
    ensures r.Ok? <==> |name| >= 2 && name[0] in Constants.RankChars && name[1] in Constants.SuitChars
    ensures r.Ok? ==> IsStandard(r.value) && Name(r.value) == name[..2]
  {
    match RankFromName(ServerPoker.CharAt(name, 0))
    case Err(m) => Err(m)
    case Ok(k) =>
      match SuitFromName(ServerPoker.CharAt(name, 1))
      case Err(m) => Err(m)
      case Ok(s) => Ok(Card(k, s))
  }

  /** Reading a card name and writing the card back gives the same name, for
      every one of the 52 names. */
  lemma NameRoundTrip(n: string)
    requires n in Constants.AllCardNames
    ensures RankAndSuitFromName(n).Ok?
    ensures NameFromRankAndSuit(RankWord(RankAndSuitFromName(n).value.rank),
                                SuitWord(RankAndSuitFromName(n).value.suit)) == Ok(n)
  {
    Constants.AllCardNamesSuitMajor();
    var k :| 0 <= k < 52 && Constants.AllCardNames[k] == n;
    assert |n| == 2 && n[0] in Constants.RankChars && n[1] in Constants.SuitChars;
    var c := RankAndSuitFromName(n).value;
    assert n[..2] == n;
  }

  /** And writing a standard card's name and reading it gives the card. */
  lemma CardRoundTrip(c: Card)
    requires IsStandard(c)
    ensures NameFromRankAndSuit(RankWord(c.rank), SuitWord(c.suit)) == Ok(Name(c))
    ensures RankAndSuitFromName(Name(c)) == Ok(c)
  {
    assert Constants.RankChars[Constants.RankCharIndex(c.rank)] == RankInitial(c.rank);
    assert Constants.SuitChars[Constants.SuitIndex(c.suit)] == SuitInitial(c.suit);
    var r := RankAndSuitFromName(Name(c));
    assert Name(c)[..2] == Name(c);
    NameInjective(r.value, c);
  }

  // ---------------------------------------------------------------- the Card constructor

  /** An argument as JavaScript passes it: a string, a number, or nothing. */
  datatype Arg = Str(s: string) | Num(n: int) | Missing

  /** A fully built client card. */
  datatype ClientCard = ClientCard(card: Card, value: int, name: string)

  /** What `new Card(arg1, arg2)` leaves: a card, an object whose fields were
      never assigned (no branch of the constructor applied), or an exception. */
  datatype Outcome = Built(c: ClientCard) | Blank | Throws(msg: string)

  /** The card built from a standard card: its value and canonical name. */
  function ClientCardOf(c: Card): ClientCard {
    ClientCard(c, RankToValue(c.rank), Name(c))
  }

  /** utils.ts `isCardName`: one of the 52 names (the same list as `ALL_CARD_NAMES`). */
  predicate IsCardName(a: Arg) {
    a.Str? && a.s in Constants.AllCardNames
  }

  /** `isCardName` holds exactly for a rank character followed by a suit character. */
  lemma IsCardNameIff(a: Arg)
    ensures IsCardName(a) <==> a.Str? && |a.s| == 2 && a.s[0] in Constants.RankChars && a.s[1] in Constants.SuitChars
  {
    if a.Str? {
      Constants.CardNameIff(a.s);
    }
  }

  /** utils.ts `isRankOrSuit`: a suit word, a rank word other than `wild`, or a number 2..14. */
  predicate IsRankOrSuit(a: Arg) {
    match a
    case Str(s) => SuitOfWord(s).Some? || (RankOfWord(s).Some? && RankOfWord(s).value != Wild)
    case Num(n) => 2 <= n <= 14
    case Missing => false
  }

  /** `isSuit`: a suit word. */
  predicate IsSuit(a: Arg) {
    a.Str? && SuitOfWord(a.s).Some?
  }

  /** The words the card gets, or the exception that stops it. */
  function Finish(rank: string, suit: string): (r: Outcome)
    ensures r.Built? <==> RankOfWord(rank).Some? && SuitOfWord(suit).Some?
    ensures r.Built? ==> r.c == ClientCardOf(Card(RankOfWord(rank).value, SuitOfWord(suit).value))
    ensures r.Throws? <==> !r.Built?
  {
    match NameFromRankAndSuit(rank, suit)
    case Err(m) => Throws(m)
    case Ok(name) =>
      var c := Card(RankOfWord(rank).value, SuitOfWord(suit).value);
      Built(ClientCard(c, RankToValueOf(rank).value, name))
  }

  /** `assignRankAndSuit`, then the `value` assignment after it. */
  function AssignRankAndSuit(a1: Arg, a2: Arg): (r: Outcome)
    requires IsRankOrSuit(a1) && IsRankOrSuit(a2)
    ensures !r.Blank?
  {
    if a1.Str? && a2.Str? then
      if IsSuit(a1) then Finish(a2.s, a1.s) else Finish(a1.s, a2.s)
    else if a1.Num? && IsSuit(a2) then Finish(RankWord(RankFromValue(a1.n).value), a2.s)
    else if IsSuit(a1) && a2.Num? then Finish(RankWord(RankFromValue(a2.n).value), a1.s)
    else
      // No branch assigned a rank: `rankToValue(undefined)` throws.
      Throws(RankToValueOf("undefined").msg)
  }

  /** `new Card(arg1, arg2)`. */
  function NewCard(a1: Arg, a2: Arg): (r: Outcome)
    ensures r.Built? ==> IsStandard(r.c.card) && 2 <= r.c.value <= 14
    ensures r.Built? ==> r.c == ClientCardOf(r.c.card)
    ensures r.Blank? <==> !IsCardName(a1) && !(IsRankOrSuit(a1) && IsRankOrSuit(a2))
    ensures IsCardName(a1) ==> r.Built? && r.c.name == a1.s
  {
    if IsCardName(a1) then
      NameRoundTrip(a1.s);
      var c := RankAndSuitFromName(a1.s).value;
      assert a1.s[..2] == a1.s by { IsCardNameIff(a1); }
      Built(ClientCard(c, RankToValueOf(RankWord(c.rank)).value, a1.s))
    else if IsRankOrSuit(a1) && IsRankOrSuit(a2) then
      var r := AssignRankAndSuit(a1, a2);
      assert r.Built? ==> r.c.card.rank != Wild by {
        if r.Built? && a1.Str? && a2.Str? {
          if IsSuit(a1) {
            assert RankOfWord(a2.s).Some?;
            WordsDisjoint(RankOfWord(a2.s).value, SuitOfWord(a1.s).value);
          }
        }
      }
      r
    else Blank
  }

  /** A card is built from its rank and suit words in either order, and from
      its value and suit word in either order. */
  lemma NewCardFromWords(c: Card)
    requires IsStandard(c)
    ensures NewCard(Str(RankWord(c.rank)), Str(SuitWord(c.suit))) == Built(ClientCardOf(c))
    ensures NewCard(Str(SuitWord(c.suit)), Str(RankWord(c.rank))) == Built(ClientCardOf(c))
    ensures NewCard(Num(RankToValue(c.rank)), Str(SuitWord(c.suit))) == Built(ClientCardOf(c))
    ensures NewCard(Str(SuitWord(c.suit)), Num(RankToValue(c.rank))) == Built(ClientCardOf(c))
  {
    NotNames(c);
    NewCardFromTwoWords(c);
    NewCardFromValueAndWord(c);
  }

  /** Neither word of a card is a card name on its own. */
  lemma NotNames(c: Card)
    requires IsStandard(c)
    ensures !IsCardName(Str(RankWord(c.rank))) && !IsCardName(Str(SuitWord(c.suit)))
  {
    WordLengths(c.rank, c.suit);
    IsCardNameIff(Str(RankWord(c.rank)));
    IsCardNameIff(Str(SuitWord(c.suit)));
  }

  /** Every rank and suit word is longer than a card name. */
  lemma WordLengths(r: Rank, s: Suit)
    ensures |RankWord(r)| >= 3 && |SuitWord(s)| >= 5
  {
  }

  lemma NewCardFromTwoWords(c: Card)
    requires IsStandard(c)
    requires !IsCardName(Str(RankWord(c.rank))) && !IsCardName(Str(SuitWord(c.suit)))
    ensures NewCard(Str(RankWord(c.rank)), Str(SuitWord(c.suit))) == Built(ClientCardOf(c))
    ensures NewCard(Str(SuitWord(c.suit)), Str(RankWord(c.rank))) == Built(ClientCardOf(c))
  {
    WordsDisjoint(c.rank, c.suit);
  }

  lemma NewCardFromValueAndWord(c: Card)
    requires IsStandard(c)
    requires !IsCardName(Str(SuitWord(c.suit)))
    ensures NewCard(Num(RankToValue(c.rank)), Str(SuitWord(c.suit))) == Built(ClientCardOf(c))
    ensures NewCard(Str(SuitWord(c.suit)), Num(RankToValue(c.rank))) == Built(ClientCardOf(c))
  {
    WordsDisjoint(c.rank, c.suit);
    RankValueRoundTrips(c.rank, 0);
  }

  /** Two words of the same kind throw: two suits fail on the rank, two ranks on the suit. */
  lemma NewCardSameKind(a1: Arg, a2: Arg)
    requires IsRankOrSuit(a1) && IsRankOrSuit(a2) && a1.Str? && a2.Str?
    ensures IsSuit(a1) && IsSuit(a2) ==> NewCard(a1, a2) == Throws(InvalidRank + a2.s)
    ensures !IsSuit(a1) && !IsSuit(a2) ==> NewCard(a1, a2) == Throws(InvalidSuit + a2.s)
  {
    IsCardNameIff(a1);
    if IsSuit(a1) && IsSuit(a2) {
      var s := SuitOfWord(a2.s).value;
      if RankOfWord(a2.s).Some? {
        WordsDisjoint(RankOfWord(a2.s).value, s);
      }
    }
    if !IsSuit(a1) && !IsSuit(a2) {
      var k := RankOfWord(a2.s).value;
      WordsDisjoint(k, Hearts);
      WordsDisjoint(k, Diamonds);
      WordsDisjoint(k, Clubs);
      WordsDisjoint(k, Spades);
    }
  }

  /** A number next to a rank word, or two numbers, match no branch of
      `assignRankAndSuit`, and the constructor throws on the undefined rank. */
  lemma NewCardWithoutSuit(n: int, a2: Arg)
    requires 2 <= n <= 14 && IsRankOrSuit(a2) && !IsSuit(a2)
    ensures NewCard(Num(n), a2) == Throws(InvalidRankValue + "undefined")
    ensures NewCard(a2, Num(n)) == Throws(InvalidRankValue + "undefined")
  {
    assert AssignRankAndSuit(Num(n), a2) == Throws(InvalidRankValue + "undefined");
    assert AssignRankAndSuit(a2, Num(n)) == Throws(InvalidRankValue + "undefined");
    NotCardName(a2);
  }

  /** A word or a number is never a card name. */
  lemma NotCardName(a: Arg)
    requires IsRankOrSuit(a)
    ensures !IsCardName(a)
  {
    if a.Str? {
      if SuitOfWord(a.s).Some? {
        WordLengths(Two, SuitOfWord(a.s).value);
      } else {
        WordLengths(RankOfWord(a.s).value, Hearts);
      }
      IsCardNameIff(a);
    }
  }

  // ---------------------------------------------------------------- the deck

  /** The standard card at position `i` of the client's deck: suit by suit,
      each suit from two up to ace. */
  function DeckCard(i: nat): (c: Card)
    requires i < 52
    ensures IsStandard(c)
  {
    Card(StandardRanks[i % 13], DeckSuits[i / 13])
  }

  /** `generateDeck`: `new Card(suit, rank)` for every suit and rank, in order. */
  function GenerateDeck(): (deck: seq<ClientCard>)
    ensures |deck| == 52
    ensures forall i :: 0 <= i < 52 ==> deck[i] == ClientCardOf(DeckCard(i))
  {
    seq(52, i requires 0 <= i < 52 => ClientCardOf(DeckCard(i)))
  }

  /** Each entry of the deck is what `new Card(suitWord, rankWord)` builds. */
  lemma GenerateDeckEntries()
    ensures forall i :: 0 <= i < 52 ==>
              NewCard(Str(SuitWord(DeckSuits[i / 13])), Str(RankWord(StandardRanks[i % 13]))) == Built(GenerateDeck()[i])
  {
    forall i | 0 <= i < 52
      ensures NewCard(Str(SuitWord(DeckSuits[i / 13])), Str(RankWord(StandardRanks[i % 13]))) == Built(GenerateDeck()[i])
    {
      NewCardFromWords(DeckCard(i));
    }
  }

  /** The position of a standard card in the deck. */
  function DeckIndex(c: Card): (i: nat)
    requires IsStandard(c)
    ensures i < 52 && DeckCard(i) == c
  {
    var r := RankPosition(c.rank);
    var s := SuitPosition(c.suit);
    assert (s * 13 + r) % 13 == r && (s * 13 + r) / 13 == s;
    s * 13 + r
  }

  /** The position of a standard rank in `StandardRanks`. */
  function RankPosition(r: Rank): (k: nat)
    requires r != Wild
    ensures k < 13 && StandardRanks[k] == r
  {
    match r
    case Two => 0 case Three => 1 case Four => 2 case Five => 3 case Six => 4
    case Seven => 5 case Eight => 6 case Nine => 7 case Ten => 8 case Jack => 9
    case Queen => 10 case King => 11 case Ace => 12
  }

  /** The position of a suit in `DeckSuits`. */
  function SuitPosition(s: Suit): (k: nat)
    ensures k < 4 && DeckSuits[k] == s
  {
    match s case Hearts => 0 case Diamonds => 1 case Clubs => 2 case Spades => 3
  }

  /** Every position of `StandardRanks` is the position of its rank. */
  lemma RankPositionOf(m: nat)
    requires m < 13
    ensures RankPosition(StandardRanks[m]) == m
  {
    if m == 0 {} else if m == 1 {} else if m == 2 {} else if m == 3 {} else if m == 4 {}
    else if m == 5 {} else if m == 6 {} else if m == 7 {} else if m == 8 {} else if m == 9 {}
    else if m == 10 {} else if m == 11 {} else {}
  }

  /** Every position of `DeckSuits` is the position of its suit. */
  lemma SuitPositionOf(m: nat)
    requires m < 4
    ensures SuitPosition(DeckSuits[m]) == m
  {
    if m == 0 {} else if m == 1 {} else if m == 2 {} else {}
  }

  lemma DeckIndexOfDeckCard(i: nat)
    requires i < 52
    ensures DeckIndex(DeckCard(i)) == i
  {
    DeckCardInjective(DeckIndex(DeckCard(i)), i);
  }

  /** Different positions of the deck hold different cards. */
  lemma DeckCardInjective(i: nat, j: nat)
    requires i < 52 && j < 52 && DeckCard(i) == DeckCard(j)
    ensures i == j
  {
    RankPositionOf(i % 13);
    RankPositionOf(j % 13);
    SuitPositionOf(i / 13);
    SuitPositionOf(j / 13);
    assert i == (i / 13) * 13 + i % 13 && j == (j / 13) * 13 + j % 13;
  }

  /** A fresh client deck holds each of the 52 standard cards exactly once,
      under pairwise-distinct names. */
  lemma GenerateDeckProperties()
    ensures Distinct(GenerateDeck())
    ensures forall i, j :: 0 <= i < j < 52 ==> GenerateDeck()[i].name != GenerateDeck()[j].name
    ensures forall c :: IsStandard(c) ==> ClientCardOf(c) in GenerateDeck()
  {
    var d := GenerateDeck();
    forall i, j | 0 <= i < j < 52 ensures d[i].name != d[j].name {
      DeckIndexOfDeckCard(i);
      DeckIndexOfDeckCard(j);
      if d[i].name == d[j].name {
        NameInjective(DeckCard(i), DeckCard(j));
      }
    }
    forall c | IsStandard(c) ensures ClientCardOf(c) in d {
      assert d[DeckIndex(c)] == ClientCardOf(c);
    }
  }

  /** `shuffleDeck`: the same Fisher–Yates loop as the server's, over cards. */
  function ShuffleDeck(deck: seq<ClientCard>, js: seq<nat>): (r: seq<ClientCard>)
    requires ServerPoker.ValidSwaps(js, |deck|)
    ensures multiset(r) == multiset(deck)
  {
    ServerPoker.Shuffle(deck, js)
  }

  /** `new Deck(autoShuffle)`: a fresh deck, shuffled when asked. */
  function NewDeck(autoShuffle: bool, js: seq<nat>): (deck: seq<ClientCard>)
    requires ServerPoker.ValidSwaps(js, 52)
    ensures multiset(deck) == multiset(GenerateDeck())
    ensures !autoShuffle ==> deck == GenerateDeck()
    ensures Distinct(deck)
  {
    GenerateDeckProperties();
    ServerPoker.ShuffleKeepsDistinct(GenerateDeck(), js);
    if autoShuffle then ShuffleDeck(GenerateDeck(), js) else GenerateDeck()
  }

  datatype DrawnCard = DrawnCard(card: ClientCard, rest: seq<ClientCard>)

  /** `Deck.draw`: throws on an empty deck, else pops the last card. */
  function Draw(deck: seq<ClientCard>): (r: Result<DrawnCard>)
    ensures r.Err? <==> |deck| == 0
    ensures r.Err? ==> r.msg == "Not enough cards to draw."
    ensures r.Ok? ==> deck == r.value.rest + [r.value.card]
  {
    if |deck| < 1 then Err("Not enough cards to draw.")
    else Ok(DrawnCard(deck[|deck| - 1], deck[..|deck| - 1]))
  }

  datatype Dealt = Dealt(hand: ClientHand.ClientHandValue, rest: seq<ClientCard>)

  function CardsOf(cs: seq<ClientCard>): (r: seq<Card>)
    ensures |r| == |cs| && forall i :: 0 <= i < |cs| ==> r[i] == cs[i].card
  {
    seq(|cs|, i requires 0 <= i < |cs| => cs[i].card)
  }

  /** `Deck.dealHand`: throws below five cards, else splices the first five
      off the deck into a new, ranked `Hand`. */
  function DealHand(deck: seq<ClientCard>): (r: Result<Dealt>)
    ensures r.Err? <==> |deck| < 5
    ensures r.Err? ==> r.msg == "Not enough cards to deal a hand."
    ensures r.Ok? ==> r.value.hand.cards == CardsOf(deck[..5]) && r.value.rest == deck[5..]
    ensures r.Ok? ==> r.value.hand.rank == ClientHand.RankCards(CardsOf(deck[..5])).value
  {
    if |deck| < 5 then Err("Not enough cards to deal a hand.")
    else
      var h := ClientHand.NewHand(CardsOf(deck[..5]));
      Ok(Dealt(h.value, deck[5..]))
  }
}

=== FILE: client_hand.dfy ===
/** The client's two evaluators: `Hand.rankCards` (game/client/lib/classes.ts)
    and `evaluateHand` (game/client/lib/utils.ts). They share one chain and
    differ only in which sorted value breaks ties between straights and
    flushes: the fifth lowest for `rankCards`, the lowest for `evaluateHand`.

    Both count suits in a four-slot array indexed by `suitValue()`, which runs
    from 1 to 4; the spade slot lies past the end and becomes `NaN`. */
module ClientHand {
  import opened Cards
  import opened Sequences
  import opened Wrappers
  import opened HandRanking

  /** `Card.suitValue()`: hearts 1, diamonds 2, clubs 3, spades 4. */
  function SuitValue(s: Suit): (k: nat)
    ensures 1 <= k <= 4
    ensures k == 4 <==> s == Spades
  {
    match s
    case Hearts => 1
    case Diamonds => 2
    case Clubs => 3
    case Spades => 4
  }

  /** `suitValue` is one-to-one. */
  lemma SuitValueInjective(s1: Suit, s2: Suit)
    requires SuitValue(s1) == SuitValue(s2)
    ensures s1 == s2
  {
  }

  /** One slot of the suit-counter array: a tally, or `NaN` once `undefined`
      has been incremented. */
  datatype Slot = Tally(n: nat) | NaNTally

  /** `suits[i]++`: a tally goes up by one, `NaN` stays `NaN`, and the slot
      just past the end is `undefined`, which becomes `NaN`. */
  function Bump(counts: seq<Slot>, i: nat): (r: seq<Slot>)
    requires i <= |counts|
  {
    if i < |counts| then
      counts[i := match counts[i] case Tally(n) => Tally(n + 1) case NaNTally => NaNTally]
    else counts + [NaNTally]
  }

  /** The number of cards of suit `s`. */
  function SuitCount(cards: seq<Card>, s: Suit): nat {
    if |cards| == 0 then 0
    else SuitCount(cards[..|cards| - 1], s) + (if cards[|cards| - 1].suit == s then 1 else 0)
  }

  /** The cards' suits, in order. */
  function Suits(cards: seq<Card>): (r: seq<Suit>)
    ensures |r| == |cards| && forall i :: 0 <= i < |cards| ==> r[i] == cards[i].suit
  {
    seq(|cards|, i requires 0 <= i < |cards| => cards[i].suit)
  }

  /** Counting a suit card by card gives its multiplicity among the suits. */
  lemma {:induction false} SuitCountIsMultiplicity(cards: seq<Card>, s: Suit)
    ensures SuitCount(cards, s) == multiset(Suits(cards))[s]
  {
    if |cards| > 0 {
      var init := cards[..|cards| - 1];
      SuitCountIsMultiplicity(init, s);
      assert Suits(cards) == Suits(init) + [cards[|cards| - 1].suit];
    }
  }

  predicate HasSpade(cards: seq<Card>) {
    exists i :: 0 <= i < |cards| && cards[i].suit == Spades
  }

  /** The `reduce` over the cards that fills `[0, 0, 0, 0]`: slot 0 is never
      touched, slots 1..3 count hearts, diamonds and clubs, and the first
      spade appends a fifth slot that is `NaN` from then on. */
  function SuitCounts(cards: seq<Card>): (r: seq<Slot>)
    ensures |r| == (if HasSpade(cards) then 5 else 4)
    ensures r[0] == Tally(0)
    ensures forall s :: s != Spades ==> r[SuitValue(s)] == Tally(SuitCount(cards, s))
    ensures HasSpade(cards) ==> r[4] == NaNTally
  {
    if |cards| == 0 then [Tally(0), Tally(0), Tally(0), Tally(0)]
    else
      var init := cards[..|cards| - 1];
      var last := cards[|cards| - 1];
      var prev := SuitCounts(init);
      assert HasSpade(cards) <==> HasSpade(init) || last.suit == Spades by {
        if HasSpade(init) {
          var i :| 0 <= i < |init| && init[i].suit == Spades;
          assert cards[i] == init[i];
        }
        if HasSpade(cards) && !HasSpade(init) {
          var i :| 0 <= i < |cards| && cards[i].suit == Spades;
          assert forall k :: 0 <= k < |init| ==> init[k] == cards[k];
        }
      }
      Bump(prev, SuitValue(last.suit))
  }

  /** `suits.indexOf(5) >= 0`. */
  predicate ClientFlush(cards: seq<Card>) {
    var counts := SuitCounts(cards);
    exists i :: 0 <= i < |counts| && counts[i] == Tally(5)
  }

  /** The client's flush test holds exactly when hearts, diamonds or clubs
      number exactly five: spades are never a flush, nor are six of a suit. */
  lemma ClientFlushIff(cards: seq<Card>)
    ensures ClientFlush(cards) <==> exists s :: s != Spades && SuitCount(cards, s) == 5
  {
    var counts := SuitCounts(cards);
    if ClientFlush(cards) {
      var i :| 0 <= i < |counts| && counts[i] == Tally(5);
      assert i != 0 && i != 4;
      var s := if i == 1 then Hearts else if i == 2 then Diamonds else Clubs;
      assert SuitValue(s) == i;
      assert counts[SuitValue(s)] == Tally(SuitCount(cards, s));
      assert s != Spades && SuitCount(cards, s) == 5;
    }
    if exists s :: s != Spades && SuitCount(cards, s) == 5 {
      var s :| s != Spades && SuitCount(cards, s) == 5;
      var i := SuitValue(s);
      assert 0 <= i < |counts| && counts[i] == Tally(5);
    }
  }

  /** `"a" + values[tie] / 100` for the straight and flush branches; `NaN`
      when the hand has no card at `tie`. */
  function TieScore(category: int, v: seq<int>, tie: nat): Score {
    if tie < |v| then Finite(HandValue(category, v[tie], 0)) else NaN
  }

  /** The evaluation chain shared by `rankCards` and `evaluateHand`, on the
      ascending values `v`, with `tie` the position whose value breaks ties
      between straight flushes, flushes and straights. Unlike the server's
      chain, three of a kind and one pair also ask that the second bar hold a
      single card, and a high card scores the highest value. */
  function ClientChain(v: seq<int>, flush: bool, tie: nat): (r: Result<Score>)
    ensures r.Err? <==> |v| == 0 || (|v| == 3 && Count(v, v[0]) == 3) || (|v| == 2 && v[0] == v[1] && !flush)
    ensures r.Err? ==> r.msg == ReadOfUndefined
    ensures |v| >= 5 && tie < 5 ==> r.Ok? && r.value.Finite?
    ensures r.Ok? && r.value.Finite? && (forall i :: 0 <= i < |v| ==> 2 <= v[i] <= 14) ==>
              WellFormed(r.value.value)
    ensures |v| > 0 && r.Ok? && r.value.Finite? && r.value.value.category in {3, 7} ==>
              SecondGroup(v).Some? && SecondGroup(v).value.count == 2
  {
    if |v| == 0 then Err(ReadOfUndefined)
    else
      var straight := |v| >= 5 && IsStraight(v);
      var wheel := |v| >= 5 && IsWheel(v);
      var top := TopGroup(v);
      var second := SecondGroup(v);
      SecondGroupPresentWhenRead(v);
      if straight && flush && v[4] == 14 && !wheel then Ok(Finite(HandValue(10, 0, 0)))
      else if straight && flush then Ok(TieScore(9, v, tie))
      else if top.count == 4 then Ok(Finite(HandValue(8, top.value, 0)))
      else if top.count == 3 && second.None? then Err(ReadOfUndefined)
      else if top.count == 3 && second.value.count == 2 then
        Ok(Finite(HandValue(7, top.value, second.value.value)))
      else if flush then Ok(TieScore(6, v, tie))
      else if straight then Ok(TieScore(5, v, tie))
      else if top.count == 3 && second.value.count == 1 then Ok(Finite(HandValue(4, top.value, 0)))
      else if top.count == 2 && second.None? then Err(ReadOfUndefined)
      else if top.count == 2 && second.value.count == 2 then
        Ok(Finite(HandValue(3, top.value, second.value.value)))
      else if top.count == 2 && second.value.count == 1 then Ok(Finite(HandValue(2, top.value, 0)))
      else Ok(Finite(HandValue(1, top.value, 0)))
  }

  /** `Hand.rankCards` (classes.ts): ties broken by `rankedHand[4]`. */
  function RankCards(cards: seq<Card>): (r: Result<Score>)
    ensures |cards| >= 5 ==> r.Ok? && r.value.Finite?
    ensures r.Ok? && r.value.Finite? && AllStandard(cards) ==> WellFormed(r.value.value)
  {
    SortedValuesRange(cards);
    ClientChain(SortedValues(cards), ClientFlush(cards), 4)
  }

  /** `evaluateHand` (utils.ts): ties broken by `rankedHand[0]`. */
  function EvaluateHandRank(cards: seq<Card>): (r: Result<Score>)
    ensures |cards| >= 5 ==> r.Ok? && r.value.Finite?
    ensures r.Ok? && r.value.Finite? && AllStandard(cards) ==> WellFormed(r.value.value)
  {
    SortedValuesRange(cards);
    ClientChain(SortedValues(cards), ClientFlush(cards), 0)
  }

  /** A client `Hand`: its cards and the rank `rankCards` gave it on construction. */
  datatype ClientHandValue = ClientHandValue(cards: seq<Card>, rank: Score)

  /** `new Hand(cards)`: the constructor ranks the cards at once, so a hand
      whose ranking throws is never built. */
  function NewHand(cards: seq<Card>): (r: Result<ClientHandValue>)
    ensures r.Ok? <==> RankCards(cards).Ok?
    ensures r.Ok? ==> r.value.cards == cards && r.value.rank == RankCards(cards).value
  {
    match RankCards(cards)
    case Err(m) => Err(m)
    case Ok(s) => Ok(ClientHandValue(cards, s))
  }

  /** The `Player` constructor gives every new player `new Hand([])`, and
      ranking no cards reads the top bar of an empty histogram: as written,
      creating a player throws. */
  lemma NewPlayerHandThrows()
    ensures NewHand([]).Err? && NewHand([]).msg == ReadOfUndefined
  {
    assert |SortedValues([])| == 0;
  }
}

=== FILE: client_progress.dfy ===
/** `progress(table)` (game/client/lib/utils.ts): once a betting round is
    over, sweep the bets into the pot, then move to the next street, burning
    one card and turning one or three, or settle the hand after the river.

    `Progress` and the members it is built from model the evident intention:
    `table.game` is the round, and its deck is a list that `pop` takes the
    last card from. As written, a `Table` has no `game` and the client `Deck`
    has no `pop`; `ProgressAsWritten` states what the code does then. */
module ClientProgress {
  import opened Wrappers
  import opened Sequences
  import opened Cards
  import opened ClientRound

  /** The parts of the table and its current round that `progress` reads and
      writes. `board` holds `undefined` (`None`) for a card popped from an
      empty deck; `roundBets` may start shorter than `bets`. */
  datatype Game = Game(
    roundName: string,
    bets: seq<int>,
    roundBets: seq<int>,
    pot: int,
    deck: seq<Card>,
    board: seq<Option<Card>>,
    players: seq<RoundPlayer>,
    currentPlayer: int,
    currentPlayerIndex: Option<nat>,
    payouts: seq<Payout>,
    losers: seq<RoundPlayer>)

  // ---------------------------------------------------------------- sweeping bets

  /** The sweep loop as written: `roundBets[i] += bets[i]` where `roundBets[i]`
      is `undefined` gives `NaN` (`None`). */
  function SweepAsWritten(roundBets: seq<int>, bets: seq<int>): (r: seq<Option<int>>)
    ensures |r| == if |roundBets| >= |bets| then |roundBets| else |bets|
  {
    var n := if |roundBets| >= |bets| then |roundBets| else |bets|;
    seq(n, i requires 0 <= i < n =>
      if i >= |roundBets| then None
      else if i < |bets| then Some(roundBets[i] + bets[i])
      else Some(roundBets[i]))
  }

  /** A `Round` starts with `roundBets = []`, so its first sweep leaves every
      contribution `NaN`. */
  lemma FirstSweepIsNaN()
    ensures SweepAsWritten([], [10, 20]) == [None, None]
  {
  }

  /** The sweep as evidently intended: a missing contribution counts as 0. */
  function Sweep(roundBets: seq<int>, bets: seq<int>): (r: seq<int>)
    ensures |r| == if |roundBets| >= |bets| then |roundBets| else |bets|
    ensures forall i :: 0 <= i < |r| ==>
              r[i] == (if i < |roundBets| then roundBets[i] else 0) + (if i < |bets| then bets[i] else 0)
  {
    var n := if |roundBets| >= |bets| then |roundBets| else |bets|;
    seq(n, i requires 0 <= i < n =>
      (if i < |roundBets| then roundBets[i] else 0) + (if i < |bets| then bets[i] else 0))
  }

  /** The intended sweep agrees with the written one wherever that one is a number. */
  lemma SweepAgrees(roundBets: seq<int>, bets: seq<int>)
    ensures forall i :: 0 <= i < |roundBets| ==> SweepAsWritten(roundBets, bets)[i] == Some(Sweep(roundBets, bets)[i])
  {
  }

  function Pad(s: seq<int>, n: nat): (r: seq<int>)
    ensures |r| == if |s| >= n then |s| else n
    ensures forall i :: 0 <= i < |r| ==> r[i] == if i < |s| then s[i] else 0
  {
    if |s| >= n then s else s + seq(n - |s|, _ => 0)
  }

  lemma {:induction false} ZerosSum(n: nat)
    ensures Sum(seq(n, _ => 0)) == 0
  {
    if n > 0 {
      assert seq(n, _ => 0) == [0] + seq(n - 1, _ => 0);
      ZerosSum(n - 1);
    }
  }

  lemma PadSum(s: seq<int>, n: nat)
    ensures Sum(Pad(s, n)) == Sum(s)
  {
    if |s| < n {
      SumAppend(s, seq(n - |s|, _ => 0));
      ZerosSum(n - |s|);
    }
  }

  lemma {:induction false} SumPointwise(a: seq<int>, b: seq<int>, c: seq<int>)
    requires |a| == |b| == |c| && forall i :: 0 <= i < |c| ==> c[i] == a[i] + b[i]
    ensures Sum(c) == Sum(a) + Sum(b)
  {
    if |a| > 0 {
      SumPointwise(a[1..], b[1..], c[1..]);
    }
  }

  /** Every swept chip lands in the contributions. */
  lemma SweepSum(roundBets: seq<int>, bets: seq<int>)
    ensures Sum(Sweep(roundBets, bets)) == Sum(roundBets) + Sum(bets)
  {
    var r := Sweep(roundBets, bets);
    var a, b := Pad(roundBets, |r|), Pad(bets, |r|);
    PadSum(roundBets, |r|);
    PadSum(bets, |r|);
    SumPointwise(a, b, r);
  }

  // ---------------------------------------------------------------- the deck

  /** `deck.pop()`: the last card, or `undefined` from an empty deck. */
  function Pop(deck: seq<Card>): (r: (Option<Card>, seq<Card>))
    ensures |deck| > 0 ==> r == (Some(deck[|deck| - 1]), deck[..|deck| - 1])
    ensures |deck| == 0 ==> r == (None, [])
  {
    if |deck| == 0 then (None, []) else (Some(deck[|deck| - 1]), deck[..|deck| - 1])
  }

  /** `k` pops onto the board, the first popped first. */
  function Turn(deck: seq<Card>, k: nat): (r: (seq<Option<Card>>, seq<Card>))
    ensures |r.0| == k
    ensures k <= |deck| ==> r.1 == deck[..|deck| - k]
    ensures k <= |deck| ==> forall i :: 0 <= i < k ==> r.0[i] == Some(deck[|deck| - 1 - i])
  {
    if k == 0 then ([], deck)
    else
      var first := Pop(deck);
      var rest := Turn(first.1, k - 1);
      ([first.0] + rest.0, rest.1)
  }

  /** Burn one card and turn `k`. */
  function BurnAndTurn(deck: seq<Card>, k: nat): (r: (seq<Option<Card>>, seq<Card>))
    ensures |r.0| == k
    ensures k < |deck| ==> r.1 == deck[..|deck| - k - 1]
    ensures k < |deck| ==> forall i :: 0 <= i < k ==> r.0[i] == Some(deck[|deck| - 2 - i])
  {
    Turn(Pop(deck).1, k)
  }

  /** A deal that loses no card and invents none: the deck `before` is the
      deck `after`, its burnt top card and the `turned` cards. */
  predicate MovesCards(before: seq<Card>, after: seq<Card>, turned: seq<Option<Card>>)
    requires |before| > 0
  {
    multiset(before) == multiset(after) + multiset{before[|before| - 1]} + multiset(Revealed(turned))
  }

  /** Burning and turning loses no card and invents none: the deck is the
      rest, the burnt card and the turned cards. */
  lemma BurnAndTurnKeepsCards(deck: seq<Card>, k: nat)
    requires k < |deck|
    ensures var r := BurnAndTurn(deck, k); MovesCards(deck, r.1, r.0)
  {
    var r := BurnAndTurn(deck, k);
    var n := |deck|;
    var top := deck[n - k - 1..n - 1];
    RevealedIsReverse(r.0, top);
    ReverseMultiset(top);
    assert deck == r.1 + top + [deck[n - 1]];
  }

  lemma RevealedIsReverse(turned: seq<Option<Card>>, top: seq<Card>)
    requires |turned| == |top|
    requires forall i :: 0 <= i < |top| ==> turned[i] == Some(top[|top| - 1 - i])
    ensures Revealed(turned) == Reverse(top)
  {
  }

  /** The cards on a board, leaving out `undefined`s. */
  function Revealed(board: seq<Option<Card>>): (r: seq<Card>)
    ensures (forall i :: 0 <= i < |board| ==> board[i].Some?) ==>
              |r| == |board| && forall i :: 0 <= i < |board| ==> r[i] == board[i].value
  {
    if |board| == 0 then []
    else Revealed(board[..|board| - 1]) + (if board[|board| - 1].Some? then [board[|board| - 1].value] else [])
  }

  // ---------------------------------------------------------------- streets

  /** Seats wrap from the last back to the first. */
  function NextPlayer(current: int, n: int): (r: int)
    ensures 0 <= current < n ==> 0 <= r < n && r == (current + 1) % n
  {
    if current >= n - 1 then current - n + 1 else current + 1
  }

  function Zeros(n: nat): (r: seq<int>)
    ensures |r| == n && AllZero(r)
  {
    seq(n, _ => 0)
  }

  function Quiet(players: seq<RoundPlayer>): (r: seq<RoundPlayer>)
    ensures |r| == |players|
    ensures forall i :: 0 <= i < |r| ==> r[i] == players[i].(talked := false)
  {
    seq(|players|, i requires 0 <= i < |players| => players[i].(talked := false))
  }

  /** A new street: burn one, turn `k`, zero the bets, and let everyone speak again. */
  function Street(g: Game, next: string, k: nat): (r: Game)
    ensures r.roundName == next
    ensures |r.bets| == |g.bets| && AllZero(r.bets)
    ensures |r.players| == |g.players| && forall i :: 0 <= i < |r.players| ==> !r.players[i].talked
    ensures |r.board| == |g.board| + k && r.board[..|g.board|] == g.board
    ensures r.pot == g.pot && r.roundBets == g.roundBets && r.currentPlayer == g.currentPlayer
  {
    var dealt := BurnAndTurn(g.deck, k);
    assert (g.board + dealt.0)[..|g.board|] == g.board;
    g.(roundName := next, deck := dealt.1, board := g.board + dealt.0,
       bets := Zeros(|g.bets|), players := Quiet(g.players))
  }

  /** The river ends in a showdown: clear the bets, settle the contributions
      and remove the bankrupt players. The hands are ranked into a field
      that `checkForWinner` does not read, so the ranks it uses are the ones
      the players already carry. */
  function Showdown(g: Game): (r: Game)
    ensures r.roundName == "Showdown" && r.bets == []
    ensures AllZero(r.roundBets) && |r.roundBets| == |g.roundBets|
    ensures r.deck == g.deck && r.board == g.board && r.pot == g.pot
  {
    var settled := CheckForWinner(g.players, g.roundBets);
    var bankrupt := CheckForBankrupt(settled.players);
    g.(roundName := "Showdown", bets := [], players := bankrupt.0, roundBets := settled.roundBets,
       payouts := g.payouts + settled.payouts, losers := g.losers + bankrupt.1)
  }

  /** The end of a betting round before the street changes: the bets go into
      the pot and the contributions, and the turn passes on. The bets
      themselves stay until the next street zeroes them. */
  function Collected(g: Game): (r: Game)
    ensures Chips(r) == Chips(g) + Sum(g.bets) as real
    ensures r.bets == g.bets && r.players == g.players
  {
    SweepSum(g.roundBets, g.bets);
    g.(currentPlayer := NextPlayer(g.currentPlayer, |g.players|),
       pot := g.pot + Sum(g.bets),
       roundBets := Sweep(g.roundBets, g.bets))
  }

  /** `progress(table)`. */
  function Progress(g: Game): (r: Game)
    ensures !CheckForEndOfRound(g.players, g.bets).endOfRound ==>
              r == g.(currentPlayerIndex := CheckForEndOfRound(g.players, g.bets).currentPlayerIndex)
  {
    var check := CheckForEndOfRound(g.players, g.bets);
    if !check.endOfRound then g.(currentPlayerIndex := check.currentPlayerIndex)
    else
      var swept := Collected(g);
      if g.roundName == "River" then Showdown(swept)
      else if g.roundName == "Turn" then Street(swept, "River", 1)
      else if g.roundName == "Flop" then Street(swept, "Turn", 1)
      else if g.roundName == "Deal" then Street(swept, "Flop", 3)
      else swept
  }

  // ---------------------------------------------------------------- as written

  /** The client `Deck` has `draw` and no `pop`, so `table.game.deck.pop()`
      throws. */
  const PopMissing := "table.game.deck.pop is not a function"

  /** `progress(table)` as written, for a table whose `game` is `game`. A
      `Table` as its constructor builds it has no `game` (`None`): only the
      "turn" event is emitted and nothing changes. With a game, an open
      betting round only records whose turn it is, and a closed one after
      the deal, the flop or the turn throws at the first `pop`. A closed
      river, or any other round name, is settled as `Progress` settles it;
      `ProgressAsWrittenStaysInDeal` shows no round reaches those names. */
  function ProgressAsWritten(game: Option<Game>): (r: Result<Option<Game>>)
    ensures game.None? ==> r == Ok(None)
    ensures game.Some? && !CheckForEndOfRound(game.value.players, game.value.bets).endOfRound ==>
              r == Ok(Some(game.value.(currentPlayerIndex :=
                     CheckForEndOfRound(game.value.players, game.value.bets).currentPlayerIndex)))
    ensures game.Some? && CheckForEndOfRound(game.value.players, game.value.bets).endOfRound ==>
              (r.Err? <==> game.value.roundName in {"Deal", "Flop", "Turn"})
    ensures r.Err? ==> r.msg == PopMissing
  {
    match game
    case None => Ok(None)
    case Some(g) =>
      if CheckForEndOfRound(g.players, g.bets).endOfRound && g.roundName in {"Deal", "Flop", "Turn"} then
        Err(PopMissing)
      else Ok(Some(Progress(g)))
  }

  /** `k` calls of `progress` as written, stopping at the first throw. */
  function ProgressRepeated(game: Option<Game>, k: nat): (r: Result<Option<Game>>)
    ensures game.None? ==> r == Ok(None)
    decreases k
  {
    if k == 0 then Ok(game)
    else
      var step := ProgressAsWritten(game);
      if step.Err? then step else ProgressRepeated(step.value, k - 1)
  }

  /** A round starts at the deal, and as written it never gets past it: any
      number of `progress` calls either throws at the first street or leaves
      the round at the deal with the same deck, board, bets and pot. */
  lemma {:induction false} ProgressAsWrittenStaysInDeal(g: Game, k: nat)
    requires g.roundName == "Deal"
    ensures var r := ProgressRepeated(Some(g), k);
            || r == Err(PopMissing)
            || (&& r.Ok? && r.value.Some?
                && r.value.value.roundName == "Deal"
                && r.value.value.deck == g.deck && r.value.value.board == g.board
                && r.value.value.bets == g.bets && r.value.value.pot == g.pot
                && r.value.value.players == g.players)
    decreases k
  {
    if k > 0 {
      var step := ProgressAsWritten(Some(g));
      if step.Ok? {
        var h := step.value.value;
        assert h == g.(currentPlayerIndex := h.currentPlayerIndex);
        ProgressAsWrittenStaysInDeal(h, k - 1);
      }
    }
  }

  /** Where the code and the intended progress part: when the betting after
      the deal closes, the intended `Progress` turns three cards onto the
      board, while the code as written throws. */
  lemma ProgressAsWrittenNeverDeals(g: Game)
    requires CheckForEndOfRound(g.players, g.bets).endOfRound
    requires g.roundName == "Deal"
    ensures ProgressAsWritten(Some(g)) == Err(PopMissing)
    ensures Progress(g).roundName == "Flop" && |Progress(g).board| == |g.board| + 3
  {
    ProgressAtEndOfRound(g);
  }

  /** The street names advance Deal, Flop, Turn, River, Showdown, and any other
      name stays. */
  function NextStreet(name: string): string {
    if name == "Deal" then "Flop"
    else if name == "Flop" then "Turn"
    else if name == "Turn" then "River"
    else if name == "River" then "Showdown"
    else name
  }

  /** After a betting round, `progress` moves to the next street, adds every
      bet to the pot and to the contributions, turns the right number of
      cards, and passes the turn on. */
  lemma ProgressAtEndOfRound(g: Game)
    requires CheckForEndOfRound(g.players, g.bets).endOfRound
    ensures var r := Progress(g);
              && r.roundName == NextStreet(g.roundName)
              && r.pot == g.pot + Sum(g.bets)
              && r.currentPlayer == NextPlayer(g.currentPlayer, |g.players|)
              && (g.roundName in {"Deal", "Flop", "Turn"} ==>
                    && Sum(r.roundBets) == Sum(g.roundBets) + Sum(g.bets)
                    && |r.bets| == |g.bets| && AllZero(r.bets)
                    && |r.board| == |g.board| + (if g.roundName == "Deal" then 3 else 1)
                    && r.board[..|g.board|] == g.board
                    && forall i :: 0 <= i < |r.players| ==> !r.players[i].talked)
              && (g.roundName == "River" ==> r.bets == [] && AllZero(r.roundBets))
  {
    SweepSum(g.roundBets, g.bets);
  }

  /** Turning cards onto the board moves them from the deck: when the deck
      has enough cards, deck and board together hold the same cards as
      before, less the burnt one. */
  lemma StreetMovesCards(g: Game, next: string, k: nat)
    requires k < |g.deck|
    ensures var r := Street(g, next, k); MovesCards(g.deck, r.deck, r.board[|g.board|..])
  {
    StreetDeals(g, next, k);
    BurnAndTurnKeepsCards(g.deck, k);
  }

  /** A street's deck and new board cards are what burning and turning leave. */
  lemma StreetDeals(g: Game, next: string, k: nat)
    ensures var r := Street(g, next, k);
              r.deck == BurnAndTurn(g.deck, k).1 && r.board[|g.board|..] == BurnAndTurn(g.deck, k).0
  {
    var dealt := BurnAndTurn(g.deck, k);
    assert (g.board + dealt.0)[|g.board|..] == dealt.0;
  }

  /** The chips at the table: stacks plus contributions plus open bets. */
  function Chips(g: Game): real {
    SumChips(g.players) + (Sum(g.roundBets) + Sum(g.bets)) as real
  }

  /** Removing bankrupt players removes no chips. */
  lemma {:induction false} BankruptKeepsChips(players: seq<RoundPlayer>)
    ensures SumChips(CheckForBankrupt(players).0) == SumChips(players)
    ensures forall i :: 0 <= i < |CheckForBankrupt(players).1| ==> CheckForBankrupt(players).1[i].chips == 0.0
  {
    if |players| > 0 {
      var init := players[..|players| - 1];
      var p := players[|players| - 1];
      BankruptKeepsChips(init);
      var prev := CheckForBankrupt(init);
      if p.chips != 0.0 {
        var s := prev.0 + [p];
        assert s[..|s| - 1] == prev.0;
      }
    }
  }

  /** A whole street keeps every chip at the table: a street only moves bets
      into the contributions, and the showdown hands the contributions to the
      winners when the largest belongs to a player who can win. */
  lemma ProgressConservesChips(g: Game)
    requires CheckForEndOfRound(g.players, g.bets).endOfRound
    requires g.roundName in {"Deal", "Flop", "Turn", "River"}
    requires g.roundName == "River" ==>
               Covered(g.players, Sweep(g.roundBets, g.bets))
    ensures Chips(Progress(g)) == Chips(g)
  {
    var swept := Collected(g);
    if g.roundName == "River" {
      ShowdownKeepsChips(swept);
    } else if g.roundName == "Turn" {
      StreetKeepsChips(swept, "River", 1);
    } else if g.roundName == "Flop" {
      StreetKeepsChips(swept, "Turn", 1);
    } else {
      StreetKeepsChips(swept, "Flop", 3);
    }
  }

  /** A new street clears the open bets and keeps the stacks and contributions. */
  lemma StreetKeepsChips(g: Game, next: string, k: nat)
    ensures Chips(Street(g, next, k)) == Chips(g) - Sum(g.bets) as real
  {
    var r := Street(g, next, k);
    AllZeroSum(r.bets);
    assert r.players == Quiet(g.players);
    QuietKeepsChips(g.players);
  }

  /** The showdown clears the open bets and hands every contribution to a
      winner, when the largest belongs to a player who can win. */
  lemma ShowdownKeepsChips(g: Game)
    requires Covered(g.players, g.roundBets)
    ensures Chips(Showdown(g)) == Chips(g) - Sum(g.bets) as real
  {
    var settled := CheckForWinner(g.players, g.roundBets);
    CheckForWinnerConserves(g.players, g.roundBets);
    BankruptKeepsChips(settled.players);
    AllZeroSum(settled.roundBets);
    assert Showdown(g).players == CheckForBankrupt(settled.players).0;
  }

  lemma {:induction false} QuietKeepsChips(players: seq<RoundPlayer>)
    ensures SumChips(Quiet(players)) == SumChips(players)
  {
    if |players| > 0 {
      var n := |players| - 1;
      assert Quiet(players)[..n] == Quiet(players[..n]);
      QuietKeepsChips(players[..n]);
    }
  }
}

=== FILE: client_round.dfy ===
/** The client engine's betting round (game/client/lib/classes.ts, `Round`
    and `Table`): the largest bet, the end-of-round test, the layered payout
    of `checkForWinner`, the removal of bankrupt players, and the table's
    parameter checks.

    Chips are JavaScript numbers that can become fractional when a prize is
    split, so they are `real`; bets are whole chip amounts, `int`. */
module ClientRound {
  import opened Wrappers
  import opened Sequences
  import opened HandRanking

  // ---------------------------------------------------------------- getMaxBet

  /** `getMaxBet(bets)`: the running maximum starts at 0, so the result is
      the largest bet, or 0 when there is none above 0. */
  function GetMaxBet(bets: seq<int>): (m: int)
    ensures m >= 0
    ensures forall i :: 0 <= i < |bets| ==> bets[i] <= m
    ensures m == 0 || m in bets
  {
    if |bets| == 0 then 0
    else
      var m := GetMaxBet(bets[..|bets| - 1]);
      if bets[|bets| - 1] > m then bets[|bets| - 1] else m
  }

  /** The maximum is the least non-negative bound of the bets, and it does not
      depend on their order. */
  lemma GetMaxBetIsLeastBound(bets: seq<int>, u: int)
    requires u >= 0 && forall i :: 0 <= i < |bets| ==> bets[i] <= u
    ensures GetMaxBet(bets) <= u
  {
  }

  lemma GetMaxBetOfPermutation(a: seq<int>, b: seq<int>)
    requires multiset(a) == multiset(b)
    ensures GetMaxBet(a) == GetMaxBet(b)
  {
    var ma, mb := GetMaxBet(a), GetMaxBet(b);
    forall i | 0 <= i < |b| ensures b[i] <= ma {
      assert b[i] in multiset(a);
    }
    forall i | 0 <= i < |a| ensures a[i] <= mb {
      assert a[i] in multiset(b);
    }
    GetMaxBetIsLeastBound(a, mb);
    GetMaxBetIsLeastBound(b, ma);
  }

  // ---------------------------------------------------------------- players

  /** The fields of a client `Player` the round reads and writes; `rank` is
      the rank of the player's `cards` hand. */
  datatype RoundPlayer = RoundPlayer(chips: real, folded: bool, allIn: bool, talked: bool, rank: Score)

  /** `bets[i]`, `undefined` past the end. */
  function BetAt(bets: seq<int>, i: int): Option<int> {
    if 0 <= i < |bets| then Some(bets[i]) else None
  }

  /** A player the round still waits for: not folded, not all in, and either
      silent so far or not matching the largest bet. */
  predicate StillToAct(p: RoundPlayer, bet: Option<int>, maxBet: int) {
    !p.folded && (!p.talked || bet != Some(maxBet)) && !p.allIn
  }

  /** The last player among the first `n` the round still waits for. */
  function LastToAct(players: seq<RoundPlayer>, bets: seq<int>, n: nat): (r: Option<nat>)
    requires n <= |players|
    ensures r.None? <==> forall i :: 0 <= i < n ==> !StillToAct(players[i], BetAt(bets, i), GetMaxBet(bets))
    ensures r.Some? ==> r.value < n && StillToAct(players[r.value], BetAt(bets, r.value), GetMaxBet(bets))
    ensures r.Some? ==> forall j :: r.value < j < n ==> !StillToAct(players[j], BetAt(bets, j), GetMaxBet(bets))
  {
    if n == 0 then None
    else if StillToAct(players[n - 1], BetAt(bets, n - 1), GetMaxBet(bets)) then Some(n - 1)
    else LastToAct(players, bets, n - 1)
  }

  /** What `checkForEndOfRound` returns, and the `currentPlayerIndex` it
      leaves behind when the round goes on. */
  datatype EndCheck = EndCheck(endOfRound: bool, currentPlayerIndex: Option<nat>)

  /** `checkForEndOfRound`: the betting round is over exactly when every
      player who has not folded and is not all in has spoken and matched the
      largest bet; otherwise the last player still to act becomes current. */
  function CheckForEndOfRound(players: seq<RoundPlayer>, bets: seq<int>): (r: EndCheck)
    ensures r.endOfRound <==>
              forall i :: 0 <= i < |players| && !players[i].folded && !players[i].allIn ==>
                players[i].talked && BetAt(bets, i) == Some(GetMaxBet(bets))
    ensures r.currentPlayerIndex.None? <==> r.endOfRound
    ensures r.currentPlayerIndex.Some? ==>
              var k := r.currentPlayerIndex.value;
              k < |players| && StillToAct(players[k], BetAt(bets, k), GetMaxBet(bets)) &&
              forall j :: k < j < |players| ==> !StillToAct(players[j], BetAt(bets, j), GetMaxBet(bets))
  {
    var last := LastToAct(players, bets, |players|);
    EndCheck(last.None?, last)
  }

  // ---------------------------------------------------------------- winners

  /** A player `checkForWinner` can pick: not folded, with a numeric rank. */
  predicate Contends(p: RoundPlayer) {
    !p.folded && p.rank.Finite?
  }

  function RankOf(p: RoundPlayer): int
    requires p.rank.Finite?
  {
    Scaled(p.rank.value)
  }

  predicate Increasing(w: seq<nat>) {
    forall i, j :: 0 <= i < j < |w| ==> w[i] < w[j]
  }

  /** Appending an index above all others keeps a list increasing and adds
      just that index. */
  lemma IncreasingAppend(w: seq<nat>, x: nat)
    requires Increasing(w) && forall i :: 0 <= i < |w| ==> w[i] < x
    ensures Increasing(w + [x])
    ensures forall k :: k in w + [x] <==> k in w || k == x
  {
  }

  /** The first loop of `checkForWinner` over the first `n` players:
      `maxRank` starts at 0; a player whose rank equals it joins the winners,
      and one whose rank exceeds it replaces them all. */
  function ScanWinners(players: seq<RoundPlayer>, n: nat): (r: (int, seq<nat>))
    requires n <= |players|
    ensures r.0 >= 0
    ensures forall k :: 0 <= k < n && Contends(players[k]) ==> RankOf(players[k]) <= r.0
    ensures forall k :: k in r.1 <==> 0 <= k < n && Contends(players[k]) && RankOf(players[k]) == r.0
    ensures Increasing(r.1) && forall i :: 0 <= i < |r.1| ==> r.1[i] < n
  {
    if n == 0 then (0, [])
    else
      var prev := ScanWinners(players, n - 1);
      var p := players[n - 1];
      if Contends(p) && RankOf(p) == prev.0 then
        IncreasingAppend(prev.1, n - 1);
        (prev.0, prev.1 + [n - 1])
      else if Contends(p) && RankOf(p) > prev.0 then (RankOf(p), [n - 1])
      else prev
  }

  /** The best rank the scan keeps is 0 or the rank of one of the contenders. */
  lemma {:induction false} ScanWinnersAttained(players: seq<RoundPlayer>, n: nat)
    requires n <= |players|
    ensures var r := ScanWinners(players, n);
              r.0 == 0 || exists k :: 0 <= k < n && Contends(players[k]) && RankOf(players[k]) == r.0
  {
    if n > 0 {
      ScanWinnersAttained(players, n - 1);
    }
  }

  /** The winners of one layer. */
  function Winners(players: seq<RoundPlayer>): seq<nat> {
    ScanWinners(players, |players|).1
  }

  /** There is a winner exactly when some contender's rank is at least 0. */
  lemma WinnersExist(players: seq<RoundPlayer>)
    ensures |Winners(players)| > 0 <==>
              exists k :: 0 <= k < |players| && Contends(players[k]) && RankOf(players[k]) >= 0
  {
    var r := ScanWinners(players, |players|);
    ScanWinnersAttained(players, |players|);
    if exists k :: 0 <= k < |players| && Contends(players[k]) && RankOf(players[k]) >= 0 {
      if r.0 == 0 {
        var k :| 0 <= k < |players| && Contends(players[k]) && RankOf(players[k]) >= 0;
        assert k in r.1;
      } else {
        var k :| 0 <= k < |players| && Contends(players[k]) && RankOf(players[k]) == r.0;
        assert k in r.1;
      }
    }
    if |r.1| > 0 {
      assert r.1[0] in r.1;
    }
  }

  // ---------------------------------------------------------------- one layer

  /** What one layer takes from a contribution `b`: `min(b, part)`, or all of
      it when `part` is `NaN`. */
  function Take(b: int, part: Option<int>): int {
    match part
    case None => b
    case Some(p) => if b > p then p else b
  }

  /** The contributions once a layer has taken its share. */
  function AfterLayer(roundBets: seq<int>, part: Option<int>): (r: seq<int>)
    ensures |r| == |roundBets|
    ensures forall l :: 0 <= l < |r| ==> r[l] == roundBets[l] - Take(roundBets[l], part) && r[l] >= 0
  {
    if |roundBets| == 0 then []
    else
      var b := roundBets[|roundBets| - 1];
      AfterLayer(roundBets[..|roundBets| - 1], part) + [if part.Some? && b > part.value then b - part.value else 0]
  }

  /** The prize of a layer: everything it took. */
  function LayerPrize(roundBets: seq<int>, part: Option<int>): int {
    if |roundBets| == 0 then 0
    else LayerPrize(roundBets[..|roundBets| - 1], part) + Take(roundBets[|roundBets| - 1], part)
  }

  /** The prize is exactly what left the contributions. */
  lemma {:induction false} LayerPrizeIsTaken(roundBets: seq<int>, part: Option<int>)
    ensures LayerPrize(roundBets, part) + Sum(AfterLayer(roundBets, part)) == Sum(roundBets)
  {
    if |roundBets| > 0 {
      var init := roundBets[..|roundBets| - 1];
      var b := roundBets[|roundBets| - 1];
      LayerPrizeIsTaken(init, part);
      SumAppend(AfterLayer(init, part), [b - Take(b, part)]);
      assert roundBets == init + [b];
      SumAppend(init, [b]);
      assert AfterLayer(roundBets, part) == AfterLayer(init, part) + [b - Take(b, part)];
    }
  }

  /** A record of `currentRoundWinners`: the winner's seat and the amount won. */
  datatype Payout = Payout(seat: nat, amount: real)

  /** The payout loop of `checkForWinner` over the winners `w`: each gains
      `amount`, and a winner whose contribution is used up is marked folded
      and recorded. */
  function Settle(players: seq<RoundPlayer>, w: seq<nat>, roundBets: seq<int>, amount: real): (r: (seq<RoundPlayer>, seq<Payout>))
    requires forall i :: 0 <= i < |w| ==> w[i] < |players|
    ensures |r.0| == |players|
    decreases |w|
  {
    if |w| == 0 then (players, [])
    else
      var prev := Settle(players, w[..|w| - 1], roundBets, amount);
      var k := w[|w| - 1];
      (SettleOne(prev.0, k, roundBets, amount),
       if BetAt(roundBets, k) == Some(0) then prev.1 + [Payout(k, amount)] else prev.1)
  }

  /** Paying the winner at `k`, and folding them when their contribution is
      used up. */
  function SettleOne(players: seq<RoundPlayer>, k: nat, roundBets: seq<int>, amount: real): (r: seq<RoundPlayer>)
    requires k < |players|
    ensures |r| == |players|
  {
    var p := players[k];
    if BetAt(roundBets, k) == Some(0) then players[k := p.(chips := p.chips + amount, folded := true)]
    else players[k := p.(chips := p.chips + amount)]
  }

  /** The state one layer works on and leaves. */
  datatype Pot = Pot(players: seq<RoundPlayer>, roundBets: seq<int>, payouts: seq<Payout>)

  /** One pass of `checkForWinner`: find the winners, take from every
      contribution at most the first winner's contribution (`NaN`, so all of
      it, when there is no winner), and split that prize evenly among them.
      The all-in branch never runs: `checkForAllInPlayer` is called while the
      winners list is still empty. */
  function Layer(players: seq<RoundPlayer>, roundBets: seq<int>): (r: Pot)
    ensures |r.players| == |players| && |r.roundBets| == |roundBets|
  {
    var w := Winners(players);
    var rest := AfterLayer(roundBets, Part(players, roundBets));
    var settled := Settle(players, w, rest, Share(players, roundBets));
    Pot(settled.0, rest, settled.1)
  }

  /** `part`: the first winner's contribution, `NaN` without a winner. */
  function Part(players: seq<RoundPlayer>, roundBets: seq<int>): Option<int> {
    var w := Winners(players);
    if |w| > 0 then BetAt(roundBets, w[0]) else None
  }

  /** `prize / winners.length`, each winner's share of the layer. */
  function Share(players: seq<RoundPlayer>, roundBets: seq<int>): real {
    var w := Winners(players);
    if |w| > 0 then LayerPrize(roundBets, Part(players, roundBets)) as real / |w| as real else 0.0
  }

  predicate AllZero(s: seq<int>) {
    forall i :: 0 <= i < |s| ==> s[i] == 0
  }

  function NotFolded(players: seq<RoundPlayer>): nat {
    if |players| == 0 then 0
    else NotFolded(players[..|players| - 1]) + (if players[|players| - 1].folded then 0 else 1)
  }

  /** Folding players one way only lowers the count, and strictly so when
      someone folds. */
  lemma {:induction false} NotFoldedDrops(a: seq<RoundPlayer>, b: seq<RoundPlayer>, k: nat)
    requires |a| == |b| && k < |a|
    requires forall i :: 0 <= i < |a| && a[i].folded ==> b[i].folded
    requires !a[k].folded && b[k].folded
    ensures NotFolded(b) < NotFolded(a)
  {
    var n := |a| - 1;
    if k < n {
      NotFoldedDrops(a[..n], b[..n], k);
    } else {
      NotFoldedAtMost(a[..n], b[..n]);
    }
  }

  lemma {:induction false} NotFoldedAtMost(a: seq<RoundPlayer>, b: seq<RoundPlayer>)
    requires |a| == |b|
    requires forall i :: 0 <= i < |a| && a[i].folded ==> b[i].folded
    ensures NotFolded(b) <= NotFolded(a)
  {
    if |a| > 0 {
      NotFoldedAtMost(a[..|a| - 1], b[..|b| - 1]);
    }
  }

  /** Settling only ever folds winners, and folds exactly those whose
      contribution is used up. */
  lemma {:induction false} SettleFolds(players: seq<RoundPlayer>, w: seq<nat>, roundBets: seq<int>, amount: real)
    requires forall i :: 0 <= i < |w| ==> w[i] < |players|
    ensures var s := Settle(players, w, roundBets, amount).0;
              forall i :: 0 <= i < |players| ==> s[i].folded == (players[i].folded || (i in w && BetAt(roundBets, i) == Some(0)))
    decreases |w|
  {
    if |w| > 0 {
      SettleFolds(players, w[..|w| - 1], roundBets, amount);
      var s := Settle(players, w, roundBets, amount).0;
      forall i | 0 <= i < |players|
        ensures s[i].folded == (players[i].folded || (i in w && BetAt(roundBets, i) == Some(0)))
      {
        assert i in w <==> i in w[..|w| - 1] || i == w[|w| - 1] by {
          assert w == w[..|w| - 1] + [w[|w| - 1]];
        }
      }
    }
  }

  lemma {:induction false} SettleKeepsRanks(players: seq<RoundPlayer>, w: seq<nat>, roundBets: seq<int>, amount: real)
    requires forall i :: 0 <= i < |w| ==> w[i] < |players|
    ensures var s := Settle(players, w, roundBets, amount).0;
              forall i :: 0 <= i < |players| ==> s[i].rank == players[i].rank
    decreases |w|
  {
    if |w| > 0 {
      SettleKeepsRanks(players, w[..|w| - 1], roundBets, amount);
    }
  }

  /** A layer that leaves something to share folds its first winner, whose
      contribution it used up: so the recursion ends. */
  lemma LayerFoldsFirstWinner(players: seq<RoundPlayer>, roundBets: seq<int>)
    requires !AllZero(Layer(players, roundBets).roundBets)
    ensures NotFolded(Layer(players, roundBets).players) < NotFolded(players)
  {
    var w := Winners(players);
    var part := Part(players, roundBets);
    var rest := AfterLayer(roundBets, part);
    assert |w| > 0 && part.Some?;
    var k := w[0];
    assert k in w;
    assert BetAt(rest, k) == Some(0);
    SettleFolds(players, w, rest, Share(players, roundBets));
    NotFoldedDrops(players, Layer(players, roundBets).players, k);
  }

  /** `checkForWinner`: layers until every contribution is used up. */
  function CheckForWinner(players: seq<RoundPlayer>, roundBets: seq<int>): (r: Pot)
    ensures |r.players| == |players| && |r.roundBets| == |roundBets|
    ensures AllZero(r.roundBets)
    decreases NotFolded(players)
  {
    var layer := Layer(players, roundBets);
    if AllZero(layer.roundBets) then layer
    else
      LayerFoldsFirstWinner(players, roundBets);
      var next := CheckForWinner(layer.players, layer.roundBets);
      Pot(next.players, next.roundBets, layer.payouts + next.payouts)
  }

  // ---------------------------------------------------------------- conservation

  function SumChips(players: seq<RoundPlayer>): real {
    if |players| == 0 then 0.0
    else SumChips(players[..|players| - 1]) + players[|players| - 1].chips
  }

  lemma {:induction false} SumChipsUpdate(players: seq<RoundPlayer>, k: nat, p: RoundPlayer)
    requires k < |players|
    ensures SumChips(players[k := p]) == SumChips(players) - players[k].chips + p.chips
  {
    var n := |players| - 1;
    if k < n {
      assert players[k := p][..n] == players[..n][k := p];
      SumChipsUpdate(players[..n], k, p);
    } else {
      assert players[k := p][..n] == players[..n];
    }
  }

  /** Settling pays `amount` once to every winner. */
  lemma {:induction false} SettlePays(players: seq<RoundPlayer>, w: seq<nat>, roundBets: seq<int>, amount: real)
    requires forall i :: 0 <= i < |w| ==> w[i] < |players|
    ensures SumChips(Settle(players, w, roundBets, amount).0) == SumChips(players) + Times(|w|, amount)
    decreases |w|
  {
    if |w| > 0 {
      var prev := Settle(players, w[..|w| - 1], roundBets, amount);
      SettlePays(players, w[..|w| - 1], roundBets, amount);
      SettleStep(prev.0, w[|w| - 1], roundBets, amount);
    }
  }

  /** `a` added up `n` times. */
  function Times(n: nat, a: real): real {
    if n == 0 then 0.0 else Times(n - 1, a) + a
  }

  lemma {:induction false} SettleStep(players: seq<RoundPlayer>, k: nat, roundBets: seq<int>, amount: real)
    requires k < |players|
    ensures SumChips(SettleOne(players, k, roundBets, amount)) == SumChips(players) + amount
  {
    var p := players[k];
    var q := if BetAt(roundBets, k) == Some(0) then p.(chips := p.chips + amount, folded := true)
             else p.(chips := p.chips + amount);
    assert SettleOne(players, k, roundBets, amount) == players[k := q];
    SumChipsUpdate(players, k, q);
  }

  lemma {:induction false} TimesIsProduct(n: nat, a: real)
    ensures Times(n, a) == n as real * a
  {
    if n > 0 {
      TimesIsProduct(n - 1, a);
      assert n as real * a == (n - 1) as real * a + a;
    }
  }

  /** `n` equal shares of `prize` add up to `prize`. */
  lemma SplitEvenly(prize: int, n: nat)
    requires n > 0
    ensures Times(n, prize as real / n as real) == prize as real
  {
    TimesIsProduct(n, prize as real / n as real);
  }

  /** A layer with a winner moves its prize from the contributions to the
      winners' stacks, to the last chip. */
  lemma {:induction false} LayerConserves(players: seq<RoundPlayer>, roundBets: seq<int>)
    requires |Winners(players)| > 0
    ensures var l := Layer(players, roundBets);
              SumChips(l.players) + Sum(l.roundBets) as real == SumChips(players) + Sum(roundBets) as real
  {
    var w := Winners(players);
    var part := Part(players, roundBets);
    var rest := AfterLayer(roundBets, part);
    var prize := LayerPrize(roundBets, part);
    var share := Share(players, roundBets);
    assert share == prize as real / |w| as real;
    LayerPrizeIsTaken(roundBets, part);
    SettlePays(players, w, rest, share);
    SplitEvenly(prize, |w|);
    var l := Layer(players, roundBets);
    assert l.players == Settle(players, w, rest, share).0;
    assert l.roundBets == rest;
    assert SumChips(l.players) == SumChips(players) + prize as real;
    assert Sum(rest) + prize == Sum(roundBets);
  }

  /** The largest contribution belongs to a player who can still win a layer. */
  predicate Covered(players: seq<RoundPlayer>, roundBets: seq<int>) {
    |roundBets| == |players| &&
    (AllZero(roundBets) ||
     exists k :: 0 <= k < |players| && Contends(players[k]) && RankOf(players[k]) >= 0 &&
       forall l :: 0 <= l < |roundBets| ==> roundBets[l] <= roundBets[k])
  }

  /** Each layer keeps that player in play, or uses every contribution up. */
  lemma {:induction false} LayerKeepsCovered(players: seq<RoundPlayer>, roundBets: seq<int>)
    requires Covered(players, roundBets) && !AllZero(roundBets)
    ensures |Winners(players)| > 0
    ensures Covered(Layer(players, roundBets).players, Layer(players, roundBets).roundBets)
  {
    var k :| 0 <= k < |players| && Contends(players[k]) && RankOf(players[k]) >= 0 &&
             forall l :: 0 <= l < |roundBets| ==> roundBets[l] <= roundBets[k];
    WinnersExist(players);
    var w := Winners(players);
    var part := Part(players, roundBets);
    var rest := AfterLayer(roundBets, part);
    var after := Layer(players, roundBets);
    assert w[0] in w;
    assert part == Some(roundBets[w[0]]);
    SettleFolds(players, w, rest, Share(players, roundBets));
    SettleKeepsRanks(players, w, rest, Share(players, roundBets));
    assert after.players == Settle(players, w, rest, Share(players, roundBets)).0;
    assert after.roundBets == rest;
    AfterLayerKeepsLargest(roundBets, roundBets[w[0]], k);
    if rest[k] != 0 {
      assert BetAt(rest, k) != Some(0);
      assert Contends(after.players[k]) && RankOf(after.players[k]) >= 0;
      CoveredBy(after.players, rest, k);
    }
  }

  /** A player who can win and holds the largest contribution covers it. */
  lemma CoveredBy(players: seq<RoundPlayer>, roundBets: seq<int>, k: nat)
    requires |roundBets| == |players| && k < |players|
    requires Contends(players[k]) && RankOf(players[k]) >= 0
    requires forall l :: 0 <= l < |roundBets| ==> roundBets[l] <= roundBets[k]
    ensures Covered(players, roundBets)
  {
  }

  /** Taking `min(b, p)` from every contribution keeps the largest one the
      largest, or empties them all. */
  lemma AfterLayerKeepsLargest(roundBets: seq<int>, p: int, k: nat)
    requires k < |roundBets| && forall l :: 0 <= l < |roundBets| ==> roundBets[l] <= roundBets[k]
    ensures var rest := AfterLayer(roundBets, Some(p));
              (rest[k] == 0 ==> AllZero(rest)) &&
              forall l :: 0 <= l < |rest| ==> rest[l] <= rest[k]
  {
  }

  /** `checkForWinner` hands every contributed chip to a winner when the
      largest contribution belongs to a player who can win. */
  lemma {:induction false} CheckForWinnerConserves(players: seq<RoundPlayer>, roundBets: seq<int>)
    requires Covered(players, roundBets)
    ensures var r := CheckForWinner(players, roundBets);
              SumChips(r.players) == SumChips(players) + Sum(roundBets) as real
    decreases NotFolded(players)
  {
    var layer := Layer(players, roundBets);
    if AllZero(roundBets) {
      AllZeroSum(roundBets);
      AllZeroLayer(players, roundBets);
    } else {
      LayerKeepsCovered(players, roundBets);
      LayerConserves(players, roundBets);
      if AllZero(layer.roundBets) {
        AllZeroSum(layer.roundBets);
      } else {
        LayerFoldsFirstWinner(players, roundBets);
        CheckForWinnerConserves(layer.players, layer.roundBets);
        AllZeroSum(layer.roundBets);
      }
    }
  }

  lemma {:induction false} AllZeroSum(s: seq<int>)
    ensures AllZero(s) ==> Sum(s) == 0
  {
    if |s| > 0 {
      AllZeroSum(s[1..]);
    }
  }

  /** With nothing contributed, a layer pays nothing and the payout stops. */
  lemma {:induction false} AllZeroLayer(players: seq<RoundPlayer>, roundBets: seq<int>)
    requires AllZero(roundBets)
    ensures AllZero(Layer(players, roundBets).roundBets)
    ensures SumChips(Layer(players, roundBets).players) == SumChips(players)
  {
    var w := Winners(players);
    var part := Part(players, roundBets);
    var rest := AfterLayer(roundBets, part);
    var prize := LayerPrize(roundBets, part);
    assert part == None || part == Some(0);
    assert AllZero(rest);
    LayerPrizeIsTaken(roundBets, part);
    AllZeroSum(roundBets);
    AllZeroSum(rest);
    assert prize == 0;
    var share := Share(players, roundBets);
    assert share == 0.0;
    SettlePays(players, w, rest, share);
    TimesIsProduct(|w|, share);
    assert Layer(players, roundBets).players == Settle(players, w, rest, share).0;
    assert Layer(players, roundBets).roundBets == rest;
  }

  /** With no player left who can win, the contributions are wiped and
      nobody is paid: the chips leave the table. */
  lemma NobodyToPay(players: seq<RoundPlayer>, roundBets: seq<int>)
    requires forall k :: 0 <= k < |players| ==> !Contends(players[k]) || RankOf(players[k]) < 0
    ensures CheckForWinner(players, roundBets).players == players
    ensures CheckForWinner(players, roundBets).payouts == []
  {
    WinnersExist(players);
    assert Winners(players) == [];
  }

  // ---------------------------------------------------------------- bankrupt

  /** The loop of `checkForBankrupt` from index `i`, as written: a player
      with no chips is moved to the losers and spliced out, but `i` still
      advances, so the player who slides into the freed index is skipped. */
  function BankruptFrom(players: seq<RoundPlayer>, i: nat, losers: seq<RoundPlayer>): (r: (seq<RoundPlayer>, seq<RoundPlayer>))
    decreases |players| - i
  {
    if i >= |players| then (players, losers)
    else if players[i].chips == 0.0 then
      BankruptFrom(players[..i] + players[i + 1..], i + 1, losers + [players[i]])
    else BankruptFrom(players, i + 1, losers)
  }

  /** `checkForBankrupt` as written, on a `table` that carries a `gameLosers`
      list: the players left and the losers added. */
  function CheckForBankruptWithLosers(players: seq<RoundPlayer>): (r: (seq<RoundPlayer>, seq<RoundPlayer>))
    ensures |r.0| + |r.1| == |players|
  {
    BankruptFromCounts(players, 0, []);
    BankruptFrom(players, 0, [])
  }

  /** A `Table` has no `gameLosers`, so `table.gameLosers.push(...)` reads a
      property of `undefined`. */
  const NoGameLosers := "Cannot read properties of undefined (reading 'push')"

  /** The loop of `checkForBankrupt` from index `i` on a `Table`: it throws at
      the first player without chips and leaves the players alone otherwise. */
  function BankruptOnTableFrom(players: seq<RoundPlayer>, i: nat): (r: Result<seq<RoundPlayer>>)
    ensures r.Ok? <==> forall k :: i <= k < |players| ==> players[k].chips != 0.0
    ensures r.Ok? ==> r.value == players
    ensures r.Err? ==> r.msg == NoGameLosers
    decreases |players| - i
  {
    if i >= |players| then Ok(players)
    else if players[i].chips == 0.0 then Err(NoGameLosers)
    else BankruptOnTableFrom(players, i + 1)
  }

  /** `checkForBankrupt` as written, on a `Table`: it throws exactly when some
      player has no chips, that is exactly when the intended rule would remove
      somebody, and otherwise nobody leaves. */
  function CheckForBankruptAsWritten(players: seq<RoundPlayer>): (r: Result<seq<RoundPlayer>>)
    ensures r.Err? <==> CheckForBankrupt(players).1 != []
    ensures r.Err? ==> r.msg == NoGameLosers
    ensures r.Ok? ==> r.value == players == CheckForBankrupt(players).0
  {
    var r := BankruptOnTableFrom(players, 0);
    if r.Ok? then BankruptNobody(players); r
    else BankruptSomebody(players); r
  }

  /** A player without chips is one of the intended rule's losers. */
  lemma BankruptSomebody(players: seq<RoundPlayer>)
    requires exists k :: 0 <= k < |players| && players[k].chips == 0.0
    ensures CheckForBankrupt(players).1 != []
  {
    var k :| 0 <= k < |players| && players[k].chips == 0.0;
    assert players[k] in CheckForBankrupt(players).1;
  }

  /** With every player holding chips the intended rule keeps them all, in order. */
  lemma {:induction false} BankruptNobody(players: seq<RoundPlayer>)
    requires forall k :: 0 <= k < |players| ==> players[k].chips != 0.0
    ensures CheckForBankrupt(players).0 == players
  {
    if |players| > 0 {
      var init := players[..|players| - 1];
      BankruptNobody(init);
      assert players == init + [players[|players| - 1]];
    }
  }

  lemma {:induction false} BankruptFromCounts(players: seq<RoundPlayer>, i: nat, losers: seq<RoundPlayer>)
    ensures |BankruptFrom(players, i, losers).0| + |BankruptFrom(players, i, losers).1| == |players| + |losers|
    decreases |players| - i
  {
    if i < |players| {
      if players[i].chips == 0.0 {
        BankruptFromCounts(players[..i] + players[i + 1..], i + 1, losers + [players[i]]);
      } else {
        BankruptFromCounts(players, i + 1, losers);
      }
    }
  }

  function Broke(): RoundPlayer {
    RoundPlayer(0.0, false, false, false, NaN)
  }

  function Stacked(): RoundPlayer {
    RoundPlayer(100.0, false, false, false, NaN)
  }

  /** Two broke players in a row, on a table with a `gameLosers` list: the
      second one stays at the table. */
  lemma BankruptSkipsNeighbour()
    ensures CheckForBankruptWithLosers([Broke(), Broke(), Stacked()]).0 == [Broke(), Stacked()]
  {
    var ps := [Broke(), Broke(), Stacked()];
    var rest := [Broke(), Stacked()];
    assert ps[0].chips == 0.0;
    assert ps[..0] + ps[1..] == rest;
    assert [] + [ps[0]] == [Broke()];
    assert BankruptFrom(ps, 0, []) == BankruptFrom(rest, 1, [Broke()]);
    assert rest[1].chips != 0.0;
    assert BankruptFrom(rest, 1, [Broke()]) == BankruptFrom(rest, 2, [Broke()]);
  }

  /** `checkForBankrupt` as evidently intended: every player without chips
      leaves, in order, and everyone else stays, in order. */
  function CheckForBankrupt(players: seq<RoundPlayer>): (r: (seq<RoundPlayer>, seq<RoundPlayer>))
    ensures forall p :: p in r.0 <==> p in players && p.chips != 0.0
    ensures forall p :: p in r.1 <==> p in players && p.chips == 0.0
    ensures multiset(r.0) + multiset(r.1) == multiset(players)
  {
    if |players| == 0 then ([], [])
    else
      var prev := CheckForBankrupt(players[..|players| - 1]);
      var p := players[|players| - 1];
      assert players == players[..|players| - 1] + [p];
      if p.chips == 0.0 then (prev.0, prev.1 + [p]) else (prev.0 + [p], prev.1)
  }

  /** On the failing example the intended rule clears both broke players. */
  lemma BankruptClearsBoth()
    ensures CheckForBankrupt([Broke(), Broke(), Stacked()]).0 == [Stacked()]
  {
    assert [Broke(), Broke(), Stacked()][..2] == [Broke(), Broke()];
    assert [Broke(), Broke()][..1] == [Broke()];
  }

  /** On a `Table` one broke player is enough to make the check throw. */
  lemma BankruptThrowsOnTable()
    ensures CheckForBankruptAsWritten([Stacked(), Broke()]) == Err(NoGameLosers)
  {
    assert [Stacked(), Broke()][1].chips == 0.0;
  }

  // ---------------------------------------------------------------- table

  /** The parameters a `Table` keeps. */
  datatype Table = Table(smallBlind: int, bigBlind: int, minPlayers: int, maxPlayers: int,
                         minBuyIn: int, maxBuyIn: int, dealer: nat, players: seq<TablePlayer>)

  /** A player object at a table. `ref` stands for the object's identity:
      two player objects are the same object exactly when their `ref`s agree,
      whatever their fields hold. */
  datatype TablePlayer = TablePlayer(ref: nat, username: string, chips: real)

  /** `players.includes(p)`: some seated player is the very object `p`. */
  predicate Seated(players: seq<TablePlayer>, p: TablePlayer) {
    exists i :: 0 <= i < |players| && players[i].ref == p.ref
  }

  /** No object is seated twice. */
  predicate DistinctObjects(players: seq<TablePlayer>) {
    forall i, j :: 0 <= i < j < |players| ==> players[i].ref != players[j].ref
  }

  /** The `Table` constructor: at least two players, at most ten, and a
      minimum no larger than the maximum, checked in that order. */
  function NewTable(smallBlind: int, bigBlind: int, minPlayers: int, maxPlayers: int,
                    minBuyIn: int, maxBuyIn: int): (r: Result<Table>)
    ensures r.Ok? <==> 2 <= minPlayers <= maxPlayers <= 10
    ensures minPlayers < 2 ==>
              r == Err("Parameter [minPlayers] must be a positive integer of a minimum value of 2.")
    ensures minPlayers >= 2 && maxPlayers > 10 ==>
              r == Err("Parameter [maxPlayers] must be a positive integer less than or equal to 10.")
    ensures minPlayers >= 2 && maxPlayers <= 10 && minPlayers > maxPlayers ==>
              r == Err("Parameter [minPlayers] must be less than or equal to [maxPlayers].")
    ensures r.Ok? ==> (r.value.players == [] && r.value.dealer == 0 &&
                       r.value.minPlayers == minPlayers && r.value.maxPlayers == maxPlayers)
  {
    if minPlayers < 2 then Err("Parameter [minPlayers] must be a positive integer of a minimum value of 2.")
    else if maxPlayers > 10 then Err("Parameter [maxPlayers] must be a positive integer less than or equal to 10.")
    else if minPlayers > maxPlayers then Err("Parameter [minPlayers] must be less than or equal to [maxPlayers].")
    else Ok(Table(smallBlind, bigBlind, minPlayers, maxPlayers, minBuyIn, maxBuyIn, 0, []))
  }

  /** The defaults 5/10, 2..6 players, buy-in 100..2000 build a table. */
  lemma DefaultTable()
    ensures NewTable(5, 10, 2, 6, 100, 2000).Ok?
  {
  }

  /** `addPlayer`: appends a player object not yet seated and throws on one
      that is; `includes` compares objects, not their fields. */
  function AddPlayer(t: Table, p: TablePlayer): (r: Result<Table>)
    ensures r.Err? <==> exists q :: q in t.players && q.ref == p.ref
    ensures r.Err? ==> r.msg == "Player " + p.username + " is already at the table."
    ensures r.Ok? ==> r.value.players == t.players + [p] && r.value == t.(players := r.value.players)
  {
    if Seated(t.players, p) then Err("Player " + p.username + " is already at the table.")
    else Ok(t.(players := t.players + [p]))
  }

  /** Adding players one by one never seats the same object twice. */
  lemma AddPlayerKeepsDistinct(t: Table, p: TablePlayer)
    requires DistinctObjects(t.players)
    ensures AddPlayer(t, p).Ok? ==> DistinctObjects(AddPlayer(t, p).value.players)
  {
    if AddPlayer(t, p).Ok? {
      var ps := AddPlayer(t, p).value.players;
      forall i, j | 0 <= i < j < |ps|
        ensures ps[i].ref != ps[j].ref
      {
        if j == |ps| - 1 {
          assert ps[i] == t.players[i];
        }
      }
    }
  }

  /** Two player objects with the same name and stack are still two objects:
      both are seated. */
  lemma AddPlayerSeatsLookalikes(t: Table)
    requires t.players == []
    ensures var a, b := TablePlayer(0, "ann", 100.0), TablePlayer(1, "ann", 100.0);
            && AddPlayer(t, a).Ok?
            && AddPlayer(AddPlayer(t, a).value, b).Ok?
            && AddPlayer(AddPlayer(t, a).value, b).value.players == [a, b]
  {
    var a, b := TablePlayer(0, "ann", 100.0), TablePlayer(1, "ann", 100.0);
    assert AddPlayer(t, a).value.players == [a];
  }
}

=== FILE: client_utils.dfy ===
/** The client's free helpers (game/client/lib/utils.ts): card names from
    words, rank words from values, the `evaluateHand` result with its message,
    kicker weights, and the order-keeping set difference `getRemainingElements`. */
module ClientUtils {
  import opened Wrappers
  import opened Cards
  import opened Sequences
  import opened Text
  import opened HandRanking
  import opened ClientHand
  import opened ClientCards
  import Constants

  // ---------------------------------------------------------------- names

  /** `getCardName(suit, rank)`: the rank switch has no case for `wild`, so
      its `r` stays `undefined` and prints as such. */
  function GetCardName(suit: Suit, rank: Rank): (r: string)
    ensures rank != Wild ==> r == Name(Card(rank, suit))
    ensures rank == Wild ==> r == "undefined" + [SuitInitial(suit)]
  {
    if rank == Wild then "undefined" + [SuitInitial(suit)]
    else [RankInitial(rank), SuitInitial(suit)]
  }

  /** `getCardName` yields a card name for each of the 52 standard cards, and
      for nothing else. */
  lemma GetCardNameIsCardName(suit: Suit, rank: Rank)
    ensures IsCardName(Str(GetCardName(suit, rank))) <==> rank != Wild
  {
    IsCardNameIff(Str(GetCardName(suit, rank)));
    if rank != Wild {
      assert Constants.RankChars[Constants.RankCharIndex(rank)] == RankInitial(rank);
      assert Constants.SuitChars[Constants.SuitIndex(suit)] == SuitInitial(suit);
    }
  }

  /** `valueToRank(value, capitalize)`: the rank word of 2..14 or 100,
      capitalised on request; any other value throws. */
  function ValueToRank(value: int, capitalize: bool): (r: Result<string>)
    ensures r.Ok? <==> 2 <= value <= 14 || value == 100
    ensures r.Ok? ==> exists k :: RankToValue(k) == value &&
                                  r.value == (if capitalize then Capitalize(RankWord(k)) else RankWord(k))
    ensures r.Err? ==> r.msg == InvalidRankValue + Decimal(value)
  {
    match RankFromValue(value)
    case Err(m) => Err(m)
    case Ok(k) => Ok(if capitalize then Capitalize(RankWord(k)) else RankWord(k))
  }

  /** `valueToRank` inverts `rankToValue`, and its capitalised words differ
      from the plain ones only in the first letter. */
  lemma ValueToRankOfRank(k: Rank)
    ensures ValueToRank(RankToValue(k), false) == Ok(RankWord(k))
    ensures ValueToRank(RankToValue(k), true).Ok?
    ensures var w := ValueToRank(RankToValue(k), true).value;
              |w| == |RankWord(k)| && 'A' <= w[0] <= 'Z' && w[1..] == RankWord(k)[1..]
  {
    RankValueRoundTrips(k, 0);
  }

  // ---------------------------------------------------------------- evaluateHand

  /** The thresholds of `bestHandValueToString`: `value >= k`. Scores are
      scaled by 1000, and `NaN` passes none. */
  predicate AtLeast(value: Score, k: int) {
    value.Finite? && Scaled(value.value) >= 1000 * k
  }

  /** `capitalize(valueToRank(x))`. */
  function RankName(x: int): Result<string> {
    ValueToRank(x, true)
  }

  /** `rankedHand[i]` inside a template literal. */
  function Printed(v: seq<int>, i: nat): string {
    if i < |v| then Decimal(v[i]) else "undefined"
  }

  function Join(a: string, r: Result<string>, b: string): (j: Result<string>)
    ensures j.Ok? <==> r.Ok?
  {
    match r
    case Err(m) => Err(m)
    case Ok(s) => Ok(a + s + b)
  }

  function Join2(a: string, r1: Result<string>, b: string, r2: Result<string>, c: string): (j: Result<string>)
    ensures j.Ok? <==> r1.Ok? && r2.Ok?
  {
    match r1
    case Err(m) => Err(m)
    case Ok(s1) =>
      match r2
      case Err(m) => Err(m)
      case Ok(s2) => Ok(a + s1 + b + s2 + c)
  }

  /** `scoredHistogram[1][0]`, or the `TypeError` of reading it when there is
      no second bar. */
  function SecondName(v: seq<int>): Result<string>
    requires |v| > 0
  {
    match SecondGroup(v)
    case None => Err(ReadOfUndefined)
    case Some(g) => RankName(g.value)
  }

  /** The chain of `value >= k` tests in `bestHandValueToString`: the
      largest `k` from 10 down to 2 the value reaches, else 1. */
  function Threshold(value: Score): (c: int)
    ensures 1 <= c <= 10
    ensures c >= 2 ==> AtLeast(value, c)
    ensures c < 10 ==> !AtLeast(value, c + 1)
  {
    if AtLeast(value, 10) then 10
    else if AtLeast(value, 9) then 9
    else if AtLeast(value, 8) then 8
    else if AtLeast(value, 7) then 7
    else if AtLeast(value, 6) then 6
    else if AtLeast(value, 5) then 5
    else if AtLeast(value, 4) then 4
    else if AtLeast(value, 3) then 3
    else if AtLeast(value, 2) then 2
    else 1
  }

  /** The threshold a well-formed score reaches is its category; `NaN`
      reaches none. */
  lemma ThresholdIsCategory(value: Score)
    requires value.Finite? ==> WellFormed(value.value)
    ensures Threshold(value) == if value.Finite? then value.value.category else 1
  {
    if value.Finite? {
      ScaledCategory(value.value);
    }
  }

  /** `bestHandValueToString`: the first threshold the value reaches picks the
      message; `v` is the ascending values, `suit` the first card's suit. */
  function BestHandMessage(value: Score, v: seq<int>, suit: Suit, wheel: bool): (r: Result<string>)
    requires |v| > 0
    ensures r.Ok? <==> Threshold(value) in {10, 9, 6, 5} ||
                       (RankName(TopGroup(v).value).Ok? && (Threshold(value) in {7, 3} ==> SecondName(v).Ok?))
  {
    var top := RankName(TopGroup(v).value);
    var suitName := Capitalize(SuitWord(suit));
    var c := Threshold(value);
    if c == 10 then Ok("Royal Flush")
    else if c == 9 then
      if wheel then Ok("Straight Flush (Wheel, " + suitName + ")")
      else Ok("Straight Flush (" + Printed(v, 0) + " - " + Printed(v, 4) + ", " + suitName + ")")
    else if c == 8 then Join("Four of a Kind (", top, "'s)")
    else if c == 7 then Join2("Full House (", top, "'s over ", SecondName(v), "'s)")
    else if c == 6 then Ok("Flush (" + suitName + ")")
    else if c == 5 then
      if wheel then Ok("Straight (Wheel)")
      else Ok("Straight (" + Printed(v, 0) + " - " + Printed(v, 4) + ")")
    else if c == 4 then Join("Three of a Kind (", top, "'s)")
    else if c == 3 then Join2("Two Pair (", top, "'s and ", SecondName(v), "'s)")
    else if c == 2 then Join("Pair of ", top, "'s")
    else Join("High Card (", top, ")")
  }

  lemma PrefixConcat(p: string, a: string, x: string, y: string)
    ensures p <= p + a + x + y
  {
    assert (p + a + x + y)[..|p|] == p;
  }

  lemma PrefixGrows(p: string, s: string, x: string, y: string)
    requires p <= s
    ensures p <= s + x + y
  {
    assert (s + x + y)[..|p|] == s[..|p|];
  }

  lemma JoinPrefix(p: string, a: string, r: Result<string>, b: string)
    requires p <= a
    ensures Join(a, r, b).Ok? ==> p <= Join(a, r, b).value
  {
    if r.Ok? {
      PrefixGrows(p, a, r.value, b);
    }
  }

  lemma Join2Prefix(p: string, a: string, r1: Result<string>, b: string, r2: Result<string>, c: string)
    requires p <= a
    ensures Join2(a, r1, b, r2, c).Ok? ==> p <= Join2(a, r1, b, r2, c).value
  {
    if r1.Ok? && r2.Ok? {
      PrefixGrows(p, a, r1.value, b);
      PrefixGrows(p, a + r1.value + b, r2.value, c);
    }
  }

  lemma StraightFlushPrefix(value: Score, v: seq<int>, suit: Suit, wheel: bool)
    requires |v| > 0 && Threshold(value) == 9
    ensures var r := BestHandMessage(value, v, suit, wheel);
              r.Ok? && "Straight Flush" <= r.value
  {
    var suitName := Capitalize(SuitWord(suit));
    if wheel {
      assert BestHandMessage(value, v, suit, wheel) == Ok("Straight Flush (Wheel, " + suitName + ")");
      PrefixConcat("Straight Flush", " (Wheel, ", suitName, ")");
    } else {
      var m := "Straight Flush (" + Printed(v, 0) + " - " + Printed(v, 4) + ", " + suitName + ")";
      assert BestHandMessage(value, v, suit, wheel) == Ok(m);
      PrefixConcat("Straight Flush", " (", Printed(v, 0), " - ");
      PrefixGrows("Straight Flush", "Straight Flush (" + Printed(v, 0) + " - ", Printed(v, 4), ", ");
      PrefixGrows("Straight Flush", "Straight Flush (" + Printed(v, 0) + " - " + Printed(v, 4) + ", ", suitName, ")");
    }
  }

  lemma FlushOrStraightPrefix(value: Score, v: seq<int>, suit: Suit, wheel: bool)
    requires |v| > 0 && Threshold(value) in {5, 6}
    ensures var r := BestHandMessage(value, v, suit, wheel);
              r.Ok? && CategoryName(Threshold(value)) <= r.value
  {
    var suitName := Capitalize(SuitWord(suit));
    if Threshold(value) == 6 {
      assert BestHandMessage(value, v, suit, wheel) == Ok("Flush (" + suitName + ")");
      PrefixConcat("Flush", " (", suitName, ")");
    } else if wheel {
      assert BestHandMessage(value, v, suit, wheel) == Ok("Straight (Wheel)");
      assert "Straight (Wheel)"[..8] == "Straight";
    } else {
      var m := "Straight (" + Printed(v, 0) + " - " + Printed(v, 4) + ")";
      assert BestHandMessage(value, v, suit, wheel) == Ok(m);
      PrefixConcat("Straight", " (", Printed(v, 0), " - ");
      PrefixGrows("Straight", "Straight (" + Printed(v, 0) + " - ", Printed(v, 4), ")");
    }
  }

  lemma GroupMessagePrefix(value: Score, v: seq<int>, suit: Suit, wheel: bool)
    requires |v| > 0 && Threshold(value) !in {5, 6, 9}
    ensures var r := BestHandMessage(value, v, suit, wheel);
              r.Ok? ==> CategoryName(Threshold(value)) <= r.value
  {
    var top := RankName(TopGroup(v).value);
    var c := Threshold(value);
    if c == 10 {
    } else if c == 8 {
      JoinPrefix("Four of a Kind", "Four of a Kind (", top, "'s)");
    } else if c == 7 {
      Join2Prefix("Full House", "Full House (", top, "'s over ", SecondName(v), "'s)");
    } else if c == 4 {
      JoinPrefix("Three of a Kind", "Three of a Kind (", top, "'s)");
    } else if c == 3 {
      Join2Prefix("Two Pair", "Two Pair (", top, "'s and ", SecondName(v), "'s)");
    } else if c == 2 {
      JoinPrefix("Pair", "Pair of ", top, "'s");
    } else {
      JoinPrefix("High Card", "High Card (", top, ")");
    }
  }

  /** What the message reports when it exists: its opening words name the
      category the value reaches. */
  lemma BestHandMessagePrefix(value: Score, v: seq<int>, suit: Suit, wheel: bool)
    requires |v| > 0
    ensures var r := BestHandMessage(value, v, suit, wheel);
              r.Ok? ==> CategoryName(Threshold(value)) <= r.value
  {
    var c := Threshold(value);
    if c == 9 {
      StraightFlushPrefix(value, v, suit, wheel);
    } else if c in {5, 6} {
      FlushOrStraightPrefix(value, v, suit, wheel);
    } else {
      GroupMessagePrefix(value, v, suit, wheel);
    }
  }

  /** The message opens with the name of the score's category; `NaN` passes
      no threshold and is named a high card. */
  lemma BestHandMessageNamesCategory(value: Score, v: seq<int>, suit: Suit, wheel: bool)
    requires |v| > 0
    requires value.Finite? ==> WellFormed(value.value)
    ensures var r := BestHandMessage(value, v, suit, wheel);
              r.Ok? ==> CategoryName(if value.Finite? then value.value.category else 1) <= r.value
  {
    ThresholdIsCategory(value);
    BestHandMessagePrefix(value, v, suit, wheel);
  }

  /** The message exists whenever the values it names are rank values and the
      second bar is there for the full house and two pair messages. */
  lemma BestHandMessageOk(value: Score, v: seq<int>, suit: Suit, wheel: bool)
    requires |v| > 0 && 2 <= TopGroup(v).value <= 14
    requires Threshold(value) in {3, 7} ==> SecondGroup(v).Some? && 2 <= SecondGroup(v).value.value <= 14
    ensures BestHandMessage(value, v, suit, wheel).Ok?
  {
    assert RankName(TopGroup(v).value).Ok?;
    var c := Threshold(value);
    if c in {3, 7} {
      assert SecondName(v).Ok?;
    }
  }

  /** The `{ rank, message }` object `evaluateHand` returns. */
  datatype Evaluation = Evaluation(rank: Score, message: string)

  /** `evaluateHand`: the rank of `evaluateHandRank` and its message. */
  function EvaluateHand(cards: seq<Card>): (r: Result<Evaluation>)
    ensures r.Ok? ==> EvaluateHandRank(cards) == Ok(r.value.rank)
    ensures EvaluateHandRank(cards).Err? ==> r.Err?
  {
    match EvaluateHandRank(cards)
    case Err(m) => Err(m)
    case Ok(rank) =>
      var v := SortedValues(cards);
      var wheel := |v| >= 5 && IsWheel(v);
      match BestHandMessage(rank, v, cards[0].suit, wheel)
      case Err(m) => Err(m)
      case Ok(message) => Ok(Evaluation(rank, message))
  }

  /** On standard cards the message names the category of the rank. */
  lemma EvaluateHandNamesCategory(cards: seq<Card>)
    requires AllStandard(cards)
    ensures var r := EvaluateHand(cards);
              r.Ok? && r.value.rank.Finite? ==> CategoryName(r.value.rank.value.category) <= r.value.message
  {
    var rank := EvaluateHandRank(cards);
    if rank.Ok? && |cards| > 0 {
      var v := SortedValues(cards);
      BestHandMessageNamesCategory(rank.value, v, cards[0].suit, |v| >= 5 && IsWheel(v));
    }
  }

  /** On standard cards `evaluateHand` returns whenever its rank does: the
      full house and two pair ranks come only from hands with a second bar. */
  lemma EvaluateHandHasMessage(cards: seq<Card>)
    requires AllStandard(cards)
    ensures EvaluateHand(cards).Ok? <==> EvaluateHandRank(cards).Ok?
  {
    var rank := EvaluateHandRank(cards);
    if rank.Ok? {
      var v := SortedValues(cards);
      SortedValuesRange(cards);
      assert v[0] in v;
      var t := TopGroup(v);
      assert t.value in v;
      ThresholdIsCategory(rank.value);
      if SecondGroup(v).Some? {
        assert SecondGroup(v).value.value in v;
      }
      BestHandMessageOk(rank.value, v, cards[0].suit, |v| >= 5 && IsWheel(v));
    }
  }

  // ---------------------------------------------------------------- kickers

  /** `2^n`. */
  function Pow2(n: nat): (p: nat)
    ensures p >= 1
  {
    if n == 0 then 1 else 2 * Pow2(n - 1)
  }

  lemma Pow2Values()
    ensures Pow2(0) == 1 && Pow2(1) == 2 && Pow2(2) == 4 && Pow2(3) == 8
    ensures Pow2(4) == 16 && Pow2(5) == 32 && Pow2(6) == 64 && Pow2(7) == 128
    ensures Pow2(8) == 256 && Pow2(9) == 512 && Pow2(10) == 1024 && Pow2(11) == 2048
  {
    assert Pow2(1) == 2 * Pow2(0);
    assert Pow2(2) == 2 * Pow2(1);
    assert Pow2(3) == 2 * Pow2(2);
    assert Pow2(4) == 2 * Pow2(3);
    assert Pow2(5) == 2 * Pow2(4);
    assert Pow2(6) == 2 * Pow2(5);
    assert Pow2(7) == 2 * Pow2(6);
    assert Pow2(8) == 2 * Pow2(7);
    assert Pow2(9) == 2 * Pow2(8);
    assert Pow2(10) == 2 * Pow2(9);
    assert Pow2(11) == 2 * Pow2(10);
  }

  /** The weight `rankKickers` pushes for one character, in ten-thousandths;
      a character that is not a rank character pushes nothing. */
  function KickerWeight(c: char): Option<int> {
    match c
    case 'A' => Some(2048)
    case 'K' => Some(1024)
    case 'Q' => Some(512)
    case 'J' => Some(256)
    case 'T' => Some(128)
    case '9' => Some(64)
    case '8' => Some(32)
    case '7' => Some(16)
    case '6' => Some(8)
    case '5' => Some(4)
    case '4' => Some(2)
    case '3' => Some(1)
    case '2' => Some(0)
    case _ => None
  }

  /** A two weighs nothing and every other rank weighs twice the rank below
      it: the weight of a rank of value `x > 2` is `2^(x - 3)`, so one card
      outweighs all lower cards together. */
  lemma KickerWeightOfRank(k: Rank)
    requires k != Wild
    ensures KickerWeight(RankInitial(k)) == Some(if k == Two then 0 else Pow2(RankToValue(k) - 3))
  {
    Pow2Values();
  }

  /** `KickerWeight` holds for exactly the rank characters. */
  lemma KickerWeightDefined(c: char)
    ensures KickerWeight(c).Some? <==> c in Constants.RankChars
  {
  }

  /** The weights the first loop pushes, in order (its extra step at
      `i == ranks.length` reads `""` and pushes nothing). */
  function KickerWeights(ranks: string): (w: seq<int>)
    ensures |w| <= |ranks|
    ensures forall i :: 0 <= i < |w| ==> 0 <= w[i] <= 2048
  {
    if |ranks| == 0 then []
    else
      var rest := KickerWeights(ranks[1..]);
      match KickerWeight(ranks[0])
      case None => rest
      case Some(x) => [x] + rest
  }

  lemma {:induction false} KickerWeightsSplit(a: string, b: string)
    ensures KickerWeights(a + b) == KickerWeights(a) + KickerWeights(b)
    decreases |a|
  {
    if |a| > 0 {
      assert (a + b)[0] == a[0];
      assert (a + b)[1..] == a[1..] + b;
      KickerWeightsSplit(a[1..], b);
      match KickerWeight(a[0])
      case None =>
      case Some(x) =>
        assert [x] + (KickerWeights(a[1..]) + KickerWeights(b)) == [x] + KickerWeights(a[1..]) + KickerWeights(b);
    } else {
      assert a + b == b;
    }
  }

  lemma RemoveFirst(a: string, b: string, k: nat)
    requires multiset(a) == multiset(b) && |a| > 0 && k < |b| && b[k] == a[0]
    ensures multiset(a[1..]) == multiset(b[..k] + b[k + 1..])
  {
    var c := a[0];
    assert a == [c] + a[1..];
    assert b == b[..k] + [c] + b[k + 1..];
    assert multiset(a[1..]) == multiset(a) - multiset([c]);
    assert multiset(b[..k] + b[k + 1..]) == multiset(b) - multiset([c]);
  }

  lemma KickerWeightsSplice(b1: string, c: char, b2: string)
    ensures multiset(KickerWeights(b1 + [c] + b2)) == multiset(KickerWeights([c])) + multiset(KickerWeights(b1 + b2))
  {
    KickerWeightsSplit(b1, b2);
    KickerWeightsSplit(b1 + [c], b2);
    KickerWeightsSplit(b1, [c]);
  }

  /** The weights pushed depend only on which characters occur how often. */
  lemma {:induction false} KickerWeightsMultiset(a: string, b: string)
    requires multiset(a) == multiset(b)
    ensures multiset(KickerWeights(a)) == multiset(KickerWeights(b))
    decreases |a|
  {
    if |a| > 0 {
      var c := a[0];
      assert c in multiset(b);
      var k :| 0 <= k < |b| && b[k] == c;
      RemoveFirst(a, b, k);
      KickerWeightsMultiset(a[1..], b[..k] + b[k + 1..]);
      assert a == [c] + a[1..];
      KickerWeightsSplit([c], a[1..]);
      assert b == b[..k] + [c] + b[k + 1..];
      KickerWeightsSplice(b[..k], c, b[k + 1..]);
    } else {
      assert b == [];
    }
  }

  /** The second loop of `rankKickers`: the sum of the first `n` entries of
      the weights sorted in descending order, i.e. of the last `n` of `w`
      sorted ascending; `NaN` (`None`) once it reads past the end. */
  function TopSum(w: seq<int>, n: int): Option<int> {
    if n > |w| then None
    else if n <= 0 then Some(0)
    else Some(Sum(w[|w| - n..]))
  }

  /** `rankKickers(ranks, noOfCards)` in ten-thousandths: the sum of the
      `noOfCards` largest weights, or `NaN` (`None`) when fewer weights were
      pushed, since the sum then reads past the end of the array. */
  function RankKickers(ranks: string, noOfCards: int): (r: Option<int>)
    ensures r.None? <==> noOfCards > |KickerWeights(ranks)|
    ensures noOfCards <= 0 ==> r == Some(0)
  {
    TopSum(SortAsc(KickerWeights(ranks)), noOfCards)
  }

  /** Asking for every pushed weight sums them all. */
  lemma RankKickersAll(ranks: string)
    ensures RankKickers(ranks, |KickerWeights(ranks)|) == Some(Sum(KickerWeights(ranks)))
  {
    var w := SortAsc(KickerWeights(ranks));
    assert w[|w| - |w|..] == w;
    SumOfPermutation(w, KickerWeights(ranks));
  }

  /** For as many cards as there are pushed weights, or fewer, the kicker
      rank is the largest sum that many of the pushed weights can make: some
      `n` of them add up to it, and no `n` of them add up to more. */
  lemma RankKickersTopWeights(ranks: string, n: nat)
    requires n <= |KickerWeights(ranks)|
    ensures RankKickers(ranks, n).Some?
    ensures exists t :: multiset(t) <= multiset(KickerWeights(ranks)) && |t| == n && Sum(t) == RankKickers(ranks, n).value
    ensures forall u :: multiset(u) <= multiset(KickerWeights(ranks)) && |u| == n ==> Sum(u) <= RankKickers(ranks, n).value
  {
    var kw := KickerWeights(ranks);
    var w := SortAsc(kw);
    var t := w[|w| - n..];
    assert w == w[..|w| - n] + t;
    assert multiset(t) <= multiset(kw);
    if n == 0 {
      assert t == [];
    }
    assert Sum(t) == RankKickers(ranks, n).value;
    forall u | multiset(u) <= multiset(kw) && |u| == n
      ensures Sum(u) <= RankKickers(ranks, n).value
    {
      TopSumIsLargest(w, u);
    }
  }

  /** Reordering the rank characters does not change the kicker rank. */
  lemma RankKickersOfPermutation(a: string, b: string, n: int)
    requires multiset(a) == multiset(b)
    ensures RankKickers(a, n) == RankKickers(b, n)
  {
    KickerWeightsMultiset(a, b);
    SortAscOfPermutation(KickerWeights(a), KickerWeights(b));
    assert SortAsc(KickerWeights(a)) == SortAsc(KickerWeights(b));
  }

  /** One more entry from the top adds an entry that is not negative. */
  lemma TopSumStep(w: seq<int>, n: int)
    requires 0 <= n < |w| && w[|w| - (n + 1)] >= 0
    ensures TopSum(w, n + 1).Some? && TopSum(w, n).Some?
    ensures TopSum(w, n + 1).value >= TopSum(w, n).value
  {
    var m := |w| - (n + 1);
    assert w[m..] == [w[m]] + w[m + 1..];
    SumAppend([w[m]], w[m + 1..]);
    if n == 0 {
      assert w[m + 1..] == [];
    }
  }

  /** Counting one more card adds the next largest weight, so the kicker rank
      never drops as `noOfCards` grows. */
  lemma RankKickersMonotone(ranks: string, n: int)
    requires 0 <= n < |KickerWeights(ranks)|
    ensures RankKickers(ranks, n + 1).value >= RankKickers(ranks, n).value
  {
    var kw := KickerWeights(ranks);
    SortedNonNegative(kw);
    TopSumStep(SortAsc(kw), n);
  }

  /** Sorting keeps the entries, so it keeps them all non-negative. */
  lemma SortedNonNegative(kw: seq<int>)
    requires forall i :: 0 <= i < |kw| ==> kw[i] >= 0
    ensures forall i :: 0 <= i < |SortAsc(kw)| ==> SortAsc(kw)[i] >= 0
  {
    var w := SortAsc(kw);
    forall i | 0 <= i < |w|
      ensures w[i] >= 0
    {
      assert w[i] in multiset(kw);
      var j :| 0 <= j < |kw| && kw[j] == w[i];
    }
  }

  // ---------------------------------------------------------------- getRemainingElements

  /** A JavaScript value that may or may not be an array. */
  datatype JsList<T> = Array(items: seq<T>) | NotArray

  /** `collection.filter(e => !extractedSet.has(e))`. */
  function Remaining<T(==)>(collection: seq<T>, extracted: seq<T>): (r: seq<T>)
    ensures |r| <= |collection|
  {
    if |collection| == 0 then []
    else
      var rest := Remaining(collection[..|collection| - 1], extracted);
      var last := collection[|collection| - 1];
      if last in extracted then rest else rest + [last]
  }

  /** The filter keeps every occurrence of what is not extracted and drops
      every occurrence of what is. */
  lemma {:induction false} RemainingCounts<T>(collection: seq<T>, extracted: seq<T>, x: T)
    ensures multiset(Remaining(collection, extracted))[x] ==
              if x in extracted then 0 else multiset(collection)[x]
    ensures x in Remaining(collection, extracted) <==> x in collection && x !in extracted
  {
    if |collection| > 0 {
      var init := collection[..|collection| - 1];
      var last := collection[|collection| - 1];
      RemainingCounts(init, extracted, x);
      assert collection == init + [last];
    }
  }

  /** `getRemainingElements`: throws unless both arguments are arrays. */
  function GetRemainingElements<T(==)>(collection: JsList<T>, extracted: JsList<T>): (r: Result<seq<T>>)
    ensures r.Err? <==> collection.NotArray? || extracted.NotArray?
    ensures r.Err? ==> r.msg == "Both arguments must be arrays."
  {
    if collection.NotArray? || extracted.NotArray? then Err("Both arguments must be arrays.")
    else Ok(Remaining(collection.items, extracted.items))
  }

  /** The filter keeps the survivors in their original order: filtering a
      concatenation filters each part. */
  lemma {:induction false} RemainingAppend<T>(a: seq<T>, b: seq<T>, e: seq<T>)
    ensures Remaining(a + b, e) == Remaining(a, e) + Remaining(b, e)
    decreases |b|
  {
    if |b| > 0 {
      var b' := b[..|b| - 1];
      assert (a + b)[..|a + b| - 1] == a + b';
      assert (a + b)[|a + b| - 1] == b[|b| - 1];
      RemainingAppend(a, b', e);
    } else {
      assert a + b == a;
    }
  }

  /** Removing nothing keeps everything, and removing twice is removing once. */
  lemma {:induction false} RemainingIdempotent<T>(c: seq<T>, e: seq<T>)
    ensures Remaining(c, []) == c
    ensures Remaining(Remaining(c, e), e) == Remaining(c, e)
    decreases |c|
  {
    if |c| > 0 {
      var init := c[..|c| - 1];
      var last := c[|c| - 1];
      RemainingIdempotent(init, e);
      assert c == init + [last];
      assert Remaining(c, []) == Remaining(init, []) + [last];
      if last !in e {
        var r := Remaining(init, e);
        assert (r + [last])[..|r + [last]| - 1] == r;
        assert (r + [last])[|r + [last]| - 1] == last;
      }
    }
  }
}

=== FILE: constants.dfy ===
/** The client's lookup tables (game/client/lib/constants.ts): rank and suit
    characters, the rank-value and suit-value tables, and the list of the 52
    card names. */
module Constants {
  import opened Cards
  import opened Sequences

  const RankChars: seq<char> := ['A', '2', '3', '4', '5', '6', '7', '8', '9', 'T', 'J', 'Q', 'K']

  const SuitChars: seq<char> := ['H', 'D', 'C', 'S']

  /** `RANK_VALUES`, keyed by rank. */
  const RankValues: map<Rank, int> := map[
    Two := 2, Three := 3, Four := 4, Five := 5, Six := 6, Seven := 7, Eight := 8,
    Nine := 9, Ten := 10, Jack := 11, Queen := 12, King := 13, Ace := 14, Wild := 100]

  /** `SUIT_VALUES`, keyed by suit: clubs first. */
  const SuitValues: map<Suit, int> := map[Clubs := 1, Diamonds := 2, Hearts := 3, Spades := 4]

  /** `ALL_CARD_NAMES`, one suit per line as in the source. */
  const AllCardNames: seq<string> := HeartNames + DiamondNames + ClubNames + SpadeNames

  const HeartNames: seq<string> := ["AH", "2H", "3H", "4H", "5H", "6H", "7H", "8H", "9H", "TH", "JH", "QH", "KH"]
  const DiamondNames: seq<string> := ["AD", "2D", "3D", "4D", "5D", "6D", "7D", "8D", "9D", "TD", "JD", "QD", "KD"]
  const ClubNames: seq<string> := ["AC", "2C", "3C", "4C", "5C", "6C", "7C", "8C", "9C", "TC", "JC", "QC", "KC"]
  const SpadeNames: seq<string> := ["AS", "2S", "3S", "4S", "5S", "6S", "7S", "8S", "9S", "TS", "JS", "QS", "KS"]

  /** The thirteen names of one suit, in `RANK_CHARS` order. */
  function SuitRow(suitChar: char): seq<string> {
    seq(13, i requires 0 <= i < 13 => [RankChars[i], suitChar])
  }

  /** The card name at position `k` of a suit-major listing: suit `k / 13`, rank `k % 13`. */
  function SuitMajorName(k: nat): string
    requires k < 52
  {
    [RankChars[k % 13], SuitChars[k / 13]]
  }

  /** `ALL_CARD_NAMES` is the four suit rows, hearts, diamonds, clubs, spades. */
  lemma AllCardNamesRows()
    ensures AllCardNames == SuitRow('H') + SuitRow('D') + SuitRow('C') + SuitRow('S')
  {
    HeartRow();
    DiamondRow();
    ClubRow();
    SpadeRow();
  }

  lemma HeartRow() ensures SuitRow('H') == HeartNames {}
  lemma DiamondRow() ensures SuitRow('D') == DiamondNames {}
  lemma ClubRow() ensures SuitRow('C') == ClubNames {}
  lemma SpadeRow() ensures SuitRow('S') == SpadeNames {}

  /** Every entry of `ALL_CARD_NAMES` is a rank character followed by a suit
      character, listed suit by suit in rank-character order. */
  lemma AllCardNamesSuitMajor()
    ensures |AllCardNames| == 52
    ensures forall k :: 0 <= k < 52 ==> AllCardNames[k] == SuitMajorName(k)
  {
    var rows := [SuitRow('H'), SuitRow('D'), SuitRow('C'), SuitRow('S')];
    AllCardNamesRows();
    forall k | 0 <= k < 52 ensures AllCardNames[k] == SuitMajorName(k) {
      var s, i := k / 13, k % 13;
      assert AllCardNames[k] == rows[s][i] by {
        if s == 0 {} else if s == 1 {} else if s == 2 {} else {}
      }
      SuitRowEntry(s, i);
    }
  }

  /** A string is a card name exactly when it is a rank character followed by a suit character. */
  lemma CardNameIff(s: string)
    ensures s in AllCardNames <==> |s| == 2 && s[0] in RankChars && s[1] in SuitChars
  {
    AllCardNamesSuitMajor();
    if |s| == 2 && s[0] in RankChars && s[1] in SuitChars {
      var i :| 0 <= i < 13 && RankChars[i] == s[0];
      var j :| 0 <= j < 4 && SuitChars[j] == s[1];
      SuitMajorPosition(i, j);
      assert AllCardNames[13 * j + i] == s;
    }
  }

  /** Rank `i` of suit `j` sits at position `13 * j + i` of the suit-major listing. */
  lemma SuitMajorPosition(i: nat, j: nat)
    requires i < 13 && j < 4
    ensures 13 * j + i < 52 && SuitMajorName(13 * j + i) == [RankChars[i], SuitChars[j]]
  {
    assert (13 * j + i) / 13 == j && (13 * j + i) % 13 == i;
  }

  /** Entry `i` of the row of suit `s` is the suit-major name at `13 * s + i`. */
  lemma SuitRowEntry(s: nat, i: nat)
    requires s < 4 && i < 13
    ensures SuitRow(SuitChars[s])[i] == SuitMajorName(13 * s + i)
  {
    assert (13 * s + i) / 13 == s && (13 * s + i) % 13 == i;
  }

  /** Distinct positions of the suit-major listing hold distinct names. */
  lemma SuitMajorNameInjective(k1: nat, k2: nat)
    requires k1 < 52 && k2 < 52 && k1 != k2
    ensures SuitMajorName(k1) != SuitMajorName(k2)
  {
    CharsDistinct();
    PositionsDiffer(k1, k2);
    if k1 % 13 != k2 % 13 {
      assert SuitMajorName(k1)[0] != SuitMajorName(k2)[0];
    } else {
      assert SuitMajorName(k1)[1] != SuitMajorName(k2)[1];
    }
  }

  /** No rank character and no suit character repeats. */
  lemma CharsDistinct()
    ensures Distinct(RankChars) && Distinct(SuitChars)
  {
  }

  /** Distinct numbers differ in their quotient or their remainder by 13. */
  lemma PositionsDiffer(k1: nat, k2: nat)
    requires k1 != k2
    ensures k1 % 13 != k2 % 13 || k1 / 13 != k2 / 13
  {
    assert k1 == 13 * (k1 / 13) + k1 % 13;
    assert k2 == 13 * (k2 / 13) + k2 % 13;
  }

  /** `ALL_CARD_NAMES` has 52 pairwise-distinct entries. */
  lemma AllCardNamesDistinct()
    ensures |AllCardNames| == 52
    ensures Distinct(AllCardNames)
  {
    AllCardNamesSuitMajor();
    forall i, j | 0 <= i < j < 52 ensures AllCardNames[i] != AllCardNames[j] {
      SuitMajorNameInjective(i, j);
    }
  }

  /** `RANK_VALUES` agrees with `rankToValue`, sends the thirteen standard ranks
      one-to-one onto 2..14 and sends wild to 100. */
  lemma RankValuesTable()
    ensures forall r :: r in RankValues && RankValues[r] == RankToValue(r)
    ensures forall r :: r != Wild ==> 2 <= RankValues[r] <= 14
    ensures RankValues[Wild] == 100
    ensures forall r1, r2 :: RankValues[r1] == RankValues[r2] ==> r1 == r2
  {
    forall r ensures r in RankValues && RankValues[r] == RankToValue(r) {
      match r
      case Two => case Three => case Four => case Five => case Six => case Seven =>
      case Eight => case Nine => case Ten => case Jack => case Queen => case King =>
      case Ace => case Wild =>
    }
  }

  /** `SUIT_VALUES` gives the four suits the distinct values 1..4, clubs 1 and hearts 3. */
  lemma SuitValuesTable()
    ensures forall s :: s in SuitValues && 1 <= SuitValues[s] <= 4
    ensures forall s1, s2 :: SuitValues[s1] == SuitValues[s2] ==> s1 == s2
    ensures SuitValues[Clubs] == 1 && SuitValues[Hearts] == 3
  {
    forall s ensures s in SuitValues && 1 <= SuitValues[s] <= 4 {
      match s
      case Hearts => case Diamonds => case Clubs => case Spades =>
    }
  }

  /** The ranks in `RANK_CHARS` order: ace first, king last. */
  const RankCharRanks: seq<Rank> :=
    [Ace, Two, Three, Four, Five, Six, Seven, Eight, Nine, Ten, Jack, Queen, King]

  /** `ALL_CARD_NAMES` is exactly the set of names of the 52 standard cards. */
  lemma AllCardNamesAreCardNames()
    ensures forall c :: IsStandard(c) ==> Name(c) in AllCardNames
    ensures forall n :: n in AllCardNames ==> exists c :: IsStandard(c) && Name(c) == n
  {
    AllCardNamesSuitMajor();
    forall c | IsStandard(c) ensures Name(c) in AllCardNames {
      var k := SuitIndex(c.suit) * 13 + RankCharIndex(c.rank);
      assert k % 13 == RankCharIndex(c.rank) && k / 13 == SuitIndex(c.suit);
      assert AllCardNames[k] == Name(c);
    }
    forall n | n in AllCardNames ensures exists c :: IsStandard(c) && Name(c) == n {
      var k :| 0 <= k < 52 && AllCardNames[k] == n;
      var c := Card(RankCharRanks[k % 13], DeckSuits[k / 13]);
      RankCharRanksInitial(k % 13);
      SuitInitialAt(k / 13);
      assert Name(c) == n;
    }
  }

  /** The rank at each position of `RANK_CHARS` is standard and has that character as its initial. */
  lemma RankCharRanksInitial(i: nat)
    requires i < 13
    ensures RankCharRanks[i] != Wild && RankInitial(RankCharRanks[i]) == RankChars[i]
  {
    if i == 0 {} else if i == 1 {} else if i == 2 {} else if i == 3 {} else if i == 4 {}
    else if i == 5 {} else if i == 6 {} else if i == 7 {} else if i == 8 {} else if i == 9 {}
    else if i == 10 {} else if i == 11 {} else {}
  }

  /** The suit at each position of the deck's suit order has that position's character as its initial. */
  lemma SuitInitialAt(i: nat)
    requires i < 4
    ensures SuitInitial(DeckSuits[i]) == SuitChars[i]
  {
    if i == 0 {} else if i == 1 {} else if i == 2 {} else {}
  }

  /** The position of a standard rank's character in `RANK_CHARS`. */
  function RankCharIndex(r: Rank): (k: nat)
    requires r != Wild
    ensures k < 13 && RankChars[k] == RankInitial(r)
  {
    match r
    case Ace => 0
    case Two => 1
    case Three => 2
    case Four => 3
    case Five => 4
    case Six => 5
    case Seven => 6
    case Eight => 7
    case Nine => 8
    case Ten => 9
    case Jack => 10
    case Queen => 11
    case King => 12
  }

  function SuitIndex(s: Suit): (k: nat)
    ensures k < 4 && SuitChars[k] == SuitInitial(s)
  {
    match s
    case Hearts => 0
    case Diamonds => 1
    case Clubs => 2
    case Spades => 3
  }
}

=== FILE: debug_hands.dfy ===
/** The eleven test hands of the debug scene (game/client/scenes/Debug.ts),
    one per category, and a few more hands on which the evaluators part, each
    with its values in dealing order and in ascending order. */
module DebugHands {
  import opened Cards
  import opened Sequences
  import opened HandRanking

  const RoyalFlush: seq<Card> :=
    [Card(Ace, Hearts), Card(King, Hearts), Card(Queen, Hearts), Card(Jack, Hearts), Card(Ten, Hearts)]
  const StraightFlush: seq<Card> :=
    [Card(Seven, Diamonds), Card(Four, Diamonds), Card(Six, Diamonds), Card(Eight, Diamonds), Card(Five, Diamonds)]
  const FourOfAKind: seq<Card> :=
    [Card(Three, Spades), Card(Ten, Diamonds), Card(Three, Diamonds), Card(Three, Hearts), Card(Three, Clubs)]
  const FullHouse: seq<Card> :=
    [Card(Queen, Clubs), Card(Nine, Spades), Card(Queen, Diamonds), Card(Nine, Clubs), Card(Queen, Spades)]
  const Straight: seq<Card> :=
    [Card(Eight, Clubs), Card(Four, Diamonds), Card(Five, Hearts), Card(Seven, Clubs), Card(Six, Spades)]
  const Wheel: seq<Card> :=
    [Card(Four, Clubs), Card(Two, Diamonds), Card(Ace, Hearts), Card(Five, Diamonds), Card(Three, Clubs)]
  const Flush: seq<Card> :=
    [Card(Queen, Hearts), Card(Three, Hearts), Card(Eight, Hearts), Card(Ten, Hearts), Card(Four, Hearts)]
  const ThreeOfAKind: seq<Card> :=
    [Card(Six, Clubs), Card(Two, Clubs), Card(Six, Diamonds), Card(Nine, Spades), Card(Six, Hearts)]
  const TwoPair: seq<Card> :=
    [Card(Ace, Spades), Card(Four, Hearts), Card(Seven, Clubs), Card(Seven, Spades), Card(Four, Diamonds)]
  const OnePair: seq<Card> :=
    [Card(Ace, Hearts), Card(Ace, Diamonds), Card(King, Diamonds), Card(Three, Clubs), Card(Five, Spades)]
  const HighCard: seq<Card> :=
    [Card(Queen, Spades), Card(Six, Clubs), Card(Seven, Diamonds), Card(Jack, Hearts), Card(Five, Diamonds)]

  /** AS KS QS JS TS: a royal flush in spades. */
  const SpadeRoyal: seq<Card> :=
    [Card(Ace, Spades), Card(King, Spades), Card(Queen, Spades), Card(Jack, Spades), Card(Ten, Spades)]
  /** AC KD QH JS TC: the ace-high straight. */
  const Broadway: seq<Card> :=
    [Card(Ace, Clubs), Card(King, Diamonds), Card(Queen, Hearts), Card(Jack, Spades), Card(Ten, Clubs)]
  /** AH KH 9H 7H 2H 3C 4D: seven cards holding a heart flush. */
  const SevenCardFlush: seq<Card> :=
    [Card(Ace, Hearts), Card(King, Hearts), Card(Nine, Hearts), Card(Seven, Hearts), Card(Two, Hearts),
     Card(Three, Clubs), Card(Four, Diamonds)]
  /** 9H 9D 9C 5H 5D 5C KS: seven cards holding two sets of three. */
  const TwoTrips: seq<Card> :=
    [Card(Nine, Hearts), Card(Nine, Diamonds), Card(Nine, Clubs), Card(Five, Hearts), Card(Five, Diamonds),
     Card(Five, Clubs), Card(King, Spades)]

  // Hands on which the score formula parts from hold'em, dealt in ascending order.

  /** 2C 2D 2H AS AC: deuces full of aces. */
  const DeucesFullOfAces: seq<Card> :=
    [Card(Two, Clubs), Card(Two, Diamonds), Card(Two, Hearts), Card(Ace, Spades), Card(Ace, Clubs)]
  /** 2S 2C 3C 3D 3H: threes full of deuces. */
  const ThreesFullOfDeuces: seq<Card> :=
    [Card(Two, Spades), Card(Two, Clubs), Card(Three, Clubs), Card(Three, Diamonds), Card(Three, Hearts)]
  /** 3C 3D 3H 4S 4C: threes full of fours. */
  const ThreesFullOfFours: seq<Card> :=
    [Card(Three, Clubs), Card(Three, Diamonds), Card(Three, Hearts), Card(Four, Spades), Card(Four, Clubs)]
  /** 2D 2H 5C AS AC: aces and deuces. */
  const AcesUpDeuces: seq<Card> :=
    [Card(Two, Diamonds), Card(Two, Hearts), Card(Five, Clubs), Card(Ace, Spades), Card(Ace, Clubs)]
  /** 5C QD QH KS KC: kings and queens. */
  const KingsUpQueens: seq<Card> :=
    [Card(Five, Clubs), Card(Queen, Diamonds), Card(Queen, Hearts), Card(King, Spades), Card(King, Clubs)]
  /** JH QS KC AH AD: a pair of aces with king, queen, jack. */
  const AcesWithKingQueenJack: seq<Card> :=
    [Card(Jack, Hearts), Card(Queen, Spades), Card(King, Clubs), Card(Ace, Hearts), Card(Ace, Diamonds)]
  /** 2C 3H 4D AC AS: a pair of aces with four, three, deuce. */
  const AcesWithFourThreeDeuce: seq<Card> :=
    [Card(Two, Clubs), Card(Three, Hearts), Card(Four, Diamonds), Card(Ace, Clubs), Card(Ace, Spades)]

  // Each hand's values in dealing order, then the same multiset sorted.

  lemma RoyalFlushValues() ensures Values(RoyalFlush) == [14, 13, 12, 11, 10] {}
  lemma RoyalFlushMultiset() ensures multiset([14, 13, 12, 11, 10]) == multiset([10, 11, 12, 13, 14]) {}
  lemma StraightFlushValues() ensures Values(StraightFlush) == [7, 4, 6, 8, 5] {}
  lemma StraightFlushMultiset() ensures multiset([7, 4, 6, 8, 5]) == multiset([4, 5, 6, 7, 8]) {}
  lemma FourOfAKindValues() ensures Values(FourOfAKind) == [3, 10, 3, 3, 3] {}
  lemma FourOfAKindMultiset() ensures multiset([3, 10, 3, 3, 3]) == multiset([3, 3, 3, 3, 10]) {}
  lemma FullHouseValues() ensures Values(FullHouse) == [12, 9, 12, 9, 12] {}
  lemma FullHouseMultiset() ensures multiset([12, 9, 12, 9, 12]) == multiset([9, 9, 12, 12, 12]) {}
  lemma StraightValues() ensures Values(Straight) == [8, 4, 5, 7, 6] {}
  lemma StraightMultiset() ensures multiset([8, 4, 5, 7, 6]) == multiset([4, 5, 6, 7, 8]) {}
  lemma WheelValues() ensures Values(Wheel) == [4, 2, 14, 5, 3] {}
  lemma WheelMultiset() ensures multiset([4, 2, 14, 5, 3]) == multiset([2, 3, 4, 5, 14]) {}
  lemma FlushValues() ensures Values(Flush) == [12, 3, 8, 10, 4] {}
  lemma FlushMultiset() ensures multiset([12, 3, 8, 10, 4]) == multiset([3, 4, 8, 10, 12]) {}
  lemma ThreeOfAKindValues() ensures Values(ThreeOfAKind) == [6, 2, 6, 9, 6] {}
  lemma ThreeOfAKindMultiset() ensures multiset([6, 2, 6, 9, 6]) == multiset([2, 6, 6, 6, 9]) {}
  lemma TwoPairValues() ensures Values(TwoPair) == [14, 4, 7, 7, 4] {}
  lemma TwoPairMultiset() ensures multiset([14, 4, 7, 7, 4]) == multiset([4, 4, 7, 7, 14]) {}
  lemma OnePairValues() ensures Values(OnePair) == [14, 14, 13, 3, 5] {}
  lemma OnePairMultiset() ensures multiset([14, 14, 13, 3, 5]) == multiset([3, 5, 13, 14, 14]) {}
  lemma HighCardValues() ensures Values(HighCard) == [12, 6, 7, 11, 5] {}
  lemma HighCardMultiset() ensures multiset([12, 6, 7, 11, 5]) == multiset([5, 6, 7, 11, 12]) {}
  lemma SpadeRoyalValues() ensures Values(SpadeRoyal) == [14, 13, 12, 11, 10] {}
  lemma BroadwayValues() ensures Values(Broadway) == [14, 13, 12, 11, 10] {}
  lemma SevenCardFlushValues() ensures Values(SevenCardFlush) == [14, 13, 9, 7, 2, 3, 4] {}
  lemma SevenCardFlushMultiset()
    ensures multiset([14, 13, 9, 7, 2, 3, 4]) == multiset([2, 3, 4, 7, 9, 13, 14]) {}
  lemma TwoTripsValues() ensures Values(TwoTrips) == [9, 9, 9, 5, 5, 5, 13] {}
  lemma TwoTripsMultiset()
    ensures multiset([9, 9, 9, 5, 5, 5, 13]) == multiset([5, 5, 5, 9, 9, 9, 13]) {}

  // The ascending values of every hand above.

  lemma SortedSeven(a: int, b: int, c: int, d: int, e: int, f: int, g: int)
    requires a <= b <= c <= d <= e <= f <= g
    ensures SortedAsc([a, b, c, d, e, f, g])
  {
    var s := [a, b, c, d, e, f, g];
    forall i | 0 < i < |s| ensures s[i - 1] <= s[i] {
      if i == 1 {} else if i == 2 {} else if i == 3 {} else if i == 4 {} else if i == 5 {} else {}
    }
    SortedAscOfNeighbours(s);
  }

  lemma RoyalFlushSorted() ensures SortedValues(RoyalFlush) == [10, 11, 12, 13, 14] {
    RoyalFlushValues(); RoyalFlushMultiset(); SortedValuesAre(RoyalFlush, [10, 11, 12, 13, 14]);
  }

  lemma StraightFlushSorted() ensures SortedValues(StraightFlush) == [4, 5, 6, 7, 8] {
    StraightFlushValues(); StraightFlushMultiset(); SortedValuesAre(StraightFlush, [4, 5, 6, 7, 8]);
  }

  lemma FourOfAKindSorted() ensures SortedValues(FourOfAKind) == [3, 3, 3, 3, 10] {
    FourOfAKindValues(); FourOfAKindMultiset(); SortedValuesAre(FourOfAKind, [3, 3, 3, 3, 10]);
  }

  lemma FullHouseSorted() ensures SortedValues(FullHouse) == [9, 9, 12, 12, 12] {
    FullHouseValues(); FullHouseMultiset(); SortedValuesAre(FullHouse, [9, 9, 12, 12, 12]);
  }

  lemma StraightSorted() ensures SortedValues(Straight) == [4, 5, 6, 7, 8] {
    StraightValues(); StraightMultiset(); SortedValuesAre(Straight, [4, 5, 6, 7, 8]);
  }

  lemma WheelSorted() ensures SortedValues(Wheel) == [2, 3, 4, 5, 14] {
    WheelValues(); WheelMultiset(); SortedValuesAre(Wheel, [2, 3, 4, 5, 14]);
  }

  lemma FlushSorted() ensures SortedValues(Flush) == [3, 4, 8, 10, 12] {
    FlushValues(); FlushMultiset(); SortedValuesAre(Flush, [3, 4, 8, 10, 12]);
  }

  lemma ThreeOfAKindSorted() ensures SortedValues(ThreeOfAKind) == [2, 6, 6, 6, 9] {
    ThreeOfAKindValues(); ThreeOfAKindMultiset(); SortedValuesAre(ThreeOfAKind, [2, 6, 6, 6, 9]);
  }

  lemma TwoPairSorted() ensures SortedValues(TwoPair) == [4, 4, 7, 7, 14] {
    TwoPairValues(); TwoPairMultiset(); SortedValuesAre(TwoPair, [4, 4, 7, 7, 14]);
  }

  lemma OnePairSorted() ensures SortedValues(OnePair) == [3, 5, 13, 14, 14] {
    OnePairValues(); OnePairMultiset(); SortedValuesAre(OnePair, [3, 5, 13, 14, 14]);
  }

  lemma HighCardSorted() ensures SortedValues(HighCard) == [5, 6, 7, 11, 12] {
    HighCardValues(); HighCardMultiset(); SortedValuesAre(HighCard, [5, 6, 7, 11, 12]);
  }

  lemma SpadeRoyalSorted() ensures SortedValues(SpadeRoyal) == [10, 11, 12, 13, 14] {
    SpadeRoyalValues(); RoyalFlushMultiset(); SortedValuesAre(SpadeRoyal, [10, 11, 12, 13, 14]);
  }

  lemma BroadwaySorted() ensures SortedValues(Broadway) == [10, 11, 12, 13, 14] {
    BroadwayValues(); RoyalFlushMultiset(); SortedValuesAre(Broadway, [10, 11, 12, 13, 14]);
  }

  lemma SevenCardFlushSorted() ensures SortedValues(SevenCardFlush) == [2, 3, 4, 7, 9, 13, 14] {
    SevenCardFlushValues();
    SevenCardFlushMultiset();
    SortedSeven(2, 3, 4, 7, 9, 13, 14);
    SortedValuesAre(SevenCardFlush, [2, 3, 4, 7, 9, 13, 14]);
  }

  lemma TwoTripsSorted() ensures SortedValues(TwoTrips) == [5, 5, 5, 9, 9, 9, 13] {
    TwoTripsValues();
    TwoTripsMultiset();
    SortedSeven(5, 5, 5, 9, 9, 9, 13);
    SortedValuesAre(TwoTrips, [5, 5, 5, 9, 9, 9, 13]);
  }

  lemma DeucesFullOfAcesSorted() ensures SortedValues(DeucesFullOfAces) == [2, 2, 2, 14, 14] {
    var v := [2, 2, 2, 14, 14];
    SortedAscOfNeighbours(v);
    assert Values(DeucesFullOfAces) == v;
    SortedValuesAre(DeucesFullOfAces, v);
  }

  lemma ThreesFullOfDeucesSorted() ensures SortedValues(ThreesFullOfDeuces) == [2, 2, 3, 3, 3] {
    var v := [2, 2, 3, 3, 3];
    SortedAscOfNeighbours(v);
    assert Values(ThreesFullOfDeuces) == v;
    SortedValuesAre(ThreesFullOfDeuces, v);
  }

  lemma ThreesFullOfFoursSorted() ensures SortedValues(ThreesFullOfFours) == [3, 3, 3, 4, 4] {
    var v := [3, 3, 3, 4, 4];
    SortedAscOfNeighbours(v);
    assert Values(ThreesFullOfFours) == v;
    SortedValuesAre(ThreesFullOfFours, v);
  }

  lemma AcesUpDeucesSorted() ensures SortedValues(AcesUpDeuces) == [2, 2, 5, 14, 14] {
    var v := [2, 2, 5, 14, 14];
    SortedAscOfNeighbours(v);
    assert Values(AcesUpDeuces) == v;
    SortedValuesAre(AcesUpDeuces, v);
  }

  lemma KingsUpQueensSorted() ensures SortedValues(KingsUpQueens) == [5, 12, 12, 13, 13] {
    var v := [5, 12, 12, 13, 13];
    SortedAscOfNeighbours(v);
    assert Values(KingsUpQueens) == v;
    SortedValuesAre(KingsUpQueens, v);
  }

  lemma AcesWithKingQueenJackSorted() ensures SortedValues(AcesWithKingQueenJack) == [11, 12, 13, 14, 14] {
    var v := [11, 12, 13, 14, 14];
    SortedAscOfNeighbours(v);
    assert Values(AcesWithKingQueenJack) == v;
    SortedValuesAre(AcesWithKingQueenJack, v);
  }

  lemma AcesWithFourThreeDeuceSorted() ensures SortedValues(AcesWithFourThreeDeuce) == [2, 3, 4, 14, 14] {
    var v := [2, 3, 4, 14, 14];
    SortedAscOfNeighbours(v);
    assert Values(AcesWithFourThreeDeuce) == v;
    SortedValuesAre(AcesWithFourThreeDeuce, v);
  }
}

/** What the three evaluators make of the hands of the debug scene, and the
    hands on which they part. */
module HandExamples {
  import opened Cards
  import opened Wrappers
  import opened HandRanking
  import opened ServerPoker
  import opened ClientHand
  import opened EvaluatorComparison
  import opened DebugHands

  function Scored(category: int, primary: int, secondary: int): Result<Score> {
    Ok(Finite(HandValue(category, primary, secondary)))
  }

  lemma RoyalFlushChain() ensures Classify([10, 11, 12, 13, 14], true) == Scored(10, 0, 0) {}
  lemma StraightFlushChain() ensures Classify([4, 5, 6, 7, 8], true) == Scored(9, 8, 0) {}
  lemma FourOfAKindChain() ensures Classify([3, 3, 3, 3, 10], false) == Scored(8, 3, 0) {}
  lemma FullHouseChain() ensures Classify([9, 9, 12, 12, 12], false) == Scored(7, 12, 9) { FullHouseBars(); }
  lemma StraightChain() ensures Classify([4, 5, 6, 7, 8], false) == Scored(5, 8, 0) { SinglesBars([4, 5, 6, 7, 8]); }
  lemma WheelChain() ensures Classify([2, 3, 4, 5, 14], false) == Scored(5, 14, 0) { SinglesBars([2, 3, 4, 5, 14]); }
  lemma FlushChain() ensures Classify([3, 4, 8, 10, 12], true) == Scored(6, 12, 0) { SinglesBars([3, 4, 8, 10, 12]); }
  // The histograms that the chain cannot read off without help.

  lemma FullHouseBars()
    ensures TopGroup([9, 9, 12, 12, 12]) == Group(12, 3) && SecondGroup([9, 9, 12, 12, 12]) == Some(Group(9, 2))
  {
    var v := [9, 9, 12, 12, 12];
    assert Count(v, 12) == 3 && Count(v, 9) == 2;
    forall x | x in v ensures x == 9 || x == 12 { }
    TopGroupIs(v, 12);
    SecondGroupIs(v, 9);
  }

  lemma ThreeOfAKindBars()
    ensures TopGroup([2, 6, 6, 6, 9]) == Group(6, 3) && SecondGroup([2, 6, 6, 6, 9]) == Some(Group(9, 1))
  {
    var v := [2, 6, 6, 6, 9];
    assert Count(v, 6) == 3 && Count(v, 2) == 1 && Count(v, 9) == 1;
    TopGroupIs(v, 6);
    SecondGroupIs(v, 9);
  }

  lemma TwoPairBars()
    ensures TopGroup([4, 4, 7, 7, 14]) == Group(7, 2) && SecondGroup([4, 4, 7, 7, 14]) == Some(Group(4, 2))
  {
    var v := [4, 4, 7, 7, 14];
    assert Count(v, 4) == 2 && Count(v, 7) == 2 && Count(v, 14) == 1;
    TopGroupIs(v, 7);
    SecondGroupIs(v, 4);
  }

  lemma OnePairBars()
    ensures TopGroup([3, 5, 13, 14, 14]) == Group(14, 2) && SecondGroup([3, 5, 13, 14, 14]) == Some(Group(13, 1))
  {
    var v := [3, 5, 13, 14, 14];
    assert Count(v, 14) == 2 && Count(v, 3) == 1 && Count(v, 5) == 1 && Count(v, 13) == 1;
    TopGroupIs(v, 14);
    SecondGroupIs(v, 13);
  }

  lemma TwoTripsCounts()
    ensures Count([5, 5, 5, 9, 9, 9, 13], 5) == 3 && Count([5, 5, 5, 9, 9, 9, 13], 9) == 3
    ensures Count([5, 5, 5, 9, 9, 9, 13], 13) == 1
  {
  }

  lemma TwoTripsTop()
    ensures TopGroup([5, 5, 5, 9, 9, 9, 13]) == Group(9, 3)
  {
    var v := [5, 5, 5, 9, 9, 9, 13];
    TwoTripsCounts();
    forall x | x in v ensures Precedes(v, 9, x) {
      assert x == 5 || x == 9 || x == 13;
    }
    TopGroupIs(v, 9);
  }

  lemma TwoTripsFives()
    ensures Count([5, 5, 5, 9, 9, 9, 13], 5) == 3
    ensures forall x :: x in [5, 5, 5, 9, 9, 9, 13] && x != 9 ==> Precedes([5, 5, 5, 9, 9, 9, 13], 5, x)
  {
    var v := [5, 5, 5, 9, 9, 9, 13];
    TwoTripsCounts();
    forall x | x in v && x != 9 ensures Precedes(v, 5, x) {
      assert x == 5 || x == 13;
    }
  }

  lemma TwoTripsBars()
    ensures TopGroup([5, 5, 5, 9, 9, 9, 13]) == Group(9, 3) && SecondGroup([5, 5, 5, 9, 9, 9, 13]) == Some(Group(5, 3))
  {
    var v := [5, 5, 5, 9, 9, 9, 13];
    TwoTripsTop();
    TwoTripsFives();
    SecondGroupIs(v, 5);
  }

  lemma TwoTripsShape()
    ensures TopGroup([5, 5, 5, 9, 9, 9, 13]) == Group(9, 3) && SecondGroup([5, 5, 5, 9, 9, 9, 13]) == Some(Group(5, 3))
    ensures !IsStraight([5, 5, 5, 9, 9, 9, 13]) && !IsWheel([5, 5, 5, 9, 9, 9, 13])
  {
    TwoTripsBars();
  }

  lemma ThreeOfAKindShape()
    ensures TopGroup([2, 6, 6, 6, 9]) == Group(6, 3) && SecondGroup([2, 6, 6, 6, 9]) == Some(Group(9, 1))
    ensures !IsStraight([2, 6, 6, 6, 9])
  {
    ThreeOfAKindBars();
  }

  lemma ThreeOfAKindChain() ensures Classify([2, 6, 6, 6, 9], false) == Scored(4, 6, 0) { ThreeOfAKindShape(); }
  lemma TwoPairShape()
    ensures TopGroup([4, 4, 7, 7, 14]) == Group(7, 2) && SecondGroup([4, 4, 7, 7, 14]) == Some(Group(4, 2))
    ensures !IsStraight([4, 4, 7, 7, 14])
  {
    TwoPairBars();
  }

  lemma TwoPairChain() ensures Classify([4, 4, 7, 7, 14], false) == Scored(3, 7, 4) {
    TwoPairShape();
  }
  lemma OnePairShape()
    ensures TopGroup([3, 5, 13, 14, 14]) == Group(14, 2) && SecondGroup([3, 5, 13, 14, 14]) == Some(Group(13, 1))
    ensures !IsStraight([3, 5, 13, 14, 14])
  {
    OnePairBars();
  }

  lemma OnePairChain() ensures Classify([3, 5, 13, 14, 14], false) == Scored(2, 14, 0) { OnePairShape(); }
  lemma BroadwayChain() ensures Classify([10, 11, 12, 13, 14], false) == Scored(5, 14, 0) { SinglesBars([10, 11, 12, 13, 14]); }
  lemma HighCardChain() ensures Classify([5, 6, 7, 11, 12], false) == Scored(1, 12, 0) {
    SinglesBars([5, 6, 7, 11, 12]);
    ClassifyOfSingles([5, 6, 7, 11, 12]);
  }

  /** No flush, no straight and no two cards of a value: the server's chain
      scores a high card by the fifth-lowest value. */
  lemma ClassifyOfSingles(v: seq<int>)
    requires |v| >= 5 && !IsStraight(v) && TopGroup(v).count == 1
    ensures Classify(v, false) == Ok(FifthLowest(1, v))
  {
  }

  // The chains on the seven-card hands and on the client's view of the spade royal.

  lemma SpadeRoyalClientChains()
    ensures ClientChain([10, 11, 12, 13, 14], false, 4) == Scored(5, 14, 0)
    ensures ClientChain([10, 11, 12, 13, 14], false, 0) == Scored(5, 10, 0)
  {
    ClientChainOfStraight([10, 11, 12, 13, 14], 4);
    ClientChainOfStraight([10, 11, 12, 13, 14], 0);
  }

  /** Five values in a row without a flush: the client's chain scores a
      straight, broken by the value at `tie`. */
  lemma ClientChainOfStraight(v: seq<int>, tie: nat)
    requires |v| == 5 && IsStraight(v) && tie < 5
    ensures ClientChain(v, false, tie) == Ok(TieScore(5, v, tie))
  {
    StraightOfFiveIsSingles(v);
  }

  lemma SevenCardFlushBars() ensures TopGroup([2, 3, 4, 7, 9, 13, 14]) == Group(14, 1) {
    SinglesBars([2, 3, 4, 7, 9, 13, 14]);
  }

  lemma SevenCardFlushServerChain() ensures Classify([2, 3, 4, 7, 9, 13, 14], false) == Scored(1, 9, 0) {
    SevenCardFlushBars();
    ClassifyOfSingles([2, 3, 4, 7, 9, 13, 14]);
  }

  lemma SevenCardFlushClientChains()
    ensures ClientChain([2, 3, 4, 7, 9, 13, 14], true, 4) == Scored(6, 9, 0)
    ensures ClientChain([2, 3, 4, 7, 9, 13, 14], true, 0) == Scored(6, 2, 0)
  {
    SevenCardFlushBars();
  }

  lemma TwoTripsServerChain() ensures Classify([5, 5, 5, 9, 9, 9, 13], false) == Scored(4, 9, 0) {
    TwoTripsShape();
  }

  lemma TwoTripsClientChain(tie: nat)
    requires tie == 0 || tie == 4
    ensures ClientChain([5, 5, 5, 9, 9, 9, 13], false, tie) == Scored(1, 9, 0)
  {
    TwoTripsShape();
  }

  // The suit tests on the hands.

  lemma RoyalFlushSuited() ensures AllSameSuit(RoyalFlush) {}
  lemma StraightFlushSuited() ensures AllSameSuit(StraightFlush) {}
  lemma FlushSuited() ensures AllSameSuit(Flush) {}
  lemma SpadeRoyalSuited() ensures AllSameSuit(SpadeRoyal) {}

  lemma SevenCardFlushHearts() ensures SuitCount(SevenCardFlush, Hearts) == 5 {
    SuitCountIsMultiplicity(SevenCardFlush, Hearts);
    assert Suits(SevenCardFlush) == [Hearts, Hearts, Hearts, Hearts, Hearts, Clubs, Diamonds];
  }

  lemma SevenCardFlushSuits() ensures !AllSameSuit(SevenCardFlush) && ClientFlush(SevenCardFlush) {
    assert SevenCardFlush[5].suit != SevenCardFlush[0].suit;
    SevenCardFlushHearts();
    ClientFlushIff(SevenCardFlush);
  }

  lemma TwoTripsSuitList() ensures Suits(TwoTrips) == [Hearts, Diamonds, Clubs, Hearts, Diamonds, Clubs, Spades] {}

  lemma TwoTripsNoFlush() ensures !AllSameSuit(TwoTrips) && !ClientFlush(TwoTrips) {
    assert TwoTrips[1].suit != TwoTrips[0].suit;
    ClientFlushIff(TwoTrips);
    TwoTripsSuitList();
    SuitCountIsMultiplicity(TwoTrips, Hearts);
    SuitCountIsMultiplicity(TwoTrips, Diamonds);
    SuitCountIsMultiplicity(TwoTrips, Clubs);
  }

  // The debug scene's hands under the three evaluators.

  /** AH KH QH JH TH scores exactly 10 everywhere. */
  lemma RoyalFlushScores()
    ensures Evaluate(RoyalFlush) == Scored(10, 0, 0)
    ensures RankCards(RoyalFlush) == Scored(10, 0, 0)
    ensures EvaluateHandRank(RoyalFlush) == Scored(10, 0, 0)
  {
    RoyalFlushSorted();
    RoyalFlushChain();
    RoyalFlushSuited();
    ServerAgreesWithRankCardsOnFive(RoyalFlush);
    RankCardsVersusEvaluateHand(RoyalFlush);
  }

  /** 7D 4D 6D 8D 5D: 9.08 on the server and in `rankCards`, 9.04 in `evaluateHand`. */
  lemma StraightFlushScores()
    ensures Evaluate(StraightFlush) == Scored(9, 8, 0)
    ensures RankCards(StraightFlush) == Scored(9, 8, 0)
    ensures EvaluateHandRank(StraightFlush) == Scored(9, 4, 0)
  {
    StraightFlushSorted();
    StraightFlushChain();
    StraightFlushSuited();
    ServerAgreesWithRankCardsOnFive(StraightFlush);
    RankCardsVersusEvaluateHand(StraightFlush);
  }

  /** 3S TD 3D 3H 3C: 8.03 everywhere. */
  lemma FourOfAKindScores()
    ensures Evaluate(FourOfAKind) == Scored(8, 3, 0)
    ensures RankCards(FourOfAKind) == Scored(8, 3, 0)
    ensures EvaluateHandRank(FourOfAKind) == Scored(8, 3, 0)
  {
    FourOfAKindSorted();
    FourOfAKindChain();
    assert FourOfAKind[1].suit != FourOfAKind[0].suit;
    ServerAgreesWithRankCardsOnFive(FourOfAKind);
    RankCardsVersusEvaluateHand(FourOfAKind);
  }

  /** QC 9S QD 9C QS: 7.129 everywhere. */
  lemma FullHouseScores()
    ensures Evaluate(FullHouse) == Scored(7, 12, 9)
    ensures RankCards(FullHouse) == Scored(7, 12, 9)
    ensures EvaluateHandRank(FullHouse) == Scored(7, 12, 9)
  {
    FullHouseSorted();
    FullHouseChain();
    assert FullHouse[1].suit != FullHouse[0].suit;
    ServerAgreesWithRankCardsOnFive(FullHouse);
    RankCardsVersusEvaluateHand(FullHouse);
  }

  /** 8C 4D 5H 7C 6S: 5.08 on the server and in `rankCards`, 5.04 in `evaluateHand`. */
  lemma StraightScores()
    ensures Evaluate(Straight) == Scored(5, 8, 0)
    ensures RankCards(Straight) == Scored(5, 8, 0)
    ensures EvaluateHandRank(Straight) == Scored(5, 4, 0)
  {
    StraightSorted();
    StraightChain();
    assert Straight[1].suit != Straight[0].suit;
    ServerAgreesWithRankCardsOnFive(Straight);
    RankCardsVersusEvaluateHand(Straight);
  }

  /** 4C 2D AH 5D 3C, the wheel: 5.14 on the server and in `rankCards`, 5.02 in `evaluateHand`. */
  lemma WheelScores()
    ensures Evaluate(Wheel) == Scored(5, 14, 0)
    ensures RankCards(Wheel) == Scored(5, 14, 0)
    ensures EvaluateHandRank(Wheel) == Scored(5, 2, 0)
  {
    WheelSorted();
    WheelChain();
    assert Wheel[1].suit != Wheel[0].suit;
    ServerAgreesWithRankCardsOnFive(Wheel);
    RankCardsVersusEvaluateHand(Wheel);
  }

  /** QH 3H 8H TH 4H: 6.12 on the server and in `rankCards`, 6.03 in `evaluateHand`. */
  lemma FlushScores()
    ensures Evaluate(Flush) == Scored(6, 12, 0)
    ensures RankCards(Flush) == Scored(6, 12, 0)
    ensures EvaluateHandRank(Flush) == Scored(6, 3, 0)
  {
    FlushSorted();
    FlushChain();
    FlushSuited();
    ServerAgreesWithRankCardsOnFive(Flush);
    RankCardsVersusEvaluateHand(Flush);
  }

  /** 6C 2C 6D 9S 6H: 4.06 everywhere. */
  lemma ThreeOfAKindScores()
    ensures Evaluate(ThreeOfAKind) == Scored(4, 6, 0)
    ensures RankCards(ThreeOfAKind) == Scored(4, 6, 0)
    ensures EvaluateHandRank(ThreeOfAKind) == Scored(4, 6, 0)
  {
    ThreeOfAKindSorted();
    ThreeOfAKindChain();
    assert ThreeOfAKind[3].suit != ThreeOfAKind[0].suit;
    ServerAgreesWithRankCardsOnFive(ThreeOfAKind);
    RankCardsVersusEvaluateHand(ThreeOfAKind);
  }

  /** AS 4H 7C 7S 4D: 3.074 everywhere. */
  lemma TwoPairScores()
    ensures Evaluate(TwoPair) == Scored(3, 7, 4)
    ensures RankCards(TwoPair) == Scored(3, 7, 4)
    ensures EvaluateHandRank(TwoPair) == Scored(3, 7, 4)
  {
    TwoPairSorted();
    TwoPairChain();
    assert TwoPair[1].suit != TwoPair[0].suit;
    ServerAgreesWithRankCardsOnFive(TwoPair);
    RankCardsVersusEvaluateHand(TwoPair);
  }

  /** AH AD KD 3C 5S: 2.14 everywhere. */
  lemma OnePairScores()
    ensures Evaluate(OnePair) == Scored(2, 14, 0)
    ensures RankCards(OnePair) == Scored(2, 14, 0)
    ensures EvaluateHandRank(OnePair) == Scored(2, 14, 0)
  {
    OnePairSorted();
    OnePairChain();
    assert OnePair[1].suit != OnePair[0].suit;
    ServerAgreesWithRankCardsOnFive(OnePair);
    RankCardsVersusEvaluateHand(OnePair);
  }

  /** QS 6C 7D JH 5D: 1.12 everywhere. */
  lemma HighCardScores()
    ensures Evaluate(HighCard) == Scored(1, 12, 0)
    ensures RankCards(HighCard) == Scored(1, 12, 0)
    ensures EvaluateHandRank(HighCard) == Scored(1, 12, 0)
  {
    HighCardSorted();
    HighCardChain();
    assert HighCard[1].suit != HighCard[0].suit;
    ServerAgreesWithRankCardsOnFive(HighCard);
    RankCardsVersusEvaluateHand(HighCard);
  }

  // Where the evaluators part.

  /** The wheel ties the ace-high straight on the server and in `rankCards`,
      and so beats the eight-high straight; in `evaluateHand` it loses to both. */
  lemma WheelTiesBroadway()
    ensures Evaluate(Wheel) == Evaluate(Broadway)
    ensures Greater(Evaluate(Wheel).value, Evaluate(Straight).value)
    ensures Greater(EvaluateHandRank(Broadway).value, EvaluateHandRank(Wheel).value)
    ensures Greater(EvaluateHandRank(Straight).value, EvaluateHandRank(Wheel).value)
  {
    WheelScores();
    StraightScores();
    BroadwayScores();
  }

  /** AC KD QH JS TC: 5.14 on the server and in `rankCards`, 5.10 in `evaluateHand`. */
  lemma BroadwayScores()
    ensures Evaluate(Broadway) == Scored(5, 14, 0)
    ensures RankCards(Broadway) == Scored(5, 14, 0)
    ensures EvaluateHandRank(Broadway) == Scored(5, 10, 0)
  {
    BroadwaySorted();
    BroadwayChain();
    assert Broadway[1].suit != Broadway[0].suit;
    ServerAgreesWithRankCardsOnFive(Broadway);
    RankCardsVersusEvaluateHand(Broadway);
  }

  /** A royal flush in spades is a royal flush on the server but only an
      ace-high straight in `rankCards` (and a ten-high one in `evaluateHand`):
      the spade tally never reaches five. */
  lemma SpadeRoyalScores()
    ensures Evaluate(SpadeRoyal) == Scored(10, 0, 0)
    ensures RankCards(SpadeRoyal) == Scored(5, 14, 0)
    ensures EvaluateHandRank(SpadeRoyal) == Scored(5, 10, 0)
  {
    SpadeRoyalSorted();
    RoyalFlushChain();
    SpadeRoyalSuited();
    FlushTestsOnFive(SpadeRoyal);
    SpadeRoyalClientChains();
  }

  /** With seven cards the server sees no flush unless all seven share a suit,
      while the client sees one when exactly five do. */
  lemma SevenCardFlushScores()
    ensures Evaluate(SevenCardFlush) == Scored(1, 9, 0)
    ensures RankCards(SevenCardFlush) == Scored(6, 9, 0)
    ensures EvaluateHandRank(SevenCardFlush) == Scored(6, 2, 0)
  {
    SevenCardFlushSorted();
    SevenCardFlushSuits();
    SevenCardFlushServerChain();
    SevenCardFlushClientChains();
  }

  /** Two sets of three: three of a kind on the server, a high card in the
      client, whose three-of-a-kind branch wants a lone card in the second bar. */
  lemma TwoTripsScores()
    ensures Evaluate(TwoTrips) == Scored(4, 9, 0)
    ensures RankCards(TwoTrips) == Scored(1, 9, 0)
    ensures EvaluateHandRank(TwoTrips) == Scored(1, 9, 0)
  {
    TwoTripsSorted();
    TwoTripsNoFlush();
    TwoTripsServerChain();
    TwoTripsClientChain(4);
    TwoTripsClientChain(0);
  }

  // ---------------------------------------------------------------- where the formula parts from hold'em

  lemma DeucesFullOfAcesBars()
    ensures TopGroup([2, 2, 2, 14, 14]) == Group(2, 3) && SecondGroup([2, 2, 2, 14, 14]) == Some(Group(14, 2))
  {
    var v := [2, 2, 2, 14, 14];
    assert Count(v, 2) == 3 && Count(v, 14) == 2;
    forall x | x in v ensures x == 2 || x == 14 { }
    TopGroupIs(v, 2);
    SecondGroupIs(v, 14);
  }

  lemma ThreesFullOfDeucesBars()
    ensures TopGroup([2, 2, 3, 3, 3]) == Group(3, 3) && SecondGroup([2, 2, 3, 3, 3]) == Some(Group(2, 2))
  {
    var v := [2, 2, 3, 3, 3];
    assert Count(v, 3) == 3 && Count(v, 2) == 2;
    forall x | x in v ensures x == 2 || x == 3 { }
    TopGroupIs(v, 3);
    SecondGroupIs(v, 2);
  }

  lemma ThreesFullOfFoursBars()
    ensures TopGroup([3, 3, 3, 4, 4]) == Group(3, 3) && SecondGroup([3, 3, 3, 4, 4]) == Some(Group(4, 2))
  {
    var v := [3, 3, 3, 4, 4];
    assert Count(v, 3) == 3 && Count(v, 4) == 2;
    forall x | x in v ensures x == 3 || x == 4 { }
    TopGroupIs(v, 3);
    SecondGroupIs(v, 4);
  }

  lemma AcesUpDeucesShape()
    ensures TopGroup([2, 2, 5, 14, 14]) == Group(14, 2) && SecondGroup([2, 2, 5, 14, 14]) == Some(Group(2, 2))
    ensures !IsStraight([2, 2, 5, 14, 14])
  {
    var v := [2, 2, 5, 14, 14];
    assert Count(v, 14) == 2 && Count(v, 2) == 2 && Count(v, 5) == 1;
    TopGroupIs(v, 14);
    SecondGroupIs(v, 2);
  }

  lemma KingsUpQueensShape()
    ensures TopGroup([5, 12, 12, 13, 13]) == Group(13, 2) && SecondGroup([5, 12, 12, 13, 13]) == Some(Group(12, 2))
    ensures !IsStraight([5, 12, 12, 13, 13])
  {
    var v := [5, 12, 12, 13, 13];
    assert Count(v, 13) == 2 && Count(v, 12) == 2 && Count(v, 5) == 1;
    TopGroupIs(v, 13);
    SecondGroupIs(v, 12);
  }

  lemma AcesWithKingQueenJackShape()
    ensures TopGroup([11, 12, 13, 14, 14]) == Group(14, 2) && SecondGroup([11, 12, 13, 14, 14]) == Some(Group(13, 1))
    ensures !IsStraight([11, 12, 13, 14, 14])
  {
    var v := [11, 12, 13, 14, 14];
    assert Count(v, 14) == 2 && Count(v, 11) == 1 && Count(v, 12) == 1 && Count(v, 13) == 1;
    TopGroupIs(v, 14);
    SecondGroupIs(v, 13);
  }

  lemma AcesWithFourThreeDeuceShape()
    ensures TopGroup([2, 3, 4, 14, 14]) == Group(14, 2) && SecondGroup([2, 3, 4, 14, 14]) == Some(Group(4, 1))
    ensures !IsStraight([2, 3, 4, 14, 14])
  {
    var v := [2, 3, 4, 14, 14];
    assert Count(v, 14) == 2 && Count(v, 2) == 1 && Count(v, 3) == 1 && Count(v, 4) == 1;
    TopGroupIs(v, 14);
    SecondGroupIs(v, 4);
  }

  /** 2C 2D 2H AS AC: 7.034 everywhere. */
  lemma DeucesFullOfAcesScores()
    ensures Evaluate(DeucesFullOfAces) == Scored(7, 2, 14)
    ensures RankCards(DeucesFullOfAces) == Scored(7, 2, 14)
    ensures EvaluateHandRank(DeucesFullOfAces) == Scored(7, 2, 14)
  {
    DeucesFullOfAcesSorted();
    DeucesFullOfAcesBars();
    assert DeucesFullOfAces[1].suit != DeucesFullOfAces[0].suit;
    ServerAgreesWithRankCardsOnFive(DeucesFullOfAces);
    RankCardsVersusEvaluateHand(DeucesFullOfAces);
  }

  /** 2S 2C 3C 3D 3H: 7.032 everywhere. */
  lemma ThreesFullOfDeucesScores()
    ensures Evaluate(ThreesFullOfDeuces) == Scored(7, 3, 2)
    ensures RankCards(ThreesFullOfDeuces) == Scored(7, 3, 2)
    ensures EvaluateHandRank(ThreesFullOfDeuces) == Scored(7, 3, 2)
  {
    ThreesFullOfDeucesSorted();
    ThreesFullOfDeucesBars();
    assert ThreesFullOfDeuces[1].suit != ThreesFullOfDeuces[0].suit;
    ServerAgreesWithRankCardsOnFive(ThreesFullOfDeuces);
    RankCardsVersusEvaluateHand(ThreesFullOfDeuces);
  }

  /** 3C 3D 3H 4S 4C: 7.034 everywhere. */
  lemma ThreesFullOfFoursScores()
    ensures Evaluate(ThreesFullOfFours) == Scored(7, 3, 4)
    ensures RankCards(ThreesFullOfFours) == Scored(7, 3, 4)
    ensures EvaluateHandRank(ThreesFullOfFours) == Scored(7, 3, 4)
  {
    ThreesFullOfFoursSorted();
    ThreesFullOfFoursBars();
    assert ThreesFullOfFours[1].suit != ThreesFullOfFours[0].suit;
    ServerAgreesWithRankCardsOnFive(ThreesFullOfFours);
    RankCardsVersusEvaluateHand(ThreesFullOfFours);
  }

  /** 2D 2H 5C AS AC: 3.142 everywhere. */
  lemma AcesUpDeucesScores()
    ensures Evaluate(AcesUpDeuces) == Scored(3, 14, 2)
    ensures RankCards(AcesUpDeuces) == Scored(3, 14, 2)
    ensures EvaluateHandRank(AcesUpDeuces) == Scored(3, 14, 2)
  {
    AcesUpDeucesSorted();
    AcesUpDeucesShape();
    assert AcesUpDeuces[1].suit != AcesUpDeuces[0].suit;
    ServerAgreesWithRankCardsOnFive(AcesUpDeuces);
    RankCardsVersusEvaluateHand(AcesUpDeuces);
  }

  /** 5C QD QH KS KC: 3.142 everywhere. */
  lemma KingsUpQueensScores()
    ensures Evaluate(KingsUpQueens) == Scored(3, 13, 12)
    ensures RankCards(KingsUpQueens) == Scored(3, 13, 12)
    ensures EvaluateHandRank(KingsUpQueens) == Scored(3, 13, 12)
  {
    KingsUpQueensSorted();
    KingsUpQueensShape();
    assert KingsUpQueens[1].suit != KingsUpQueens[0].suit;
    ServerAgreesWithRankCardsOnFive(KingsUpQueens);
    RankCardsVersusEvaluateHand(KingsUpQueens);
  }

  /** JH QS KC AH AD: 2.14 everywhere. */
  lemma AcesWithKingQueenJackScores()
    ensures Evaluate(AcesWithKingQueenJack) == Scored(2, 14, 0)
    ensures RankCards(AcesWithKingQueenJack) == Scored(2, 14, 0)
    ensures EvaluateHandRank(AcesWithKingQueenJack) == Scored(2, 14, 0)
  {
    AcesWithKingQueenJackSorted();
    AcesWithKingQueenJackShape();
    assert AcesWithKingQueenJack[1].suit != AcesWithKingQueenJack[0].suit;
    ServerAgreesWithRankCardsOnFive(AcesWithKingQueenJack);
    RankCardsVersusEvaluateHand(AcesWithKingQueenJack);
  }

  /** 2C 3H 4D AC AS: 2.14 everywhere. */
  lemma AcesWithFourThreeDeuceScores()
    ensures Evaluate(AcesWithFourThreeDeuce) == Scored(2, 14, 0)
    ensures RankCards(AcesWithFourThreeDeuce) == Scored(2, 14, 0)
    ensures EvaluateHandRank(AcesWithFourThreeDeuce) == Scored(2, 14, 0)
  {
    AcesWithFourThreeDeuceSorted();
    AcesWithFourThreeDeuceShape();
    assert AcesWithFourThreeDeuce[1].suit != AcesWithFourThreeDeuce[0].suit;
    ServerAgreesWithRankCardsOnFive(AcesWithFourThreeDeuce);
    RankCardsVersusEvaluateHand(AcesWithFourThreeDeuce);
  }

  /** A pair scores only its own value: aces with king, queen, jack tie aces
      with four, three, deuce in every evaluator. */
  lemma KickersIgnored()
    ensures Evaluate(AcesWithKingQueenJack) == Evaluate(AcesWithFourThreeDeuce)
    ensures RankCards(AcesWithKingQueenJack) == RankCards(AcesWithFourThreeDeuce)
    ensures EvaluateHandRank(AcesWithKingQueenJack) == EvaluateHandRank(AcesWithFourThreeDeuce)
  {
    AcesWithKingQueenJackScores();
    AcesWithFourThreeDeuceScores();
  }

  /** The second bar's value over 1000 can reach 0.014, more than a step of
      the first bar's value over 100: deuces full of aces (7.034) score above
      threes full of deuces (7.032), on the server and in `rankCards`. */
  lemma FullHouseBandInverts()
    ensures Evaluate(DeucesFullOfAces).Ok? && Evaluate(ThreesFullOfDeuces).Ok?
      && Greater(Evaluate(DeucesFullOfAces).value, Evaluate(ThreesFullOfDeuces).value)
    ensures RankCards(DeucesFullOfAces).Ok? && RankCards(ThreesFullOfDeuces).Ok?
      && Greater(RankCards(DeucesFullOfAces).value, RankCards(ThreesFullOfDeuces).value)
  {
    DeucesFullOfAcesScores();
    ThreesFullOfDeucesScores();
  }

  /** Deuces full of aces and threes full of fours both score 7.034: neither
      wins, and the pot is split. */
  lemma FullHouseBandTies()
    ensures Evaluate(DeucesFullOfAces).Ok? && Evaluate(ThreesFullOfFours).Ok?
      && !Greater(Evaluate(DeucesFullOfAces).value, Evaluate(ThreesFullOfFours).value)
      && !Greater(Evaluate(ThreesFullOfFours).value, Evaluate(DeucesFullOfAces).value)
  {
    DeucesFullOfAcesScores();
    ThreesFullOfFoursScores();
  }

  /** Aces and deuces (14 / 10 + 2 / 1000) and kings and queens (13 / 10 +
      12 / 1000) both score 3.142, on the server and in `rankCards`. */
  lemma TwoPairBandTies()
    ensures Evaluate(AcesUpDeuces).Ok? && Evaluate(KingsUpQueens).Ok?
      && !Greater(Evaluate(AcesUpDeuces).value, Evaluate(KingsUpQueens).value)
      && !Greater(Evaluate(KingsUpQueens).value, Evaluate(AcesUpDeuces).value)
    ensures RankCards(AcesUpDeuces).Ok? && RankCards(KingsUpQueens).Ok?
      && !Greater(RankCards(AcesUpDeuces).value, RankCards(KingsUpQueens).value)
      && !Greater(RankCards(KingsUpQueens).value, RankCards(AcesUpDeuces).value)
  {
    AcesUpDeucesScores();
    KingsUpQueensScores();
  }
}

=== FILE: deck_draws.dfy ===
/** Several draws in a row from a server deck, as the room's dealing does
    them (game/server/rooms/PokerRoom.ts, `dealCommunityCards`): which names
    are taken, in what order, and when a draw throws. */
module DeckDraws {
  import opened Wrappers
  import opened Sequences
  import opened ServerPoker

  /** Every name of the deck builds a card. */
  predicate Drawable(deck: seq<string>) {
    forall i :: 0 <= i < |deck| ==> NewCard(deck[i]).Ok?
  }

  /** `k` draws in a row from the end of the deck: the names in the order
      drawn and the deck left; the first failed draw throws. */
  function DrawNames(deck: seq<string>, k: nat): (r: Result<(seq<string>, seq<string>)>)
    ensures r.Ok? ==> |r.value.0| == k <= |deck|
  {
    if k == 0 then Ok(([], deck))
    else
      match Draw(deck)
      case Err(m) => Err(m)
      case Ok(d) =>
        match DrawNames(d.rest, k - 1)
        case Err(m) => Err(m)
        case Ok(more) => Ok(([d.card.name] + more.0, more.1))
  }

  /** One draw, then the other `k - 1`: the draws succeed exactly when both
      parts do. */
  lemma DrawNamesStepOk(deck: seq<string>, k: nat)
    requires k > 0 && |deck| > 0
    ensures DrawNames(deck, k).Ok? <==> NewCard(deck[|deck| - 1]).Ok? && DrawNames(deck[..|deck| - 1], k - 1).Ok?
  {
  }

  /** ... and then the names drawn are the top one over the others. */
  lemma DrawNamesStepValue(deck: seq<string>, k: nat)
    requires k > 0 && |deck| > 0 && DrawNames(deck, k).Ok?
    ensures var rest := deck[..|deck| - 1];
              && DrawNames(rest, k - 1).Ok?
              && DrawNames(deck, k).value.0 == [deck[|deck| - 1]] + DrawNames(rest, k - 1).value.0
              && DrawNames(deck, k).value.1 == DrawNames(rest, k - 1).value.1
  {
  }

  /** The top `k` of a deck, read backwards, are its last name over the top
      `k - 1` of the rest read backwards. */
  lemma ReverseTopSplit<T>(deck: seq<T>, k: nat)
    requires 0 < k <= |deck|
    ensures var n := |deck|;
            var rest := deck[..n - 1];
              Reverse(deck[n - k..]) == [deck[n - 1]] + Reverse(rest[|rest| - (k - 1)..])
  {
    var n := |deck|;
    var rest := deck[..n - 1];
    ReverseOfTop(deck, k);
    assert deck[n - k..n - 1] == rest[|rest| - (k - 1)..];
    var r := Reverse(deck[n - k..]);
    assert r == [r[0]] + r[1..];
  }

  /** What is under the top `k` is what is under the top `k - 1` of the rest. */
  lemma BelowTopSplit<T>(deck: seq<T>, k: nat)
    requires 0 < k <= |deck|
    ensures var rest := deck[..|deck| - 1];
              rest[..|rest| - (k - 1)] == deck[..|deck| - k]
  {
  }

  /** The draws succeed exactly when the deck holds `k` good names on top. */
  lemma DrawNamesOk(deck: seq<string>, k: nat)
    ensures DrawNames(deck, k).Ok? <==> k <= |deck| && Drawable(deck[|deck| - k..])
  {
    DrawNamesTopOk(deck, k);
    TopAllIff(deck, k, Builds);
    if k <= |deck| {
      DrawableTopRange(deck, k);
    }
  }

  /** `new Card(name)` succeeds. */
  predicate Builds(name: string) {
    NewCard(name).Ok?
  }

  /** The draws succeed exactly when each name drawn builds a card. */
  lemma {:induction false} DrawNamesTopOk(deck: seq<string>, k: nat)
    ensures DrawNames(deck, k).Ok? <==> TopAll(deck, k, Builds)
  {
    if k > 0 && |deck| > 0 {
      DrawNamesTopOk(deck[..|deck| - 1], k - 1);
      DrawNamesStepOk(deck, k);
    }
  }

  /** The top `k` of a deck are drawable exactly when each of those positions is. */
  lemma DrawableTopRange(deck: seq<string>, k: nat)
    requires k <= |deck|
    ensures Drawable(deck[|deck| - k..]) <==> forall i :: |deck| - k <= i < |deck| ==> Builds(deck[i])
  {
    var top := deck[|deck| - k..];
    assert forall j :: 0 <= j < k ==> top[j] == deck[|deck| - k + j];
  }

  /** The draws take the top `k` names, the last one first, and leave the
      rest of the deck in order. */
  lemma {:induction false} DrawNamesTop(deck: seq<string>, k: nat)
    requires DrawNames(deck, k).Ok?
    ensures k <= |deck|
    ensures DrawNames(deck, k).value.0 == Reverse(deck[|deck| - k..])
    ensures DrawNames(deck, k).value.1 == deck[..|deck| - k]
  {
    if k == 0 {
      assert deck[..|deck|] == deck;
    } else {
      DrawNamesStepValue(deck, k);
      DrawNamesTop(deck[..|deck| - 1], k - 1);
      ReverseTopSplit(deck, k);
      BelowTopSplit(deck, k);
    }
  }

  /** Drawing loses no name: the deck is what is left plus what was drawn. */
  lemma DrawNamesKeepsNames(deck: seq<string>, k: nat)
    requires DrawNames(deck, k).Ok?
    ensures var d := DrawNames(deck, k).value;
              multiset(deck) == multiset(d.1) + multiset(d.0) && |d.0| == k
  {
    DrawNamesTop(deck, k);
    var n := |deck|;
    assert deck == deck[..n - k] + deck[n - k..];
    ReverseMultiset(deck[n - k..]);
  }
}

=== FILE: evaluator_comparison.dfy ===
/** Where the three hand evaluators agree and where they part: the server's
    `Hand.evaluate`, the client's `Hand.rankCards` and `evaluateHand`. */
module EvaluatorComparison {
  import opened Cards
  import opened Sequences
  import opened Wrappers
  import opened HandRanking
  import opened ServerPoker
  import opened ClientHand

  /** The suit count is the number of cards of that suit, at most the hand size,
      and it equals the hand size exactly when every card has that suit. */
  lemma {:induction false} SuitCountAll(cards: seq<Card>, s: Suit)
    ensures SuitCount(cards, s) <= |cards|
    ensures SuitCount(cards, s) == |cards| <==> forall i :: 0 <= i < |cards| ==> cards[i].suit == s
  {
    if |cards| > 0 {
      var init := cards[..|cards| - 1];
      SuitCountAll(init, s);
      assert forall i :: 0 <= i < |init| ==> init[i] == cards[i];
    }
  }

  /** The client's flush test needs at least five cards. */
  lemma ClientFlushNeedsFive(cards: seq<Card>)
    requires ClientFlush(cards)
    ensures |cards| >= 5
  {
    ClientFlushIff(cards);
    var s :| s != Spades && SuitCount(cards, s) == 5;
    SuitCountAll(cards, s);
  }

  /** On five cards the client's flush is the server's flush minus the spade flush. */
  lemma FlushTestsOnFive(cards: seq<Card>)
    requires |cards| == 5
    ensures ClientFlush(cards) <==> AllSameSuit(cards) && cards[0].suit != Spades
  {
    ClientFlushIff(cards);
    if ClientFlush(cards) {
      var s :| s != Spades && SuitCount(cards, s) == 5;
      SuitCountAll(cards, s);
    }
    if AllSameSuit(cards) && cards[0].suit != Spades {
      SuitCountAll(cards, cards[0].suit);
    }
  }

  /** On five sorted values the server's chain and the `rankCards` chain give
      the same score for the same flush verdict: with five cards the extra
      second-bar tests of the client always hold where they are reached, and
      the highest single value is the fifth lowest. */
  lemma ChainsAgreeOnFive(v: seq<int>, flush: bool)
    requires |v| == 5 && SortedAsc(v)
    ensures Classify(v, flush) == ClientChain(v, flush, 4)
  {
    var t := TopGroup(v);
    SecondGroupPresentWhenRead(v);
    if t.count == 3 || t.count == 2 {
      var g := SecondGroup(v).value;
      CountPair(v, t.value, g.value);
    }
    if t.count == 1 {
      assert Precedes(v, t.value, v[4]);
      assert t.value == v[4] by {
        var k :| 0 <= k < 5 && v[k] == t.value;
      }
    }
    if t.count == 5 {
      assert v[4] == t.value by {
        if v[4] != t.value {
          CountPair(v, t.value, v[4]);
        }
      }
    }
  }

  /** On five cards the server and `rankCards` agree on every hand except a
      spade flush, which only the server sees. */
  lemma ServerAgreesWithRankCardsOnFive(cards: seq<Card>)
    requires |cards| == 5
    requires !(AllSameSuit(cards) && cards[0].suit == Spades)
    ensures Evaluate(cards) == RankCards(cards)
  {
    FlushTestsOnFive(cards);
    ChainsAgreeOnFive(SortedValues(cards), AllSameSuit(cards));
  }

  /** The tie position changes only the straight flush, flush and straight
      scores, when the chain reaches them with at least five values. */
  lemma TiePositionOnlyMatters(v: seq<int>, flush: bool)
    requires flush ==> |v| >= 5
    ensures ClientChain(v, flush, 4).Err? <==> ClientChain(v, flush, 0).Err?
    ensures |v| < 5 ==> ClientChain(v, flush, 4) == ClientChain(v, flush, 0)
    ensures |v| >= 5 ==>
              var a := ClientChain(v, flush, 4).value.value;
              var b := ClientChain(v, flush, 0).value.value;
              && a.category == b.category
              && (a.category in {5, 6, 9} ==> a == HandValue(a.category, v[4], 0) && b == HandValue(a.category, v[0], 0))
              && (a.category !in {5, 6, 9} ==> a == b)
  {
  }

  /** `rankCards` and `evaluateHand` fail on the same hands and always agree on
      the category; they differ only in the straight flush, flush and straight
      branches, where one scores the fifth lowest value and the other the lowest. */
  lemma RankCardsVersusEvaluateHand(cards: seq<Card>)
    ensures RankCards(cards).Err? <==> EvaluateHandRank(cards).Err?
    ensures |cards| < 5 ==> RankCards(cards) == EvaluateHandRank(cards)
    ensures |cards| >= 5 ==>
              var a := RankCards(cards).value.value;
              var b := EvaluateHandRank(cards).value.value;
              var v := SortedValues(cards);
              && a.category == b.category
              && (a.category in {5, 6, 9} ==> a == HandValue(a.category, v[4], 0) && b == HandValue(a.category, v[0], 0))
              && (a.category !in {5, 6, 9} ==> a == b)
  {
    if ClientFlush(cards) {
      ClientFlushNeedsFive(cards);
    }
    TiePositionOnlyMatters(SortedValues(cards), ClientFlush(cards));
  }
}

=== FILE: hand_ranking.dfy ===
/** What the three hand evaluators share: the ascending list of card values,
    the rank histogram ordered by (count descending, value descending), the
    wheel and straight tests, and the exact representation of a score.

    A score `category + a/100 + b/1000` is kept as `HandValue(category, a, b)`;
    `Scaled` is that number times 1000, an integer. */
module HandRanking {
  import opened Cards
  import opened Sequences
  import opened Wrappers

  datatype HandValue = HandValue(category: int, primary: int, secondary: int)

  /** The score times 1000: `category * 1000 + 10 * primary + secondary`. */
  function Scaled(h: HandValue): int {
    h.category * 1000 + h.primary * 10 + h.secondary
  }

  /** A JavaScript number as the evaluators produce it: an exact score, or
      `NaN` when the arithmetic reads a value past the end of the hand. */
  datatype Score = Finite(value: HandValue) | NaN

  /** `a > b` on JavaScript numbers: false whenever either side is `NaN`. */
  predicate Greater(a: Score, b: Score) {
    a.Finite? && b.Finite? && Scaled(a.value) > Scaled(b.value)
  }

  /** The `TypeError` thrown when an evaluator reads a histogram bar that is not there. */
  const ReadOfUndefined: string := "TypeError: Cannot read properties of undefined"

  /** The ranges every evaluator keeps: category 1..10, tie-breakers card values or 0. */
  predicate WellFormed(h: HandValue) {
    1 <= h.category <= 10 && 0 <= h.primary <= 14 && 0 <= h.secondary <= 14
  }

  /** The integer part of a well-formed score is its category. */
  lemma ScaledCategory(h: HandValue)
    requires WellFormed(h)
    ensures Scaled(h) / 1000 == h.category
    ensures Scaled(h) % 1000 == 10 * h.primary + h.secondary
  {
  }

  /** A higher category always scores higher, whatever the tie-breakers. */
  lemma CategoryDominates(h1: HandValue, h2: HandValue)
    requires WellFormed(h1) && WellFormed(h2)
    requires h1.category > h2.category
    ensures Scaled(h1) > Scaled(h2)
  {
  }

  predicate AllStandard(cards: seq<Card>) {
    forall i :: 0 <= i < |cards| ==> IsStandard(cards[i])
  }

  /** `cards.map(card => card.value)`. */
  function Values(cards: seq<Card>): (vs: seq<int>)
    ensures |vs| == |cards|
    ensures forall i :: 0 <= i < |cards| ==> vs[i] == Value(cards[i])
  {
    seq(|cards|, i requires 0 <= i < |cards| => Value(cards[i]))
  }

  /** The values of the cards sorted ascending: `values[0]` is the lowest card, `values[4]` the fifth lowest. */
  function SortedValues(cards: seq<Card>): (vs: seq<int>)
    ensures |vs| == |cards|
    ensures SortedAsc(vs)
    ensures multiset(vs) == multiset(Values(cards))
  {
    SortAsc(Values(cards))
  }

  /** A hand of standard cards has values between 2 and 14. */
  lemma SortedValuesRange(cards: seq<Card>)
    ensures AllStandard(cards) ==> forall i :: 0 <= i < |cards| ==> 2 <= SortedValues(cards)[i] <= 14
  {
    var vs := SortedValues(cards);
    forall i | AllStandard(cards) && 0 <= i < |cards| ensures 2 <= vs[i] <= 14 {
      assert vs[i] in multiset(Values(cards));
      var k :| 0 <= k < |cards| && Values(cards)[k] == vs[i];
      assert IsStandard(cards[k]);
    }
  }

  lemma ValuesAppend(a: seq<Card>, b: seq<Card>)
    ensures Values(a + b) == Values(a) + Values(b)
  {
  }

  /** Reordering the cards reorders their values: the value multiset depends
      only on the card multiset. */
  lemma {:induction false} ValuesOfPermutation(a: seq<Card>, b: seq<Card>)
    requires multiset(a) == multiset(b)
    ensures multiset(Values(a)) == multiset(Values(b))
  {
    if |a| == 0 {
      assert |multiset(b)| == 0;
    } else {
      assert a[0] in multiset(b);
      var k :| 0 <= k < |b| && b[k] == a[0];
      var rest := b[..k] + b[k + 1..];
      assert b == b[..k] + [b[k]] + b[k + 1..];
      assert a == [a[0]] + a[1..];
      assert multiset(a[1..]) == multiset(rest) by {
        assert multiset(b) == multiset(b[..k]) + multiset{b[k]} + multiset(b[k + 1..]);
        assert multiset(a) == multiset{a[0]} + multiset(a[1..]);
        assert multiset(a[1..]) == multiset(a) - multiset{a[0]};
      }
      ValuesOfPermutation(a[1..], rest);
      ValuesAppend(b[..k] + [b[k]], b[k + 1..]);
      ValuesAppend(b[..k], [b[k]]);
      ValuesAppend(b[..k], b[k + 1..]);
      ValuesAppend([a[0]], a[1..]);
    }
  }

  /** Sorting the values forgets the order of the cards. */
  lemma SortedValuesOfPermutation(a: seq<Card>, b: seq<Card>)
    requires multiset(a) == multiset(b)
    ensures SortedValues(a) == SortedValues(b)
  {
    ValuesOfPermutation(a, b);
    SortAscOfPermutation(Values(a), Values(b));
  }

  /** An ascending sequence with the values' multiset is the sorted values. */
  lemma SortedValuesAre(cards: seq<Card>, v: seq<int>)
    requires SortedAsc(v)
    requires multiset(Values(cards)) == multiset(v)
    ensures SortedValues(cards) == v
  {
    SortedUnique(SortedValues(cards), v);
  }

  /** How many cards carry value `v`: one bar of the histogram. */
  function Count(values: seq<int>, v: int): nat {
    multiset(values)[v]
  }

  datatype Group = Group(value: int, count: nat)

  /** The histogram order: `a` comes no later than `b` when it has more cards,
      or as many cards and a value at least as high. */
  predicate Precedes(values: seq<int>, a: int, b: int) {
    Count(values, a) > Count(values, b) || (Count(values, a) == Count(values, b) && a >= b)
  }

  /** The first of `candidates` in histogram order. */
  function Best(values: seq<int>, candidates: seq<int>): (r: int)
    requires |candidates| > 0
    ensures r in candidates
    ensures forall c :: c in candidates ==> Precedes(values, r, c)
  {
    if |candidates| == 1 then candidates[0]
    else
      var b := Best(values, candidates[1..]);
      assert forall c :: c in candidates ==> c == candidates[0] || c in candidates[1..];
      if Precedes(values, candidates[0], b) then candidates[0] else b
  }

  /** `values` without the occurrences of `v`. */
  function Without(values: seq<int>, v: int): (r: seq<int>)
    ensures forall x :: x in r <==> x in values && x != v
    ensures |r| == |values| - Count(values, v)
  {
    if |values| == 0 then []
    else
      assert values == [values[0]] + values[1..];
      assert multiset(values) == multiset{values[0]} + multiset(values[1..]);
      var rest := Without(values[1..], v);
      if values[0] == v then rest else [values[0]] + rest
  }

  /** `sortedGroups[0]`: the histogram bar with the most cards, highest value first. */
  function TopGroup(values: seq<int>): (g: Group)
    requires |values| > 0
    ensures g.value in values && g.count == Count(values, g.value) && g.count >= 1
    ensures forall v :: v in values ==> Precedes(values, g.value, v)
  {
    var b := Best(values, values);
    Group(b, Count(values, b))
  }

  /** `sortedGroups[1]`, or `None` when the hand holds a single value. */
  function SecondGroup(values: seq<int>): (g: Option<Group>)
    requires |values| > 0
    ensures g.None? <==> forall v :: v in values ==> v == TopGroup(values).value
    ensures g.Some? ==> g.value.value in values && g.value.value != TopGroup(values).value
    ensures g.Some? ==> g.value.count == Count(values, g.value.value) && g.value.count >= 1
    ensures g.Some? ==> forall v :: v in values && v != TopGroup(values).value ==> Precedes(values, g.value.value, v)
  {
    var rest := Without(values, TopGroup(values).value);
    if |rest| == 0 then None
    else
      var b := Best(values, rest);
      Some(Group(b, Count(values, b)))
  }

  /** The top bar is the one value that comes first in histogram order. */
  lemma TopGroupIs(values: seq<int>, x: int)
    requires x in values
    requires forall v :: v in values ==> Precedes(values, x, v)
    ensures TopGroup(values) == Group(x, Count(values, x))
  {
    var t := TopGroup(values);
    assert Precedes(values, t.value, x) && Precedes(values, x, t.value);
  }

  /** The second bar is the one value that comes first once the top bar is set aside. */
  lemma SecondGroupIs(values: seq<int>, x: int)
    requires x in values && x != TopGroup(values).value
    requires forall v :: v in values && v != TopGroup(values).value ==> Precedes(values, x, v)
    ensures SecondGroup(values) == Some(Group(x, Count(values, x)))
  {
    var g := SecondGroup(values).value;
    assert Precedes(values, g.value, x) && Precedes(values, x, g.value);
  }

  /** Strictly ascending values: every bar holds one card, the highest value
      leads and the next highest follows. */
  lemma SinglesBars(v: seq<int>)
    requires |v| >= 2
    requires forall i, j :: 0 <= i < j < |v| ==> v[i] < v[j]
    ensures TopGroup(v) == Group(v[|v| - 1], 1)
    ensures SecondGroup(v) == Some(Group(v[|v| - 2], 1))
  {
    var n := |v|;
    DistinctIffCountsOne(v);
    forall x | x in v ensures Count(v, x) == 1 && x <= v[n - 1] && (x != v[n - 1] ==> x <= v[n - 2]) {
      var k :| 0 <= k < n && v[k] == x;
    }
    TopGroupIs(v, v[n - 1]);
    SecondGroupIs(v, v[n - 2]);
  }

  /** `sortedGroups[1][1]`, read as 0 when there is no second bar. */
  function SecondCount(values: seq<int>): nat
    requires |values| > 0
  {
    match SecondGroup(values)
    case None => 0
    case Some(g) => g.count
  }

  /** `sortedGroups[1][0]`, read as 0 when there is no second bar. */
  function SecondValue(values: seq<int>): int
    requires |values| > 0
  {
    match SecondGroup(values)
    case None => 0
    case Some(g) => g.value
  }

  /** Two distinct values never hold more cards between them than the hand has. */
  lemma {:induction false} CountPair(values: seq<int>, a: int, b: int)
    requires a != b
    ensures Count(values, a) + Count(values, b) <= |values|
  {
    if |values| > 0 {
      assert values == [values[0]] + values[1..];
      assert multiset(values) == multiset{values[0]} + multiset(values[1..]);
      CountPair(values[1..], a, b);
    }
  }

  /** Three distinct values never hold more cards between them than the hand has. */
  lemma {:induction false} CountTriple(values: seq<int>, a: int, b: int, c: int)
    requires a != b && b != c && a != c
    ensures Count(values, a) + Count(values, b) + Count(values, c) <= |values|
  {
    if |values| > 0 {
      assert values == [values[0]] + values[1..];
      assert multiset(values) == multiset{values[0]} + multiset(values[1..]);
      CountTriple(values[1..], a, b, c);
    }
  }

  /** Some value appears exactly `k` times: a bar of height `k`, wherever it stands. */
  predicate HasCount(v: seq<int>, k: nat) {
    exists x :: x in v && Count(v, x) == k
  }

  /** Two different values appear exactly twice each. */
  predicate HasTwoPairs(v: seq<int>) {
    exists x, y :: x in v && y in v && x != y && Count(v, x) == 2 && Count(v, y) == 2
  }

  /** In a five-card hand a bar of three or more cards is the tallest one. */
  lemma TopCountOfFive(v: seq<int>, k: nat)
    requires |v| == 5 && k >= 3
    ensures HasCount(v, k) <==> TopGroup(v).count == k
  {
    var t := TopGroup(v);
    if HasCount(v, k) {
      var x :| x in v && Count(v, x) == k;
      if t.value != x {
        CountPair(v, t.value, x);
      }
    }
  }

  /** In a five-card hand, two pairs are exactly a top bar and a second bar of two cards each. */
  lemma TwoPairsOfFive(v: seq<int>)
    requires |v| == 5
    ensures HasTwoPairs(v) <==> TopGroup(v).count == 2 && SecondCount(v) == 2
  {
    var t := TopGroup(v);
    if HasTwoPairs(v) {
      var x, y :| x in v && y in v && x != y && Count(v, x) == 2 && Count(v, y) == 2;
      if t.value != x && t.value != y {
        CountTriple(v, t.value, x, y);
      } else if t.value == x {
        CountPair(v, x, y);
        assert SecondGroup(v).Some?;
      } else {
        CountPair(v, x, y);
        assert SecondGroup(v).Some?;
      }
    }
    if t.count == 2 && SecondCount(v) == 2 {
      var g := SecondGroup(v).value;
      assert t.value in v && g.value in v && t.value != g.value;
    }
  }

  /** In a five-card hand, a full house is a top bar of three over a second bar of two. */
  lemma FullHouseOfFive(v: seq<int>)
    requires |v| == 5
    ensures HasCount(v, 3) && HasCount(v, 2) <==> TopGroup(v).count == 3 && SecondCount(v) == 2
  {
    var t := TopGroup(v);
    TopCountOfFive(v, 3);
    SecondGroupPresentWhenRead(v);
    if HasCount(v, 3) && HasCount(v, 2) {
      var y :| y in v && Count(v, y) == 2;
      assert y != t.value;
      CountPair(v, t.value, SecondGroup(v).value.value);
    }
    if t.count == 3 && SecondCount(v) == 2 {
      var g := SecondGroup(v).value;
      assert g.value in v;
    }
  }

  /** In a five-card hand, a lone pair is a top bar of two over a second bar of one. */
  lemma OnePairOfFive(v: seq<int>)
    requires |v| == 5
    ensures HasCount(v, 2) && !HasCount(v, 3) && !HasTwoPairs(v) <==>
              TopGroup(v).count == 2 && SecondCount(v) != 2
  {
    var t := TopGroup(v);
    TopCountOfFive(v, 3);
    TopCountOfFive(v, 4);
    TopCountOfFive(v, 5);
    TwoPairsOfFive(v);
    if HasCount(v, 2) && !HasCount(v, 3) && !HasTwoPairs(v) {
      var x :| x in v && Count(v, x) == 2;
      if t.value != x {
        CountPair(v, t.value, x);
      }
    }
  }

  /** In a five-card hand no bar of two, three or four means every value is single (or all five are one value). */
  lemma NoGroupsOfFive(v: seq<int>)
    requires |v| == 5
    ensures !HasCount(v, 2) && !HasCount(v, 3) && !HasCount(v, 4) <==>
              TopGroup(v).count == 1 || TopGroup(v).count == 5
    ensures TopGroup(v).count <= 5
  {
    var t := TopGroup(v);
    TopCountOfFive(v, 3);
    TopCountOfFive(v, 4);
    TopCountOfFive(v, 5);
    assert t.count <= 5 by {
      assert t.count <= |multiset(v)|;
    }
    if t.count == 1 {
      forall x | x in v ensures Count(v, x) <= 1 {
        assert Precedes(v, t.value, x);
      }
    } else if t.count == 5 {
      forall x | x in v && x != t.value ensures false {
        CountPair(v, t.value, x);
      }
    } else {
      assert HasCount(v, t.count) by {
        assert t.value in v;
      }
    }
  }

  /** The values of a straight are five different values. */
  lemma StraightOfFiveIsSingles(v: seq<int>)
    requires |v| == 5 && IsStraight(v)
    ensures TopGroup(v).count == 1
  {
    assert v[0] < v[1] < v[2] < v[3] < v[4];
    assert v == [v[0], v[1], v[2], v[3], v[4]];
    var t := TopGroup(v);
    assert multiset(v) == multiset{v[0]} + multiset{v[1]} + multiset{v[2]} + multiset{v[3]} + multiset{v[4]};
  }

  /** Every time the evaluators read `sortedGroups[1]` (the top bar holds 2 or 3
      cards, the hand at least 5), that bar exists. */
  lemma SecondGroupPresentWhenRead(values: seq<int>)
    requires |values| > 0
    ensures |values| >= 5 && (TopGroup(values).count == 2 || TopGroup(values).count == 3) ==>
              SecondGroup(values).Some?
  {
  }

  /** `values[4] === 14 && values[0] === 2`. */
  predicate IsWheel(v: seq<int>)
    requires |v| >= 5
  {
    v[4] == 14 && v[0] == 2
  }

  /** The five lowest values are consecutive, or the wheel test holds and the
      lower four are consecutive. */
  predicate IsStraight(v: seq<int>)
    requires |v| >= 5
  {
    (v[4] - v[3] == 1 || IsWheel(v)) && v[3] - v[2] == 1 && v[2] - v[1] == 1 && v[1] - v[0] == 1
  }

  /** The category names `bestHandValueToString` opens its message with. */
  function CategoryName(category: int): string {
    if category >= 10 then "Royal Flush"
    else if category == 9 then "Straight Flush"
    else if category == 8 then "Four of a Kind"
    else if category == 7 then "Full House"
    else if category == 6 then "Flush"
    else if category == 5 then "Straight"
    else if category == 4 then "Three of a Kind"
    else if category == 3 then "Two Pair"
    else if category == 2 then "Pair"
    else "High Card"
  }
}

=== FILE: poker_room.dfy ===
/** The authoritative room of the game server (game/server/rooms/PokerRoom.ts):
    its message handlers as transitions on a record of seats, pot, current
    bet, turn and phase. The shuffle's random picks are a parameter; a thrown
    error is an `Err`. */
module PokerRoom {
  import opened Wrappers
  import opened Sequences
  import opened Cards
  import opened Text
  import opened HandRanking
  import opened ServerPoker
  import opened DeckDraws

  /** `PlayerState`: a seat at the table. `connected` is not part of the
      schema: it records whether the seat's client is still among the room's
      connected clients, which Colyseus keeps and counts against
      `maxClients`. A seat outlives its client. */
  datatype Seat = Seat(id: string, name: string, chips: int, cards: seq<string>,
                       isReady: bool, isActive: bool, currentBet: int, connected: bool)

  /** The phases and round names a room passes through. */
  const PhaseWaiting := "waiting"
  const PhaseBetting := "betting"
  const PhaseShowdown := "showdown"
  const RoundDeal := "deal"
  const RoundDealing := "dealing"

  /** `PokerGameState` together with the room's deck. */
  datatype Room = Room(
    players: seq<Seat>,
    gamePhase: string,
    roundName: string,
    pot: int,
    communityCards: seq<string>,
    burnPile: seq<string>,
    currentPlayerTurn: nat,
    currentBet: int,
    smallBlind: int,
    bigBlind: int,
    dealerIndex: nat,
    deck: seq<string>)

  /** A new room: no seats, waiting, blinds 5 and 10, dealer at seat 0. */
  function NewRoom(): Room {
    Room([], PhaseWaiting, RoundDeal, 0, [], [], 0, 0, 5, 10, 0, [])
  }

  // ---------------------------------------------------------------- chips

  function SumSeats(players: seq<Seat>): int {
    if |players| == 0 then 0
    else SumSeats(players[..|players| - 1]) + players[|players| - 1].chips
  }

  /** Every chip in the room: the stacks and the pot. */
  function TotalChips(room: Room): int {
    SumSeats(room.players) + room.pot
  }

  lemma {:induction false} SumSeatsUpdate(players: seq<Seat>, k: nat, p: Seat)
    requires k < |players|
    ensures SumSeats(players[k := p]) == SumSeats(players) - players[k].chips + p.chips
  {
    var n := |players| - 1;
    if k < n {
      assert players[k := p][..n] == players[..n][k := p];
      SumSeatsUpdate(players[..n], k, p);
    } else {
      assert players[k := p][..n] == players[..n];
    }
  }

  lemma {:induction false} SumSeatsSameChips(a: seq<Seat>, b: seq<Seat>)
    requires |a| == |b| && forall i :: 0 <= i < |a| ==> a[i].chips == b[i].chips
    ensures SumSeats(a) == SumSeats(b)
  {
    if |a| > 0 {
      SumSeatsSameChips(a[..|a| - 1], b[..|b| - 1]);
    }
  }

  // ---------------------------------------------------------------- seats

  /** `getPlayerByClient`: the first seat with the client's session id. */
  function Find(players: seq<Seat>, id: string): (r: Option<nat>)
    ensures r.Some? ==> r.value < |players| && players[r.value].id == id
                        && forall j :: 0 <= j < r.value ==> players[j].id != id
    ensures r.None? <==> forall j :: 0 <= j < |players| ==> players[j].id != id
  {
    if |players| == 0 then None
    else if players[0].id == id then Some(0)
    else match Find(players[1..], id)
      case None => None
      case Some(k) => Some(k + 1)
  }

  /** When no two seats share an id, each seat is found by its own id. */
  lemma FindUnique(players: seq<Seat>, w: nat)
    requires w < |players|
    requires forall i, j :: 0 <= i < j < |players| ==> players[i].id != players[j].id
    ensures Find(players, players[w].id) == Some(w)
  {
  }

  /** `onJoin`: a new seat at the end, named `Player <n+1>` and given 1000
      chips unless the options say otherwise (an empty name and 0 chips count
      as not given). */
  function Join(room: Room, id: string, name: Option<string>, chips: Option<int>): (r: Room)
    ensures |r.players| == |room.players| + 1 && r.players[..|room.players|] == room.players
    ensures var s := r.players[|room.players|];
              && s.id == id && s.cards == [] && !s.isReady && s.isActive && s.currentBet == 0 && s.connected
              && s.name == (if name.Some? && name.value != "" then name.value else "Player " + Decimal(|room.players| + 1))
              && s.chips == (if chips.Some? && chips.value != 0 then chips.value else 1000)
    ensures TotalChips(r) == TotalChips(room) + r.players[|room.players|].chips
  {
    var seat := Seat(id,
                     if name.Some? && name.value != "" then name.value else "Player " + Decimal(|room.players| + 1),
                     if chips.Some? && chips.value != 0 then chips.value else 1000,
                     [], false, true, 0, true);
    assert (room.players + [seat])[..|room.players|] == room.players;
    room.(players := room.players + [seat])
  }

  /** The indices of the active seats, in seat order. */
  function ActiveSeats(players: seq<Seat>): (r: seq<nat>)
    ensures forall k :: 0 <= k < |r| ==> r[k] < |players| && players[r[k]].isActive
    ensures forall i :: 0 <= i < |players| && players[i].isActive ==> i in r
    ensures forall a, b :: 0 <= a < b < |r| ==> r[a] < r[b]
  {
    if |players| == 0 then []
    else ActiveSeats(players[..|players| - 1]) + (if players[|players| - 1].isActive then [|players| - 1] else [])
  }

  /** The indices of the seats both ready and active, in seat order. */
  function ReadySeats(players: seq<Seat>): (r: seq<nat>)
    ensures forall k :: 0 <= k < |r| ==> r[k] < |players| && players[r[k]].isActive && players[r[k]].isReady
    ensures forall i :: 0 <= i < |players| && players[i].isActive && players[i].isReady ==> i in r
  {
    if |players| == 0 then []
    else
      var p := players[|players| - 1];
      ReadySeats(players[..|players| - 1]) + (if p.isReady && p.isActive then [|players| - 1] else [])
  }

  /** The first active seat comes before every other active seat. */
  lemma FirstActive(players: seq<Seat>)
    requires |ActiveSeats(players)| > 0
    ensures forall i :: 0 <= i < ActiveSeats(players)[0] ==> !players[i].isActive
  {
    var r := ActiveSeats(players);
    forall i | 0 <= i < |players| && players[i].isActive ensures r[0] <= i {
      var k :| 0 <= k < |r| && r[k] == i;
      if k > 0 {
        assert r[0] < r[k];
      }
    }
  }

  /** There are never more ready seats than active ones, and as many exactly
      when every active seat is ready. */
  lemma {:induction false} ReadyCount(players: seq<Seat>)
    ensures |ReadySeats(players)| <= |ActiveSeats(players)|
    ensures |ReadySeats(players)| == |ActiveSeats(players)| <==>
              forall i :: 0 <= i < |players| && players[i].isActive ==> players[i].isReady
  {
    if |players| > 0 {
      var n := |players| - 1;
      ReadyCount(players[..n]);
      assert forall i :: 0 <= i < n ==> players[..n][i] == players[i];
    }
  }

  /** Whether the seats may start a round: at least two active seats, all ready. */
  predicate CanStart(players: seq<Seat>) {
    |ActiveSeats(players)| >= 2 && forall i :: 0 <= i < |players| && players[i].isActive ==> players[i].isReady
  }

  /** `checkGameStart`: start a round when at least two seats are ready and
      active and they are all the active seats. */
  function CheckGameStart(room: Room, deck: seq<string>): (r: Result<Room>)
    ensures CanStart(room.players) ==> r == StartNewRound(room, deck)
    ensures !CanStart(room.players) ==> r == Ok(room)
  {
    var ready := |ReadySeats(room.players)|;
    assert ready >= 2 && ready == |ActiveSeats(room.players)| <==> CanStart(room.players) by {
      ReadyCount(room.players);
    }
    if ready >= 2 && ready == |ActiveSeats(room.players)| then StartNewRound(room, deck) else Ok(room)
  }

  /** The "ready" message: mark the sender ready and try to start. */
  function Ready(room: Room, id: string, deck: seq<string>): (r: Result<Room>)
    ensures Find(room.players, id).None? ==> r == Ok(room)
    ensures Find(room.players, id).Some? ==>
              var i := Find(room.players, id).value;
              r == CheckGameStart(room.(players := room.players[i := room.players[i].(isReady := true)]), deck)
  {
    match Find(room.players, id)
    case None => Ok(room)
    case Some(i) => CheckGameStart(room.(players := room.players[i := room.players[i].(isReady := true)]), deck)
  }

  // ---------------------------------------------------------------- seat order

  /** `a % n` on a table of `n` seats: the seat index `a` wraps to. */
  function Wrap(a: nat, n: nat): (k: nat)
    requires n > 0
    ensures k < n
    ensures a < n ==> k == a
    ensures a == n ==> k == 0
  {
    assert n % n == 0;
    a % n
  }

  /** The seat `d` steps after seat `p` around a table of `n`. */
  function SeatAt(p: nat, d: nat, n: nat): (k: nat)
    requires p < n && d < n
    ensures k < n
  {
    if p + d < n then p + d else p + d - n
  }

  /** How many steps after seat `p` the seat `k` comes. */
  function Offset(p: nat, k: nat, n: nat): (d: nat)
    requires p < n && k < n
    ensures d < n
  {
    if k >= p then k - p else k + n - p
  }

  /** `SeatAt` and `Offset` undo each other. */
  lemma SeatAtOffset(p: nat, n: nat)
    requires p < n
    ensures forall d :: 0 <= d < n ==> Offset(p, SeatAt(p, d, n), n) == d
    ensures forall k :: 0 <= k < n ==> SeatAt(p, Offset(p, k, n), n) == k
  {
  }

  /** The source walks the table with `(position + 1) % n`, which is one more
      step of `SeatAt`. */
  lemma SourceStep(p: nat, d: nat, n: nat)
    requires p < n && d + 1 < n
    ensures (SeatAt(p, d, n) + 1) % n == SeatAt(p, d + 1, n)
  {
    var k := SeatAt(p, d, n);
    if k + 1 == n {
      assert (k + 1) % n == 0;
    } else {
      assert (k + 1) % n == k + 1;
    }
  }

  function Range(a: nat, b: nat): (r: seq<nat>)
    requires a <= b
    ensures |r| == b - a && forall k :: 0 <= k < |r| ==> r[k] == a + k
  {
    seq(b - a, k requires 0 <= k < b - a => a + k)
  }

  lemma {:induction false} RangeCount(a: nat, b: nat, i: nat)
    requires a <= b
    ensures multiset(Range(a, b))[i] == if a <= i < b then 1 else 0
    decreases b - a
  {
    if a < b {
      assert Range(a, b) == [a] + Range(a + 1, b);
      RangeCount(a + 1, b, i);
    } else {
      assert Range(a, b) == [];
    }
  }

  /** The order in which `dealToPlayers` visits the seats: one lap of the
      table starting left of the dealer. */
  function DealOrder(dealer: nat, n: nat): (r: seq<nat>)
    ensures |r| == n && forall k :: 0 <= k < n ==> r[k] < n
  {
    if n == 0 then []
    else seq(n, d requires 0 <= d < n => SeatAt(Wrap(dealer + 1, n), d, n))
  }

  /** One lap visits every seat once: it is the seats from the start to the
      end of the table, then those before the start. */
  lemma DealOrderLap(dealer: nat, n: nat)
    requires n > 0
    ensures DealOrder(dealer, n) == Range(Wrap(dealer + 1, n), n) + Range(0, Wrap(dealer + 1, n))
    ensures forall i :: 0 <= i < n ==> multiset(DealOrder(dealer, n))[i] == 1
  {
    var p := Wrap(dealer + 1, n);
    DealOrderSplit(dealer, n);
    forall i | 0 <= i < n ensures multiset(DealOrder(dealer, n))[i] == 1 {
      RangeCount(p, n, i);
      RangeCount(0, p, i);
    }
  }

  /** The lap as two runs of seat numbers. */
  lemma DealOrderSplit(dealer: nat, n: nat)
    requires n > 0
    ensures DealOrder(dealer, n) == Range(Wrap(dealer + 1, n), n) + Range(0, Wrap(dealer + 1, n))
  {
    var p := Wrap(dealer + 1, n);
    assert DealOrder(dealer, n) == Range(p, n) + Range(0, p);
  }

  // ---------------------------------------------------------------- dealing

  /** Which seats are active. */
  function Active(players: seq<Seat>): (r: seq<bool>)
    ensures |r| == |players| && forall i :: 0 <= i < |players| ==> r[i] == players[i].isActive
  {
    seq(|players|, i requires 0 <= i < |players| => players[i].isActive)
  }

  /** How many of the visited seats are active, each visit counted. */
  function Takers(active: seq<bool>, order: seq<nat>): nat {
    if |order| == 0 then 0
    else (if order[0] < |active| && active[order[0]] then 1 else 0) + Takers(active, order[1..])
  }

  lemma {:induction false} TakersAppend(active: seq<bool>, x: seq<nat>, y: seq<nat>)
    ensures Takers(active, x + y) == Takers(active, x) + Takers(active, y)
  {
    if |x| == 0 {
      assert x + y == y;
    } else {
      assert (x + y)[1..] == x[1..] + y;
      TakersAppend(active, x[1..], y);
    }
  }

  lemma {:induction false} TakersPrefix(active: seq<bool>, m: nat, order: seq<nat>)
    requires m <= |active| && forall k :: 0 <= k < |order| ==> order[k] < m
    ensures Takers(active[..m], order) == Takers(active, order)
  {
    if |order| > 0 {
      TakersPrefix(active, m, order[1..]);
    }
  }

  /** Visiting every seat once meets each active seat once. */
  lemma {:induction false} TakersAll(players: seq<Seat>)
    ensures Takers(Active(players), Range(0, |players|)) == |ActiveSeats(players)|
  {
    if |players| > 0 {
      var n := |players| - 1;
      TakersAll(players[..n]);
      assert Range(0, n + 1) == Range(0, n) + [n];
      TakersAppend(Active(players), Range(0, n), [n]);
      assert Active(players[..n]) == Active(players)[..n];
      TakersPrefix(Active(players), n, Range(0, n));
    } else {
      assert Range(0, 0) == [];
    }
  }

  lemma DealOrderTakers(players: seq<Seat>, dealer: nat)
    ensures Takers(Active(players), DealOrder(dealer, |players|)) == |ActiveSeats(players)|
  {
    TakersAll(players);
    if |players| > 0 {
      DealOrderSplit(dealer, |players|);
      TakersRotate(Active(players), Wrap(dealer + 1, |players|), |players|);
    } else {
      assert Range(0, 0) == [];
    }
  }

  /** Starting the walk part-way round the table meets the same seats. */
  lemma TakersRotate(active: seq<bool>, p: nat, n: nat)
    requires p <= n
    ensures Takers(active, Range(p, n) + Range(0, p)) == Takers(active, Range(0, n))
  {
    TakersAppend(active, Range(p, n), Range(0, p));
    assert Range(0, n) == Range(0, p) + Range(p, n);
    TakersAppend(active, Range(0, p), Range(p, n));
  }

  /** Every hole card at the table, seat after seat. */
  function HoleCards(players: seq<Seat>): seq<string> {
    if |players| == 0 then [] else HoleCards(players[..|players| - 1]) + players[|players| - 1].cards
  }

  lemma {:induction false} HoleCardsAppend(a: seq<Seat>, b: seq<Seat>)
    ensures HoleCards(a + b) == HoleCards(a) + HoleCards(b)
  {
    if |b| == 0 {
      assert a + b == a;
    } else {
      var n := |b| - 1;
      assert (a + b)[..|a| + n] == a + b[..n];
      HoleCardsAppend(a, b[..n]);
    }
  }

  /** Handing seat `k` one more card adds exactly that card to the table. */
  lemma HoleCardsDeal(players: seq<Seat>, k: nat, c: string)
    requires k < |players|
    ensures multiset(HoleCards(players[k := players[k].(cards := players[k].cards + [c])]))
            == multiset(HoleCards(players)) + multiset{c}
  {
    var p := players[k].(cards := players[k].cards + [c]);
    var front, back := players[..k], players[k + 1..];
    assert players == front + [players[k]] + back;
    assert players[k := p] == front + [p] + back;
    HoleCardsAppend(front + [players[k]], back);
    HoleCardsAppend(front, [players[k]]);
    HoleCardsAppend(front + [p], back);
    HoleCardsAppend(front, [p]);
    assert HoleCards([p]) == p.cards by {
      assert [p][..0] == [];
    }
    assert HoleCards([players[k]]) == players[k].cards by {
      assert [players[k]][..0] == [];
    }
  }

  /** One pass of `dealToPlayers`: along `order`, every active seat draws one card. */
  function DealPass(players: seq<Seat>, deck: seq<string>, order: seq<nat>): (r: Result<(seq<Seat>, seq<string>)>)
    ensures r.Ok? ==> |r.value.0| == |players| && Active(r.value.0) == Active(players)
    decreases |order|
  {
    if |order| == 0 then Ok((players, deck))
    else
      var k := order[0];
      if k < |players| && players[k].isActive then
        match Draw(deck)
        case Err(m) => Err(m)
        case Ok(d) =>
          var dealt := players[k := players[k].(cards := players[k].cards + [d.card.name])];
          assert Active(dealt) == Active(players);
          DealPass(dealt, d.rest, order[1..])
      else DealPass(players, deck, order[1..])
  }

  /** A pass fails only when the deck runs out, and takes its cards from the
      end of the deck. */
  lemma {:induction false} DealPassDraws(players: seq<Seat>, deck: seq<string>, order: seq<nat>)
    requires Drawable(deck)
    ensures var t := Takers(Active(players), order);
              && (DealPass(players, deck, order).Ok? <==> t <= |deck|)
              && (DealPass(players, deck, order).Ok? ==> DealPass(players, deck, order).value.1 == deck[..|deck| - t])
    decreases |order|
  {
    if |order| > 0 {
      var k := order[0];
      if k < |players| && players[k].isActive {
        if |deck| > 0 {
          var d := Draw(deck).value;
          assert NewCard(deck[|deck| - 1]).Ok?;
          var dealt := players[k := players[k].(cards := players[k].cards + [d.card.name])];
          assert Active(dealt) == Active(players);
          assert d.rest == deck[..|deck| - 1];
          DealPassDraws(dealt, d.rest, order[1..]);
        }
      } else {
        DealPassDraws(players, deck, order[1..]);
      }
    }
  }

  /** A pass hands every active seat one card per visit and touches nothing else. */
  lemma {:induction false} DealPassSeats(players: seq<Seat>, deck: seq<string>, order: seq<nat>)
    requires DealPass(players, deck, order).Ok?
    ensures var after := DealPass(players, deck, order).value.0;
              forall i :: 0 <= i < |players| ==>
                && after[i].(cards := players[i].cards) == players[i]
                && |after[i].cards| == |players[i].cards| + (if players[i].isActive then multiset(order)[i] else 0)
                && after[i].cards[..|players[i].cards|] == players[i].cards
    decreases |order|
  {
    if |order| > 0 {
      var k := order[0];
      assert order == [k] + order[1..];
      if k < |players| && players[k].isActive {
        var d := Draw(deck).value;
        var dealt := players[k := players[k].(cards := players[k].cards + [d.card.name])];
        DealPassSeats(dealt, d.rest, order[1..]);
        var after := DealPass(players, deck, order).value.0;
        forall i | 0 <= i < |players|
          ensures after[i].cards[..|players[i].cards|] == players[i].cards
        {
          if i == k {
            assert after[i].cards[..|dealt[i].cards|] == dealt[i].cards;
            assert dealt[i].cards[..|players[i].cards|] == players[i].cards;
          }
        }
      } else {
        DealPassSeats(players, deck, order[1..]);
      }
    }
  }

  /** A pass moves cards from the deck to the seats and loses none. */
  lemma {:induction false} DealPassCards(players: seq<Seat>, deck: seq<string>, order: seq<nat>)
    requires DealPass(players, deck, order).Ok?
    ensures var r := DealPass(players, deck, order).value;
              multiset(HoleCards(r.0)) + multiset(r.1) == multiset(HoleCards(players)) + multiset(deck)
    decreases |order|
  {
    if |order| > 0 {
      var k := order[0];
      if k < |players| && players[k].isActive {
        var d := Draw(deck).value;
        DrawMultiset(deck);
        HoleCardsDeal(players, k, d.card.name);
        DealPassCards(players[k := players[k].(cards := players[k].cards + [d.card.name])], d.rest, order[1..]);
      } else {
        DealPassCards(players, deck, order[1..]);
      }
    }
  }

  /** A deck as `new Deck(true)` hands it out: the 52 names of
      `generateDeck` in some order, every one of which builds a card. */
  predicate FullDeck(deck: seq<string>) {
    |deck| == 52 && Distinct(deck) && Drawable(deck)
  }

  /** `shuffle` on a generated deck gives a full deck, whatever the random picks. */
  lemma ShuffledDeckIsFull(js: seq<nat>)
    requires ValidSwaps(js, 52)
    ensures FullDeck(Shuffle(GenerateDeck(), js))
  {
    GenerateDeckProperties();
    ShuffleKeepsDistinct(GenerateDeck(), js);
    ShuffleKeepsDrawable(GenerateDeck(), js);
  }

  /** A shuffle of names that all make cards is a deck that draws. */
  lemma ShuffleKeepsDrawable(s: seq<string>, js: seq<nat>)
    requires ValidSwaps(js, |s|)
    requires forall n :: n in s ==> NewCard(n).Ok?
    ensures Drawable(Shuffle(s, js))
  {
    var deck := Shuffle(s, js);
    forall i | 0 <= i < |deck| ensures NewCard(deck[i]).Ok? {
      assert deck[i] in multiset(s);
    }
  }

  /** `dealToPlayers` on the room's new deck: two passes round the table from
      the seat left of the dealer; the seats and the deck left over. */
  function DealToPlayers(players: seq<Seat>, dealer: nat, deck: seq<string>): (r: Result<(seq<Seat>, seq<string>)>)
    ensures r.Ok? ==> |r.value.0| == |players| && Active(r.value.0) == Active(players)
  {
    var order := DealOrder(dealer, |players|);
    match DealPass(players, deck, order)
    case Err(m) => Err(m)
    case Ok(first) => DealPass(first.0, first.1, order)
  }

  /** Dealing changes nothing but the hands: every active seat gets two cards
      on top of the ones it held and every other seat none, and the cards come
      from the deck without any being lost. */
  lemma DealToPlayersSeats(players: seq<Seat>, dealer: nat, deck: seq<string>)
    requires DealToPlayers(players, dealer, deck).Ok?
    ensures var r := DealToPlayers(players, dealer, deck).value;
              && multiset(HoleCards(r.0)) + multiset(r.1) == multiset(HoleCards(players)) + multiset(deck)
              && forall i :: 0 <= i < |players| ==>
                   && r.0[i].(cards := players[i].cards) == players[i]
                   && |r.0[i].cards| == |players[i].cards| + (if players[i].isActive then 2 else 0)
                   && r.0[i].cards[..|players[i].cards|] == players[i].cards
  {
    var order := DealOrder(dealer, |players|);
    var first := DealPass(players, deck, order).value;
    var second := DealPass(first.0, first.1, order).value;
    DealPassSeats(players, deck, order);
    DealPassCards(players, deck, order);
    DealPassSeats(first.0, first.1, order);
    DealPassCards(first.0, first.1, order);
    if |players| > 0 {
      DealOrderLap(dealer, |players|);
    }
    forall i | 0 <= i < |players|
      ensures second.0[i].cards[..|players[i].cards|] == players[i].cards
    {
      PrefixOfPrefix(second.0[i].cards, first.0[i].cards, players[i].cards);
    }
  }

  /** Dealing from a deck of good names fails exactly when the active seats
      need more cards than it holds, and takes them from the end of the deck. */
  lemma DealToPlayersDraws(players: seq<Seat>, dealer: nat, deck: seq<string>)
    requires Drawable(deck)
    ensures var r := DealToPlayers(players, dealer, deck);
              && (r.Ok? <==> 2 * |ActiveSeats(players)| <= |deck|)
              && (r.Ok? ==> r.value.1 == deck[..|deck| - 2 * |ActiveSeats(players)|])
  {
    var order := DealOrder(dealer, |players|);
    DealOrderTakers(players, dealer);
    DealPassDraws(players, deck, order);
    if DealPass(players, deck, order).Ok? {
      var first := DealPass(players, deck, order).value;
      assert Drawable(first.1);
      DealPassDraws(first.0, first.1, order);
    }
  }

  // ---------------------------------------------------------------- a new round

  /** Empty every hand and clear every seat's bet. */
  function ClearHands(players: seq<Seat>): (r: seq<Seat>)
    ensures |r| == |players|
    ensures forall i :: 0 <= i < |r| ==> r[i] == players[i].(cards := [], currentBet := 0)
  {
    seq(|players|, i requires 0 <= i < |players| => players[i].(cards := [], currentBet := 0))
  }

  lemma {:induction false} HoleCardsCleared(players: seq<Seat>)
    ensures HoleCards(ClearHands(players)) == []
  {
    if |players| > 0 {
      var n := |players| - 1;
      assert ClearHands(players)[..n] == ClearHands(players[..n]);
      HoleCardsCleared(players[..n]);
    }
  }

  /** Seat `k` pays `amount` out of its stack. */
  function Charge(players: seq<Seat>, k: nat, amount: int): (r: seq<Seat>)
    requires k < |players|
    ensures |r| == |players| && SumSeats(r) == SumSeats(players) - amount
  {
    var p := players[k].(chips := players[k].chips - amount);
    SumSeatsUpdate(players, k, p);
    players[k := p]
  }

  /** Seat `k`'s bet becomes `b`; no chip moves. */
  function SetBet(players: seq<Seat>, k: nat, b: int): (r: seq<Seat>)
    requires k < |players|
    ensures |r| == |players| && SumSeats(r) == SumSeats(players)
  {
    var p := players[k].(currentBet := b);
    SumSeatsUpdate(players, k, p);
    players[k := p]
  }

  /** The blinds leave the stacks: `small` from seat `sb`, `big` from seat
      `bb`, in the source's order of assignments. */
  function TakeBlinds(players: seq<Seat>, sb: nat, bb: nat, small: int, big: int): (r: seq<Seat>)
    requires sb < |players| && bb < |players|
    ensures |r| == |players|
    ensures forall i :: 0 <= i < |r| ==> r[i].cards == players[i].cards
  {
    SetBet(SetBet(Charge(Charge(players, sb, small), bb, big), sb, small), bb, big)
  }

  /** Two different seats each pay their own blind and bet it; one seat
      holding both pays both and is left with the big blind as its bet;
      every other seat is untouched. Stacks are not checked. */
  lemma TakeBlindsSeats(players: seq<Seat>, sb: nat, bb: nat, small: int, big: int)
    requires sb < |players| && bb < |players|
    ensures var r := TakeBlinds(players, sb, bb, small, big);
              && (forall i :: 0 <= i < |players| && i != sb && i != bb ==> r[i] == players[i])
              && (sb != bb ==>
                    && r[sb] == players[sb].(chips := players[sb].chips - small, currentBet := small)
                    && r[bb] == players[bb].(chips := players[bb].chips - big, currentBet := big))
              && (sb == bb ==> r[sb] == players[sb].(chips := players[sb].chips - small - big, currentBet := big))
  {
  }

  /** The blinds move chips from the stacks and lose none. */
  lemma TakeBlindsSum(players: seq<Seat>, sb: nat, bb: nat, small: int, big: int)
    requires sb < |players| && bb < |players|
    ensures SumSeats(TakeBlinds(players, sb, bb, small, big)) == SumSeats(players) - small - big
  {
    var p2 := Charge(Charge(players, sb, small), bb, big);
    assert SumSeats(p2) == SumSeats(players) - small - big;
    assert SumSeats(SetBet(p2, sb, small)) == SumSeats(p2);
  }

  /** The stacks after the blinds: the small blind from the seat left of the
      dealer, the big blind from the seat after it. An empty table has no such
      seats. */
  function PostBlinds(players: seq<Seat>, dealer: nat, small: int, big: int): (r: seq<Seat>)
    ensures |r| == |players|
    ensures |players| > 0 ==> SumSeats(r) == SumSeats(players) - small - big
    ensures |players| == 0 ==> r == players
    ensures forall i :: 0 <= i < |r| ==> r[i].cards == players[i].cards
  {
    var n := |players|;
    if n == 0 then players
    else
      var sb, bb := Wrap(dealer + 1, n), Wrap(dealer + 2, n);
      TakeBlindsSum(players, sb, bb, small, big);
      TakeBlinds(players, sb, bb, small, big)
  }

  /** `startNewRound`: empty the pot and the board, clear the hands, deal,
      take the blinds into the pot, and open the betting with the seat after
      the dealer. The phase passes through "dealing" and the round name
      through "deal" on the way; only the last values are kept here. */
  function StartNewRound(room: Room, deck: seq<string>): (r: Result<Room>)
    ensures r.Ok? ==>
              && r.value.gamePhase == PhaseBetting && r.value.roundName == RoundDealing
              && r.value.communityCards == [] && r.value.burnPile == room.burnPile
              && r.value.currentPlayerTurn == room.dealerIndex + 1
              && |r.value.players| == |room.players|
              && r.value.currentBet == (if |room.players| > 0 then room.smallBlind + room.bigBlind else 0)
  {
    match DealToPlayers(ClearHands(room.players), room.dealerIndex, deck)
    case Err(m) => Err(m)
    case Ok(dealt) =>
      var blinds := if |room.players| > 0 then room.smallBlind + room.bigBlind else 0;
      Ok(room.(players := PostBlinds(dealt.0, room.dealerIndex, room.smallBlind, room.bigBlind),
               deck := dealt.1, pot := blinds, currentBet := blinds, communityCards := [],
               gamePhase := PhaseBetting, roundName := RoundDealing,
               currentPlayerTurn := room.dealerIndex + 1))
  }

  /** A round starts unless the active seats need more cards than the deck
      holds. */
  lemma StartNewRoundStarts(room: Room, deck: seq<string>)
    requires Drawable(deck)
    ensures StartNewRound(room, deck).Ok? <==> 2 * |ActiveSeats(room.players)| <= |deck|
    ensures StartNewRound(room, deck).Ok? ==>
              |StartNewRound(room, deck).value.deck| == |deck| - 2 * |ActiveSeats(room.players)|
  {
    var cleared := ClearHands(room.players);
    assert Active(cleared) == Active(room.players);
    ActiveSeatsOfActive(cleared, room.players);
    DealToPlayersDraws(cleared, room.dealerIndex, deck);
  }

  /** After a new round every active seat holds exactly two cards and every
      other seat none, whatever they held before; the cards come out of the
      deck and none is lost. */
  lemma StartNewRoundHands(room: Room, deck: seq<string>)
    requires StartNewRound(room, deck).Ok?
    ensures var r := StartNewRound(room, deck).value;
              && (forall i :: 0 <= i < |room.players| ==>
                    |r.players[i].cards| == (if room.players[i].isActive then 2 else 0))
              && multiset(HoleCards(r.players)) + multiset(r.deck) == multiset(deck)
  {
    var cleared := ClearHands(room.players);
    var dealt := DealToPlayers(cleared, room.dealerIndex, deck).value;
    var r := StartNewRound(room, deck).value;
    assert r.players == PostBlinds(dealt.0, room.dealerIndex, room.smallBlind, room.bigBlind);
    DealToPlayersSeats(cleared, room.dealerIndex, deck);
    HoleCardsCleared(room.players);
    HoleCardsOfSameCards(r.players, dealt.0);
  }

  /** Dealt from a full deck, no card is in two hands, or in a hand and
      still in the deck. */
  lemma StartNewRoundDistinct(room: Room, deck: seq<string>)
    requires FullDeck(deck)
    requires StartNewRound(room, deck).Ok?
    ensures var r := StartNewRound(room, deck).value;
              && Distinct(HoleCards(r.players) + r.deck)
              && |HoleCards(r.players)| == 2 * |ActiveSeats(room.players)|
  {
    var r := StartNewRound(room, deck).value;
    StartNewRoundHands(room, deck);
    StartNewRoundStarts(room, deck);
    var all := HoleCards(r.players) + r.deck;
    assert multiset(all) == multiset(deck);
    DistinctOfSameMultiset(deck, all);
    assert |multiset(all)| == |multiset(deck)|;
  }

  lemma {:induction false} ActiveSeatsOfActive(a: seq<Seat>, b: seq<Seat>)
    requires Active(a) == Active(b)
    ensures ActiveSeats(a) == ActiveSeats(b)
  {
    if |a| > 0 {
      var n := |a| - 1;
      assert Active(a[..n]) == Active(b[..n]) by {
        assert forall i :: 0 <= i < n ==> Active(a)[i] == Active(b)[i];
      }
      ActiveSeatsOfActive(a[..n], b[..n]);
      assert Active(a)[n] == Active(b)[n];
    }
  }

  lemma {:induction false} HoleCardsOfSameCards(a: seq<Seat>, b: seq<Seat>)
    requires |a| == |b| && forall i :: 0 <= i < |a| ==> a[i].cards == b[i].cards
    ensures HoleCards(a) == HoleCards(b)
  {
    if |a| > 0 {
      HoleCardsOfSameCards(a[..|a| - 1], b[..|b| - 1]);
    }
  }

  /** Starting a round throws away whatever was left in the pot: the stacks
      and the pot afterwards hold the chips the stacks held before. */
  lemma StartNewRoundChips(room: Room, deck: seq<string>)
    requires StartNewRound(room, deck).Ok?
    ensures TotalChips(StartNewRound(room, deck).value) == TotalChips(room) - room.pot
  {
    var cleared := ClearHands(room.players);
    var dealt := DealToPlayers(cleared, room.dealerIndex, deck).value;
    DealToPlayersSeats(cleared, room.dealerIndex, deck);
    SumSeatsSameChips(dealt.0, room.players);
  }

  // ---------------------------------------------------------------- the board

  /** How many names `dealCommunityCards` draws in a round: a burn card and
      three for the flop, a burn card and one for the turn and for the river,
      none otherwise. */
  function BoardDraws(roundName: string): nat {
    if roundName == "Flop" then 4
    else if roundName == "Turn" || roundName == "River" then 2
    else 0
  }

  /** `dealCommunityCards`: the first name drawn goes to the burn pile and
      the rest to the board. It throws when the deck runs out. */
  function DealCommunityCards(room: Room): (r: Result<Room>)
    ensures BoardDraws(room.roundName) == 0 ==> r == Ok(room)
    ensures var k := BoardDraws(room.roundName);
              r.Ok? <==> k <= |room.deck| && Drawable(room.deck[|room.deck| - k..])
  {
    var k := BoardDraws(room.roundName);
    DrawNamesOk(room.deck, k);
    if k == 0 then Ok(room)
    else
      match DrawNames(room.deck, k)
      case Err(m) => Err(m)
      case Ok(d) => Ok(room.(burnPile := room.burnPile + [d.0[0]], communityCards := room.communityCards + d.0[1..], deck := d.1))
  }

  /** The burn card is the top of the deck and the board gets the next ones
      in the order drawn; the seats, the pot and the phase stay. */
  lemma DealCommunityCardsBoard(room: Room)
    requires DealCommunityCards(room).Ok? && BoardDraws(room.roundName) > 0
    ensures var k := BoardDraws(room.roundName);
            var n := |room.deck|;
            var r := DealCommunityCards(room).value;
              && r.deck == room.deck[..n - k]
              && r.burnPile == room.burnPile + [room.deck[n - 1]]
              && r.communityCards == room.communityCards + Reverse(room.deck[n - k..n - 1])
              && r.players == room.players && r.pot == room.pot
              && r.gamePhase == room.gamePhase && r.roundName == room.roundName
  {
    DealCommunityCardsDraws(room);
    DrawNamesBurnAndBoard(room.deck, BoardDraws(room.roundName));
  }

  /** Drawing `k` names burns the top one, turns the next `k - 1` in the
      order drawn and leaves the rest of the deck. */
  lemma DrawNamesBurnAndBoard(deck: seq<string>, k: nat)
    requires DrawNames(deck, k).Ok? && k > 0
    ensures var d := DrawNames(deck, k).value;
              && k <= |deck| && |d.0| > 0
              && d.0[0] == deck[|deck| - 1]
              && d.0[1..] == Reverse(deck[|deck| - k..|deck| - 1])
              && d.1 == deck[..|deck| - k]
  {
    DrawNamesTop(deck, k);
    ReverseOfTop(deck, k);
  }

  lemma DealCommunityCardsDraws(room: Room)
    requires DealCommunityCards(room).Ok? && BoardDraws(room.roundName) > 0
    ensures var d := DrawNames(room.deck, BoardDraws(room.roundName));
              && d.Ok? && |d.value.0| > 0
              && DealCommunityCards(room).value
                 == room.(burnPile := room.burnPile + [d.value.0[0]],
                          communityCards := room.communityCards + d.value.0[1..], deck := d.value.1)
  {
  }

  /** No card appears or disappears: the deck, the board and the burn pile
      hold the same names between them as before. */
  lemma DealCommunityCardsKeepsCards(room: Room)
    requires DealCommunityCards(room).Ok?
    ensures var r := DealCommunityCards(room).value;
              multiset(r.deck) + multiset(r.communityCards) + multiset(r.burnPile)
              == multiset(room.deck) + multiset(room.communityCards) + multiset(room.burnPile)
  {
    var k := BoardDraws(room.roundName);
    if k > 0 {
      DrawNamesKeepsNames(room.deck, k);
      var d := DrawNames(room.deck, k).value;
      assert d.0 == [d.0[0]] + d.0[1..];
    }
  }

  // ---------------------------------------------------------------- turns

  /** The first active seat from step `d` of the walk round the table that
      starts at `p`: the seats `SeatAt(p, d, n)`, `SeatAt(p, d + 1, n)`, … are
      tried in turn. */
  function ScanActive(players: seq<Seat>, p: nat, d: nat): (r: Option<nat>)
    requires p < |players| && d <= |players|
    ensures r.Some? ==>
              && r.value < |players| && players[r.value].isActive
              && d <= Offset(p, r.value, |players|)
              && forall j :: 0 <= j < |players| && d <= Offset(p, j, |players|) < Offset(p, r.value, |players|)
                   ==> !players[j].isActive
    ensures r.None? ==> forall j :: 0 <= j < |players| && d <= Offset(p, j, |players|) ==> !players[j].isActive
    decreases |players| - d
  {
    var n := |players|;
    SeatAtOffset(p, n);
    if d == n then None
    else if players[SeatAt(p, d, n)].isActive then Some(SeatAt(p, d, n))
    else ScanActive(players, p, d + 1)
  }

  /** `moveToNextPlayer`: the turn goes to the first active seat after the
      current one, going round the table, the current seat itself tried last;
      with no active seat (or no seat at all) the game state is checked instead. */
  function MoveToNextPlayer(room: Room): (r: Result<Room>)
    ensures (forall j :: 0 <= j < |room.players| ==> !room.players[j].isActive) ==> r == CheckGameState(room)
    ensures r.Ok? ==> TotalChips(r.value) == TotalChips(room)
  {
    match NextActive(room.players, room.currentPlayerTurn)
    case Some(k) => Ok(room.(currentPlayerTurn := k))
    case None => CheckGameState(room)
  }

  /** The seat the turn moves to from `current`: the scan from the seat after
      it, or none at an empty table. */
  function NextActive(players: seq<Seat>, current: nat): (r: Option<nat>)
    ensures |players| == 0 ==> r.None?
  {
    var n := |players|;
    if n == 0 then None else ScanActive(players, Wrap(current + 1, n), 0)
  }

  /** With an active seat the scan always finds one. */
  lemma NextActiveFinds(players: seq<Seat>, current: nat)
    requires exists k :: 0 <= k < |players| && players[k].isActive
    ensures var n := |players|;
            var p := Wrap(current + 1, n);
            var r := NextActive(players, current);
              && r.Some? && r.value < n && players[r.value].isActive
              && forall j :: 0 <= j < n && Offset(p, j, n) < Offset(p, r.value, n) ==> !players[j].isActive
  {
    var n := |players|;
    var k :| 0 <= k < n && players[k].isActive;
    var p := Wrap(current + 1, n);
    assert ScanActive(players, p, 0).Some?;
  }

  /** With an active seat at the table the turn goes to the first active
      seat after the current one, round the table, and nothing else changes. */
  lemma MoveToNextPlayerTurn(room: Room)
    requires exists k :: 0 <= k < |room.players| && room.players[k].isActive
    ensures var n := |room.players|;
            var p := Wrap(room.currentPlayerTurn + 1, n);
            var r := MoveToNextPlayer(room);
              && r.Ok? && r.value.players == room.players && r.value.pot == room.pot
              && r.value.gamePhase == room.gamePhase && r.value.currentBet == room.currentBet
              && r.value.currentPlayerTurn < n && room.players[r.value.currentPlayerTurn].isActive
              && forall j :: 0 <= j < n && Offset(p, j, n) < Offset(p, r.value.currentPlayerTurn, n)
                   ==> !room.players[j].isActive
  {
    NextActiveFinds(room.players, room.currentPlayerTurn);
  }

  /** The turn goes to the current seat only when no other seat is active. */
  lemma MoveToNextPlayerSkipsCurrent(room: Room)
    requires room.currentPlayerTurn < |room.players|
    requires exists j :: 0 <= j < |room.players| && j != room.currentPlayerTurn && room.players[j].isActive
    ensures MoveToNextPlayer(room).Ok? && MoveToNextPlayer(room).value.currentPlayerTurn != room.currentPlayerTurn
  {
    NextActiveSkips(room.players, room.currentPlayerTurn);
  }

  /** Another active seat is always found before the current one. */
  lemma NextActiveSkips(players: seq<Seat>, c: nat)
    requires c < |players|
    requires exists j :: 0 <= j < |players| && j != c && players[j].isActive
    ensures NextActive(players, c).Some? && NextActive(players, c).value != c
  {
    NextActiveFinds(players, c);
    var n := |players|;
    var p := Wrap(c + 1, n);
    var j :| 0 <= j < n && j != c && players[j].isActive;
    assert Offset(p, c, n) == n - 1 by {
      if c + 1 < n {
        assert p == c + 1;
      } else {
        assert p == 0;
      }
    }
    assert Offset(p, j, n) != Offset(p, c, n) by {
      SeatAtOffset(p, n);
      assert SeatAt(p, Offset(p, j, n), n) == j;
      assert SeatAt(p, Offset(p, c, n), n) == c;
    }
  }

  // ---------------------------------------------------------------- the end of a hand

  /** Every seat back to not ready, active and without a bet; with
      `clearCards` also without cards. */
  function NextHand(players: seq<Seat>, clearCards: bool): (r: seq<Seat>)
    ensures |r| == |players|
    ensures forall i :: 0 <= i < |r| ==>
              r[i] == players[i].(isReady := false, isActive := true, currentBet := 0,
                                  cards := if clearCards then [] else players[i].cards)
  {
    seq(|players|, i requires 0 <= i < |players| =>
      players[i].(isReady := false, isActive := true, currentBet := 0,
                  cards := if clearCards then [] else players[i].cards))
  }

  lemma {:induction false} NextHandChips(players: seq<Seat>, clearCards: bool)
    ensures SumSeats(NextHand(players, clearCards)) == SumSeats(players)
  {
    SumSeatsSameChips(NextHand(players, clearCards), players);
  }

  /** Seat `w` takes the pot, the room waits for the next hand, and every
      seat is made ready for it (with `clearCards`, also without cards). */
  function Pay(room: Room, w: nat, clearCards: bool): (r: Room)
    requires w < |room.players|
    ensures r.pot == 0 && r.gamePhase == PhaseWaiting
    ensures TotalChips(r) == TotalChips(room)
    ensures |r.players| == |room.players|
    ensures r.players[w].chips == room.players[w].chips + room.pot
    ensures forall i :: 0 <= i < |r.players| && i != w ==> r.players[i].chips == room.players[i].chips
    ensures forall i :: 0 <= i < |r.players| ==>
              r.players[i].isActive && !r.players[i].isReady && r.players[i].currentBet == 0
              && r.players[i].cards == (if clearCards then [] else room.players[i].cards)
              && r.players[i].id == room.players[i].id && r.players[i].connected == room.players[i].connected
    ensures r.currentBet == room.currentBet && r.smallBlind == room.smallBlind && r.bigBlind == room.bigBlind
  {
    var paid := room.players[w := room.players[w].(chips := room.players[w].chips + room.pot)];
    SumSeatsUpdate(room.players, w, paid[w]);
    NextHandChips(paid, clearCards);
    room.(players := NextHand(paid, clearCards), pot := 0, gamePhase := PhaseWaiting)
  }

  /** `handleWinner`: the winner takes the pot and keeps the cards on the
      table; every seat, even one whose player has left, is active again. */
  function HandleWinner(room: Room, w: nat): (r: Room)
    requires w < |room.players|
  {
    Pay(room, w, false)
  }

  /** The seat `BestHand` picks among the first `k` scores: the first one
      strictly greater than every earlier pick, as the showdown loop runs. */
  function BestHand(ranks: seq<Score>, k: nat): (r: nat)
    requires 0 < k <= |ranks|
    ensures r < k
    ensures forall j :: r < j < k ==> !Greater(ranks[j], ranks[r])
    ensures (forall j :: 0 <= j < k ==> ranks[j].Finite?) ==>
              && (forall j :: 0 <= j < k ==> Scaled(ranks[j].value) <= Scaled(ranks[r].value))
              && (forall j :: 0 <= j < r ==> Scaled(ranks[j].value) < Scaled(ranks[r].value))
  {
    if k == 1 then 0
    else
      var b := BestHand(ranks, k - 1);
      if Greater(ranks[k - 1], ranks[b]) then k - 1 else b
  }

  /** The cards of a hand: the seat's cards, then the board's, each name
      built into a card; the first bad name throws. */
  function BuildCards(names: seq<string>): (r: Result<seq<Card>>)
    ensures r.Ok? <==> forall i :: 0 <= i < |names| ==> NewCard(names[i]).Ok?
    ensures r.Ok? ==> |r.value| == |names| && forall i :: 0 <= i < |names| ==> r.value[i] == NewCard(names[i]).value.card
  {
    if |names| == 0 then Ok([])
    else
      match NewCard(names[0])
      case Err(m) => Err(m)
      case Ok(c) =>
        match BuildCards(names[1..])
        case Err(m) => Err(m)
        case Ok(rest) => Ok([c.card] + rest)
  }

  /** `new Hand(allCards).evaluate()` on a list of names. */
  function EvaluateNames(names: seq<string>): (r: Result<Score>)
    ensures r.Ok? ==> BuildCards(names).Ok? && Evaluate(BuildCards(names).value) == r
  {
    match BuildCards(names)
    case Err(m) => Err(m)
    case Ok(cards) => Evaluate(cards)
  }

  /** A seat's cards followed by the board's. */
  function HandNames(room: Room, seat: nat): seq<string>
    requires seat < |room.players|
  {
    room.players[seat].cards + room.communityCards
  }

  /** The values of `rs` in order, or the first error among them: a `map`
      whose callback may throw. */
  function Collect<T>(rs: seq<Result<T>>): (r: Result<seq<T>>)
    ensures r.Ok? <==> forall k :: 0 <= k < |rs| ==> rs[k].Ok?
    ensures r.Ok? ==> |r.value| == |rs| && forall k :: 0 <= k < |rs| ==> rs[k] == Ok(r.value[k])
  {
    if |rs| == 0 then Ok([])
    else
      var rest := Collect(rs[1..]);
      assert forall k :: 1 <= k < |rs| ==> rs[k] == rs[1..][k - 1];
      match rs[0]
      case Err(m) => Err(m)
      case Ok(x) =>
        match rest
        case Err(m) => Err(m)
        case Ok(xs) => Ok([x] + xs)
  }

  /** The evaluated hand of every listed seat, with the board; the first
      failure throws. */
  function Ranks(room: Room, seats: seq<nat>): (r: Result<seq<Score>>)
    requires forall k :: 0 <= k < |seats| ==> seats[k] < |room.players|
    ensures r.Ok? ==> |r.value| == |seats|
  {
    Collect(seq(|seats|, k requires 0 <= k < |seats| => EvaluateNames(HandNames(room, seats[k]))))
  }

  /** The ranks fail only when some seat's evaluation does. */
  lemma RanksOk(room: Room, seats: seq<nat>)
    requires forall k :: 0 <= k < |seats| ==> seats[k] < |room.players|
    ensures Ranks(room, seats).Ok? <==> forall k :: 0 <= k < |seats| ==> EvaluateNames(HandNames(room, seats[k])).Ok?
  {
    var rs := seq(|seats|, k requires 0 <= k < |seats| => EvaluateNames(HandNames(room, seats[k])));
    assert Ranks(room, seats) == Collect(rs);
    assert forall k :: 0 <= k < |seats| ==> rs[k] == EvaluateNames(HandNames(room, seats[k]));
  }

  /** Each rank is the evaluation of that seat's cards with the board. */
  lemma RanksAreEvaluations(room: Room, seats: seq<nat>)
    requires forall k :: 0 <= k < |seats| ==> seats[k] < |room.players|
    requires Ranks(room, seats).Ok?
    ensures forall k :: 0 <= k < |seats| ==>
              EvaluateNames(HandNames(room, seats[k])) == Ok(Ranks(room, seats).value[k])
  {
    var rs := seq(|seats|, k requires 0 <= k < |seats| => EvaluateNames(HandNames(room, seats[k])));
    assert Ranks(room, seats) == Collect(rs);
    assert forall k :: 0 <= k < |seats| ==> rs[k] == EvaluateNames(HandNames(room, seats[k]));
  }

  /** Paying the pot to the first seat with the id of the active seat the
      showdown loop picks; the hands are cleared for the next one. */
  function Award(room: Room, ranks: seq<Score>): (r: Room)
    requires |ranks| == |ActiveSeats(room.players)| > 0
    ensures TotalChips(r) == TotalChips(room)
  {
    var w0 := ActiveSeats(room.players)[BestHand(ranks, |ranks|)];
    match Find(room.players, room.players[w0].id)
    case None => room
    case Some(w) => Pay(room, w, true)
  }

  /** The showdown branch of `checkGameState`: evaluate every active hand
      with the board and award the pot; with no active hand nothing happens. */
  function Showdown(room: Room): (r: Result<Room>)
    ensures r.Ok? ==> TotalChips(r.value) == TotalChips(room)
  {
    var active := ActiveSeats(room.players);
    match Ranks(room, active)
    case Err(m) => Err(m)
    case Ok(ranks) => if |ranks| == 0 then Ok(room) else Ok(Award(room, ranks))
  }

  /** When session ids are unique, the award pays the whole pot to the active
      seat with the best hand (the earliest of the best when every hand scores
      a number), leaves every other stack alone, and clears every hand. */
  lemma AwardPaysBest(room: Room, ranks: seq<Score>)
    requires forall i, j :: 0 <= i < j < |room.players| ==> room.players[i].id != room.players[j].id
    requires |ranks| == |ActiveSeats(room.players)| > 0
    ensures var b := BestHand(ranks, |ranks|);
            var w := ActiveSeats(room.players)[b];
            var r := Award(room, ranks);
              && r.pot == 0 && r.gamePhase == PhaseWaiting
              && r.players[w].chips == room.players[w].chips + room.pot
              && (forall i :: 0 <= i < |room.players| && i != w ==> r.players[i].chips == room.players[i].chips)
              && (forall i :: 0 <= i < |room.players| ==> r.players[i].cards == [] && r.players[i].isActive)
  {
    var a := ActiveSeats(room.players);
    var b := BestHand(ranks, |ranks|);
    var w := a[b];
    FindUnique(room.players, w);
    assert Award(room, ranks) == Pay(room, w, true);
  }

  /** `checkGameState`: a single active seat wins the pot; otherwise, in the
      showdown phase, the hands are compared; otherwise nothing changes. */
  function CheckGameState(room: Room): (r: Result<Room>)
    ensures |ActiveSeats(room.players)| == 1 ==> r == Ok(HandleWinner(room, ActiveSeats(room.players)[0]))
    ensures |ActiveSeats(room.players)| != 1 && room.gamePhase != PhaseShowdown ==> r == Ok(room)
    ensures r.Ok? ==> TotalChips(r.value) == TotalChips(room)
  {
    var active := ActiveSeats(room.players);
    if |active| == 1 then Ok(HandleWinner(room, active[0]))
    else if room.gamePhase == PhaseShowdown then Showdown(room)
    else Ok(room)
  }

  /** The last active seat takes the pot. */
  lemma LastPlayerWins(room: Room)
    requires |ActiveSeats(room.players)| == 1
    ensures var w := ActiveSeats(room.players)[0];
            var r := CheckGameState(room).value;
              && r.players[w].chips == room.players[w].chips + room.pot && r.pot == 0
              && (forall i :: 0 <= i < |room.players| && i != w ==> !room.players[i].isActive)
  {
    var a := ActiveSeats(room.players);
    forall i | 0 <= i < |room.players| && room.players[i].isActive ensures i == a[0] {
      var k :| 0 <= k < |a| && a[k] == i;
    }
  }

  // ---------------------------------------------------------------- betting

  /** Seat `i` bets `amount`: it leaves the stack for the pot and becomes both
      the seat's bet and the bet to match. */
  function Bet(room: Room, i: nat, amount: int): (r: Room)
    requires i < |room.players|
    ensures TotalChips(r) == TotalChips(room)
    ensures r.players == room.players[i := room.players[i].(chips := room.players[i].chips - amount, currentBet := amount)]
    ensures r.pot == room.pot + amount && r.currentBet == amount
    ensures r.(players := room.players, pot := room.pot, currentBet := room.currentBet) == room
  {
    var p := room.players[i];
    SumSeatsUpdate(room.players, i, p.(chips := p.chips - amount, currentBet := amount));
    room.(players := room.players[i := p.(chips := p.chips - amount, currentBet := amount)],
          pot := room.pot + amount, currentBet := amount)
  }

  /** Whether the room takes a bet of `amount` from the seat found. */
  predicate Accepts(room: Room, seat: Option<nat>, amount: int) {
    && seat.Some? && seat.value < |room.players| && room.gamePhase == PhaseBetting
    && amount <= room.players[seat.value].chips && amount >= room.currentBet
  }

  /** `handleBet`: an unknown sender, a phase other than betting, a bet above
      the stack or below the bet to match changes nothing; otherwise the bet
      is made and the turn moves on. Whose turn it is is not checked. */
  function HandleBet(room: Room, id: string, amount: int): (r: Result<Room>)
    ensures var f := Find(room.players, id);
              !Accepts(room, f, amount) ==> r == Ok(room)
    ensures var f := Find(room.players, id);
              Accepts(room, f, amount) ==> r == MoveToNextPlayer(Bet(room, f.value, amount))
    ensures r.Ok? ==> TotalChips(r.value) == TotalChips(room)
  {
    match Find(room.players, id)
    case None => Ok(room)
    case Some(i) =>
      if room.gamePhase != PhaseBetting then Ok(room)
      else if amount <= room.players[i].chips && amount >= room.currentBet then
        MoveToNextPlayer(Bet(room, i, amount))
      else Ok(room)
  }

  /** The seat at `i` goes inactive and stays at the table. */
  function Deactivate(room: Room, i: nat): (r: Room)
    requires i < |room.players|
    ensures |r.players| == |room.players| && !r.players[i].isActive
    ensures forall j :: 0 <= j < |room.players| && j != i ==> r.players[j] == room.players[j]
    ensures r.players[i] == room.players[i].(isActive := false)
    ensures r.(players := room.players) == room
    ensures TotalChips(r) == TotalChips(room)
  {
    var left := room.players[i := room.players[i].(isActive := false)];
    SumSeatsSameChips(left, room.players);
    room.(players := left)
  }

  /** `handleFold`: the sender's seat goes inactive, the turn moves on, and
      the game state is checked once more. */
  function HandleFold(room: Room, id: string): (r: Result<Room>)
    ensures Find(room.players, id).None? || room.gamePhase != PhaseBetting ==> r == Ok(room)
    ensures r.Ok? ==> TotalChips(r.value) == TotalChips(room)
  {
    match Find(room.players, id)
    case None => Ok(room)
    case Some(i) =>
      if room.gamePhase != PhaseBetting then Ok(room)
      else
        match MoveToNextPlayer(Deactivate(room, i))
        case Err(m) => Err(m)
        case Ok(moved) => CheckGameState(moved)
  }

  /** `onLeave`: the leaving player's seat goes inactive and the game state is
      checked. The seat stays at the table. */
  function Leave(room: Room, id: string): (r: Result<Room>)
    ensures Find(room.players, id).None? ==> r == Ok(room)
    ensures Find(room.players, id).Some? ==>
              var i := Find(room.players, id).value;
              r == CheckGameState(Deactivate(room, i))
    ensures r.Ok? ==> TotalChips(r.value) == TotalChips(room)
  {
    match Find(room.players, id)
    case None => Ok(room)
    case Some(i) => CheckGameState(Deactivate(room, i))
  }

  // ---------------------------------------------------------------- the room as a whole

  /** `maxClients`: Colyseus admits at most six connected clients. The seats
      of clients that have left stay at the table and do not count. */
  const MaxClients: nat := 6

  /** What reaches the room: a client joining or leaving, or one of its
      messages. A "ready" carries the shuffled deck a round it starts would be
      dealt from. */
  datatype Event =
    | OnJoin(id: string, name: Option<string>, chips: Option<int>)
    | OnReady(id: string, deck: seq<string>)
    | OnBet(id: string, amount: int)
    | OnFold(id: string)
    | OnLeave(id: string)

  /** How many seats still have their client connected. */
  function ConnectedCount(players: seq<Seat>): nat {
    if |players| == 0 then 0
    else ConnectedCount(players[..|players| - 1]) + (if players[|players| - 1].connected then 1 else 0)
  }

  /** Whether `id` is the session of a client that has left: its seat is
      still found, but Colyseus delivers nothing more from it. */
  predicate Departed(room: Room, id: string) {
    Find(room.players, id).Some? && !room.players[Find(room.players, id).value].connected
  }

  /** Colyseus drops a leaving client from its connected clients before
      `onLeave` runs. */
  function Disconnect(room: Room, id: string): Room {
    match Find(room.players, id)
    case None => room
    case Some(i) => room.(players := room.players[i := room.players[i].(connected := false)])
  }

  /** The "ready" message as evidently intended: the seat is marked ready
      always, but a round is started only from the waiting phase, so a round
      in progress is never restarted. */
  function ReadyWhenWaiting(room: Room, id: string, deck: seq<string>): (r: Result<Room>)
    ensures room.gamePhase != PhaseWaiting ==> r.Ok? && r.value.pot == room.pot && r.value.gamePhase == room.gamePhase
  {
    match Find(room.players, id)
    case None => Ok(room)
    case Some(i) =>
      var marked := room.(players := room.players[i := room.players[i].(isReady := true)]);
      if room.gamePhase == PhaseWaiting then CheckGameStart(marked, deck) else Ok(marked)
  }

  /** One event, handled as the room does. Colyseus refuses a client that
      would be the seventh connected one before `onJoin` runs, and delivers
      nothing more from a client that has left; a leaving client is dropped
      from the connected clients, then `onLeave` runs. */
  function Receive(room: Room, e: Event): (r: Result<Room>)
    ensures e.OnJoin? ==> r.Ok? && (r.value == room <==> ConnectedCount(room.players) >= MaxClients)
    ensures !e.OnJoin? && Departed(room, e.id) ==> r == Ok(room)
  {
    match e
    case OnJoin(id, name, chips) =>
      if ConnectedCount(room.players) < MaxClients then Ok(Join(room, id, name, chips)) else Ok(room)
    case OnReady(id, deck) => if Departed(room, id) then Ok(room) else ReadyWhenWaiting(room, id, deck)
    case OnBet(id, amount) => if Departed(room, id) then Ok(room) else HandleBet(room, id, amount)
    case OnFold(id) => if Departed(room, id) then Ok(room) else HandleFold(room, id)
    case OnLeave(id) => if Departed(room, id) then Ok(room) else Leave(Disconnect(room, id), id)
  }

  /** The events in order; the first thrown error stops the room. */
  function Replay(room: Room, events: seq<Event>): (r: Result<Room>)
    decreases |events|
  {
    if |events| == 0 then Ok(room)
    else
      match Receive(room, events[0])
      case Err(m) => Err(m)
      case Ok(next) => Replay(next, events[1..])
  }

  /** What the handlers keep: the room waits with an empty pot or takes
      bets; the blinds and the bet to match are not negative and no seat has
      bet more than the bet to match. */
  predicate Steady(room: Room) {
    && ((room.gamePhase == PhaseWaiting && room.pot == 0) || room.gamePhase == PhaseBetting)
    && 0 <= room.smallBlind && 0 <= room.bigBlind && 0 <= room.currentBet
    && forall i :: 0 <= i < |room.players| ==> room.players[i].currentBet <= room.currentBet
  }

  /** What the connected clients keep: there are at most `maxClients` of
      them, and no seat whose client has left is both active and ready.
      `handleWinner` makes such a seat active again, but not ready, and
      nobody can send "ready" for it any more. */
  predicate Connections(room: Room) {
    && ConnectedCount(room.players) <= MaxClients
    && forall i :: 0 <= i < |room.players| && room.players[i].isActive && room.players[i].isReady ==>
                     room.players[i].connected
  }

  lemma {:induction false} ActiveSeatsBound(players: seq<Seat>)
    ensures |ActiveSeats(players)| <= |players|
  {
    if |players| > 0 {
      ActiveSeatsBound(players[..|players| - 1]);
    }
  }

  // ---------------------------------------------------------------- clients

  /** Seats with the same ids are searched alike. */
  lemma {:induction false} FindSameIds(a: seq<Seat>, b: seq<Seat>, id: string)
    requires |a| == |b| && forall i :: 0 <= i < |a| ==> a[i].id == b[i].id
    ensures Find(a, id) == Find(b, id)
  {
    if |a| > 0 {
      FindSameIds(a[1..], b[1..], id);
    }
  }

  /** Seats no more connected than before count no more clients. */
  lemma {:induction false} ConnectedCountMono(a: seq<Seat>, b: seq<Seat>)
    requires |a| == |b| && forall i :: 0 <= i < |a| && b[i].connected ==> a[i].connected
    ensures ConnectedCount(b) <= ConnectedCount(a)
  {
    if |a| > 0 {
      var n := |a| - 1;
      assert forall i :: 0 <= i < n ==> a[..n][i] == a[i] && b[..n][i] == b[i];
      ConnectedCountMono(a[..n], b[..n]);
    }
  }

  /** When every active seat has its client, there are no more active seats
      than connected clients. */
  lemma {:induction false} ActiveWithinConnected(players: seq<Seat>)
    requires forall i :: 0 <= i < |players| && players[i].isActive ==> players[i].connected
    ensures |ActiveSeats(players)| <= ConnectedCount(players)
  {
    if |players| > 0 {
      var n := |players| - 1;
      assert forall i :: 0 <= i < n ==> players[..n][i] == players[i];
      ActiveWithinConnected(players[..n]);
    }
  }

  /** A table that can start deals to at most six seats: every active seat
      is ready, so its client is connected. */
  lemma StartingTableBound(room: Room)
    requires Connections(room) && CanStart(room.players)
    ensures |ActiveSeats(room.players)| <= MaxClients
  {
    ActiveWithinConnected(room.players);
  }

  /** `b` is `a` after a handler: the same seats with the same clients, none
      newly both active and ready. */
  predicate NoNewStarter(a: seq<Seat>, b: seq<Seat>) {
    && |a| == |b|
    && forall i :: 0 <= i < |a| ==>
         b[i].connected == a[i].connected && (b[i].isActive && b[i].isReady ==> a[i].isActive && a[i].isReady)
  }

  lemma NoNewStarterConnections(a: Room, b: Room)
    requires Connections(a) && NoNewStarter(a.players, b.players)
    ensures Connections(b)
  {
    ConnectedCountMono(a.players, b.players);
  }

  lemma NoNewStarterTrans(a: seq<Seat>, b: seq<Seat>, c: seq<Seat>)
    requires NoNewStarter(a, b) && NoNewStarter(b, c)
    ensures NoNewStarter(a, c)
  {
  }

  /** In a steady room the state check makes nobody ready: a win makes every
      seat unready. */
  lemma CheckGameStateStarters(room: Room)
    requires Steady(room)
    ensures CheckGameState(room).Ok? && NoNewStarter(room.players, CheckGameState(room).value.players)
  {
  }

  lemma MoveToNextPlayerStarters(room: Room)
    requires Steady(room)
    ensures MoveToNextPlayer(room).Ok? && NoNewStarter(room.players, MoveToNextPlayer(room).value.players)
  {
    CheckGameStateStarters(room);
  }

  lemma HandleBetStarters(room: Room, id: string, amount: int)
    requires Steady(room)
    ensures HandleBet(room, id, amount).Ok? && NoNewStarter(room.players, HandleBet(room, id, amount).value.players)
  {
    var f := Find(room.players, id);
    if Accepts(room, f, amount) {
      var b := Bet(room, f.value, amount);
      BetSteady(room, f.value, amount);
      MoveToNextPlayerStarters(b);
      NoNewStarterTrans(room.players, b.players, MoveToNextPlayer(b).value.players);
    }
  }

  lemma HandleFoldStarters(room: Room, id: string)
    requires Steady(room)
    ensures HandleFold(room, id).Ok? && NoNewStarter(room.players, HandleFold(room, id).value.players)
  {
    match Find(room.players, id)
    case None =>
    case Some(i) =>
      if room.gamePhase == PhaseBetting {
        FoldStepsStarters(room, i);
        assert HandleFold(room, id) == CheckGameState(MoveToNextPlayer(Deactivate(room, i)).value);
      }
  }

  /** A seat going inactive makes nobody ready. */
  lemma DeactivateStarters(room: Room, i: nat)
    requires i < |room.players|
    ensures NoNewStarter(room.players, Deactivate(room, i).players)
  {
  }

  /** The steps of a fold: the seat goes inactive, the turn moves and the
      state is checked; none makes anybody ready. */
  lemma FoldStepsStarters(room: Room, i: nat)
    requires Steady(room) && i < |room.players|
    ensures var moved := MoveToNextPlayer(Deactivate(room, i));
              && moved.Ok? && CheckGameState(moved.value).Ok?
              && NoNewStarter(room.players, CheckGameState(moved.value).value.players)
  {
    var folded := Deactivate(room, i);
    DeactivateStarters(room, i);
    MoveToNextPlayerSteady(folded);
    MoveToNextPlayerStarters(folded);
    var moved := MoveToNextPlayer(folded).value;
    CheckGameStateStarters(moved);
    NoNewStarterTrans(room.players, folded.players, moved.players);
    NoNewStarterTrans(room.players, moved.players, CheckGameState(moved).value.players);
  }

  /** A departure makes nobody ready, and the departed seat is left either
      inactive or, when its leaving ends the hand, unready. */
  lemma LeaveStarters(room: Room, id: string)
    requires Steady(room)
    ensures var r := Leave(room, id);
              && r.Ok? && NoNewStarter(room.players, r.value.players)
              && (Find(room.players, id).Some? ==>
                    var i := Find(room.players, id).value;
                    !(r.value.players[i].isActive && r.value.players[i].isReady))
  {
    match Find(room.players, id)
    case None =>
    case Some(i) =>
      var left := Deactivate(room, i);
      DeactivateStarters(room, i);
      CheckGameStateStarters(left);
      NoNewStarterTrans(room.players, left.players, CheckGameState(left).value.players);
  }

  /** Blinds move chips and bets only. */
  lemma PostBlindsFlags(players: seq<Seat>, dealer: nat, small: int, big: int)
    ensures var r := PostBlinds(players, dealer, small, big);
              forall i :: 0 <= i < |r| ==>
                r[i].isActive == players[i].isActive && r[i].isReady == players[i].isReady
                && r[i].connected == players[i].connected
  {
    var n := |players|;
    if n > 0 {
      TakeBlindsSeats(players, Wrap(dealer + 1, n), Wrap(dealer + 2, n), small, big);
    }
  }

  /** A new round changes no seat's flags. */
  lemma StartNewRoundStarters(room: Room, deck: seq<string>)
    requires StartNewRound(room, deck).Ok?
    ensures NoNewStarter(room.players, StartNewRound(room, deck).value.players)
  {
    var cleared := ClearHands(room.players);
    var dealt := DealToPlayers(cleared, room.dealerIndex, deck).value;
    DealToPlayersSeats(cleared, room.dealerIndex, deck);
    PostBlindsFlags(dealt.0, room.dealerIndex, room.smallBlind, room.bigBlind);
    forall i | 0 <= i < |room.players|
      ensures dealt.0[i].isActive == room.players[i].isActive && dealt.0[i].isReady == room.players[i].isReady
              && dealt.0[i].connected == room.players[i].connected
    {
      assert dealt.0[i].(cards := cleared[i].cards) == cleared[i];
    }
  }

  /** A connected client marking its seat ready keeps the connections. */
  lemma MarkReadyConnections(room: Room, i: nat)
    requires Connections(room) && i < |room.players| && room.players[i].connected
    ensures Connections(room.(players := room.players[i := room.players[i].(isReady := true)]))
  {
    var marked := room.players[i := room.players[i].(isReady := true)];
    ConnectedCountMono(room.players, marked);
  }

  // ---------------------------------------------------------------- steady rooms

  /** In a steady room the game state check never throws and keeps the room steady. */
  lemma CheckGameStateSteady(room: Room)
    requires Steady(room)
    ensures var r := CheckGameState(room);
              r.Ok? && Steady(r.value) && |r.value.players| == |room.players|
  {
  }

  /** In a steady room moving the turn never throws and keeps the room steady. */
  lemma MoveToNextPlayerSteady(room: Room)
    requires Steady(room)
    ensures var r := MoveToNextPlayer(room);
              r.Ok? && Steady(r.value) && |r.value.players| == |room.players|
  {
    CheckGameStateSteady(room);
  }

  /** A bet the room takes keeps it steady: the bet to match rises to the new
      bet and never drops. */
  lemma HandleBetSteady(room: Room, id: string, amount: int)
    requires Steady(room)
    ensures var r := HandleBet(room, id, amount);
              r.Ok? && Steady(r.value) && |r.value.players| == |room.players|
  {
    var f := Find(room.players, id);
    if Accepts(room, f, amount) {
      var b := Bet(room, f.value, amount);
      assert Steady(b);
      MoveToNextPlayerSteady(b);
    }
  }

  lemma HandleFoldSteady(room: Room, id: string)
    requires Steady(room)
    ensures var r := HandleFold(room, id);
              r.Ok? && Steady(r.value) && |r.value.players| == |room.players|
  {
    match Find(room.players, id)
    case None =>
    case Some(i) =>
      if room.gamePhase == PhaseBetting {
        var folded := Deactivate(room, i);
        MoveToNextPlayerSteady(folded);
        CheckGameStateSteady(MoveToNextPlayer(folded).value);
      }
  }

  lemma LeaveSteady(room: Room, id: string)
    requires Steady(room)
    ensures var r := Leave(room, id);
              r.Ok? && Steady(r.value) && |r.value.players| == |room.players|
  {
    match Find(room.players, id)
    case None =>
    case Some(i) =>
      var left := Deactivate(room, i);
      CheckGameStateSteady(left);
  }

  /** With blinds that are not negative and no bet standing, no seat's bet
      after the blinds exceeds their sum. */
  lemma PostBlindsBets(players: seq<Seat>, dealer: nat, small: int, big: int)
    requires 0 <= small && 0 <= big
    requires forall i :: 0 <= i < |players| ==> players[i].currentBet == 0
    ensures var r := PostBlinds(players, dealer, small, big);
              forall i :: 0 <= i < |r| ==> 0 <= r[i].currentBet <= small + big
  {
    var n := |players|;
    if n > 0 {
      TakeBlindsSeats(players, Wrap(dealer + 1, n), Wrap(dealer + 2, n), small, big);
    }
  }

  /** From a full deck holding two cards for every active seat a round
      always starts, and the room it leaves is steady. */
  lemma StartNewRoundSteady(room: Room, deck: seq<string>)
    requires 0 <= room.smallBlind && 0 <= room.bigBlind
    requires FullDeck(deck) && 2 * |ActiveSeats(room.players)| <= |deck|
    ensures var r := StartNewRound(room, deck);
              r.Ok? && Steady(r.value) && |r.value.players| == |room.players|
  {
    StartNewRoundStarts(room, deck);
    StartNewRoundBets(room, deck);
  }

  /** A round starts with every seat's bet between nothing and the room's bet. */
  lemma StartNewRoundBets(room: Room, deck: seq<string>)
    requires 0 <= room.smallBlind && 0 <= room.bigBlind
    requires StartNewRound(room, deck).Ok?
    ensures var r := StartNewRound(room, deck).value;
              forall i :: 0 <= i < |r.players| ==> 0 <= r.players[i].currentBet <= r.currentBet
  {
    var cleared := ClearHands(room.players);
    var dealt := DealToPlayers(cleared, room.dealerIndex, deck).value;
    DealToPlayersSeats(cleared, room.dealerIndex, deck);
    forall i | 0 <= i < |dealt.0| ensures dealt.0[i].currentBet == 0 {
      assert dealt.0[i].(cards := cleared[i].cards) == cleared[i];
    }
    PostBlindsBets(dealt.0, room.dealerIndex, room.smallBlind, room.bigBlind);
  }

  /** A table that can start, in a room that keeps to its connections, is
      dealt from a full deck without running out and left steady, keeping the
      connections. */
  lemma StartFromFullDeck(room: Room, deck: seq<string>)
    requires Connections(room) && CanStart(room.players) && FullDeck(deck)
    requires 0 <= room.smallBlind && 0 <= room.bigBlind
    ensures var r := StartNewRound(room, deck);
              r.Ok? && Steady(r.value) && Connections(r.value) && |r.value.players| == |room.players|
  {
    StartingTableBound(room);
    StartNewRoundSteady(room, deck);
    StartNewRoundStarters(room, deck);
    NoNewStarterConnections(room, StartNewRound(room, deck).value);
  }

  /** The corrected "ready" from a client still connected never throws when
      dealt a full deck, and keeps the room steady and its connections. */
  lemma ReadyWhenWaitingSteady(room: Room, id: string, deck: seq<string>)
    requires Steady(room) && Connections(room) && !Departed(room, id) && FullDeck(deck)
    ensures var r := ReadyWhenWaiting(room, id, deck);
              r.Ok? && Steady(r.value) && Connections(r.value) && |r.value.players| == |room.players|
  {
    match Find(room.players, id)
    case None =>
    case Some(i) =>
      var marked := room.(players := room.players[i := room.players[i].(isReady := true)]);
      MarkReadyConnections(room, i);
      if room.gamePhase == PhaseWaiting && CanStart(marked.players) {
        StartFromFullDeck(marked, deck);
      }
  }

  /** A client seated below the limit keeps the room steady and its
      connections: the new seat is active but not ready. */
  lemma JoinKeeps(room: Room, id: string, name: Option<string>, chips: Option<int>)
    requires Steady(room) && Connections(room) && ConnectedCount(room.players) < MaxClients
    ensures Steady(Join(room, id, name, chips)) && Connections(Join(room, id, name, chips))
  {
    var r := Join(room, id, name, chips);
    var n := |room.players|;
    assert r.players[..n] == room.players;
  }

  /** A connected client leaving keeps the room steady and its connections:
      its seat loses its client and stays inactive or unready. */
  lemma LeaveKeeps(room: Room, id: string)
    requires Steady(room) && Connections(room) && !Departed(room, id)
    ensures var r := Leave(Disconnect(room, id), id);
              r.Ok? && Steady(r.value) && Connections(r.value)
  {
    var d := Disconnect(room, id);
    FindSameIds(d.players, room.players, id);
    LeaveSteady(d, id);
    LeaveStarters(d, id);
    var r := Leave(d, id).value;
    match Find(room.players, id)
    case None => NoNewStarterConnections(room, r);
    case Some(i) => DepartureConnections(room, d, r, i);
  }

  /** After a connected client's departure the connections still hold: its
      seat has lost its client and is not both active and ready. */
  lemma DepartureConnections(room: Room, d: Room, r: Room, i: nat)
    requires Connections(room) && i < |room.players|
    requires d.players == room.players[i := room.players[i].(connected := false)]
    requires NoNewStarter(d.players, r.players) && !(r.players[i].isActive && r.players[i].isReady)
    ensures Connections(r)
  {
    ConnectedCountMono(room.players, r.players);
  }

  /** Every event a steady room receives is handled without an error and
      leaves it steady, keeping the connections. */
  lemma ReceiveSteady(room: Room, e: Event)
    requires Steady(room) && Connections(room)
    requires e.OnReady? ==> FullDeck(e.deck)
    ensures Receive(room, e).Ok? && Steady(Receive(room, e).value) && Connections(Receive(room, e).value)
  {
    if e.OnJoin? {
      if ConnectedCount(room.players) < MaxClients {
        JoinKeeps(room, e.id, e.name, e.chips);
      }
    } else if !Departed(room, e.id) {
      match e
      case OnReady(id, deck) => ReadyWhenWaitingSteady(room, id, deck);
      case OnBet(id, amount) =>
        HandleBetSteady(room, id, amount);
        HandleBetStarters(room, id, amount);
        NoNewStarterConnections(room, HandleBet(room, id, amount).value);
      case OnFold(id) =>
        HandleFoldSteady(room, id);
        HandleFoldStarters(room, id);
        NoNewStarterConnections(room, HandleFold(room, id).value);
      case OnLeave(id) => LeaveKeeps(room, id);
    }
  }

  /** A new room is steady and has no clients. */
  lemma NewRoomSteady()
    ensures Steady(NewRoom()) && Connections(NewRoom())
  {
  }

  /** Whatever the clients send, a room that is dealt full decks never
      throws and never reaches the showdown phase: `checkGameState` never
      compares hands. */
  lemma {:induction false} ReplaySteady(room: Room, events: seq<Event>)
    requires Steady(room) && Connections(room)
    requires forall k :: 0 <= k < |events| && events[k].OnReady? ==> FullDeck(events[k].deck)
    ensures Replay(room, events).Ok? && Steady(Replay(room, events).value) && Connections(Replay(room, events).value)
    ensures Replay(room, events).value.gamePhase != PhaseShowdown
    decreases |events|
  {
    if |events| > 0 {
      ReceiveSteady(room, events[0]);
      var next := Receive(room, events[0]).value;
      assert forall k :: 0 <= k < |events| - 1 ==> events[1..][k] == events[k + 1];
      ReplaySteady(next, events[1..]);
    }
  }

  /** Dropping a connected seat's client counts one client fewer. */
  lemma {:induction false} ConnectedCountDrop(players: seq<Seat>, i: nat)
    requires i < |players| && players[i].connected
    ensures ConnectedCount(players[i := players[i].(connected := false)]) == ConnectedCount(players) - 1
  {
    var n := |players| - 1;
    var q := players[i := players[i].(connected := false)];
    if i < n {
      assert q[..n] == players[..n][i := players[i].(connected := false)];
      ConnectedCountDrop(players[..n], i);
    } else {
      assert q[..n] == players[..n];
    }
  }

  /** Once a connected client leaves a room with six, the next client is
      seated: the seat left behind does not count against `maxClients`. */
  lemma LeaveMakesRoom(room: Room, id: string, newcomer: string, name: Option<string>, chips: Option<int>)
    requires Steady(room) && Connections(room) && ConnectedCount(room.players) == MaxClients
    requires Find(room.players, id).Some? && !Departed(room, id)
    ensures var left := Receive(room, OnLeave(id));
              && left.Ok? && |left.value.players| == |room.players|
              && |Receive(left.value, OnJoin(newcomer, name, chips)).value.players| == |room.players| + 1
  {
    DepartureFreesClient(room, id);
    assert Receive(room, OnLeave(id)) == Leave(Disconnect(room, id), id);
  }

  /** A connected client's departure keeps every seat and counts one client
      fewer. */
  lemma DepartureFreesClient(room: Room, id: string)
    requires Steady(room) && Find(room.players, id).Some? && !Departed(room, id)
    ensures var r := Leave(Disconnect(room, id), id);
              && r.Ok? && |r.value.players| == |room.players|
              && ConnectedCount(r.value.players) == ConnectedCount(room.players) - 1
  {
    var d := Disconnect(room, id);
    ConnectedCountDrop(room.players, Find(room.players, id).value);
    FindSameIds(d.players, room.players, id);
    LeaveStarters(d, id);
    var r := Leave(d, id).value;
    ConnectedCountMono(d.players, r.players);
    ConnectedCountMono(r.players, d.players);
  }

  // ---------------------------------------------------------------- no card twice

  /** Nothing has been burnt, and no card name is in two hands, in a hand
      and on the board or in the deck, or twice in any of them. (Only
      `dealCommunityCards` burns, and no handler calls it; a new round would
      not empty the burn pile.) */
  predicate NoCardTwice(room: Room) {
    room.burnPile == [] && Distinct(HoleCards(room.players) + room.communityCards + room.deck)
  }

  /** Two rooms whose seats hold the same hands and which share the board and
      the deck. */
  predicate SameCards(a: Room, b: Room) {
    && |a.players| == |b.players|
    && (forall i :: 0 <= i < |a.players| ==> a.players[i].cards == b.players[i].cards)
    && a.communityCards == b.communityCards && a.deck == b.deck && a.burnPile == b.burnPile
  }

  lemma SameCardsNoCardTwice(a: Room, b: Room)
    requires SameCards(a, b) && NoCardTwice(b)
    ensures NoCardTwice(a)
  {
    HoleCardsOfSameCards(a.players, b.players);
  }

  /** In a steady room the game state check moves no card: a last seat's win
      leaves the hands on the table. */
  lemma CheckGameStateCards(room: Room)
    requires Steady(room)
    ensures CheckGameState(room).Ok? && SameCards(CheckGameState(room).value, room)
  {
  }

  lemma MoveToNextPlayerCards(room: Room)
    requires Steady(room)
    ensures MoveToNextPlayer(room).Ok? && SameCards(MoveToNextPlayer(room).value, room)
  {
    CheckGameStateCards(room);
  }

  lemma SameCardsTrans(a: Room, b: Room, c: Room)
    requires SameCards(a, b) && SameCards(b, c)
    ensures SameCards(a, c)
  {
  }

  /** A bet the room takes keeps it steady. */
  lemma BetSteady(room: Room, i: nat, amount: int)
    requires Steady(room) && Accepts(room, Some(i), amount)
    ensures Steady(Bet(room, i, amount))
  {
  }

  lemma HandleBetCards(room: Room, id: string, amount: int)
    requires Steady(room)
    ensures HandleBet(room, id, amount).Ok? && SameCards(HandleBet(room, id, amount).value, room)
  {
    var f := Find(room.players, id);
    if Accepts(room, f, amount) {
      var b := Bet(room, f.value, amount);
      BetSteady(room, f.value, amount);
      MoveToNextPlayerCards(b);
      assert SameCards(b, room);
      SameCardsTrans(MoveToNextPlayer(b).value, b, room);
    }
  }

  lemma HandleFoldCards(room: Room, id: string)
    requires Steady(room)
    ensures HandleFold(room, id).Ok? && SameCards(HandleFold(room, id).value, room)
  {
    match Find(room.players, id)
    case None =>
    case Some(i) =>
      if room.gamePhase == PhaseBetting {
        FoldStepsCards(room, i);
        assert HandleFold(room, id) == CheckGameState(MoveToNextPlayer(Deactivate(room, i)).value);
      }
  }

  /** The steps of a fold move no card. */
  lemma FoldStepsCards(room: Room, i: nat)
    requires Steady(room) && i < |room.players|
    ensures var moved := MoveToNextPlayer(Deactivate(room, i));
              && moved.Ok? && CheckGameState(moved.value).Ok?
              && SameCards(CheckGameState(moved.value).value, room)
  {
    var folded := Deactivate(room, i);
    MoveToNextPlayerSteady(folded);
    MoveToNextPlayerCards(folded);
    var moved := MoveToNextPlayer(folded).value;
    CheckGameStateCards(moved);
    DeactivateCards(room, i);
    SameCardsTrans(moved, folded, room);
    SameCardsTrans(CheckGameState(moved).value, moved, room);
  }

  /** A seat going inactive keeps its cards. */
  lemma DeactivateCards(room: Room, i: nat)
    requires i < |room.players|
    ensures SameCards(Deactivate(room, i), room)
  {
  }

  lemma LeaveCards(room: Room, id: string)
    requires Steady(room)
    ensures Leave(room, id).Ok? && SameCards(Leave(room, id).value, room)
  {
    match Find(room.players, id)
    case None =>
    case Some(i) =>
      var left := Deactivate(room, i);
      CheckGameStateCards(left);
      assert SameCards(left, room);
      SameCardsTrans(CheckGameState(left).value, left, room);
  }

  /** A round started from a full deck with nothing burnt holds no card
      twice: the board is empty and the hands and the deck share no name. */
  lemma StartNewRoundNoCardTwice(room: Room, deck: seq<string>)
    requires FullDeck(deck) && StartNewRound(room, deck).Ok? && room.burnPile == []
    ensures NoCardTwice(StartNewRound(room, deck).value)
  {
    StartNewRoundDistinct(room, deck);
    var r := StartNewRound(room, deck).value;
    DistinctEmptyMiddle(HoleCards(r.players), r.communityCards, r.deck);
  }

  lemma DistinctEmptyMiddle(a: seq<string>, b: seq<string>, c: seq<string>)
    requires Distinct(a + c) && b == []
    ensures Distinct(a + b + c)
  {
    assert a + b + c == a + c;
  }

  /** A "ready" either only marks the seat or starts a round from a full
      deck; either way no card is held twice afterwards. */
  lemma ReadyWhenWaitingNoCardTwice(room: Room, id: string, deck: seq<string>)
    requires Steady(room) && Connections(room) && !Departed(room, id) && NoCardTwice(room) && FullDeck(deck)
    ensures ReadyWhenWaiting(room, id, deck).Ok? && NoCardTwice(ReadyWhenWaiting(room, id, deck).value)
  {
    ReadyWhenWaitingSteady(room, id, deck);
    match Find(room.players, id)
    case None =>
    case Some(i) =>
      var marked := room.(players := room.players[i := room.players[i].(isReady := true)]);
      assert SameCards(marked, room);
      SameCardsNoCardTwice(marked, room);
      if room.gamePhase == PhaseWaiting && CanStart(marked.players) {
        StartNewRoundNoCardTwice(marked, deck);
      }
  }

  /** A client joins with an empty hand. */
  lemma JoinNoCardTwice(room: Room, id: string, name: Option<string>, chips: Option<int>)
    requires NoCardTwice(room)
    ensures NoCardTwice(Join(room, id, name, chips))
  {
    var r := Join(room, id, name, chips);
    var n := |room.players|;
    assert r.players[..n] == room.players;
    assert r.players[n].cards == [];
    assert HoleCards(r.players) == HoleCards(room.players) + r.players[n].cards;
    assert HoleCards(r.players) == HoleCards(room.players);
  }

  /** Every event a steady room receives keeps every card in one place. */
  lemma ReceiveNoCardTwice(room: Room, e: Event)
    requires Steady(room) && Connections(room) && NoCardTwice(room)
    requires e.OnReady? ==> FullDeck(e.deck)
    ensures Receive(room, e).Ok? && NoCardTwice(Receive(room, e).value)
  {
    if e.OnJoin? {
      if ConnectedCount(room.players) < MaxClients {
        JoinNoCardTwice(room, e.id, e.name, e.chips);
      }
    } else if !Departed(room, e.id) {
      match e
      case OnReady(id, deck) => ReadyWhenWaitingNoCardTwice(room, id, deck);
      case OnBet(id, amount) =>
        HandleBetCards(room, id, amount);
        SameCardsNoCardTwice(HandleBet(room, id, amount).value, room);
      case OnFold(id) =>
        HandleFoldCards(room, id);
        SameCardsNoCardTwice(HandleFold(room, id).value, room);
      case OnLeave(id) => LeaveNoCardTwice(room, id);
    }
  }

  /** A leaving client's seat keeps its cards on the table. */
  lemma LeaveNoCardTwice(room: Room, id: string)
    requires Steady(room) && NoCardTwice(room)
    ensures Leave(Disconnect(room, id), id).Ok? && NoCardTwice(Leave(Disconnect(room, id), id).value)
  {
    var d := Disconnect(room, id);
    assert SameCards(d, room);
    LeaveCards(d, id);
    SameCardsTrans(Leave(d, id).value, d, room);
    SameCardsNoCardTwice(Leave(d, id).value, room);
  }

  /** Whatever the clients send, a room that is dealt full decks never holds
      a card name twice between the hands, the board and the deck. */
  lemma {:induction false} ReplayNoCardTwice(room: Room, events: seq<Event>)
    requires Steady(room) && Connections(room) && NoCardTwice(room)
    requires forall k :: 0 <= k < |events| && events[k].OnReady? ==> FullDeck(events[k].deck)
    ensures Replay(room, events).Ok? && NoCardTwice(Replay(room, events).value)
    decreases |events|
  {
    if |events| > 0 {
      ReceiveSteady(room, events[0]);
      ReceiveNoCardTwice(room, events[0]);
      var next := Receive(room, events[0]).value;
      assert forall k :: 0 <= k < |events| - 1 ==> events[1..][k] == events[k + 1];
      ReplayNoCardTwice(next, events[1..]);
    }
  }

  /** A new room holds no card. */
  lemma NewRoomNoCardTwice()
    ensures NoCardTwice(NewRoom())
  {
  }

  // ---------------------------------------------------------------- the stream as written

  /** One event, handled with the "ready" message as written: a "ready"
      starts a round whenever the table can start, even mid-hand. */
  function ReceiveAsWritten(room: Room, e: Event): (r: Result<Room>)
    ensures e.OnReady? && (Find(room.players, e.id).None? || Departed(room, e.id)) ==> r == Ok(room)
    ensures !e.OnReady? ==> r == Receive(room, e)
  {
    match e
    case OnReady(id, deck) => if Departed(room, id) then Ok(room) else Ready(room, id, deck)
    case _ => Receive(room, e)
  }

  /** The events in order, "ready" as written; the first thrown error stops
      the room. */
  function ReplayAsWritten(room: Room, events: seq<Event>): (r: Result<Room>)
    decreases |events|
  {
    if |events| == 0 then Ok(room)
    else
      match ReceiveAsWritten(room, events[0])
      case Err(m) => Err(m)
      case Ok(next) => ReplayAsWritten(next, events[1..])
  }

  /** The "ready" message as written keeps a steady room steady when it is
      dealt a full deck: it only marks the seat or starts a round. */
  lemma ReadySteady(room: Room, id: string, deck: seq<string>)
    requires Steady(room) && Connections(room) && !Departed(room, id) && FullDeck(deck)
    ensures var r := Ready(room, id, deck);
              r.Ok? && Steady(r.value) && Connections(r.value) && |r.value.players| == |room.players|
  {
    match Find(room.players, id)
    case None =>
    case Some(i) =>
      var marked := room.(players := room.players[i := room.players[i].(isReady := true)]);
      MarkReadyConnections(room, i);
      if CanStart(marked.players) {
        StartFromFullDeck(marked, deck);
      }
  }

  /** Every event a steady room receives, "ready" as written, is handled
      without an error and leaves it steady. */
  lemma ReceiveAsWrittenSteady(room: Room, e: Event)
    requires Steady(room) && Connections(room)
    requires e.OnReady? ==> FullDeck(e.deck)
    ensures ReceiveAsWritten(room, e).Ok? && Steady(ReceiveAsWritten(room, e).value)
            && Connections(ReceiveAsWritten(room, e).value)
  {
    if e.OnReady? {
      if !Departed(room, e.id) {
        ReadySteady(room, e.id, e.deck);
      }
    } else {
      ReceiveSteady(room, e);
    }
  }

  /** With "ready" as written, too, whatever the clients send, a room that is
      dealt full decks never throws and never reaches the showdown phase. */
  lemma {:induction false} ReplayAsWrittenSteady(room: Room, events: seq<Event>)
    requires Steady(room) && Connections(room)
    requires forall k :: 0 <= k < |events| && events[k].OnReady? ==> FullDeck(events[k].deck)
    ensures ReplayAsWritten(room, events).Ok? && Steady(ReplayAsWritten(room, events).value)
            && Connections(ReplayAsWritten(room, events).value)
    ensures ReplayAsWritten(room, events).value.gamePhase != PhaseShowdown
    decreases |events|
  {
    if |events| > 0 {
      ReceiveAsWrittenSteady(room, events[0]);
      var next := ReceiveAsWritten(room, events[0]).value;
      assert forall k :: 0 <= k < |events| - 1 ==> events[1..][k] == events[k + 1];
      ReplayAsWrittenSteady(next, events[1..]);
    }
  }

  /** The "ready" message as written either only marks the seat or starts a
      round from a full deck; either way no card is held twice afterwards. */
  lemma ReadyNoCardTwice(room: Room, id: string, deck: seq<string>)
    requires NoCardTwice(room) && FullDeck(deck)
    requires Ready(room, id, deck).Ok?
    ensures NoCardTwice(Ready(room, id, deck).value)
  {
    match Find(room.players, id)
    case None =>
    case Some(i) =>
      var marked := room.(players := room.players[i := room.players[i].(isReady := true)]);
      assert SameCards(marked, room);
      SameCardsNoCardTwice(marked, room);
      if CanStart(marked.players) {
        StartNewRoundNoCardTwice(marked, deck);
      }
  }

  /** With "ready" as written, too, a room that is dealt full decks never
      holds a card name twice between the hands, the board and the deck. */
  lemma {:induction false} ReplayAsWrittenNoCardTwice(room: Room, events: seq<Event>)
    requires Steady(room) && Connections(room) && NoCardTwice(room)
    requires forall k :: 0 <= k < |events| && events[k].OnReady? ==> FullDeck(events[k].deck)
    ensures ReplayAsWritten(room, events).Ok? && NoCardTwice(ReplayAsWritten(room, events).value)
    decreases |events|
  {
    if |events| > 0 {
      var e := events[0];
      ReceiveAsWrittenSteady(room, e);
      if e.OnReady? {
        if !Departed(room, e.id) {
          ReadySteady(room, e.id, e.deck);
          ReadyNoCardTwice(room, e.id, e.deck);
        }
      } else {
        ReceiveNoCardTwice(room, e);
      }
      var next := ReceiveAsWritten(room, e).value;
      assert forall k :: 0 <= k < |events| - 1 ==> events[1..][k] == events[k + 1];
      ReplayAsWrittenNoCardTwice(next, events[1..]);
    }
  }

  /** The corrected "ready" never loses chips in a steady room: a round is
      started only while the pot is empty. */
  lemma ReadyWhenWaitingKeepsChips(room: Room, id: string, deck: seq<string>)
    requires Steady(room)
    requires ReadyWhenWaiting(room, id, deck).Ok?
    ensures TotalChips(ReadyWhenWaiting(room, id, deck).value) == TotalChips(room)
  {
    match Find(room.players, id)
    case None =>
    case Some(i) =>
      var marked := room.(players := room.players[i := room.players[i].(isReady := true)]);
      SumSeatsSameChips(marked.players, room.players);
      if room.gamePhase == PhaseWaiting && CanStart(marked.players) {
        StartNewRoundChips(marked, deck);
      }
  }

  /** The chips a client brings when it is seated. */
  function Deposit(room: Room, e: Event): int {
    match e
    case OnJoin(id, name, chips) =>
      if ConnectedCount(room.players) < MaxClients then (if chips.Some? && chips.value != 0 then chips.value else 1000) else 0
    case _ => 0
  }

  /** In a steady room chips are neither made nor lost: an event changes the
      chips in the room by exactly what a new client brings. */
  lemma ReceiveChips(room: Room, e: Event)
    requires Steady(room)
    requires Receive(room, e).Ok?
    ensures TotalChips(Receive(room, e).value) == TotalChips(room) + Deposit(room, e)
  {
    if !e.OnJoin? && !Departed(room, e.id) {
      match e
      case OnReady(id, deck) => ReadyWhenWaitingKeepsChips(room, id, deck);
      case OnBet(id, amount) =>
      case OnFold(id) =>
      case OnLeave(id) =>
        var d := Disconnect(room, id);
        SumSeatsSameChips(d.players, room.players);
    }
  }

  /** Without new clients, the chips in a steady room stay the same however
      many hands are played. */
  lemma {:induction false} ReplayKeepsChips(room: Room, events: seq<Event>)
    requires Steady(room) && Connections(room)
    requires forall k :: 0 <= k < |events| ==> !events[k].OnJoin?
    requires forall k :: 0 <= k < |events| && events[k].OnReady? ==> FullDeck(events[k].deck)
    ensures Replay(room, events).Ok? && TotalChips(Replay(room, events).value) == TotalChips(room)
    decreases |events|
  {
    if |events| > 0 {
      ReceiveSteady(room, events[0]);
      ReceiveChips(room, events[0]);
      var next := Receive(room, events[0]).value;
      assert forall k :: 0 <= k < |events| - 1 ==> events[1..][k] == events[k + 1];
      ReplayKeepsChips(next, events[1..]);
    }
  }

  /** As written, a "ready" during a hand restarts it when every active seat
      is ready, which they all are once a hand is under way: the chips in the
      pot are gone. */
  lemma ReadyMidHandLosesPot(room: Room, id: string, deck: seq<string>)
    requires room.gamePhase == PhaseBetting && room.pot > 0
    requires Find(room.players, id).Some? && CanStart(room.players)
    requires 0 <= room.smallBlind && 0 <= room.bigBlind
    requires FullDeck(deck) && 2 * |ActiveSeats(room.players)| <= |deck|
    ensures Ready(room, id, deck).Ok?
    ensures TotalChips(Ready(room, id, deck).value) == TotalChips(room) - room.pot < TotalChips(room)
  {
    var i := Find(room.players, id).value;
    var marked := room.(players := room.players[i := room.players[i].(isReady := true)]);
    MarkReadyKeeps(room.players, i);
    assert Ready(room, id, deck) == StartNewRound(marked, deck);
    StartNewRoundSteady(marked, deck);
    StartNewRoundChips(marked, deck);
  }

  /** Marking an already started seat ready keeps the table able to start,
      its size and its chips. */
  lemma MarkReadyKeeps(players: seq<Seat>, i: nat)
    requires i < |players| && CanStart(players)
    ensures var marked := players[i := players[i].(isReady := true)];
              && CanStart(marked) && |marked| == |players| && SumSeats(marked) == SumSeats(players)
              && ActiveSeats(marked) == ActiveSeats(players)
  {
    var marked := players[i := players[i].(isReady := true)];
    assert Active(marked) == Active(players);
    ActiveSeatsOfActive(marked, players);
    SumSeatsSameChips(marked, players);
  }
}

=== FILE: scene.dfy ===
/** The game scene's betting rules and seat arithmetic
    (game/client/scenes/PokerGame.ts): which action buttons the local player
    gets, whether it is the local player's turn, which seats carry the blind
    tokens, where a seat sits relative to the local one, and which message a
    button sends to the room. The scene's copy of the room's state is a
    record; drawing is left out. */
module ClientScene {
  import opened Wrappers
  import PokerRoom

  /** A seat as the scene reads it from the room's state. `canAct` is `None`
      when the state carries no such field, as JavaScript's `undefined`. */
  datatype PlayerView = PlayerView(id: string, chips: int, currentBet: int, canAct: Option<bool>)

  /** The scene's `gameState`. */
  datatype GameView = GameView(
    players: seq<PlayerView>,
    gamePhase: string,
    currentPlayerTurn: int,
    currentBet: int,
    dealerIndex: int)

  /** The five betting actions, in the order the scene lists them. */
  datatype Action = Fold | Check | Call | Bet | Raise

  /** The action's name on its button and in `sendAction`. */
  function ActionName(a: Action): string {
    match a
    case Fold => "fold"
    case Check => "check"
    case Call => "call"
    case Bet => "bet"
    case Raise => "raise"
  }

  /** The position of an action in the scene's list. */
  function Order(a: Action): nat {
    match a
    case Fold => 0
    case Check => 1
    case Call => 2
    case Bet => 3
    case Raise => 4
  }

  /** The actions in strictly increasing list order. */
  predicate InOrder(actions: seq<Action>) {
    forall i, j :: 0 <= i < j < |actions| ==> Order(actions[i]) < Order(actions[j])
  }

  lemma ActionNamesDistinct(a: Action, b: Action)
    ensures ActionName(a) == ActionName(b) <==> a == b
  {
    if a != b {
      assert ActionName(a)[0] != ActionName(b)[0] || ActionName(a)[1] != ActionName(b)[1];
    }
  }

  // ---------------------------------------------------------------- the local seat

  /** `getLocalPlayerIndex`: the first seat with the room's session id, or -1;
      without a room there is no session id and no seat matches. */
  function LocalIndex(players: seq<PlayerView>, session: Option<string>): (r: int)
    ensures -1 <= r < |players|
    ensures r >= 0 ==> session.Some? && players[r].id == session.value
                       && forall j :: 0 <= j < r ==> players[j].id != session.value
    ensures r == -1 <==> session.None? || forall j :: 0 <= j < |players| ==> players[j].id != session.value
  {
    if session.None? || |players| == 0 then -1
    else if players[0].id == session.value then 0
    else
      var k := LocalIndex(players[1..], session);
      if k < 0 then -1 else k + 1
  }

  /** Whether the scene lets the local player act at all: a state in a
      betting phase, a seat of its own, and `canAct` set to true. */
  predicate Acting(state: Option<GameView>, session: Option<string>) {
    && state.Some?
    && state.value.gamePhase != "waiting" && state.value.gamePhase != "dealing"
    && state.value.gamePhase != "showdown"
    && LocalIndex(state.value.players, session) >= 0
    && state.value.players[LocalIndex(state.value.players, session)].canAct == Some(true)
  }

  // ---------------------------------------------------------------- getValidActions

  /** The betting rule, one action at a time: with the bet to match
      `currentBet`, a stack of `chips` and `playerBet` already in. */
  predicate Offered(a: Action, currentBet: int, chips: int, playerBet: int) {
    match a
    case Fold => currentBet > 0
    case Check => currentBet == 0
    case Call => currentBet > 0 && chips > 0
    case Bet => currentBet == 0 && chips > 0
    case Raise => currentBet > 0 && chips > currentBet - playerBet
  }

  /** `getValidActions(currentBet)`: nothing outside a betting phase, for a
      spectator, or for a seat that may not act; otherwise the actions pushed
      in turn as their conditions hold. */
  function ValidActions(state: Option<GameView>, session: Option<string>, currentBet: int): (r: seq<Action>)
    ensures !Acting(state, session) ==> r == []
    ensures Acting(state, session) ==>
              var p := state.value.players[LocalIndex(state.value.players, session)];
              forall a :: a in r <==> Offered(a, currentBet, p.chips, p.currentBet)
    ensures InOrder(r)
  {
    if state.None? then []
    else
      var g := state.value;
      if g.gamePhase == "waiting" || g.gamePhase == "dealing" || g.gamePhase == "showdown" then []
      else
        var i := LocalIndex(g.players, session);
        if i < 0 then []
        else
          var p := g.players[i];
          if p.canAct != Some(true) then []
          else
            var playerBet := p.currentBet;
            var callAmount := currentBet - playerBet;
            (if currentBet > 0 then [Fold] else [])
            + (if currentBet == 0 then [Check] else [])
            + (if currentBet > 0 && p.chips > 0 then [Call] else [])
            + (if currentBet == 0 && p.chips > 0 then [Bet] else [])
            + (if currentBet > 0 && p.chips > callAmount then [Raise] else [])
  }

  /** With a bet to match that is not negative, as the room's always is,
      exactly one of fold and check is offered, and never both call and bet. */
  lemma FoldOrCheck(state: Option<GameView>, session: Option<string>, currentBet: int)
    requires Acting(state, session) && currentBet >= 0
    ensures var r := ValidActions(state, session, currentBet);
              (Fold in r <==> Check !in r) && !(Call in r && Bet in r)
  {
    var p := state.value.players[LocalIndex(state.value.players, session)];
    var r := ValidActions(state, session, currentBet);
    assert Fold in r <==> Offered(Fold, currentBet, p.chips, p.currentBet);
    assert Check in r <==> Offered(Check, currentBet, p.chips, p.currentBet);
    assert Call in r <==> Offered(Call, currentBet, p.chips, p.currentBet);
    assert Bet in r <==> Offered(Bet, currentBet, p.chips, p.currentBet);
  }

  // ---------------------------------------------------------------- isMyTurn

  /** The turn test of `updateGameDisplay`: the local seat is the seat whose
      turn it is and its `canAct` is exactly true. */
  predicate IsMyTurn(g: GameView, session: Option<string>) {
    var i := LocalIndex(g.players, session);
    && i == g.currentPlayerTurn
    && 0 <= i < |g.players| && g.players[i].canAct == Some(true)
  }

  /** On its turn in a betting phase the local player always has a choice
      between folding and checking. */
  lemma MyTurnOffersActions(g: GameView, session: Option<string>, currentBet: int)
    requires IsMyTurn(g, session) && currentBet >= 0
    requires g.gamePhase != "waiting" && g.gamePhase != "dealing" && g.gamePhase != "showdown"
    ensures var r := ValidActions(Some(g), session, currentBet);
              |r| > 0 && (Fold in r || Check in r)
  {
    assert Acting(Some(g), session);
    FoldOrCheck(Some(g), session, currentBet);
  }

  // ---------------------------------------------------------------- the room's state

  /** The scene's copy of the server room's state: the seats the room sends
      carry no `canAct` field. */
  function ViewOf(room: PokerRoom.Room): (g: GameView)
    ensures |g.players| == |room.players|
    ensures forall i :: 0 <= i < |g.players| ==>
              g.players[i].id == room.players[i].id && g.players[i].canAct.None?
  {
    GameView(seq(|room.players|, i requires 0 <= i < |room.players| =>
                   PlayerView(room.players[i].id, room.players[i].chips, room.players[i].currentBet, None)),
             room.gamePhase, room.currentPlayerTurn, room.currentBet, room.dealerIndex)
  }

  /** Against the server room as written, the scene never finds it is the
      local player's turn and never offers an action: nothing sets `canAct`. */
  lemma ServerStateOffersNothing(room: PokerRoom.Room, session: Option<string>, currentBet: int)
    ensures !IsMyTurn(ViewOf(room), session)
    ensures ValidActions(Some(ViewOf(room)), session, currentBet) == []
  {
  }

  // ---------------------------------------------------------------- seats

  /** JavaScript's `a % n`: the remainder takes the sign of `a`. */
  function JsRem(a: int, n: int): (r: int)
    requires n > 0
    ensures 0 <= a ==> 0 <= r < n
    ensures 0 <= a < n ==> r == a
  {
    if a >= 0 then
      assert a < n ==> a % n == a by {
        if a < n {
          RemUnique(a, n, 0, a);
        }
      }
      a % n
    else -((-a) % n)
  }

  /** The remainder is the one `m` in `0 .. n - 1` that leaves a multiple of `n`. */
  lemma RemUnique(a: int, n: int, q: int, m: int)
    requires n > 0 && 0 <= m < n && a == q * n + m
    ensures a % n == m
  {
    var k := q - a / n;
    assert k * n == a % n - m;
  }

  /** The token tests of `displayPlayerTokens` on a table of `n` seats. */
  predicate IsDealer(seat: int, dealer: int) {
    seat == dealer
  }

  predicate IsSmallBlind(seat: int, dealer: int, n: int)
    requires n > 0
  {
    seat == JsRem(dealer + 1, n)
  }

  predicate IsBigBlind(seat: int, dealer: int, n: int)
    requires n > 0
  {
    seat == JsRem(dealer + 2, n)
  }

  /** The tokens mark the seats the room takes the blinds from. */
  lemma BlindTokensMatchRoom(room: PokerRoom.Room, seat: int)
    requires |room.players| > 0
    ensures var n := |room.players|;
              && (IsSmallBlind(seat, room.dealerIndex, n) <==> seat == PokerRoom.Wrap(room.dealerIndex + 1, n))
              && (IsBigBlind(seat, room.dealerIndex, n) <==> seat == PokerRoom.Wrap(room.dealerIndex + 2, n))
  {
  }

  /** With the dealer at a seat of the table: on three seats or more the
      three tokens go to three different seats; on two, the dealer also holds
      the big blind (the case the scene draws apart); on one, every token is
      on the one seat. */
  lemma TokenSeats(dealer: int, n: int)
    requires 0 <= dealer < n
    ensures n >= 3 ==> JsRem(dealer + 1, n) != dealer && JsRem(dealer + 2, n) != dealer
                       && JsRem(dealer + 1, n) != JsRem(dealer + 2, n)
    ensures n == 2 ==> JsRem(dealer + 2, n) == dealer && JsRem(dealer + 1, n) != dealer
    ensures n == 1 ==> JsRem(dealer + 1, n) == dealer && JsRem(dealer + 2, n) == dealer
  {
    if dealer + 1 < n {
      RemUnique(dealer + 1, n, 0, dealer + 1);
    } else {
      RemUnique(dealer + 1, n, 1, dealer + 1 - n);
    }
    if dealer + 2 < n {
      RemUnique(dealer + 2, n, 0, dealer + 2);
    } else if dealer + 2 < 2 * n {
      RemUnique(dealer + 2, n, 1, dealer + 2 - n);
    } else {
      RemUnique(dealer + 2, n, 2, dealer + 2 - 2 * n);
    }
  }

  /** `getPlayerPosition`'s relative seat: 0 for the local seat, then
      clockwise round the table. */
  function Relative(index: int, local: int, n: int): int
    requires n > 0
  {
    JsRem(index - local + n, n)
  }

  /** The relative seat without the remainder: seats after the local one
      count up from it, seats before it wrap past the end. */
  lemma RelativeClosed(i: int, local: int, n: int)
    requires n > 0 && -1 <= local < n && 0 <= i < n
    ensures Relative(i, local, n) == if i < local then i - local + n else if i - local < n then i - local else 0
  {
    var a := i - local + n;
    if i < local {
      RemUnique(a, n, 0, a);
    } else if i - local < n {
      RemUnique(a, n, 1, i - local);
    } else {
      RemUnique(a, n, 2, 0);
    }
  }

  /** For a seat of the table and a local index that is a seat or -1 (a
      spectator), the relative seat is a seat of the table, the local seat's
      is 0, and no two seats share one. */
  lemma RelativeSeats(local: int, n: int)
    requires n > 0 && -1 <= local < n
    ensures forall i :: 0 <= i < n ==> 0 <= Relative(i, local, n) < n
    ensures local >= 0 ==> Relative(local, local, n) == 0
    ensures forall i, j :: 0 <= i < j < n ==> Relative(i, local, n) != Relative(j, local, n)
  {
    forall i | 0 <= i < n ensures 0 <= Relative(i, local, n) < n {
      RelativeClosed(i, local, n);
    }
    if local >= 0 {
      RelativeClosed(local, local, n);
    }
    forall i, j | 0 <= i < j < n ensures Relative(i, local, n) != Relative(j, local, n) {
      RelativeClosed(i, local, n);
      RelativeClosed(j, local, n);
    }
  }

  // ---------------------------------------------------------------- sendAction

  /** A message sent to the room: its type and the amount it carries. */
  datatype Sent = Sent(message: string, amount: Option<int>)

  /** `sendAction`: nothing without a room; "bet" and "raise" both send a
      "bet" with the amount; the other three send their own name; an unknown
      action sends nothing. */
  function SendAction(connected: bool, action: string, amount: Option<int>): (r: Option<Sent>)
    ensures !connected ==> r.None?
    ensures connected && (action == "bet" || action == "raise") ==> r == Some(Sent("bet", amount))
    ensures connected && (action == "fold" || action == "check" || action == "call") ==> r == Some(Sent(action, None))
    ensures r.Some? <==> connected && action in {"fold", "check", "call", "bet", "raise"}
  {
    if !connected then None
    else if action == "fold" then Some(Sent("fold", None))
    else if action == "check" then Some(Sent("check", None))
    else if action == "call" then Some(Sent("call", None))
    else if action == "bet" || action == "raise" then Some(Sent("bet", amount))
    else None
  }

  /** The room's registered handlers: "ready", "bet" with a number, and
      "fold". Any other message has no handler. A "bet" without an amount
      compares `undefined` and is refused, which is the same as no handler. */
  function Dispatch(id: string, sent: Sent, deck: seq<string>): (e: Option<PokerRoom.Event>)
    ensures e.Some? <==> sent.message in {"ready", "fold"} || (sent.message == "bet" && sent.amount.Some?)
  {
    if sent.message == "ready" then Some(PokerRoom.OnReady(id, deck))
    else if sent.message == "fold" then Some(PokerRoom.OnFold(id))
    else if sent.message == "bet" && sent.amount.Some? then Some(PokerRoom.OnBet(id, sent.amount.value))
    else None
  }

  /** The "check" and "call" buttons send messages the room has no handler
      for; "bet" and "raise" reach the room as the same bet. */
  lemma CheckAndCallGoNowhere(id: string, amount: Option<int>, deck: seq<string>)
    ensures forall a :: a == Check || a == Call ==>
              Dispatch(id, SendAction(true, ActionName(a), amount).value, deck).None?
    ensures SendAction(true, ActionName(Bet), amount) == SendAction(true, ActionName(Raise), amount)
    ensures amount.Some? ==>
              Dispatch(id, SendAction(true, ActionName(Raise), amount).value, deck) == Some(PokerRoom.OnBet(id, amount.value))
  {
  }
}

=== FILE: scene_original.dfy ===
/** The older game scene's betting rule and button visibility
    (game/client_original/scenes/PokerGame.ts). It reads the room's seats
    as they come, without a phase or a `canAct` test, and offers fold in
    every case. */
module OriginalScene {
  import opened Wrappers
  import ClientScene

  type Action = ClientScene.Action

  /** A seat as the older scene reads it. */
  datatype SeatView = SeatView(id: string, chips: int, currentBet: int)

  /** The older scene's `gameState`. */
  datatype OldView = OldView(players: seq<SeatView>, currentPlayerTurn: int, currentBet: int)

  /** `players.find(p => p.id === sessionId)`: the first seat with the
      session id; without a room nothing matches. */
  function FindSeat(players: seq<SeatView>, session: Option<string>): (r: Option<SeatView>)
    ensures r.Some? ==> session.Some? && r.value in players && r.value.id == session.value
    ensures r.None? <==> session.None? || forall j :: 0 <= j < |players| ==> players[j].id != session.value
  {
    if session.None? || |players| == 0 then None
    else if players[0].id == session.value then Some(players[0])
    else FindSeat(players[1..], session)
  }

  /** `findIndex` on the same test, or -1. */
  function SeatIndex(players: seq<SeatView>, session: Option<string>): (r: int)
    ensures -1 <= r < |players|
    ensures r >= 0 ==> FindSeat(players, session) == Some(players[r])
    ensures r == -1 <==> FindSeat(players, session).None?
  {
    if session.None? || |players| == 0 then -1
    else if players[0].id == session.value then 0
    else
      var k := SeatIndex(players[1..], session);
      if k < 0 then -1 else k + 1
  }

  /** The older rule, one action at a time, for a seat with `chips` and
      `playerBet` in against a bet to match of `currentBet`. */
  predicate OldOffered(a: Action, currentBet: int, chips: int, playerBet: int) {
    match a
    case Fold => true
    case Check => currentBet == playerBet
    case Call => currentBet != playerBet && chips >= currentBet - playerBet
    case Bet => chips > currentBet && currentBet == 0
    case Raise => chips > currentBet && currentBet != 0
  }

  /** `getValidActions(currentBet)`: nothing without a state or a seat;
      otherwise fold, then check when the seat's bet already matches or call
      when the stack covers the difference, then bet (no bet yet) or raise
      when the stack exceeds the bet to match. */
  function ValidActions(state: Option<OldView>, session: Option<string>, currentBet: int): (r: seq<Action>)
    ensures state.None? || FindSeat(state.value.players, session).None? ==> r == []
    ensures state.Some? && FindSeat(state.value.players, session).Some? ==>
              var p := FindSeat(state.value.players, session).value;
              && |r| > 0 && r[0] == ClientScene.Fold
              && forall a :: a in r <==> OldOffered(a, currentBet, p.chips, p.currentBet)
    ensures ClientScene.InOrder(r)
  {
    if state.None? then []
    else
      match FindSeat(state.value.players, session)
      case None => []
      case Some(p) =>
        [ClientScene.Fold]
        + (if currentBet == p.currentBet then [ClientScene.Check]
           else if p.chips >= currentBet - p.currentBet then [ClientScene.Call]
           else [])
        + (if p.chips > currentBet then (if currentBet == 0 then [ClientScene.Bet] else [ClientScene.Raise]) else [])
  }

  /** Never both check and call, never both bet and raise. */
  lemma OldRuleExclusions(state: Option<OldView>, session: Option<string>, currentBet: int)
    ensures var r := ValidActions(state, session, currentBet);
              && !(ClientScene.Check in r && ClientScene.Call in r)
              && !(ClientScene.Bet in r && ClientScene.Raise in r)
  {
    var r := ValidActions(state, session, currentBet);
    if state.Some? && FindSeat(state.value.players, session).Some? {
      var p := FindSeat(state.value.players, session).value;
      assert ClientScene.Check in r ==> OldOffered(ClientScene.Check, currentBet, p.chips, p.currentBet);
      assert ClientScene.Call in r ==> OldOffered(ClientScene.Call, currentBet, p.chips, p.currentBet);
      assert ClientScene.Bet in r ==> OldOffered(ClientScene.Bet, currentBet, p.chips, p.currentBet);
      assert ClientScene.Raise in r ==> OldOffered(ClientScene.Raise, currentBet, p.chips, p.currentBet);
    }
  }

  /** The two rules differ: with nothing to match the older one still offers
      fold where the newer one does not, and with a matched bet the older
      one offers check where the newer one offers fold and call instead. */
  lemma RulesDiffer(id: string)
    ensures var older := OldView([SeatView(id, 100, 0)], 0, 0);
            var newer := ClientScene.GameView([ClientScene.PlayerView(id, 100, 0, Some(true))], "betting", 0, 0, 0);
              && ValidActions(Some(older), Some(id), 0) == [ClientScene.Fold, ClientScene.Check, ClientScene.Bet]
              && ClientScene.ValidActions(Some(newer), Some(id), 0) == [ClientScene.Check, ClientScene.Bet]
    ensures var older := OldView([SeatView(id, 100, 10)], 0, 10);
            var newer := ClientScene.GameView([ClientScene.PlayerView(id, 100, 10, Some(true))], "betting", 0, 10, 0);
              && ValidActions(Some(older), Some(id), 10) == [ClientScene.Fold, ClientScene.Check, ClientScene.Raise]
              && ClientScene.ValidActions(Some(newer), Some(id), 10) == [ClientScene.Fold, ClientScene.Call, ClientScene.Raise]
  {
  }

  // ---------------------------------------------------------------- buttons

  /** `updateActionButtons(isMyTurn)`: without a state the buttons stay as
      they were; otherwise a button is shown exactly when its action is
      valid, and on another player's turn none is. */
  function VisibleButtons(isMyTurn: bool, state: Option<OldView>, session: Option<string>, before: set<Action>): (r: set<Action>)
    ensures state.None? ==> r == before
    ensures state.Some? ==>
              forall a :: a in r <==> isMyTurn && a in ValidActions(state, session, state.value.currentBet)
    ensures state.Some? && !isMyTurn ==> r == {}
  {
    if state.None? then before
    else
      var valid := if isMyTurn then ValidActions(state, session, state.value.currentBet) else [];
      set a: Action | a in valid
  }

  /** The turn test of `updateGameDisplay`: the seat whose turn it is is the
      local one. */
  predicate IsMyTurn(g: OldView, session: Option<string>) {
    g.currentPlayerTurn == SeatIndex(g.players, session)
  }

  /** On the local player's turn the fold button is always shown; a
      spectator is never given the turn by a room whose turn is a seat. */
  lemma FoldShownOnMyTurn(g: OldView, session: Option<string>, before: set<Action>)
    requires IsMyTurn(g, session) && g.currentPlayerTurn >= 0
    ensures ClientScene.Fold in VisibleButtons(true, Some(g), session, before)
  {
    var p := FindSeat(g.players, session);
    assert p.Some?;
  }
}

=== FILE: sequences.dfy ===
/** Sequence helpers shared by the deck, hand and settlement models:
    distinctness, swapping, sorting of integers and sums. */
module Sequences {

  predicate Distinct<T(==)>(s: seq<T>) {
    forall i, j :: 0 <= i < j < |s| ==> s[i] != s[j]
  }

  /** A sequence without repetitions is one whose multiset counts every element once. */
  lemma {:induction false} DistinctIffCountsOne<T>(s: seq<T>)
    ensures Distinct(s) <==> forall x :: multiset(s)[x] <= 1
  {
    if |s| == 0 {
    } else {
      var t := s[1..];
      assert s == [s[0]] + t;
      DistinctIffCountsOne(t);
      if Distinct(s) {
        assert Distinct(t) by {
          forall i, j | 0 <= i < j < |t| ensures t[i] != t[j] {
            assert t[i] == s[i + 1] && t[j] == s[j + 1];
          }
        }
        assert s[0] !in t;
        forall x ensures multiset(s)[x] <= 1 {
          assert multiset(s) == multiset{s[0]} + multiset(t);
        }
      } else {
        var i, j :| 0 <= i < j < |s| && s[i] == s[j];
        var m := multiset(s);
        if i == 0 {
          assert s[j] in t by { assert t[j - 1] == s[j]; }
          assert multiset(s) == multiset{s[0]} + multiset(t);
          assert multiset(s)[s[0]] >= 2;
        } else {
          assert !Distinct(t) by { assert t[i - 1] == t[j - 1]; }
          var x :| multiset(t)[x] > 1;
          assert multiset(s) == multiset{s[0]} + multiset(t);
          assert multiset(s)[x] > 1;
        }
      }
    }
  }

  /** Having the same multiset as a sequence without repetitions means having none either. */
  lemma DistinctOfSameMultiset<T>(a: seq<T>, b: seq<T>)
    requires multiset(a) == multiset(b)
    requires Distinct(a)
    ensures Distinct(b)
  {
    DistinctIffCountsOne(a);
    DistinctIffCountsOne(b);
  }

  /** `s` with the elements at `i` and `j` exchanged: the body of one Fisher–Yates step. */
  function Swap<T>(s: seq<T>, i: nat, j: nat): (r: seq<T>)
    requires i < |s| && j < |s|
    ensures |r| == |s|
    ensures r[i] == s[j] && r[j] == s[i]
    ensures forall k :: 0 <= k < |s| && k != i && k != j ==> r[k] == s[k]
  {
    var r := s[i := s[j]][j := s[i]];
    r
  }

  /** A swap only reorders. */
  lemma SwapMultiset<T>(s: seq<T>, i: nat, j: nat)
    requires i < |s| && j < |s|
    ensures multiset(Swap(s, i, j)) == multiset(s)
  {
  }

  /** Exchanging an element with itself changes nothing. */
  lemma SwapSelf<T>(s: seq<T>, i: nat)
    requires i < |s|
    ensures Swap(s, i, i) == s
  {
  }

  predicate SortedAsc(s: seq<int>) {
    forall i, j :: 0 <= i < j < |s| ==> s[i] <= s[j]
  }

  /** A sequence whose neighbours are in order is in order. */
  lemma {:induction false} SortedAscOfNeighbours(s: seq<int>)
    requires forall i :: 0 < i < |s| ==> s[i - 1] <= s[i]
    ensures SortedAsc(s)
  {
    if |s| > 1 {
      var t := s[..|s| - 1];
      SortedAscOfNeighbours(t);
      forall i, j | 0 <= i < j < |s| ensures s[i] <= s[j] {
        if j < |s| - 1 {
          assert s[i] == t[i] && s[j] == t[j];
        } else {
          assert s[i] == t[i] && s[j - 1] == t[j - 1];
        }
      }
    }
  }

  /** Insertion of `x` into an ascending sequence. */
  function Insert(x: int, s: seq<int>): (r: seq<int>)
    requires SortedAsc(s)
    ensures SortedAsc(r)
    ensures multiset(r) == multiset(s) + multiset{x}
    ensures |r| == |s| + 1
  {
    if |s| == 0 then [x]
    else if x <= s[0] then [x] + s
    else
      var tail := Insert(x, s[1..]);
      assert s == [s[0]] + s[1..];
      SortedTail(s);
      LowerBoundOfMultiset(s[0], tail, s[1..], x);
      [s[0]] + tail
  }

  /** A bound below `x` and every element of `rest` is below every element of
      a sequence holding just those. */
  lemma LowerBoundOfMultiset(lo: int, t: seq<int>, rest: seq<int>, x: int)
    requires multiset(t) == multiset(rest) + multiset{x}
    requires lo <= x && forall k :: 0 <= k < |rest| ==> lo <= rest[k]
    ensures forall k :: 0 <= k < |t| ==> lo <= t[k]
  {
    forall k | 0 <= k < |t| ensures lo <= t[k] {
      assert t[k] in multiset(t);
      if t[k] != x {
        assert t[k] in multiset(rest);
      }
    }
  }

  /** The ascending numeric sort `sort((a, b) => a - b)`, as an insertion sort. */
  function SortAsc(s: seq<int>): (r: seq<int>)
    ensures SortedAsc(r)
    ensures multiset(r) == multiset(s)
    ensures |r| == |s|
  {
    if |s| == 0 then []
    else
      assert s == [s[0]] + s[1..];
      Insert(s[0], SortAsc(s[1..]))
  }

  /** Two ascending sequences holding the same multiset are the same sequence. */
  lemma {:induction false} SortedUnique(a: seq<int>, b: seq<int>)
    requires SortedAsc(a) && SortedAsc(b)
    requires multiset(a) == multiset(b)
    ensures a == b
  {
    if |a| == 0 {
      assert |multiset(b)| == 0;
    } else {
      assert |b| == |a| by { assert |multiset(a)| == |multiset(b)|; }
      SortedHeads(a, b);
      DropHead(a, b);
      SortedTail(a);
      SortedTail(b);
      SortedUnique(a[1..], b[1..]);
      assert a == [a[0]] + a[1..];
      assert b == [b[0]] + b[1..];
    }
  }

  /** Two ascending sequences with the same elements start alike. */
  lemma SortedHeads(a: seq<int>, b: seq<int>)
    requires SortedAsc(a) && SortedAsc(b) && |a| > 0 && |b| > 0
    requires multiset(a) == multiset(b)
    ensures a[0] == b[0]
  {
    assert b[0] in multiset(a);
    assert a[0] in multiset(b);
    var i :| 0 <= i < |a| && a[i] == b[0];
    var j :| 0 <= j < |b| && b[j] == a[0];
  }

  /** Taking the same first element off two sequences with the same elements
      leaves the same elements. */
  lemma DropHead<T>(a: seq<T>, b: seq<T>)
    requires |a| > 0 && |b| > 0 && a[0] == b[0]
    requires multiset(a) == multiset(b)
    ensures multiset(a[1..]) == multiset(b[1..])
  {
    assert a == [a[0]] + a[1..];
    assert b == [b[0]] + b[1..];
    assert multiset(a[1..]) == multiset(a) - multiset{a[0]};
    assert multiset(b[1..]) == multiset(b) - multiset{b[0]};
  }

  /** The tail of an ascending sequence is ascending. */
  lemma SortedTail(s: seq<int>)
    requires SortedAsc(s) && |s| > 0
    ensures SortedAsc(s[1..])
  {
    forall i, j | 0 <= i < j < |s[1..]| ensures s[1..][i] <= s[1..][j] {
      assert s[1..][i] == s[i + 1] && s[1..][j] == s[j + 1];
    }
  }

  /** Sorting forgets the order of its input. */
  lemma SortAscOfPermutation(a: seq<int>, b: seq<int>)
    requires multiset(a) == multiset(b)
    ensures SortAsc(a) == SortAsc(b)
  {
    SortedUnique(SortAsc(a), SortAsc(b));
  }

  function Sum(s: seq<int>): int {
    if |s| == 0 then 0 else s[0] + Sum(s[1..])
  }

  lemma {:induction false} SumAppend(a: seq<int>, b: seq<int>)
    ensures Sum(a + b) == Sum(a) + Sum(b)
  {
    if |a| == 0 {
      assert a + b == b;
    } else {
      assert (a + b)[1..] == a[1..] + b;
      SumAppend(a[1..], b);
    }
  }

  /** Taking one element out of a sequence takes its value out of the sum. */
  lemma SumRemove(b: seq<int>, k: nat)
    requires k < |b|
    ensures Sum(b) == b[k] + Sum(b[..k] + b[k + 1..])
  {
    var left, right := b[..k], b[k + 1..];
    assert b[..k + 1] == left + [b[k]];
    assert b == b[..k + 1] + right;
    SumAppend(left + [b[k]], right);
    SumAppend(left, [b[k]]);
    SumAppend(left, right);
    assert Sum([b[k]]) == b[k] + Sum([]);
  }

  /** Taking one element out of a sequence takes it out of its multiset. */
  lemma MultisetRemove<T>(b: seq<T>, k: nat)
    requires k < |b|
    ensures multiset(b) == multiset(b[..k] + b[k + 1..]) + multiset{b[k]}
  {
    assert b[..k + 1] == b[..k] + [b[k]];
    assert b == b[..k + 1] + b[k + 1..];
    assert multiset(b) == multiset(b[..k]) + multiset{b[k]} + multiset(b[k + 1..]);
  }

  /** The sum is a function of the multiset. */
  lemma {:induction false} SumOfPermutation(a: seq<int>, b: seq<int>)
    requires multiset(a) == multiset(b)
    ensures Sum(a) == Sum(b)
  {
    if |a| == 0 {
      assert |multiset(b)| == 0;
    } else {
      assert a[0] in multiset(b);
      var k :| 0 <= k < |b| && b[k] == a[0];
      PermutationRest(a, b, k);
      SumOfPermutation(a[1..], b[..k] + b[k + 1..]);
      SumRemove(b, k);
    }
  }

  /** Matching the head of `a` with an equal element of its permutation `b`
      leaves two permutations of each other. */
  lemma PermutationRest(a: seq<int>, b: seq<int>, k: nat)
    requires multiset(a) == multiset(b) && |a| > 0 && k < |b| && b[k] == a[0]
    ensures multiset(a[1..]) == multiset(b[..k] + b[k + 1..])
  {
    assert a == [a[0]] + a[1..];
    assert multiset(a) == multiset(a[1..]) + multiset{a[0]};
    MultisetRemove(b, k);
    var ra, rb := multiset(a[1..]), multiset(b[..k] + b[k + 1..]);
    forall y ensures ra[y] == rb[y] {
      assert multiset(a)[y] == multiset(b)[y];
    }
  }

  /** Entries no larger, position by position, make a sum no larger. */
  lemma {:induction false} SumPointwise(a: seq<int>, b: seq<int>)
    requires |a| == |b| && forall i :: 0 <= i < |a| ==> a[i] <= b[i]
    ensures Sum(a) <= Sum(b)
  {
    if |a| > 0 {
      SumPointwise(a[1..], b[1..]);
    }
  }

  /** In an ascending sequence the last `|u|` entries make the largest sum
      that any `|u|` of its entries can make. */
  lemma {:induction false} TopSumIsLargest(w: seq<int>, u: seq<int>)
    requires SortedAsc(w) && multiset(u) <= multiset(w)
    ensures |u| <= |w|
    ensures Sum(u) <= Sum(w[|w| - |u|..])
    decreases |w|
  {
    if |u| == 0 {
      assert w[|w|..] == [];
    } else {
      assert u[0] in multiset(w);
      var v, m := LastSplit(w);
      if m in multiset(u) {
        var k :| 0 <= k < |u| && u[k] == m;
        var rest := RemoveLast(u, v, m, k);
        TopSumIsLargest(v, rest);
        TopSumWithLast(w, v, u, rest);
      } else {
        SubMultisetWithout(multiset(u), multiset(v), m);
        TopSumIsLargest(v, u);
        TopSumWithoutLast(w, v, u);
      }
    }
  }

  /** An ascending sequence is an ascending prefix and its largest entry. */
  lemma LastSplit(w: seq<int>) returns (v: seq<int>, m: int)
    requires SortedAsc(w) && |w| > 0
    ensures v == w[..|w| - 1] && m == w[|w| - 1] && |v| < |w|
    ensures SortedAsc(v) && multiset(w) == multiset(v) + multiset{m}
  {
    v, m := w[..|w| - 1], w[|w| - 1];
    assert w == v + [m];
    SortedAscPrefix(w, |w| - 1);
  }

  /** Taking the largest entry `m` out of `u` leaves a part of the rest. */
  lemma RemoveLast(u: seq<int>, v: seq<int>, m: int, k: nat) returns (rest: seq<int>)
    requires multiset(u) <= multiset(v) + multiset{m} && k < |u| && u[k] == m
    ensures |rest| == |u| - 1 && multiset(rest) <= multiset(v) && Sum(u) == m + Sum(rest)
  {
    rest := u[..k] + u[k + 1..];
    MultisetRemove(u, k);
    SubMultisetMinus(multiset(rest), multiset(v), m);
    SumRemove(u, k);
  }

  /** The step where the largest entry is among those summed. */
  lemma TopSumWithLast(w: seq<int>, v: seq<int>, u: seq<int>, rest: seq<int>)
    requires |w| > 0 && |u| == |rest| + 1 && |rest| <= |v| && v == w[..|w| - 1]
    requires Sum(u) == w[|w| - 1] + Sum(rest) && Sum(rest) <= Sum(v[|v| - |rest|..])
    ensures |u| <= |w| && Sum(u) <= Sum(w[|w| - |u|..])
  {
    TopWindowLast(w, |rest|);
    assert v[|v| - |rest|..] == w[..|w| - 1][|w| - 1 - |rest|..];
  }

  /** The step where the largest entry is not among those summed. */
  lemma TopSumWithoutLast(w: seq<int>, v: seq<int>, u: seq<int>)
    requires SortedAsc(w) && |w| > 0 && |u| <= |v| && v == w[..|w| - 1]
    requires Sum(u) <= Sum(v[|v| - |u|..])
    ensures |u| <= |w| && Sum(u) <= Sum(w[|w| - |u|..])
  {
    TopWindowShift(w, |u|);
    assert v[|v| - |u|..] == w[..|w| - 1][|w| - 1 - |u|..];
  }

  lemma SubMultisetMinus<T>(a: multiset<T>, b: multiset<T>, m: T)
    requires a + multiset{m} <= b + multiset{m}
    ensures a <= b
  {
    forall x ensures a[x] <= b[x] {
      assert (a + multiset{m})[x] <= (b + multiset{m})[x];
    }
  }

  lemma SubMultisetWithout<T>(a: multiset<T>, b: multiset<T>, m: T)
    requires a <= b + multiset{m} && m !in a
    ensures a <= b
  {
    forall x ensures a[x] <= b[x] {
      assert a[x] <= (b + multiset{m})[x];
    }
  }

  lemma SortedAscPrefix(w: seq<int>, n: nat)
    requires SortedAsc(w) && n <= |w|
    ensures SortedAsc(w[..n])
  {
    assert forall i :: 0 <= i < n ==> w[..n][i] == w[i];
  }

  /** The last `k + 1` entries are the `k` before the last one, then the last. */
  lemma TopWindowLast(w: seq<int>, k: nat)
    requires k < |w|
    ensures Sum(w[|w| - (k + 1)..]) == Sum(w[..|w| - 1][|w| - 1 - k..]) + w[|w| - 1]
  {
    var n := |w| - 1;
    assert w[|w| - (k + 1)..] == w[..n][n - k..] + [w[n]];
    SumAppend(w[..n][n - k..], [w[n]]);
    assert Sum([w[n]]) == w[n] + Sum([]);
  }

  /** In an ascending sequence the last `k` entries before the last one sum
      to no more than the last `k`. */
  lemma TopWindowShift(w: seq<int>, k: nat)
    requires SortedAsc(w) && k < |w|
    ensures Sum(w[..|w| - 1][|w| - 1 - k..]) <= Sum(w[|w| - k..])
  {
    var n := |w| - 1;
    var lo, hi := w[..n][n - k..], w[|w| - k..];
    forall i | 0 <= i < k ensures lo[i] <= hi[i] {
      assert lo[i] == w[n - k + i] && hi[i] == w[n - k + i + 1];
    }
    SumPointwise(lo, hi);
  }

  /** The sequence read backwards. */
  function Reverse<T>(s: seq<T>): (r: seq<T>)
    ensures |r| == |s| && forall i :: 0 <= i < |s| ==> r[i] == s[|s| - 1 - i]
  {
    if |s| == 0 then [] else [s[|s| - 1]] + Reverse(s[..|s| - 1])
  }

  /** The reverse of a non-empty sequence is its last element followed by
      the reverse of the rest. */
  lemma ReverseLast<T>(s: seq<T>)
    requires |s| > 0
    ensures Reverse(s)[0] == s[|s| - 1] && Reverse(s)[1..] == Reverse(s[..|s| - 1])
  {
    assert Reverse(s) == [s[|s| - 1]] + Reverse(s[..|s| - 1]);
  }

  /** The same for the last `k` elements of `s`. */
  lemma ReverseOfTop<T>(s: seq<T>, k: nat)
    requires 0 < k <= |s|
    ensures Reverse(s[|s| - k..])[0] == s[|s| - 1]
    ensures Reverse(s[|s| - k..])[1..] == Reverse(s[|s| - k..|s| - 1])
  {
    var top := s[|s| - k..];
    ReverseLast(top);
    assert top[..k - 1] == s[|s| - k..|s| - 1];
  }

  lemma {:induction false} ReverseMultiset<T>(s: seq<T>)
    ensures multiset(Reverse(s)) == multiset(s)
  {
    if |s| > 0 {
      ReverseMultiset(s[..|s| - 1]);
      assert s == s[..|s| - 1] + [s[|s| - 1]];
    }
  }

  /** The last `k` elements of `s` pass `good`, tried from the last one down. */
  predicate TopAll<T>(s: seq<T>, k: nat, good: T -> bool) {
    k == 0 || (|s| > 0 && good(s[|s| - 1]) && TopAll(s[..|s| - 1], k - 1, good))
  }

  lemma {:induction false} TopAllIff<T>(s: seq<T>, k: nat, good: T -> bool)
    ensures TopAll(s, k, good) <==> k <= |s| && forall i :: |s| - k <= i < |s| ==> good(s[i])
  {
    if k > 0 && |s| > 0 {
      var rest := s[..|s| - 1];
      TopAllIff(rest, k - 1, good);
      assert forall i :: 0 <= i < |rest| ==> rest[i] == s[i];
    }
  }

  /** A prefix of a prefix is a prefix. */
  lemma PrefixOfPrefix<T>(a: seq<T>, b: seq<T>, c: seq<T>)
    requires |b| <= |a| && a[..|b|] == b
    requires |c| <= |b| && b[..|c|] == c
    ensures |c| <= |a| && a[..|c|] == c
  {
    assert a[..|c|] == a[..|b|][..|c|];
  }
}

=== FILE: server_poker.dfy ===
/** The server's card library (game/server/lib/poker.ts): a card parsed from
    its two-character name, the 52-name deck with its Fisher–Yates shuffle and
    its draw from the top, and the five-card hand evaluator.

    The deck holds names, not cards: a `Card` is built when a name is drawn. */
module ServerPoker {
  import opened Wrappers
  import opened Cards
  import opened Sequences
  import opened HandRanking
  import opened Text
  import Constants

  // ---------------------------------------------------------------- cards

  /** `s.charAt(i)`: the one-character string at `i`, or `""` past the end. */
  function CharAt(s: string, i: nat): (r: string)
    ensures i < |s| ==> r == [s[i]]
    ensures i >= |s| ==> r == ""
  {
    if i < |s| then [s[i]] else ""
  }

  /** The messages `rankFromInitial`, `suitFromInitial` and `draw` throw. */
  const InvalidRankInitial := "Invalid rank initial: "
  const InvalidSuitInitial := "Invalid suit initial: "
  const NoCardsLeft := "No cards left in deck"

  /** `rankFromInitial`: the rank whose initial is `initial`, upper-cased. */
  function RankFromInitial(initial: string): (r: Result<Rank>)
    ensures r.Ok? <==> |initial| == 1 && UpperChar(initial[0]) in Constants.RankChars
    ensures r.Ok? ==> r.value != Wild && RankInitial(r.value) == UpperChar(initial[0])
    ensures r.Err? ==> r.msg == InvalidRankInitial + initial
  {
    if |initial| != 1 then Err(InvalidRankInitial + initial)
    else
      match UpperChar(initial[0])
      case 'A' => Ok(Ace)
      case '2' => Ok(Two)
      case '3' => Ok(Three)
      case '4' => Ok(Four)
      case '5' => Ok(Five)
      case '6' => Ok(Six)
      case '7' => Ok(Seven)
      case '8' => Ok(Eight)
      case '9' => Ok(Nine)
      case 'T' => Ok(Ten)
      case 'J' => Ok(Jack)
      case 'Q' => Ok(Queen)
      case 'K' => Ok(King)
      case _ => Err(InvalidRankInitial + initial)
  }

  /** `suitFromInitial`: the suit whose initial is `initial`, upper-cased. */
  function SuitFromInitial(initial: string): (r: Result<Suit>)
    ensures r.Ok? <==> |initial| == 1 && UpperChar(initial[0]) in Constants.SuitChars
    ensures r.Ok? ==> SuitInitial(r.value) == UpperChar(initial[0])
    ensures r.Err? ==> r.msg == InvalidSuitInitial + initial
  {
    if |initial| != 1 then Err(InvalidSuitInitial + initial)
    else
      match UpperChar(initial[0])
      case 'H' => Ok(Hearts)
      case 'D' => Ok(Diamonds)
      case 'C' => Ok(Clubs)
      case 'S' => Ok(Spades)
      case _ => Err(InvalidSuitInitial + initial)
  }

  /** A server `Card`: the name it was built from and the rank and suit read from it. */
  datatype ServerCard = ServerCard(name: string, card: Card)

  /** `new Card(name)`: the rank is read from the first character and the suit
      from the second, both case-insensitively; the rank is checked first. */
  function NewCard(name: string): (r: Result<ServerCard>)
    ensures r.Ok? <==> |name| >= 2 && UpperChar(name[0]) in Constants.RankChars
                                    && UpperChar(name[1]) in Constants.SuitChars
    ensures r.Ok? ==> r.value.name == name && IsStandard(r.value.card)
    ensures r.Ok? ==> Name(r.value.card) == [UpperChar(name[0]), UpperChar(name[1])]
    ensures r.Ok? ==> 2 <= Value(r.value.card) <= 14
    ensures !(|name| >= 1 && UpperChar(name[0]) in Constants.RankChars) ==>
              r == Err(InvalidRankInitial + CharAt(name, 0))
  {
    var rank := RankFromInitial(CharAt(name, 0));
    var suit := SuitFromInitial(CharAt(name, 1));
    if rank.Err? then Err(rank.msg)
    else if suit.Err? then Err(suit.msg)
    else Ok(ServerCard(name, Card(rank.value, suit.value)))
  }

  /** A standard card's initials are upper case and are the initials the
      name parser knows. */
  lemma InitialsParse(c: Card)
    requires IsStandard(c)
    ensures UpperChar(RankInitial(c.rank)) == RankInitial(c.rank) && RankInitial(c.rank) in Constants.RankChars
    ensures UpperChar(SuitInitial(c.suit)) == SuitInitial(c.suit) && SuitInitial(c.suit) in Constants.SuitChars
  {
    assert Constants.RankChars[Constants.RankCharIndex(c.rank)] == RankInitial(c.rank);
    assert Constants.SuitChars[Constants.SuitIndex(c.suit)] == SuitInitial(c.suit);
  }

  /** Every standard card is rebuilt from its own name. */
  lemma NewCardOfName(c: Card)
    requires IsStandard(c)
    ensures NewCard(Name(c)) == Ok(ServerCard(Name(c), c))
  {
    InitialsParse(c);
    var n := Name(c);
    var r := NewCard(n);
    assert Name(r.value.card) == n;
    NameInjective(r.value.card, c);
  }

  /** Lower-case names parse to the same card as upper-case ones. */
  lemma NewCardLowerCase(c: Card)
    requires IsStandard(c)
    ensures NewCard([LowerChar(RankInitial(c.rank)), LowerChar(SuitInitial(c.suit))]).Ok?
    ensures NewCard([LowerChar(RankInitial(c.rank)), LowerChar(SuitInitial(c.suit))]).value.card == c
  {
    var name := [LowerChar(RankInitial(c.rank)), LowerChar(SuitInitial(c.suit))];
    assert UpperChar(name[0]) == RankInitial(c.rank) by {
      match c.rank
      case Two => case Three => case Four => case Five => case Six => case Seven =>
      case Eight => case Nine => case Ten => case Jack => case Queen => case King =>
      case Ace =>
    }
    assert UpperChar(name[1]) == SuitInitial(c.suit) by {
      match c.suit
      case Hearts => case Diamonds => case Clubs => case Spades =>
    }
    NewCardOfName(c);
    var r := NewCard(name);
    NameInjective(r.value.card, c);
  }

  // ---------------------------------------------------------------- deck

  /** The rank characters of `generateDeck`, ace first. */
  const DeckRankChars: seq<char> := ['A', '2', '3', '4', '5', '6', '7', '8', '9', 'T', 'J', 'Q', 'K']

  /** The suit characters of `generateDeck`. */
  const DeckSuitChars: seq<char> := ['H', 'D', 'C', 'S']

  /** The inner loop of `generateDeck`: one name per rank, for one suit. */
  function RankRow(ranks: seq<char>, suit: char): (r: seq<string>)
    ensures |r| == |ranks|
    ensures forall i :: 0 <= i < |ranks| ==> r[i] == [ranks[i], suit]
  {
    if |ranks| == 0 then [] else [[ranks[0], suit]] + RankRow(ranks[1..], suit)
  }

  /** The outer loop of `generateDeck`: the rows of the suits, in order. */
  function SuitRows(suits: seq<char>, ranks: seq<char>): (r: seq<string>)
    ensures |r| == |suits| * |ranks|
  {
    if |suits| == 0 then [] else RankRow(ranks, suits[0]) + SuitRows(suits[1..], ranks)
  }

  /** `generateDeck`: the 52 names, suit by suit, each suit ace to king. */
  function GenerateDeck(): seq<string> {
    SuitRows(DeckSuitChars, DeckRankChars)
  }

  /** The server deck lists exactly the client's `ALL_CARD_NAMES`, in the same order. */
  lemma GenerateDeckIsAllCardNames()
    ensures GenerateDeck() == Constants.AllCardNames
  {
    var r := DeckRankChars;
    RankRowIsSuitRow('H');
    RankRowIsSuitRow('D');
    RankRowIsSuitRow('C');
    RankRowIsSuitRow('S');
    SuitRowsOfFour(r);
    Constants.AllCardNamesRows();
  }

  lemma SuitRowsOfFour(r: seq<char>)
    ensures SuitRows(DeckSuitChars, r) == RankRow(r, 'H') + RankRow(r, 'D') + RankRow(r, 'C') + RankRow(r, 'S')
  {
    var s := DeckSuitChars;
    assert s[1..] == ['D', 'C', 'S'];
    assert s[1..][1..] == ['C', 'S'];
    assert s[1..][1..][1..] == ['S'];
    assert s[1..][1..][1..][1..] == [];
    assert SuitRows(['S'], r) == RankRow(r, 'S') + SuitRows([], r);
    assert SuitRows(['C', 'S'], r) == RankRow(r, 'C') + SuitRows(['S'], r);
    assert SuitRows(['D', 'C', 'S'], r) == RankRow(r, 'D') + SuitRows(['C', 'S'], r);
    assert SuitRows(s, r) == RankRow(r, 'H') + SuitRows(['D', 'C', 'S'], r);
  }

  lemma RankRowIsSuitRow(x: char)
    ensures RankRow(DeckRankChars, x) == Constants.SuitRow(x)
  {
    assert DeckRankChars == Constants.RankChars;
  }

  /** A fresh deck holds 52 different names, each of which builds a card, and
      every standard card's name is among them. */
  lemma GenerateDeckProperties()
    ensures |GenerateDeck()| == 52
    ensures Distinct(GenerateDeck())
    ensures forall c :: IsStandard(c) ==> Name(c) in GenerateDeck()
    ensures forall n :: n in GenerateDeck() ==> NewCard(n).Ok?
  {
    GenerateDeckIsAllCardNames();
    Constants.AllCardNamesDistinct();
    Constants.AllCardNamesAreCardNames();
    forall n | n in GenerateDeck() ensures NewCard(n).Ok? {
      var c :| IsStandard(c) && Name(c) == n;
      NewCardOfName(c);
    }
  }

  /** The partners `Math.floor(Math.random() * (i + 1))` can pick: `js[i]`,
      the partner of position `i`, lies in `0..i`. */
  predicate ValidSwaps(js: seq<nat>, n: nat) {
    |js| == n && forall i :: 0 <= i < n ==> js[i] <= i
  }

  /** The `shuffle` loop from position `i` down to 1: each step swaps position
      `i` with `js[i]`. */
  function ShuffleDown<T>(s: seq<T>, i: nat, js: seq<nat>): (r: seq<T>)
    requires i < |s| && ValidSwaps(js, |s|)
    ensures |r| == |s|
    ensures forall k :: i < k < |s| ==> r[k] == s[k]
    decreases i
  {
    if i == 0 then s else ShuffleDown(Swap(s, i, js[i]), i - 1, js)
  }

  /** The swap loop only reorders. */
  lemma {:induction false} ShuffleDownMultiset<T>(s: seq<T>, i: nat, js: seq<nat>)
    requires i < |s| && ValidSwaps(js, |s|)
    ensures multiset(ShuffleDown(s, i, js)) == multiset(s)
    decreases i
  {
    if i > 0 {
      var t := Swap(s, i, js[i]);
      SwapMultiset(s, i, js[i]);
      ShuffleDownMultiset(t, i - 1, js);
      calc {
        multiset(ShuffleDown(s, i, js));
        multiset(ShuffleDown(t, i - 1, js));
        multiset(t);
        multiset(s);
      }
    } else {
      assert ShuffleDown(s, i, js) == s;
    }
  }

  /** `shuffle`: Fisher–Yates from the last position down, the random picks given as `js`. */
  function Shuffle<T>(s: seq<T>, js: seq<nat>): (r: seq<T>)
    requires ValidSwaps(js, |s|)
    ensures |r| == |s|
    ensures multiset(r) == multiset(s)
  {
    if |s| == 0 then s
    else
      ShuffleDownMultiset(s, |s| - 1, js);
      ShuffleDown(s, |s| - 1, js)
  }

  /** A shuffle only reorders: a deck without repeated names keeps none. */
  lemma ShuffleKeepsDistinct<T>(s: seq<T>, js: seq<nat>)
    requires ValidSwaps(js, |s|)
    requires Distinct(s)
    ensures Distinct(Shuffle(s, js))
  {
    DistinctOfSameMultiset(s, Shuffle(s, js));
  }

  /** When every pick is the position itself, the shuffle leaves the deck as it was. */
  lemma {:induction false} ShuffleDownIdentity<T>(s: seq<T>, i: nat, js: seq<nat>)
    requires i < |s| && ValidSwaps(js, |s|)
    requires forall k :: 0 <= k < |s| ==> js[k] == k
    ensures ShuffleDown(s, i, js) == s
    decreases i
  {
    if i > 0 {
      SwapSelf(s, i);
      ShuffleDownIdentity(s, i - 1, js);
      assert ShuffleDown(s, i, js) == ShuffleDown(Swap(s, i, i), i - 1, js);
    }
  }

  /** A drawn card and the deck left behind. */
  datatype Drawn = Drawn(card: ServerCard, rest: seq<string>)

  /** `draw`: an empty deck throws; otherwise the last name is popped and built into a card. */
  function Draw(deck: seq<string>): (r: Result<Drawn>)
    ensures |deck| == 0 ==> r == Err(NoCardsLeft)
    ensures r.Ok? ==> |deck| > 0 && deck == r.value.rest + [r.value.card.name]
    ensures |deck| > 0 ==> (r.Ok? <==> NewCard(deck[|deck| - 1]).Ok?)
  {
    if |deck| == 0 then Err(NoCardsLeft)
    else
      var name := deck[|deck| - 1];
      match NewCard(name)
      case Err(m) => Err(m)
      case Ok(c) => Ok(Drawn(c, deck[..|deck| - 1]))
  }

  /** Drawing takes one name out of the deck and nothing else. */
  lemma DrawMultiset(deck: seq<string>)
    requires Draw(deck).Ok?
    ensures multiset(deck) == multiset(Draw(deck).value.rest) + multiset{Draw(deck).value.card.name}
    ensures |Draw(deck).value.rest| == |deck| - 1
  {
  }

  /** A deck that holds only names of `ALL_CARD_NAMES` never fails to draw while it is not empty. */
  lemma DrawFromCardNames(deck: seq<string>)
    requires |deck| > 0
    requires forall n :: n in deck ==> n in Constants.AllCardNames
    ensures Draw(deck).Ok?
  {
    Constants.AllCardNamesAreCardNames();
    assert deck[|deck| - 1] in deck;
    var c :| IsStandard(c) && Name(c) == deck[|deck| - 1];
    NewCardOfName(c);
  }

  // ---------------------------------------------------------------- hands

  /** `cards.every(card => card.suit === cards[0].suit)`. */
  predicate AllSameSuit(cards: seq<Card>) {
    forall i :: 0 <= i < |cards| ==> cards[i].suit == cards[0].suit
  }

  /** `category + values[4] / 100`; `NaN` when the hand has no fifth card. */
  function FifthLowest(category: int, v: seq<int>): Score {
    if |v| >= 5 then Finite(HandValue(category, v[4], 0)) else NaN
  }

  /** The tie-breakers each score band carries: none for a royal flush; the
      fifth-lowest value for the straight flush, flush, straight and high card;
      the tallest bar's value for four and three of a kind and a pair; and the
      two tallest bars' values for the full house and two pair. */
  predicate TieBreakers(v: seq<int>, h: HandValue)
    requires |v| > 0
  {
    && (h.category == 10 ==> h.primary == 0 && h.secondary == 0)
    && (h.category in {9, 6, 5, 1} ==> |v| >= 5 && h.primary == v[4] && h.secondary == 0)
    && (h.category in {8, 4, 2} ==> h.primary == TopGroup(v).value && h.secondary == 0)
    && (h.category in {7, 3} ==>
          SecondGroup(v).Some? && h.primary == TopGroup(v).value && h.secondary == SecondGroup(v).value.value)
  }

  /** The evaluation chain of `Hand.evaluate` on the ascending values `v`; the
      first test that holds decides the score. A hand without cards, and a
      short hand whose tests read a second histogram bar that is not there,
      throw a `TypeError`. */
  function Classify(v: seq<int>, flush: bool): (r: Result<Score>)
    ensures |v| >= 5 ==> r.Ok? && r.value.Finite?
    ensures r.Ok? && r.value.Finite? && (forall i :: 0 <= i < |v| ==> 2 <= v[i] <= 14) ==>
              WellFormed(r.value.value)
    ensures r.Err? ==> r.msg == ReadOfUndefined
    ensures r.Err? <==> |v| == 0 || (|v| == 3 && Count(v, v[0]) == 3) || (|v| == 2 && v[0] == v[1] && !flush)
    ensures r.Ok? && r.value.Finite? ==> |v| > 0 && TieBreakers(v, r.value.value)
  {
    if |v| == 0 then Err(ReadOfUndefined)
    else
      var straight := |v| >= 5 && IsStraight(v);
      var wheel := |v| >= 5 && IsWheel(v);
      var top := TopGroup(v);
      var second := SecondGroup(v);
      SecondGroupPresentWhenRead(v);
      if straight && flush && v[4] == 14 && !wheel then Ok(Finite(HandValue(10, 0, 0)))
      else if straight && flush then Ok(Finite(HandValue(9, v[4], 0)))
      else if top.count == 4 then Ok(Finite(HandValue(8, top.value, 0)))
      else if top.count == 3 && second.None? then Err(ReadOfUndefined)
      else if top.count == 3 && second.value.count == 2 then
        Ok(Finite(HandValue(7, top.value, second.value.value)))
      else if flush then Ok(FifthLowest(6, v))
      else if straight then Ok(Finite(HandValue(5, v[4], 0)))
      else if top.count == 3 then Ok(Finite(HandValue(4, top.value, 0)))
      else if top.count == 2 && second.None? then Err(ReadOfUndefined)
      else if top.count == 2 && second.value.count == 2 then
        Ok(Finite(HandValue(3, top.value, second.value.value)))
      else if top.count == 2 then Ok(Finite(HandValue(2, top.value, 0)))
      else Ok(FifthLowest(1, v))
  }

  /** `Hand.evaluate`: the chain run on the sorted card values, with "every card
      has the first card's suit" as the flush test. */
  function Evaluate(cards: seq<Card>): (r: Result<Score>)
    ensures |cards| >= 5 ==> r.Ok? && r.value.Finite?
    ensures r.Ok? && r.value.Finite? && AllStandard(cards) ==> WellFormed(r.value.value)
    ensures r.Err? <==> |cards| == 0
                        || (|cards| == 3 && Count(SortedValues(cards), SortedValues(cards)[0]) == 3)
                        || (|cards| == 2 && SortedValues(cards)[0] == SortedValues(cards)[1] && !AllSameSuit(cards))
    ensures r.Ok? && r.value.Finite? ==> |cards| > 0 && TieBreakers(SortedValues(cards), r.value.value)
  {
    SortedValuesRange(cards);
    Classify(SortedValues(cards), AllSameSuit(cards))
  }

  /** Whether all cards share a suit does not depend on which card comes first. */
  lemma AllSameSuitIff(cards: seq<Card>)
    ensures AllSameSuit(cards) <==> forall c, d :: c in cards && d in cards ==> c.suit == d.suit
  {
    if AllSameSuit(cards) {
      forall c, d | c in cards && d in cards ensures c.suit == d.suit {
        var i :| 0 <= i < |cards| && cards[i] == c;
        var j :| 0 <= j < |cards| && cards[j] == d;
      }
    }
  }

  /** `evaluate` depends only on the multiset of cards: the values are sorted
      and the flush test asks that all cards share one suit. */
  lemma EvaluateOfPermutation(a: seq<Card>, b: seq<Card>)
    requires multiset(a) == multiset(b)
    ensures Evaluate(a) == Evaluate(b)
  {
    SortedValuesOfPermutation(a, b);
    assert Evaluate(a) == Classify(SortedValues(a), AllSameSuit(a));
    AllSameSuitIff(a);
    AllSameSuitIff(b);
    assert forall c :: c in a <==> c in b by {
      forall c ensures c in a <==> c in b {
        assert c in a <==> c in multiset(a);
        assert c in b <==> c in multiset(b);
      }
    }
  }

  /** The chain on five values, read through the tallest bar `t` and the
      second bar `s`: which test fires first for each category. */
  lemma ClassifyOfFive(v: seq<int>, flush: bool)
    requires |v| == 5
    requires IsStraight(v) ==> TopGroup(v).count == 1
    requires TopGroup(v).count <= 5
    ensures Classify(v, flush).Ok? && Classify(v, flush).value.Finite?
    ensures var t := TopGroup(v).count;
            var s := SecondCount(v);
            var straight := IsStraight(v);
            var h := Classify(v, flush).value.value;
            && (h.category >= 9 <==> flush && straight)
            && (h.category == 10 <==> flush && straight && v[0] == 10)
            && (h.category == 8 <==> t == 4)
            && (h.category == 7 <==> t == 3 && s == 2)
            && (h.category == 6 <==> flush && !straight && t != 4 && !(t == 3 && s == 2))
            && (h.category == 5 <==> !flush && straight)
            && (h.category == 4 <==> !flush && t == 3 && s != 2)
            && (h.category == 3 <==> !flush && t == 2 && s == 2)
            && (h.category == 2 <==> !flush && t == 2 && s != 2)
            && (h.category == 1 <==> !flush && !straight && (t == 1 || t == 5))
  {
    SecondGroupPresentWhenRead(v);
  }

  /** On five cards the evaluation chain names the poker category the cards
      form, stated through value counts rather than through the histogram's
      first two bars, and each category's tie-breakers: the highest card for
      the straight flush, flush, straight and high card; the value of the
      four, the three or the pair; the three's value then the pair's for a
      full house; the higher pair then the lower for two pair; nothing for a
      royal flush. */
  lemma FiveCardCategories(cards: seq<Card>)
    requires |cards| == 5
    ensures Evaluate(cards).Ok? && Evaluate(cards).value.Finite?
    ensures var v := SortedValues(cards);
            var flush := AllSameSuit(cards);
            var h := Evaluate(cards).value.value;
            && (h.category >= 9 <==> flush && IsStraight(v))
            && (h.category == 10 <==> flush && IsStraight(v) && v[0] == 10)
            && (h.category == 8 <==> HasCount(v, 4))
            && (h.category == 7 <==> HasCount(v, 3) && HasCount(v, 2))
            && (h.category == 6 <==> flush && !IsStraight(v) && !HasCount(v, 4) && !(HasCount(v, 3) && HasCount(v, 2)))
            && (h.category == 5 <==> !flush && IsStraight(v))
            && (h.category == 4 <==> !flush && HasCount(v, 3) && !HasCount(v, 2))
            && (h.category == 3 <==> !flush && HasTwoPairs(v))
            && (h.category == 2 <==> !flush && HasCount(v, 2) && !HasCount(v, 3) && !HasTwoPairs(v))
            && (h.category == 1 <==> !flush && !IsStraight(v) && !HasCount(v, 2) && !HasCount(v, 3) && !HasCount(v, 4))
    ensures var v := SortedValues(cards);
            var h := Evaluate(cards).value.value;
            && (h.category == 10 ==> h.primary == 0 && h.secondary == 0)
            && (h.category in {9, 6, 5, 1} ==>
                  h.primary in v && (forall i :: 0 <= i < 5 ==> v[i] <= h.primary) && h.secondary == 0)
            && (h.category == 8 ==> Count(v, h.primary) == 4 && h.secondary == 0)
            && (h.category == 7 ==> Count(v, h.primary) == 3 && Count(v, h.secondary) == 2)
            && (h.category == 4 ==> Count(v, h.primary) == 3 && h.secondary == 0)
            && (h.category == 3 ==> Count(v, h.primary) == 2 && Count(v, h.secondary) == 2 && h.primary > h.secondary)
            && (h.category == 2 ==> Count(v, h.primary) == 2 && h.secondary == 0)
  {
    var v := SortedValues(cards);
    TopCountOfFive(v, 3);
    TopCountOfFive(v, 4);
    TwoPairsOfFive(v);
    FullHouseOfFive(v);
    OnePairOfFive(v);
    NoGroupsOfFive(v);
    if IsStraight(v) {
      StraightOfFiveIsSingles(v);
    }
    ClassifyOfFive(v, AllSameSuit(cards));
    assert Evaluate(cards) == Classify(v, AllSameSuit(cards));
  }
}

=== FILE: signup.dfy ===
/** The sign-up request handler (app/api/auth/signup.ts): an ordered chain
    of input checks that maps a request to a status code. The account
    service call is a parameter: its outcome only decides whether an error is
    logged, never the status. */
module Signup {
  import opened Wrappers

  /** The fields the handler reads; a missing body field is `None`. */
  datatype Request = Request(
    httpMethod: string,
    email: Option<string>,
    username: Option<string>,
    password: Option<string>,
    confirmPassword: Option<string>)

  /** A status with its JSON body, a single `key: text` pair, or the
      TypeError a missing username raises at `username.trim()`. */
  datatype Response = Reply(status: int, key: string, text: string) | Thrown

  const MethodNotAllowed := Reply(405, "error", "Method not allowed")
  const PasswordTooShort := Reply(422, "message", "Invalid input. Password should be at least 8 characters long.")
  const EmailInvalid := Reply(422, "message", "Invalid input. E-mail address is not valid.")
  const UsernameTooShort := Reply(422, "message", "Invalid input. Username must be at least 4 characters long.")
  const PasswordsDiffer := Reply(422, "message", "Passwords do not match, please re-enter.")
  const Created := Reply(201, "message", "Created user!")

  // ---------------------------------------------------------------- trim

  /** ECMAScript white space and line terminators, the characters
      `String.prototype.trim` removes. */
  predicate IsSpace(c: char) {
    c == '\t' || c == '\n' || c == '\U{000B}' || c == '\U{000C}' || c == '\r' || c == ' '
    || c == '\U{00A0}' || c == '\U{1680}' || ('\U{2000}' <= c <= '\U{200A}')
    || c == '\U{2028}' || c == '\U{2029}' || c == '\U{202F}' || c == '\U{205F}'
    || c == '\U{3000}' || c == '\U{FEFF}'
  }

  /** The number of white-space characters `s` starts with. */
  function Lead(s: string): (n: nat)
    ensures n <= |s|
    ensures forall i :: 0 <= i < n ==> IsSpace(s[i])
    ensures n == |s| || !IsSpace(s[n])
  {
    if |s| > 0 && IsSpace(s[0]) then 1 + Lead(s[1..]) else 0
  }

  /** The number of white-space characters `s` ends with. */
  function Trail(s: string): (n: nat)
    ensures n <= |s|
    ensures forall i :: |s| - n <= i < |s| ==> IsSpace(s[i])
    ensures n == |s| || !IsSpace(s[|s| - 1 - n])
  {
    if |s| > 0 && IsSpace(s[|s| - 1]) then 1 + Trail(s[..|s| - 1]) else 0
  }

  /** `s.trim()`: the piece of `s` starting after its leading white space,
      with everything cut off either side white space, that neither starts
      nor ends with white space. */
  function Trim(s: string): (r: string)
    ensures Lead(s) + |r| <= |s| && r == s[Lead(s)..Lead(s) + |r|]
    ensures forall i :: 0 <= i < |s| && !(Lead(s) <= i < Lead(s) + |r|) ==> IsSpace(s[i])
    ensures r == [] || (!IsSpace(r[0]) && !IsSpace(r[|r| - 1]))
  {
    var a := Lead(s);
    var t := s[a..];
    var r := t[..|t| - Trail(t)];
    assert r == s[a..a + |r|];
    SpaceOutside(s, a, Trail(t));
    r
  }

  /** When `s` starts with `a` white-space characters and what follows them
      ends with `m`, every character outside the middle is white space. */
  lemma SpaceOutside(s: string, a: nat, m: nat)
    requires a + m <= |s|
    requires forall i :: 0 <= i < a ==> IsSpace(s[i])
    requires forall i :: |s| - a - m <= i < |s| - a ==> IsSpace(s[a..][i])
    ensures forall i :: 0 <= i < |s| && !(a <= i < |s| - m) ==> IsSpace(s[i])
  {
    forall i | |s| - m <= i < |s| ensures IsSpace(s[i]) {
      assert s[i] == s[a..][i - a];
    }
  }

  /** A string without white space at either end is its own trim. */
  lemma {:induction false} TrimOfTrimmed(s: string)
    requires s == [] || (!IsSpace(s[0]) && !IsSpace(s[|s| - 1]))
    ensures Trim(s) == s
  {
    assert Lead(s) == 0;
    assert Trail(s) == 0;
  }

  /** Trimming twice is trimming once. */
  lemma TrimIdempotent(s: string)
    ensures Trim(Trim(s)) == Trim(s)
  {
    TrimOfTrimmed(Trim(s));
  }

  // ---------------------------------------------------------------- length

  /** A JavaScript string's `length`: its UTF-16 code units, two for each
      character beyond the Basic Multilingual Plane. */
  function Utf16Length(s: string): (n: nat)
    ensures |s| <= n <= 2 * |s|
    ensures n == |s| <==> forall i :: 0 <= i < |s| ==> s[i] <= '\U{FFFF}'
  {
    if |s| == 0 then 0
    else
      var rest := Utf16Length(s[1..]);
      assert forall i :: 1 <= i < |s| ==> s[i] == s[1..][i - 1];
      (if s[0] <= '\U{FFFF}' then 1 else 2) + rest
  }

  /** Four emoji are eight code units long. */
  lemma AstralLength()
    ensures Utf16Length("\U{1F600}\U{1F600}\U{1F600}\U{1F600}") == 8
  {
    var s := "\U{1F600}\U{1F600}\U{1F600}\U{1F600}";
    assert s[1..][1..][1..][1..] == [];
  }

  // ---------------------------------------------------------------- checks

  /** `!password || password.trim().length < 8` fails. */
  predicate PasswordOk(password: Option<string>) {
    password.Some? && password.value != "" && Utf16Length(Trim(password.value)) >= 8
  }

  /** `!email?.includes('@')` fails. */
  predicate EmailOk(email: Option<string>) {
    email.Some? && '@' in email.value
  }

  /** `password !== confirmPassword` fails; a missing confirmation never
      equals a given password. */
  predicate PasswordsMatch(req: Request) {
    req.password == req.confirmPassword
  }

  /** The checks before the username one all pass. */
  predicate PassesEarlyChecks(req: Request) {
    req.httpMethod == "POST" && PasswordOk(req.password) && EmailOk(req.email)
  }

  /** The handler as written. The username test reads `.lengh`, which is
      `undefined` on a string, and `undefined < 4` is false, so it never
      rejects; only a missing username, whose `.trim()` throws, stops the
      chain there. The account service's failure is logged, and 201 is sent
      anyway. */
  function HandleAsWritten(req: Request, signUpFails: bool): (r: Response)
    ensures r == MethodNotAllowed <==> req.httpMethod != "POST"
    ensures r == PasswordTooShort <==> req.httpMethod == "POST" && !PasswordOk(req.password)
    ensures r == EmailInvalid <==>
              req.httpMethod == "POST" && PasswordOk(req.password) && !EmailOk(req.email)
    ensures r == Thrown <==> PassesEarlyChecks(req) && req.username.None?
    ensures r != UsernameTooShort
    ensures r == PasswordsDiffer <==>
              PassesEarlyChecks(req) && req.username.Some? && !PasswordsMatch(req)
    ensures r == Created <==>
              PassesEarlyChecks(req) && req.username.Some? && PasswordsMatch(req)
  {
    if req.httpMethod != "POST" then MethodNotAllowed
    else if !PasswordOk(req.password) then PasswordTooShort
    else if !EmailOk(req.email) then EmailInvalid
    else if req.username.None? then Thrown
    else if !PasswordsMatch(req) then PasswordsDiffer
    else Created
  }

  /** The sample request's e-mail address has an `@`. */
  lemma SampleEmailOk()
    ensures EmailOk(Some("a@b.c"))
  {
    assert "a@b.c"[1] == '@';
  }

  /** A nine-letter password passes the length check. */
  lemma SamplePasswordOk()
    ensures PasswordOk(Some("password1"))
  {
    TrimOfTrimmed("password1");
  }

  /** A two-letter username is two code units long. */
  lemma ShortUsernameLength()
    ensures Utf16Length(Trim("ab")) == 2
  {
    TrimOfTrimmed("ab");
    assert "ab"[1..][1..] == [];
  }

  /** The username check never rejects: a two-letter username is accepted. */
  lemma ShortUsernameAccepted(signUpFails: bool)
    ensures var req := Request("POST", Some("a@b.c"), Some("ab"), Some("password1"), Some("password1"));
            && HandleAsWritten(req, signUpFails) == Created
            && Utf16Length(Trim(req.username.value)) < 4
  {
    SampleEmailOk();
    SamplePasswordOk();
    ShortUsernameLength();
  }

  /** Four emoji: four characters, eight code units, and the password check
      passes. */
  lemma AstralPasswordOk()
    ensures var pw := "\U{1F600}\U{1F600}\U{1F600}\U{1F600}";
            PasswordOk(Some(pw)) && |Trim(pw)| == 4
  {
    var pw := "\U{1F600}\U{1F600}\U{1F600}\U{1F600}";
    TrimOfTrimmed(pw);
    AstralLength();
  }

  /** The length check counts UTF-16 code units, so four emoji, only four
      characters, pass as an eight-character password. */
  lemma AstralPasswordAccepted(signUpFails: bool)
    ensures var pw := "\U{1F600}\U{1F600}\U{1F600}\U{1F600}";
            var req := Request("POST", Some("a@b.c"), Some("abcd"), Some(pw), Some(pw));
            && HandleAsWritten(req, signUpFails) == Created
            && |Trim(pw)| == 4
  {
    SampleEmailOk();
    AstralPasswordOk();
  }

  /** What a sign-up must satisfy to create an account, independent of the
      order the handler tests it in. */
  predicate ValidSignup(req: Request) {
    && req.httpMethod == "POST"
    && req.password.Some? && Utf16Length(Trim(req.password.value)) >= 8
    && req.email.Some? && '@' in req.email.value
    && req.username.Some? && Utf16Length(Trim(req.username.value)) >= 4
    && req.confirmPassword == req.password
  }

  /** The handler with the evidently intended `.length`: a trimmed username
      shorter than 4 characters is refused with 422. */
  function Handle(req: Request, signUpFails: bool): (r: Response)
    ensures r == Created <==> ValidSignup(req)
    ensures r == UsernameTooShort <==>
              PassesEarlyChecks(req) && req.username.Some? && Utf16Length(Trim(req.username.value)) < 4
    ensures r.Reply? ==> r.status in {201, 405, 422}
    ensures r.Reply? && r.status == 405 <==> req.httpMethod != "POST"
  {
    if req.httpMethod != "POST" then MethodNotAllowed
    else if !PasswordOk(req.password) then PasswordTooShort
    else if !EmailOk(req.email) then EmailInvalid
    else if req.username.None? then Thrown
    else if Utf16Length(Trim(req.username.value)) < 4 then UsernameTooShort
    else if !PasswordsMatch(req) then PasswordsDiffer
    else Created
  }

  /** The correction only adds the username refusal: every other request
      gets the same response from both handlers, and a refused one would
      have been created or refused for a mismatch as written. */
  lemma CorrectionOnlyRefusesUsernames(req: Request, signUpFails: bool)
    ensures Handle(req, signUpFails) != UsernameTooShort ==>
              Handle(req, signUpFails) == HandleAsWritten(req, signUpFails)
    ensures Handle(req, signUpFails) == UsernameTooShort ==>
              HandleAsWritten(req, signUpFails) in {Created, PasswordsDiffer}
  {
  }

  /** The account service's outcome never changes the response. */
  lemma ServiceOutcomeIgnored(req: Request)
    ensures Handle(req, true) == Handle(req, false)
    ensures HandleAsWritten(req, true) == HandleAsWritten(req, false)
  {
  }
}

=== FILE: text.dfy ===
/** String helpers the JavaScript code gets from the language: one-character
    case conversion, `capitalize`, and the decimal form of an integer as a
    template literal prints it. */
module Text {

  /** `String.prototype.toUpperCase` on one character, as far as it can decide
      a card initial: ASCII lower-case letters and the long s (U+017F, whose
      upper case is S). Every other character either is its own upper case or
      upper-cases to something that is not a card initial, so it is kept. */
  function UpperChar(ch: char): (r: char)
    ensures 'a' <= ch <= 'z' ==> 'A' <= r <= 'Z' && r as int == ch as int - 32
  {
    if 'a' <= ch <= 'z' then (ch as int - 32) as char
    else if ch == 'ſ' then 'S'
    else ch
  }

  /** The ASCII lower case of an upper-case letter; other characters are kept. */
  function LowerChar(ch: char): (r: char)
    ensures 'A' <= ch <= 'Z' ==> UpperChar(r) == ch
  {
    if 'A' <= ch <= 'Z' then (ch as int + 32) as char else ch
  }

  /** `capitalize`: `str.charAt(0).toUpperCase() + str.slice(1)`. */
  function Capitalize(s: string): (r: string)
    ensures |r| == |s|
    ensures |s| > 0 ==> r[0] == UpperChar(s[0]) && r[1..] == s[1..]
  {
    if |s| == 0 then "" else [UpperChar(s[0])] + s[1..]
  }

  function DigitChar(d: nat): (c: char)
    requires d < 10
    ensures '0' <= c <= '9' && (c as int) - ('0' as int) == d
  {
    ('0' as int + d) as char
  }

  predicate IsDigits(s: string) {
    |s| > 0 && forall i :: 0 <= i < |s| ==> '0' <= s[i] <= '9'
  }

  /** The decimal digits of a natural number, most significant first. */
  function Digits(n: nat): (s: string)
    ensures IsDigits(s)
  {
    if n < 10 then [DigitChar(n)] else Digits(n / 10) + [DigitChar(n % 10)]
  }

  /** The number a string of decimal digits spells. */
  function DigitsValue(s: string): nat
    requires IsDigits(s)
  {
    var last := (s[|s| - 1] as int) - ('0' as int);
    if |s| == 1 then last else 10 * DigitsValue(s[..|s| - 1]) + last
  }

  /** Reading the digits back gives the number. */
  lemma {:induction false} DigitsRoundTrip(n: nat)
    ensures DigitsValue(Digits(n)) == n
  {
    if n >= 10 {
      DigitsRoundTrip(n / 10);
      assert Digits(n)[..|Digits(n)| - 1] == Digits(n / 10);
    }
  }

  /** `${n}` for an integer `n`. */
  function Decimal(n: int): (s: string)
    ensures n >= 0 ==> IsDigits(s) && DigitsValue(s) == n
    ensures n < 0 ==> |s| > 1 && s[0] == '-' && IsDigits(s[1..]) && DigitsValue(s[1..]) == -n
  {
    DigitsRoundTrip(if n >= 0 then n else -n);
    if n >= 0 then Digits(n) else "-" + Digits(-n)
  }
}

=== FILE: wrappers.dfy ===
/** Failure-carrying result types used throughout the model.
    `Err` stands for a thrown JavaScript `Error`; its message is kept so that
    the order of the source's checks stays visible. */
module Wrappers {

  datatype Option<+T> = None | Some(value: T)

  datatype Result<+T> = Ok(value: T) | Err(msg: string)
}
